=== FILE: README.md ===
# repype's scheduling engine, modelled in Dafny

This project models the part of repype that decides **what to run**. It covers:

- the hyperparameter store;
- how a pipeline orders its stages and picks which ones to run;
- the stage data contract and callbacks;
- the task tree with its inherited specifications and completion digests;
- the batch registry and its run loop;
- the status log that nested runs report into;
- the console helpers that render that log.

Everything is a pure function over immutable datatypes. State that Python mutates in place is threaded through explicitly:

- the configuration store;
- the registry of loaded tasks;
- the completion digests on disk;
- the status objects and their files.

Each operation returns the new state together with the value Python returns. A raised exception is an `Err` of a `Result`, naming the Python exception class. The one dict Python leaves changed behind a raised exception is the `data` of `Pipeline.process`, and `Pipelines.DataLeft` gives it.

Modules, one per concern:

| module | file | models |
|---|---|---|
| `Base` | base.dfy | options, results carrying Python exception kinds, `split`/`join`/`replace`, decimal digits, picking items by a test |
| `Values` | values.dfy | the JSON-like values (None, bool, int, str, list, dict); dicts are insertion-ordered association lists |
| `Json` | json.dfy | `json.dumps` (optionally indented) and a reader in the manner of `json.loads`, with the round trip proved |
| `Config` | config.dfy | `Config` in repype/config.py: slash-separated path keys, get-with-insert, `set_default`, `update`, `__setitem__`, `pop`, `__getitem__`, `__contains__`, `merge`, `copy`, `yaml`, `__eq__` |
| `Stages` | stage.dfy | `suggest_stage_id`, `Stage.__init__`, `__call__`/`skip` and the callback registry in repype/stage.py |
| `StageExamples` | stage_examples.dfy | the class names of the repository's own `suggest_stage_id` tests, worked through the model |
| `Pipelines` | pipeline.dfy | `ProcessingControl`, `create_config_entry` and `Pipeline.find`/`append`/`configure`/`fields`/`persistent_fields`/`get_extra_stages`/`process` in repype/pipeline.py |
| `Ordering` | ordering.dfy | `create_pipeline`: stage ordering under consumption constraints |
| `Paths` | path.dfy | the `pathlib` paths repype/task.py builds: parsing, printing and joining |
| `InputLists` | inputs.dfy | `decode_inputs` in repype/task.py: the `inputs` field read into a sorted list of distinct ints or of distinct strs |
| `Tasks` | task.dfy | repype/task.py: spec and config inheritance, path placeholders, marginal fields, `store`/`load` against an explicit digest store, `is_pending`, `find_first_diverging_stage`, `find_pickup_task` |
| `TaskExamples` | task_examples.dfy | the input strings of the repository's `decode_inputs` tests, worked through the model |
| `Batches` | batch.dfy | repype/batch.py: `Batch.task`, `load`, `RunContext`, `contexts`, `pending` and the `run` loop over abstract exit codes |
| `Statuses` | status.dfy | `Status` in repype/status.py: `root`, `filepath`, `update` rendering, `write`, `intermediate`, `derive`, `progress`, and the module-level `update`/`derive`/`progress` shortcuts |
| `Cursors` | cursor.dfy | `Cursor` in repype/status.py, over a rose tree of values with Python's negative indexing |
| `Console` | cli.dfy | `format_hms`, the progress bar, `clear_line`, the status message formatter and the `--task`/`--task-dir` selection in repype/cli.py |

Modelling choices:

- **Random and hashed values.**
  - Status objects are numbered in creation order. The number stands in for the uuid that names a status file.
  - `Stage.sha` and `Task.compute_sha` are functions passed in as parameters.
- **Task files.** The files a task writes (`data.dill.gz`, `.task.json`, `.sha.json`) are one `Disk` value. It maps a task directory to its completion: the digest plus the stored data.
- **Directory trees.**
  - `Batch.load`'s glob becomes the list of directories that hold a `task.yml`.
  - The `task.yml` files themselves are a map from directory to specification.
- **Running a stage.** `pipeline.py:222` calls `stage.run`, while stage.py defines `Stage.__call__`. The model treats both as one entry point, `Stages.Run`. The stage's own `process` is an abstract function from the stage, its configuration and its inputs to an output map.
- **`get_extra_stages`.** It takes `list(missing_inputs)[0]`, a choice that depends on set iteration order. `Pipelines.ExtraStages` makes an arbitrary choice (`:|`) among the missing inputs instead. Its contract holds for every choice.

Where the repository's tests and its code disagree, the model follows the code:

- tests/test_stage.py:28 expects `stage1_abc_cls` to become `stage-1-abc-cls`. The tokenizer only collects tokens that start at a capital letter or a digit, so the code yields `1` (`StageExamples.SuggestLowerStart`).
- Several tests/test_pipeline.py tests name the initial field `input_id`; the code uses `input`.
- tests/test_batch.py:128-134 expects path normalisation that `Batch.task` does not perform.
- The callback and `run` tests in tests/test_stage.py target a different `Stage` interface.
- repype/cli.py:105, 108 and 118 hold the check mark and the red circle as UTF-8 bytes read as Latin-1 (`âœ…`, `ðŸ”´`). tests/test_cli.py:293, 318 and 327 expect ✅ and 🔴, and the model uses those.

## Model

| member | source | states |
|---|---|---|
| Values.IndexOf | repype/config.py:115-116 | the position of a key in a dict is its first occurrence, and absence means no entry has that key |
| Values.Lookup | repype/config.py:162 | `d[k]` finds a value exactly when the key is present, and the value is one stored under that key |
| Values.Put | repype/config.py:199 | `d[k] = v` makes `k` map to `v` and leaves every other key's value alone; an existing key keeps its position, a new key is appended, and keys stay unique |
| Values.PutSame | repype/config.py:199 | assigning a key the value it already holds leaves the dict identical, order included |
| Values.Remove | repype/config.py:94 | `d.pop(k)` on a present key removes exactly that key and keeps every other key's value; on an absent key the dict is unchanged |
| Values.Union | repype/task.py:134 | `a \| b` takes `b`'s value for every key of `b` and `a`'s value for every other key, and keeps keys unique |
| Values.PyEqRefl | repype/task.py:465 | Python `==` on JSON values is reflexive |
| Json.ReadHex4Inverse | repype/config.py:47 | reading back the four hex digits of a `\u` escape gives the code unit that was written |
| Json.ReadEscapeChar | repype/config.py:47 | every character, as `json.dumps` escapes it (including surrogate pairs above the BMP), reads back as that character |
| Json.ReadEscapeString | repype/config.py:47 | every escaped string reads back to itself and stops at its closing quote |
| Json.ReadIntToString | repype/config.py:47 | a written integer, negative or not, reads back to the same integer |
| Json.ReadDumps | repype/config.py:47 | any value written by `json.dumps`, with or without indentation and at any nesting level, reads back to the same value and leaves the following text untouched |
| Json.LoadsDumps | repype/config.py:47 | `json.loads(json.dumps(v)) == v` for every value |
| Json.DumpsInjective | repype/config.py:258-259 | two values have the same JSON text exactly when they are equal, insertion order included |
| Config.PathOf | repype/config.py:87-88 | a key without `/` is one segment, and every key has at least one |
| Config.Level | repype/config.py:87-92 | descending through the levels of a path key fails only with AttributeError, when a level holds a non-dict |
| Config.LevelFresh | repype/config.py:130-135 | descending a path in an empty store creates every level as an empty dict |
| Config.FindThroughLevel | repype/config.py:155-163 | `config['a/b/k']` fails with TypeError when a level is not a dict, fails with KeyError when `k` is absent at the last level, and otherwise returns the stored value |
| Config.LevelGraft | repype/config.py:130-135 | after levels are written back into the store, descending the same path finds exactly what was written |
| Config.FindGraftApart | repype/config.py:130-135 | writing back one path leaves every lookup of a path that parts from it unchanged |
| Config.GetItem | repype/config.py:142-163 | indexing fails only with KeyError or TypeError |
| Config.Contains | repype/config.py:165-179 | `key in config` is true exactly when indexing succeeds and false exactly when indexing raises KeyError; a TypeError escapes |
| Config.Get | repype/config.py:119-140 | `get` on a present key returns the stored value and leaves the store unchanged; on an absent key it stores the default (creating missing levels) and returns it; it fails, with AttributeError, exactly when indexing would fail with TypeError |
| Config.FindGraftApartFound | repype/config.py:108-115 | writing back a walk that may replace None levels leaves every path that parts from the written leaf, and could be looked up before, unchanged |
| Config.SetDefaultFrame | repype/config.py:96-117 | `set_default` leaves every key that parts ways with its key, and could be looked up before, unchanged |
| Config.SetDefault | repype/config.py:96-117 | `set_default` keeps an existing value unless `override_none` holds and the value is None, stores the default otherwise, and afterwards indexing the key returns what it returned |
| Config.Update | repype/config.py:181-200 | `update` stores `func(old)` with old = None when the key is absent, returns it, and indexing the key afterwards gives it |
| Config.SetItem | repype/config.py:202-214 | after `config[k] = v`, `config[k] == v`; it fails exactly when a level on the way is not a dict |
| Config.Pop | repype/config.py:76-94 | `pop` returns the stored value when the key is present and the default when it is absent, and afterwards the key is absent |
| Config.UpdateFrame | repype/config.py:181-200 | `update` of one key leaves the value at every other path key unchanged |
| Config.SetItemFrame | repype/config.py:202-214 | `config[k] = v` leaves the value at every other path key unchanged |
| Config.PopFrame | repype/config.py:76-94 | `pop` of one key leaves the value at every other path key unchanged |
| Config.MergeValueAtKey | repype/config.py:230-234 | merging one entry overwrites with a non-dict value, merges a dict value recursively into the existing sub-dict, and fails when that sub-dict is not a dict |
| Config.MergeLookup | repype/config.py:216-235 | after `merge`, keys the other store lacks keep their values, its non-dict values overwrite, and its dict values are merged recursively into the existing sub-dicts |
| Config.MergeFails | repype/config.py:230-235 | `merge` fails exactly when one of the other store's dict values meets a non-dict value at the same key, at any depth |
| Config.Copy | repype/config.py:237-241 | the copy made through JSON text equals the original |
| Config.ReadBack | repype/config.py:47 | reading the JSON text of a store gives the store back |
| Config.EqIsIdentity | repype/config.py:258-259 | two stores are equal by their indented JSON text exactly when they hold the same keys and values in the same order |
| Config.YamlLineCount | repype/config.py:67-74 | `yaml` has one line per key, counting keys at every depth |
| Config.YamlIndent | repype/config.py:67-74 | every line of a level is indented by two spaces per depth, and the first line names the first key |
| Config.YamlMapEntry | repype/config.py:70-72 | a dict value becomes `key:` followed by its entries one level deeper |
| Config.YamlScalarEntry | repype/config.py:73-74 | any other value becomes `key: repr(value)` |
| Values.ReprChar | repype/config.py:73-74 | in a str literal written by `repr`, a character stays as it is exactly when it is neither an unprintable Latin-1 character, nor the quote, nor a backslash; otherwise it becomes an escape starting with a backslash, and a Latin-1 character comes out printable |
| Values.ReprChars | repype/config.py:73-74 | `repr` keeps text with nothing to escape unchanged, and writes Latin-1 text with printable characters only |
| Config.SetItem3 | repype/config.py:192-200 | assigning `a/b/k` puts `k` in the `b` dict inside the `a` dict, creating both levels when absent |
| Config.ExampleChain | repype/config.py:58-63 | assigning `stage1/param1`, `stage2/param2` and `stage1/sub/param1` in turn builds the expected nested store |
| Config.YamlExample | tests/test_config.py:14-23 | that store renders as the six YAML lines the test expects |
| Stages.RunLength | repype/stage.py:58 | a token runs exactly as far as the characters that do not open a new one |
| Stages.Tokens | repype/stage.py:58 | every token found starts at a capital letter or a digit |
| Stages.TokensCover | repype/stage.py:58 | the tokens found, concatenated, give back the name from its first capital letter or digit onwards |
| Stages.TokensOfConcat | repype/stage.py:58 | tokenising concatenated tokens gives exactly those tokens back |
| Stages.FuseSpells | repype/stage.py:62-69 | a fused token is the token followed by the single-character tokens it absorbed |
| Stages.FuseAll | repype/stage.py:64-68 | a run of single characters of one kind (all letters or all digits) is fused completely |
| Stages.FuseStops | repype/stage.py:64-69 | fusing stops at once when the token is longer than one character, or the next token is longer or of the other kind |
| Stages.GroupConcat | repype/stage.py:60-72 | grouping tokens never loses or reorders characters |
| Stages.Lowered | repype/stage.py:73 | lower-casing keeps the length and lowers each character |
| Stages.SuggestStageId | repype/stage.py:42-75 | the suggestion succeeds exactly for valid class names and fails with AssertionError otherwise |
| Stages.SuggestedIdChars | repype/stage.py:73-75 | a suggested id consists of lower-case letters, digits and hyphens only |
| Stages.SuggestedNoPlus | repype/stage.py:73-126 | a suggested id never ends in `+`, so a stage without an explicit id is always accepted |
| Stages.NewStage | repype/stage.py:120-127 | a new stage's id is the explicit id or the suggestion, its inputs are the declared inputs plus what it consumes, and an id ending in `+` or an invalid class name fails with AssertionError |
| Stages.AddCallback | repype/stage.py:142-152 | adding a callback appends it to the event's list, and `after` to both `end` and `skip` |
| Stages.RemoveFirst | repype/stage.py:154-163 | `list.remove` drops exactly one occurrence of the callback and leaves a list without it alone |
| Stages.RemovesFirstOccurrence | repype/stage.py:154-163 | the occurrence dropped is the first one, and the rest of the list keeps its order |
| Stages.RemoveFrom | repype/stage.py:161-163 | removal from one event's list fails with ValueError exactly when the list exists and lacks the callback, and otherwise changes that list alone |
| Stages.RemoveCallback | repype/stage.py:154-163 | removing a callback drops its first occurrence from every target event, and fails with ValueError exactly when one target event lacks it; after the failure only `end`, for `after`, has lost the callback, and every other list is as before |
| Stages.RemoveAfter | repype/stage.py:158-160 | for `after`, `end` is changed first and `skip` only when `end` did not raise |
| Stages.PartialRemoval | repype/stage.py:158-163 | a callback on `end` but not on `skip`, removed from `after`, raises ValueError with `end` already emptied |
| Stages.AddThenRemove | repype/stage.py:142-163 | removing a callback that was just added restores every event's list |
| Stages.AddedEverywhere | repype/stage.py:148-152 | an added callback is registered for every target event |
| Stages.Calls | repype/stage.py:129-140 | firing an event calls the registered callbacks in registration order |
| Stages.Inputs | repype/stage.py:190-193 | the stage receives exactly its input fields from the data |
| Stages.Execute | repype/stage.py:187-207 | an enabled stage fails with KeyError on a missing input, passes the process's error on, and fails with AssertionError unless the output keys equal the declared outputs; on success the data gains the outputs and loses the consumed fields, and nothing else changes |
| Stages.SkipStage | repype/stage.py:218-225 | a skipped stage leaves data and configuration unchanged and fires the `skip` callbacks |
| Stages.Run | repype/stage.py:165-216 | a stage runs exactly when its configuration enables it (default `enabled_by_default`); it records `enabled`, changes no other configuration key, and runs with `enabled` removed; a disabled stage is skipped; the data changes only in the stage's outputs |
| Stages.Settle | repype/stage.py:177-181 | `enabled` is read with the class default, stored back, and decides whether the stage runs |
| Stages.EnabledRemoved | repype/stage.py:177-186 | the configuration a stage runs with is its own section without `enabled` |
| StageExamples.SuggestPCMapper | tests/test_stage.py:20 | `TheGreatPCMapper` becomes `the-great-pc-mapper` |
| StageExamples.SuggestUnderscored | tests/test_stage.py:21-22 | underscores between words do not change the suggestion |
| StageExamples.SuggestDigits | tests/test_stage.py:23-25 | a digit run becomes its own word, with or without underscores around it |
| StageExamples.SuggestMapperStage | tests/test_stage.py:26 | a trailing `stage` word is dropped when another word precedes it |
| StageExamples.SuggestStage | tests/test_stage.py:27 | a lone `stage` word is kept |
| StageExamples.SuggestLowerStart | repype/stage.py:58 | `stage1_abc_cls` becomes `1`, because tokens start only at capitals and digits |
| StageExamples.RejectedNames | tests/test_stage.py:30-36 | the empty name, `_`, `_1`, names with a space or hyphen, and names starting with a digit fail with AssertionError |
| Pipelines.Ids | repype/pipeline.py:367 | the ids of the stages, in pipeline order |
| Pipelines.Find | repype/pipeline.py:262-271 | `find` gives the first position holding the id, or nothing when no stage has it |
| Pipelines.WindowSteps | repype/pipeline.py:24-75 | `ProcessingControl.step` is true exactly on the stages from `first_stage` (or the start) to `last_stage` (or the end), both inclusive |
| Pipelines.StepsInWindow | repype/pipeline.py:56-75 | the state machine's answers agree with the window at every position |
| Pipelines.Append | repype/pipeline.py:280-300 | `append` rejects a present id with RuntimeError and an unknown anchor id or index with AssertionError; otherwise it inserts at the end, right after the anchor id, or right after the anchor index, and returns the new stage's position |
| Pipelines.AppendFind | repype/pipeline.py:280-300 | after `append` the ids stay distinct and `find` locates the new stage at the returned position |
| Pipelines.Fields | repype/pipeline.py:332-339 | `fields` is `input` together with every stage's outputs |
| Pipelines.Consumed | repype/pipeline.py:342-349 | the consumed fields are those some stage consumes |
| Pipelines.PersistentFields | repype/pipeline.py:342-349 | `persistent_fields` is `fields` minus everything any stage consumes |
| Pipelines.FactorKeyApart | repype/pipeline.py:95-101 | the `AF_` factor key never addresses the same entry as the key it scales |
| Pipelines.Scale | repype/pipeline.py:102-104 | scaling multiplies a number (bool counting as 0 or 1) by the factor and fails with TypeError on None or a dict |
| Pipelines.ClampBounds | repype/pipeline.py:105-107 | clamping by min and then max puts a number within the bounds (at max when min exceeds max), fails with TypeError on a non-number, and keeps a value already within |
| Pipelines.CreateConfigEntry | repype/pipeline.py:78-107 | after `create_config_entry` the key is set, and within the bounds whenever bounds are given and consistent |
| Pipelines.CreateConfigEntryValue | repype/pipeline.py:95-107 | an already set key is only clamped; an absent or None key becomes the clamped product of the factor and the `AF_` entry; an absent `AF_` entry is recorded with the default user factor |
| Pipelines.Configure | repype/pipeline.py:302-317 | configuring fails only with AttributeError or TypeError, and a pipeline whose stages declare no entries returns the base configuration |
| Pipelines.ConfigureDeclares | repype/pipeline.py:309-317 | after `configure` succeeds, `<stage id>/<key>` is present for every key every stage declares, when the declared keys neither nest in one another nor address another's factor key |
| Pipelines.ConfigureStagePresent | repype/pipeline.py:312-316 | the entries of one stage keep every declared key that was present and make each of the stage's own keys present |
| Pipelines.ConfigureStagesPresent | repype/pipeline.py:310-316 | the stages from a given configuration on keep every declared key that was present and make every key they declare present |
| Pipelines.CreateConfigEntryFrame | repype/pipeline.py:102-107 | `create_config_entry` leaves every key that parts ways with the entry and with its `AF_` key, and that could be looked up before, as it was |
| Pipelines.GetFrame | repype/pipeline.py:104 | `config.get` of the `AF_` key leaves every key that parts ways with it as it was |
| Pipelines.Clamped | repype/pipeline.py:106-107 | the clamping steps succeed exactly when clamping the stored value does, fail only with TypeError, and leave the clamped value at the key |
| Pipelines.ClampFrame | repype/pipeline.py:106-107 | the clamping steps leave every key that parts ways with the entry as it was |
| Pipelines.Producer | repype/pipeline.py:244-260 | the producer of a field is the last stage listing it among its outputs, or none |
| Pipelines.ExtraStages | repype/pipeline.py:232-260 | `get_extra_stages` raises only KeyError, and only when an input that is missing once the window and the stages chosen so far are counted has no producer; it raises whenever an input of the window is neither given nor `input` and has no producer, and succeeds whenever every input in the pipeline is given, `input` or produced; each extra stage is `stage_by_output` of an input still missing when it was chosen, and the window with the extras leaves no input missing; over distinct ids the extras are distinct pipeline ids |
| Pipelines.ChainGrows | repype/pipeline.py:253-259 | one more turn of the loop extends the chain of choices by the producer of a missing input, adding its position and its id |
| Pipelines.ClosedProduced | repype/pipeline.py:245-259 | once the selection leaves nothing missing, every input of it that is not given has a producer, so `stage_by_output` would not raise for it |
| PipelineExamples.GivenInputNeedsNoExtra | repype/pipeline.py:244-259 | a window whose inputs are all given needs no extra stage, and the producer of a given input is not an acceptable extra |
| PipelineExamples.UnusedStageCannotFail | repype/pipeline.py:244-259 | a stage outside the window whose input nobody produces cannot make `get_extra_stages` raise |
| PipelineExamples.ResolveNFirst | repype/pipeline.py:253-259 | with two producers of a field, resolving the field only one of them produces first chooses that stage alone |
| PipelineExamples.ResolveMFirst | repype/pipeline.py:245-259 | resolving the shared field first chooses its last producer and then the other stage for the remaining field |
| PipelineExamples.ChoiceMatters | repype/pipeline.py:253-259 | which extra stages `get_extra_stages` returns depends on which missing input `list(missing_inputs)[0]` yields: two different lists keep the promise for the same window |
| Pipelines.Picked | repype/pipeline.py:213-227 | the stages that run are those in the window or among the extra stages |
| Pipelines.Guarded | repype/pipeline.py:213-227 | a stage that raises becomes a StageError naming it; otherwise the stage's result passes through |
| Pipelines.RunStage | repype/pipeline.py:213-227 | running a stage within `process` leaves its section of the configuration with `enabled` recorded, and changes the data only in the stage's outputs |
| Pipelines.RunStages | repype/pipeline.py:213-230 | the timings name exactly the stages in the window or among the extra stages, in pipeline order; failures are AttributeError or a StageError of a pipeline stage; the data changes only in the outputs of stages that ran |
| Pipelines.SkipsNoted | repype/pipeline.py:213-227 | every stage outside the window and the extras is reported as skipped |
| Pipelines.DataLeft | repype/pipeline.py:213-224 | the caller's `data` dict once the stage loop ends, by finishing or by raising; when the loop succeeds it is the loop's data |
| Pipelines.FailureKeepsEarlier | repype/pipeline.py:213-224 | a loop that raises does so at some stage `k`: the loop over the stages before `k` succeeds, the caller's dict holds exactly the data that shorter loop leaves, and stage `k` processed on that data raises the loop's error |
| Pipelines.ResolveFirst | repype/pipeline.py:190-199 | a `first_stage` equal to the first stage's id becomes None, `X+` becomes the stage after `X` (TypeError for an unknown `X`, IndexError after the last stage), and an empty pipeline fails with IndexError |
| Pipelines.PlusStartsAfter | repype/pipeline.py:193-197 | the window of `X+` is the window starting right after `X` |
| Pipelines.RanIsSelected | repype/pipeline.py:213-230 | the stages that ran are exactly the window plus the extra stages |
| Pipelines.Prepare | repype/pipeline.py:186-211 | `process` returns at once when `first_stage` lies after `last_stage`, fails with ValueError for a non-initial `first_stage` without data, and otherwise starts from the given data plus `input` |
| Pipelines.Process | repype/pipeline.py:157-230 | `process` on an empty pipeline fails with IndexError; returns the data with a copied configuration and empty timings when `first_stage` lies after `last_stage`; fails with ValueError for a non-initial start without data; on success every window stage ran and every input of a stage that ran was available; the result is the stage loop's over extra stages that meet `ExtraStages`' promise (each the producer of an input missing when it was chosen, leaving none missing), the stages that ran are exactly the window and those extras, and the data changes only in the outputs of stages that ran |
| Pipelines.Proceed | repype/pipeline.py:212-230 | the loop part of `process` returns the stage loop's result over extra stages that meet `ExtraStages`' promise (each the producer of an input missing when it was chosen, leaving none missing); over distinct ids exactly the window and those extras run, covering the window with every input available; the data changes only in the outputs of stages that ran |
| Ordering.Next | repype/pipeline.py:378-393 | the next stage is the first remaining one whose inputs are available and that conflicts with no other remaining stage |
| Ordering.Order | repype/pipeline.py:375-402 | ordering succeeds with a permutation of the stages in which every stage's inputs are available at its position (`input` plus earlier outputs minus earlier consumes), and fails with RuntimeError otherwise |
| Ordering.CreatePipeline | repype/pipeline.py:352-404 | `create_pipeline` asserts unique ids and unique outputs (counting `input`), and on success returns a valid ordering that is a permutation of the stages |
| Ordering.ConflictsWeaker | repype/pipeline.py:387 | the subset test is a special case of the overlap test |
| Ordering.AsWrittenFails | repype/pipeline.py:387 | a pipeline that has a valid ordering is rejected with RuntimeError by the subset test |
| Ordering.IntendedSucceeds | repype/pipeline.py:383-388 | the overlap test orders the same pipeline so that no consumed field is needed later |
| Ordering.ConsumedInputLost | repype/pipeline.py:383-388 | both of the above, together with the validity of the ordering the subset test misses |
| InputLists.NoSpaces | repype/task.py:56 | removing spaces keeps every other character |
| InputLists.Range | repype/task.py:63-66 | a range holds exactly the numbers between its bounds, both inclusive |
| InputLists.ParseToken | repype/task.py:58-69 | a token is accepted exactly when it is empty, a number, or `a-b` with `a < b`, and denotes exactly those numbers; anything else fails with ValueError |
| InputLists.DecodeTokens | repype/task.py:56-71 | decoding fails with ValueError exactly when some token is not accepted, and otherwise yields exactly the numbers the tokens denote |
| InputLists.SortedSet | repype/task.py:71-75 | `sorted(frozenset(xs))` is strictly increasing and holds exactly the elements of `xs` |
| InputLists.IncreasingUnique | repype/task.py:71 | two strictly increasing lists with the same elements are equal |
| InputLists.DecodeString | repype/task.py:38-71 | a string spec decodes into a strictly increasing list of exactly the numbers its tokens denote, or fails with ValueError exactly when a token is malformed |
| InputLists.LexIrreflexive | repype/task.py:75 | no str sorts before itself |
| InputLists.LexAsymmetric | repype/task.py:75 | of two strs, at most one sorts before the other |
| InputLists.LexTransitive | repype/task.py:75 | the code point order on strs is transitive |
| InputLists.LexTotal | repype/task.py:75 | any two different strs are ordered one way or the other |
| InputLists.InsertText | repype/task.py:75 | inserting a str into a sorted list of strs keeps it strictly increasing and adds exactly that str |
| InputLists.SortedTexts | repype/task.py:75 | `sorted(frozenset(xs))` for strs is strictly increasing in code point order and holds exactly the elements of `xs` |
| InputLists.IntInputs | repype/typing.py:12 | ints become int inputs one for one, and an increasing list stays sorted |
| InputLists.StrInputs | repype/typing.py:12 | strs become str inputs one for one, and an increasing list stays sorted |
| InputLists.AscendingUnique | repype/task.py:75 | two sorted lists of inputs without repetition and with the same elements are equal |
| InputLists.Ints | repype/task.py:74-75 | the ints of a list exist exactly when every item is an int, in order |
| InputLists.Texts | repype/task.py:74-75 | the strs of a list exist exactly when every item is a str, in order |
| InputLists.DecodeInputs | repype/task.py:38-75 | a string spec is parsed into ints; a list of ints or of strs is sorted and deduplicated; a dict gives its keys, sorted; a list mixing kinds, or a scalar, fails with TypeError; every result is sorted without repetition |
| InputLists.DecodeListUnique | repype/task.py:74-75 | the inputs of a list of one kind are its only sorted enumeration without repetition |
| Paths.ParsePath | repype/task.py:266-276 | a parsed path is absolute exactly when the text starts with `/`, and keeps only proper components |
| Paths.ParsePathString | repype/task.py:266-276 | printing a path and parsing the text gives the path back |
| Paths.JoinPath | repype/task.py:274-276 | `a / b` is `b` when `b` is absolute and appends `b`'s parts otherwise |
| Tasks.FullSpec | repype/task.py:130-135 | a task's full spec maps every key to the own spec's value if it has the key and to the parent's full spec's value otherwise |
| Tasks.Parents | repype/task.py:202-210 | `parents` lists the ancestors nearest first, each the parent of the one before, ending at a task without parent |
| Tasks.RootIsLastParent | repype/task.py:151-155 | the root is the task itself without a parent, and otherwise its farthest ancestor |
| Tasks.ParentsShareRoot | repype/task.py:151-155 | every ancestor has the same root |
| Tasks.ResolvePath | repype/task.py:257-279 | None resolves to None, and a path without placeholders is taken relative to the task directory |
| Tasks.RootDirPlaceholder | repype/task.py:270-276 | `{ROOTDIR}/name` resolves to `name` inside the root task's directory |
| Tasks.DirnamePlaceholder | repype/task.py:270-276 | `{DIRNAME}` followed by a suffix resolves to a file in the task directory named after that directory |
| Tasks.ConfigOf | repype/task.py:242-250 | a missing configuration is empty, a dict is taken as is, and anything else fails |
| Tasks.OwnLayer | repype/task.py:238-250 | without a base config file the own configuration is used; a named base file that does not exist fails with FileNotFoundError |
| Tasks.CreateConfig | repype/task.py:225-255 | a task without parent gets its own layer; an error in the own layer is passed on |
| Tasks.OwnOverParent | repype/task.py:238-255 | in a child's configuration, keys its own configuration lacks keep the parent's values, its non-dict values win, and its dict values merge into the parent's at every depth |
| Tasks.OwnOverBase | repype/task.py:238-255 | the same holds between the base configuration file and the own configuration |
| Tasks.In | repype/task.py:343-346 | `x in container` fails with TypeError exactly when the container is not a list, string or dict |
| Tasks.MarginalFields | repype/task.py:332-347 | the marginal fields are exactly the outputs of the stages listed in `marginal_stages` |
| Tasks.Without | repype/task.py:381-395 | dropping fields keeps exactly the other fields with their values |
| Tasks.StripMarginals | repype/task.py:381-395 | stripping keeps exactly the fields that no marginal stage produces, with their values |
| Tasks.SpecWithConfig | repype/task.py:212-216 | the spec with config is the full spec with `config` replaced |
| Tasks.StageShas | repype/task.py:415-418 | the digest records one hash per pipeline stage id |
| Tasks.Completed | repype/task.py:406-428 | a completion holds the stripped data, the stage hashes, the hash of the spec with config, and the configuration |
| Tasks.StoreCheck | repype/task.py:406-407 | `store` requires a runnable task and data keyed by exactly its inputs |
| Tasks.Store | repype/task.py:397-428 | `store` writes the task's completion under its directory |
| Tasks.StoreLeavesOthers | repype/task.py:397-428 | `store` changes no other task's completion |
| Tasks.Load | repype/task.py:349-379 | `load` requires a runnable, completed task; its data is keyed by the inputs, and each input holds the persistent fields minus the marginal ones |
| Tasks.StoreThenLoad | repype/task.py:349-428 | loading after storing gives back the stored data with the marginal fields stripped |
| Tasks.StoreThenLoadChecked | repype/task.py:349-428 | the same holds when `load` checks the fields against the pipeline |
| Tasks.StagesChanged | repype/task.py:320-327 | the stage check is false exactly when every stage hash matches the digest, true exactly when some stage changed, and fails with KeyError on a missing id |
| Tasks.IsPending | repype/task.py:308-330 | a non-runnable task is not pending, a task without digest is, and otherwise it is not pending exactly when every stage hash and the task hash match |
| Tasks.StoreNotPending | repype/task.py:308-428 | right after `store` the task is not pending for the same pipeline and configuration |
| Tasks.Diverging | repype/task.py:453-469 | the search reports a stage only after every earlier stage matched the digest, and None only when all did |
| Tasks.DivergingIsFirst | repype/task.py:445-469 | the reported stage is the first that is new, has a changed hash, or has a differing configuration section; None exactly when no stage diverges |
| Tasks.FirstDiverging | repype/task.py:430-469 | without a digest the first stage diverges (IndexError for an empty pipeline) |
| Tasks.StoreThenNothingDiverges | repype/task.py:397-469 | with sections compared as stored, nothing diverges right after `store` |
| Tasks.FirstDone | repype/task.py:494-502 | the first candidate without a diverging stage is the earliest with None |
| Tasks.ArgMax | repype/task.py:504-511 | the chosen candidate has the latest diverging stage, the earliest one on ties |
| Tasks.FindPickup | repype/task.py:471-511 | the pickup is the first candidate without divergence (stage None); otherwise the candidate with the latest diverging stage, earliest on ties, with task None when that stage is the first |
| Tasks.PickupIsLatest | repype/task.py:504-511 | no candidate diverges later than the chosen stage |
| Tasks.FreshStartsOver | repype/task.py:484-492 | when no candidate has a digest, processing starts from the first stage without a pickup task |
| TaskExamples.DecodeEmpty | tests/test_task.py:16-17 | `''` decodes to `[]` |
| TaskExamples.DecodeSingle | tests/test_task.py:19-20 | `'1'` decodes to `[1]` |
| TaskExamples.DecodePair | tests/test_task.py:22-23 | `'1-2'` decodes to `[1, 2]` |
| TaskExamples.DecodeSpacedRange | tests/test_task.py:24 | `'1 - 3'` decodes to `[1, 2, 3]` |
| TaskExamples.DecodeNoUpper | tests/test_task.py:27-28 | `'1-'` fails with ValueError |
| TaskExamples.DecodeNoLower | tests/test_task.py:29-30 | `'-1'` fails with ValueError |
| TaskExamples.DecodeDash | tests/test_task.py:31-32 | `'-'` fails with ValueError |
| TaskExamples.DecodeEmptyRanges | tests/test_task.py:33-36 | `'3-1'` and `'1-1'` fail with ValueError |
| TaskExamples.DecodeMixed | tests/test_task.py:38-39 | `'1,2-3,4'` decodes to `[1, 2, 3, 4]` |
| TaskExamples.DecodeMixedSpaced | tests/test_task.py:40 | `'1, 2-3'` decodes to `[1, 2, 3]` |
| TaskExamples.TextInputs | repype/task.py:74-75 | `['b', 'a', 'b']` decodes to `['a', 'b']` |
| TaskExamples.MixedInputs | repype/task.py:74-75 | `[1, 'a']` fails with TypeError |
| TaskExamples.RangeIncreasing | repype/task.py:63-66 | a range is strictly increasing |
| Batches.ParentPath | repype/batch.py:153 | `path.parent` drops the last component, and a path without components is its own parent |
| Batches.Get | repype/batch.py:134 | the registry lookup finds the task registered for the path, or nothing when none is |
| Batches.GetAppend | repype/batch.py:155-156 | registering a task makes lookups of its path find it and leaves other lookups alone |
| Batches.TaskAt | repype/batch.py:121-161 | `task` returns the registered task for a path when the request brings no spec; returns None exactly when there is no spec argument, no `task.yml` and no registered task; otherwise returns a task for the path that is registered afterwards; only adds tasks; fails only by an assertion, or as written by recursion |
| Batches.Register | repype/batch.py:151-156 | a new task is registered after its parent and can be looked up by its path |
| Batches.ParentTask | repype/batch.py:153 | a new task's parent is whatever `task` returns for the immediate parent directory |
| Batches.Memoised | repype/batch.py:131-161 | asking for a registered path returns the same task when the specs agree and fails with AssertionError when an explicit spec differs |
| Batches.NewTask | repype/batch.py:140-156 | a new task carries the explicit spec, else the `task.yml`, and its immediate parent directory's task as parent, and is registered last |
| Batches.AskAgain | repype/batch.py:131-161 | asking again for a path just loaded returns the same task and leaves the registry alone |
| Batches.TaskAtKeepsRegistry | repype/batch.py:121-161 | paths stay unique in the registry and every parent is registered before its children |
| Batches.Load | repype/batch.py:164-172 | `load` requires a directory, registers a task for every directory with a `task.yml`, keeps earlier tasks, and keeps the registry sound |
| Batches.RootRecurses | repype/batch.py:153 | as written, a `task.yml` in a directory that is its own parent makes the request recurse without end |
| Batches.BelowRootRecurses | repype/batch.py:153 | so a task right below such a directory cannot be created |
| Batches.FreshSucceeds | repype/batch.py:152-156 | with the guard stopping at a directory that is its own parent, an empty registry accepts every request |
| Batches.RootLoads | repype/batch.py:152-156 | with that guard, a root directory with a `task.yml` becomes a task without parent, and the task below it gets it as parent |
| Batches.VirtualPaths | repype/batch.py:140-156 | explicit specs register a parent and a child whose parent is that task, in that order |
| Batches.RunContext | repype/batch.py:48-53 | a run context requires a runnable task and carries its pipeline and configuration |
| Batches.Runnables | repype/batch.py:174-179 | the runnable tasks, in registration order |
| Batches.Contexts | repype/batch.py:174-179 | `contexts` has one context per runnable task, in registration order, or fails with the first context's error |
| Batches.Pending | repype/batch.py:181-185 | `pending` keeps, in order, exactly the contexts whose task is pending |
| Batches.PendingMembers | repype/batch.py:181-185 | a context is pending exactly when it is a context and its task is pending |
| Batches.FirstNonZero | repype/batch.py:220-230 | the first task with a non-zero exit code, or none |
| Batches.RunFrom | repype/batch.py:204-235 | the loop enters tasks in order and stops with `interrupted` at the first non-zero exit code |
| Batches.Run | repype/batch.py:187-235 | with the exit code of each task process given, `run` returns True exactly when every exit code is zero, entering every task; otherwise it enters tasks up to the first failure, reports `interrupted` with its code, and returns False; with tasks to run and no status it fails |
| Batches.RunAsWritten | repype/batch.py:223 | as written, a run with tasks and a status enters the first task and then raises TypeError, since the coroutine is subscripted before it is awaited |
| Batches.AsWrittenRaises | repype/batch.py:223 | where every task would exit with 0, `Run` succeeds and the code as written raises |
| Batches.RunBatch | repype/batch.py:204-206 | without explicit contexts, `run` runs the pending ones |
| Statuses.Create | repype/status.py:72-81 | a status needs exactly one of parent and path (AssertionError otherwise) and starts empty |
| Statuses.Root | repype/status.py:83-88 | `root` is an ancestor without parent and with a directory |
| Statuses.RootIsTopmost | repype/status.py:83-88 | the root is the only ancestor without parent |
| Statuses.AboveSameRoot | repype/status.py:83-88 | every ancestor has the same root |
| Statuses.FilesTogether | repype/status.py:90-95 | every status file of a tree lies in the root's directory, and distinct statuses write distinct files |
| Statuses.Rendered | repype/status.py:97-111 | the file holds the permanent entries followed by at most one link to the intermediate child |
| Statuses.Write | repype/status.py:128-134 | `write` appends a permanent entry, drops the intermediate, rewrites its file, and changes no other status or file |
| Statuses.Intermediate | repype/status.py:136-165 | `intermediate(s)` keeps the permanent entries and adds one intermediate link whose file holds exactly `[s]`; `intermediate(None)` removes the link; files stay in sync |
| Statuses.IntermediateThenClear | repype/status.py:136-165 | setting and then clearing an intermediate restores the status and its file |
| Statuses.WriteAfterIntermediate | repype/status.py:128-165 | a permanent entry after an intermediate one leaves only the permanent entries in the file |
| Statuses.Derive | repype/status.py:113-126 | `derive` clears the intermediate, appends a link to a new empty child whose parent is the status, and writes both files |
| Statuses.ProgressSteps | repype/status.py:191-206 | progress stops at the first step not below `max_steps` and keeps the permanent entries |
| Statuses.Progress | repype/status.py:167-206 | `progress` yields the items unchanged, fails with AssertionError once a step reaches `max_steps`, and, once the generator has been asked for an item, clears the intermediate at the end; a generator never asked for an item writes nothing and leaves a pending intermediate in place |
| Statuses.ProgressOverrun | repype/status.py:191-206 | three items with two iterations yield two items and then fail |
| Statuses.Update | repype/status.py:637-654 | the shortcut rejects plain text and keywords together, is a no-op without status, requires one of them for a permanent update, and writes or sets them as the entry |
| Statuses.TwoUpdates | repype/status.py:637-654 | two permanent updates leave both entries, in order, in the file |
| Statuses.DeriveFrom | repype/status.py:657-666 | the shortcut returns None without status and a new child of the status otherwise |
| Statuses.ProgressFrom | repype/status.py:669-683 | without status the items pass through; otherwise the items, the AssertionError and the cleared intermediate are those of `Statuses.Progress`, and a generator never asked for an item changes nothing |
| Cursors.At | repype/status.py:342 | Python indexing selects an element exactly for positions from `-len` to `len - 1` |
| Cursors.Index | repype/status.py:341-344 | indexing a list or string finds an element or reports out of range; indexing a dict raises KeyError and anything else TypeError |
| Cursors.Elements | repype/status.py:331-345 | `get_elements` starts at the data and each element is the previous one indexed by the path's next position |
| Cursors.ElementsNone | repype/status.py:331-345 | `get_elements` is None exactly when some position is out of range |
| Cursors.ElementsPrefix | repype/status.py:331-345 | the elements along a prefix of the path are a prefix of the elements |
| Cursors.Valid | repype/status.py:347-352 | `valid` is false exactly when some position is out of range and true exactly when the elements exist |
| Cursors.IsIntermediate | repype/status.py:376-388 | `intermediate` is None exactly when the cursor is invalid, and otherwise true exactly when the element is a dict tagged `intermediate` |
| Cursors.Parent | repype/status.py:354-365 | `parent` is None for a one-position path and otherwise drops the last position |
| Cursors.Parents | repype/status.py:366-375 | `parents` lists every proper prefix of the path, longest first |
| Cursors.Increment | repype/status.py:258-269 | `increment` moves to the next position and returns the cursor exactly when it is then valid |
| Cursors.FindNextChildOrSibling | repype/status.py:271-291 | any cursor it returns points at a non-list element after the receiver; it is None when the next position is out of range, the next position itself when that holds a non-list, and the error of `valid` when that raises |
| Cursors.NoNextChild | repype/status.py:281-291 | the search finds nothing exactly when the next position is out of range, or holds a list in which the search from before its first element finds nothing |
| Cursors.FirstFound | repype/status.py:310-315 | the loop over the parents answers with the search of the first parent that finds something, and with None exactly when every parent's search finds nothing |
| Cursors.FindNextElement | repype/status.py:293-315 | any cursor it returns points at a non-list element after the receiver; the receiver's own next child or sibling takes precedence; otherwise the answer is that of the nearest parent that has one; None exactly when neither the receiver nor any parent has one |
| Cursors.FromParents | repype/status.py:310-313 | an answer found among the parents is a non-list element after the receiver |
| Cursors.NextStep | repype/status.py:325-328 | a step of the scan moves to the next element and tells whether it is intermediate |
| Cursors.HasSubsequentNonIntermediate | repype/status.py:317-329 | true only when repeated `find_next_element` reaches a non-intermediate element, false only when it runs out |
| Cursors.BudgetSuffices | repype/status.py:317-329 | once the scan has an answer, a larger step budget gives the same answer |
| Cursors.StartAtLast | repype/status.py:249-253 | a new cursor's path `[-1]` points at the last element, and is valid exactly for non-empty data |
| Cursors.StartSteps | repype/status.py:271-291 | from a new cursor the scan continues at the first element |
| Cursors.EmptyListStops | repype/status.py:285-288 | descending into an empty list finds nothing |
| Cursors.EmptyListHidesSibling | repype/status.py:285-315 | as written, an empty list ends the scan even when a sibling follows it |
| Console.Pad2 | repype/cli.py:21 | `{m:02d}` is two digits with value `m` |
| Console.FormatHms | repype/cli.py:18-22 | below an hour the text is `MM:SS`, and otherwise it has three colon-separated parts |
| Console.HmsRoundTrip | repype/cli.py:18-22 | reading the text back as hours, minutes and seconds gives the seconds |
| Console.FloorDiv | repype/cli.py:130 | Python's `//` rounds toward negative infinity |
| Console.ProgressBar | repype/cli.py:129-131 | the bar fails with ZeroDivisionError when `max_steps` is 0; within range it is 20 characters, with `=` exactly on the first ⌊20·step/max_steps⌋ positions and spaces after |
| Console.ProgressBarGrows | repype/cli.py:129-131 | the bar only fills up as the step grows, is all `=` at the end and all spaces at the start |
| Console.ClearLine | repype/cli.py:38-40 | `clear_line` turns newlines into spaces and pads with spaces to the previous length |
| Console.ClearLineIdempotent | repype/cli.py:38-40 | clearing a cleared line changes nothing |
| Console.Format | repype/cli.py:76-140 | a non-dict status, or a dict without a recognised `info`, passes through unchanged; a recognised message is non-empty text; only a `progress` status at step 0 records the start time, and a later progress step before any such one raises AttributeError |
| Console.FormatOther | repype/cli.py:76-118 | every message other than `progress` leaves the adapter alone, is non-empty text when its `info` is recognised, and passes the status through otherwise |
| Console.ProgressOf | repype/cli.py:120-127 | a `progress` status at step 0 records the start time; any other step needs it recorded, and raises AttributeError otherwise |
| Console.BatchMessage | repype/cli.py:81-84 | the `batch` message is `N task(s) selected for running`, followed by the dry-run line when `run` is false |
| Console.StartLines | repype/cli.py:89-93 | the `start` message is `Picking up from: P (S)`, with S defaulting to `copy`, when pickup or first stage is set, and `Starting from scratch` otherwise |
| Console.MissingKeys | repype/cli.py:81-115 | a recognised message whose required key is missing fails with KeyError |
| Console.StageQuoteUnclosed | repype/cli.py:107-115 | as written, the error message `format` prints opens a quote before the stage name and never closes it, so no quoted name can be read from it |
| Console.FailureNamesStage | repype/cli.py:107-115 | with the quote closed, the error message quotes exactly the stage name |
| Console.ProgressMessage | repype/cli.py:120-135 | at step 0, or once the start time is recorded, the `progress` message carries the 20-character bar, shows details exactly when they are truthy, and leaves the start time recorded |
| Console.ProgressWithoutSteps | repype/cli.py:120-130 | a progress status with `max_steps` 0 fails with ZeroDivisionError once the start time is known, and a step-0 status records the start time before failing |
| Console.ProgressUntimed | repype/cli.py:124-126 | a progress step other than 0 on a fresh adapter raises AttributeError, since `progress_t0` was never set |
| Console.ProgressRun | repype/cli.py:120-131 | on a fresh adapter, a run that starts at step 0 shows its bar at every later step |
| Console.PathParents | repype/cli.py:187 | `path.parents` lists exactly the strict ancestors of a path |
| Console.SelectContexts | repype/cli.py:182-191 | without filters every pending context is selected; with filters exactly those whose path is listed or lies strictly below a listed directory, in pending order |

## Left out

- Floats: the float `type` conversion in `create_config_entry`, the progress percentage and the ETA text, and stage timings (`time.time`). `Pipelines.Process` reports the ids that ran instead of their durations.
- Hashing: `Stage.signature`/`sha`, `Task.compute_sha` and `Config.sha` are function parameters. Only their determinism is used.
- Persistence: dill/gzip/json/yaml reading and writing in `Task.store`/`load`, `Batch.load`'s glob, and reading `task.yml` and base config files. These are the explicit `Disk` value, the directory list and the file maps.
- Processes and signals: `run_task_process`, the subprocess spawn in `Batch.run`, and `Batch.cancel`. Each task's exit code is a function parameter. That follows the evident intent of `Batch.run`. The code as written never reads an exit code, as the batch.py:223 row under Findings shows.
- `Pipeline.resolve`, `Task.create_pipeline`, `load_from_module`: module imports the model cannot see. The pipeline of a task is a function parameter.
- File watching: `StatusReader` and the console adapter's `handle_new_status`/`full_format`. They rely on watchdog threads, asyncio and file races.
- Entry points: `run_cli` references an undefined `parser`, and `run_cli_ex` does a sync `with` over an async reader. Only the selection rule of `run_cli_ex` is modelled.
- The textual UI, the benchmark table and the superseded `pypers` package.
- InputLists.DecodeInputs: a list holding bools, None or floats is rejected with TypeError, although Python sorts a list of ints and bools (`True == 1` counts once) and a list holding a single None. The model's inputs are the ints and strs that `repype.typing.Input` allows.
- Config.Merge: on a failing merge Python keeps the levels it already changed; the model returns the error and drops the partly merged store.
- Tasks.ResolvePath: `expanduser` and `Path.resolve()` are not modelled, so `..` and symbolic links are left in the path. The same holds for the path in the `enter` status of `Batches.RunFrom` and `Batches.RunAsWritten`, which batch.py writes as `str(path.resolve())` and the model as the path as given.
- Pipelines.Configure: that every declared entry is present afterwards is proved (`Pipelines.ConfigureDeclares`) only when the declared keys neither nest in one another nor address another's `AF_` key. For such keys a later entry walks through or rewrites an earlier one, and presence is not proved for them. The value of each entry is stated by `Pipelines.CreateConfigEntry`.
- Cursors.HasSubsequentNonIntermediate: takes a step budget, because the scan's termination rests on the finite data and is not proved. `Cursors.BudgetSuffices` shows that the answer does not depend on the budget once one is reached.
- Cursors.FindNextElement: states the order in which the receiver and its parents are searched, not that the result is the nearest non-list element in document order; `Cursors.EmptyListHidesSibling` shows a case where it is not.
- Statuses.Progress: `progress` is a generator; the model takes the number of times the consumer asks for an item (`wanted`) and runs those requests at once, which covers a `break` after them and a generator never advanced (`wanted` 0). The consumer's own work between two items, and a generator left suspended without being closed, are not modelled.
- Pipelines.RunStages: returns no data with an error. The caller's dict, which keeps the outputs of the stages processed before the failing one, is `Pipelines.DataLeft`, and `Pipelines.FailureKeepsEarlier` relates the two.
- Pipelines.ExtraStages: when several stages produce the same field, which extra stages are returned depends on which missing input a set iteration yields first (`PipelineExamples.ChoiceMatters`). The contract holds for every such order but does not name one list.
- Statuses.Create: `Status(path='')` stores no path, because `pathlib.Path(path) if path else None` treats the empty string as absent (status.py:73-78); `filepath` then raises TypeError. The model takes the path as given.
- Pipelines.Process: returns no data with an error either. Python has by then written `input` into the caller's dict (pipeline.py:206-207). When `get_extra_stages` raises KeyError, the dict is the prepared data of `Pipelines.Prepare`. When the stage loop raises, it is `Pipelines.DataLeft` of that data. `Pipelines.Proceed` is the same.
- Values.ReprChar: escapes the unprintable characters up to U+00FF only; unprintable characters above U+00FF, such as U+2028, are kept as they are, as the `Config.YamlScalarEntry:` line says.
- Values.ReprChars: inherits the gap of `Values.ReprChar` for characters above U+00FF.
- Config.YamlScalarEntry: `repr` escapes the unprintable characters up to U+00FF only. Unprintable characters above U+00FF, such as U+2028, which Python writes as `\u2028`, are kept as they are. The same holds for `Values.ReprChar`, `Values.ReprChars` and the `repr` used by `Console.Str`.
- Console.Format: the `progress` line carries the bar and the details, not the percentage and ETA text (floats). The adapter state records only whether `progress_t0` is set, not the clock reading.

## Findings

| source | as written | input that shows it | evidently intended | confidence | as-written member | corrected member |
|---|---|---|---|---|---|---|
| repype/pipeline.py:387 | a stage conflicts with another only when everything it consumes is among the other's inputs (`consumes.issubset(stage2.inputs)`) | stage A outputs `x`, `y`; stage C consumes `x`, `y`; stage D takes input `x`; the stages given as A, C, D are rejected with RuntimeError although A, D, C is a valid order | conflict when any consumed field is an input of a remaining stage, as the comment at line 383 says ("no remaining stage requires a consumed input") | not executed | Ordering.AsWrittenFails | Ordering.IntendedSucceeds |
| repype/task.py:200, 465 | the stored digest is deep-frozen, so a list in it becomes a tuple and compares unequal to the list in the current configuration | a stage section holding a list, such as `{"k": [1]}`, diverges right after `store`, so the task always restarts from that stage | sections that were stored unchanged do not diverge | not executed | Tasks.FrozenListDiverges | Tasks.StoreThenNothingDiverges |
| repype/batch.py:153 | `if path.parent` is always true, since a `Path` is always truthy | a `task.yml` in `/` (or in `.` for relative paths): a request for that directory, or for one right below it, recurses without end | stop at a directory that is its own parent | not executed | Batches.RootRecurses | Batches.FreshSucceeds |
| repype/batch.py:223 | `exit_code = await self.task_process.communicate(input = …)[0]` subscripts the coroutine before it is awaited; even awaited, item 0 of the result would be stdout, not the exit code | any run with at least one task and a status raises TypeError after the first `enter` status | wait for the process and take its return code, so that `run` reports False at the first non-zero code | not executed | Batches.RunAsWritten | Batches.Run |
| repype/cli.py:110 | `f'the stage "{status["stage"]} of'` opens a quote and never closes it | an `error` status with `stage` set to `s` prints `the stage "s of the task ...` | `the stage "s" of` | not executed | Console.StageQuoteUnclosed | Console.FailureNamesStage |

=== FILE: base.dfy ===
/** Shared vocabulary: optional values, Python exceptions as error results,
    and the handful of Python string operations the engine relies on. */
module Base {

  datatype Option<+T> = None | Some(value: T)

  /** The Python exception kinds the modelled code raises or lets escape. */
  datatype Exc =
    | KeyError
    | ValueError
    | TypeError
    | AttributeError
    | AssertionError
    | IndexError
    | RuntimeError
    | StageError(stage: string)
    | RecursionError
    | FileNotFoundError
    | ZeroDivisionError

  /** A value, or the exception that Python would raise instead. */
  datatype Result<+T> = Ok(value: T) | Err(exc: Exc) {
    predicate IsFailure() { Err? }

    function PropagateFailure<U>(): Result<U>
      requires Err?
    {
      Err(exc)
    }

    function Extract(): T
      requires Ok?
    {
      value
    }
  }

  /** `assert cond` in Python. */
  function Check(cond: bool): Result<()> {
    if cond then Ok(()) else Err(AssertionError)
  }

  // ---------------------------------------------------------------------
  // Strings
  // ---------------------------------------------------------------------

  /** `sep.join(parts)` */
  function Join(parts: seq<string>, sep: string): string {
    if |parts| == 0 then ""
    else if |parts| == 1 then parts[0]
    else parts[0] + sep + Join(parts[1..], sep)
  }

  /** `s.split(c)` for a one-character separator: the pieces between
      occurrences of `c`, always at least one. */
  function Split(s: string, c: char): (parts: seq<string>)
    ensures |parts| >= 1
    ensures forall i :: 0 <= i < |parts| ==> c !in parts[i]
    ensures c !in s ==> parts == [s]
  {
    if |s| == 0 then [""]
    else if s[0] == c then [""] + Split(s[1..], c)
    else
      var rest := Split(s[1..], c);
      assert s == [s[0]] + s[1..];
      [[s[0]] + rest[0]] + rest[1..]
  }

  /** Splitting and joining with the same separator gives the text back. */
  lemma {:induction false} JoinSplit(s: string, c: char)
    ensures Join(Split(s, c), [c]) == s
    decreases |s|, 1
  {
    if |s| == 0 {
    } else if s[0] == c {
      JoinSplitAtSep(s, c);
    } else {
      JoinSplitAtChar(s, c);
    }
  }

  lemma {:induction false} JoinSplitAtSep(s: string, c: char)
    requires |s| > 0 && s[0] == c
    ensures Join(Split(s, c), [c]) == s
    decreases |s|, 0
  {
    JoinSplit(s[1..], c);
    var rest := Split(s[1..], c);
    assert Split(s, c) == [""] + rest;
    assert ([""] + rest)[1..] == rest;
    assert Join([""] + rest, [c]) == "" + [c] + Join(rest, [c]);
    assert s == [c] + s[1..];
  }

  lemma {:induction false} JoinSplitAtChar(s: string, c: char)
    requires |s| > 0 && s[0] != c
    ensures Join(Split(s, c), [c]) == s
    decreases |s|, 0
  {
    JoinSplit(s[1..], c);
    var rest := Split(s[1..], c);
    var parts := [[s[0]] + rest[0]] + rest[1..];
    assert Split(s, c) == parts;
    if |rest| == 1 {
      assert Join(parts, [c]) == [s[0]] + rest[0];
    } else {
      assert parts[1..] == rest[1..];
      var j := Join(rest[1..], [c]);
      assert Join(parts, [c]) == [s[0]] + rest[0] + [c] + j;
      assert Join(rest, [c]) == rest[0] + [c] + j;
      ConcatAssoc3([s[0]], rest[0], [c], j);
    }
    assert s == [s[0]] + s[1..];
  }

  lemma ConcatAssoc3<T>(a: seq<T>, b: seq<T>, c: seq<T>, d: seq<T>)
    ensures a + b + c + d == a + (b + c + d)
  {
  }

  /** Splitting a joined list of separator-free pieces gives the pieces back. */
  lemma {:induction false} SplitJoin(parts: seq<string>, c: char)
    requires |parts| >= 1
    requires forall i :: 0 <= i < |parts| ==> c !in parts[i]
    ensures Split(Join(parts, [c]), c) == parts
  {
    if |parts| == 1 {
    } else {
      SplitJoin(parts[1..], c);
      SplitPrefix(parts[0], Join(parts[1..], [c]), c);
      assert Join(parts, [c]) == parts[0] + [c] + Join(parts[1..], [c]);
      assert [parts[0]] + parts[1..] == parts;
    }
  }

  /** A separator-free head splits off as the first piece. */
  lemma {:induction false} SplitPrefix(head: string, tail: string, c: char)
    requires c !in head
    ensures Split(head + [c] + tail, c) == [head] + Split(tail, c)
    decreases |head|, 1
  {
    if |head| == 0 {
      assert head + [c] + tail == [c] + tail;
      assert ([c] + tail)[1..] == tail;
    } else {
      SplitPrefixCons(head, tail, c);
    }
  }

  lemma {:induction false} SplitPrefixCons(head: string, tail: string, c: char)
    requires c !in head && |head| > 0
    ensures Split(head + [c] + tail, c) == [head] + Split(tail, c)
    decreases |head|, 0
  {
    var s := head + [c] + tail;
    assert s[0] == head[0] && s[1..] == head[1..] + [c] + tail;
    assert c !in head[1..];
    SplitPrefix(head[1..], tail, c);
    var rest := Split(s[1..], c);
    assert rest == [head[1..]] + Split(tail, c);
    assert Split(s, c) == [[s[0]] + rest[0]] + rest[1..];
    assert [head[0]] + head[1..] == head;
  }

  lemma ConcatAssoc<T>(a: seq<T>, b: seq<T>, c: seq<T>)
    ensures a + b + c == a + (b + c)
  {
  }

  lemma PairOf<T>(a: T, b: T)
    ensures [a] + [b] == [a, b]
  {
  }

  predicate StartsWith(s: string, p: string) {
    |p| <= |s| && s[..|p|] == p
  }

  predicate EndsWith(s: string, p: string) {
    |p| <= |s| && s[|s| - |p|..] == p
  }

  /** `pat in s` for a substring. */
  predicate Contains(s: string, pat: string)
    decreases |s|
  {
    |pat| <= |s| && (s[..|pat|] == pat || (|s| > 0 && Contains(s[1..], pat)))
  }

  /** `s.replace(pat, rep)` for a non-empty pattern: every occurrence, scanned
      left to right without overlap, is replaced. */
  function ReplaceAll(s: string, pat: string, rep: string): (r: string)
    requires |pat| > 0
    ensures !Contains(s, pat) ==> r == s
    decreases |s|
  {
    if |s| < |pat| then s
    else if s[..|pat|] == pat then rep + ReplaceAll(s[|pat|..], pat, rep)
    else [s[0]] + ReplaceAll(s[1..], pat, rep)
  }

  /** A text that starts with the pattern has it replaced first. */
  lemma ReplaceHead(pat: string, rest: string, rep: string)
    requires |pat| > 0
    ensures ReplaceAll(pat + rest, pat, rep) == rep + ReplaceAll(rest, pat, rep)
  {
    assert (pat + rest)[..|pat|] == pat;
    assert (pat + rest)[|pat|..] == rest;
  }

  /** Characters that cannot start the pattern add no occurrence in front. */
  lemma {:induction false} MissAfterPlain(b: string, s: string, pat: string)
    requires |pat| > 0 && !Contains(s, pat)
    requires forall i :: 0 <= i < |b| ==> b[i] != pat[0]
    ensures !Contains(b + s, pat)
    decreases |b|
  {
    if |b| > 0 {
      assert (b + s)[1..] == b[1..] + s;
      assert (b + s)[0] == b[0] != pat[0];
      MissAfterPlain(b[1..], s, pat);
    } else {
      assert b + s == s;
    }
  }

  /** A head whose first two characters differ from the pattern's, and
      whose other characters cannot start it, adds no occurrence. */
  lemma MissAfter(a: string, s: string, pat: string)
    requires |pat| > 1 && |a| > 1 && !Contains(s, pat)
    requires a[0] == pat[0] ==> a[1] != pat[1]
    requires forall i :: 1 <= i < |a| ==> a[i] != pat[0]
    ensures !Contains(a + s, pat)
  {
    assert (a + s)[1..] == a[1..] + s;
    assert (a + s)[0] == a[0] && (a + s)[1] == a[1];
    MissAfterPlain(a[1..], s, pat);
  }

  predicate IsDigit(c: char) {
    '0' <= c <= '9'
  }

  predicate AllDigits(s: string) {
    forall i :: 0 <= i < |s| ==> IsDigit(s[i])
  }

  function DigitChar(d: nat): (c: char)
    requires d < 10
    ensures IsDigit(c)
  {
    ('0' as int + d) as char
  }

  /** Decimal text of a natural number, as `str(n)`. */
  function NatToString(n: nat): (r: string)
    ensures |r| >= 1 && IsDigit(r[0])
  {
    if n < 10 then [DigitChar(n)] else NatToString(n / 10) + [DigitChar(n % 10)]
  }

  lemma {:induction false} NatToStringDigits(n: nat)
    ensures AllDigits(NatToString(n))
  {
    if n >= 10 {
      NatToStringDigits(n / 10);
    }
  }

  /** `str(i)` for an integer. */
  function IntToString(i: int): string {
    if i < 0 then "-" + NatToString(-i) else NatToString(i)
  }

  /** Value of a string of decimal digits, as `int(s)`. */
  function DigitsValue(s: string): int {
    if |s| == 0 then 0 else DigitsValue(s[..|s| - 1]) * 10 + (s[|s| - 1] as int - '0' as int)
  }

  /** The decimal text of n reads back as n. */
  lemma {:induction false} NatToStringValue(n: nat)
    ensures DigitsValue(NatToString(n)) == n
  {
    if n >= 10 {
      NatToStringValue(n / 10);
      var s := NatToString(n);
      assert s[..|s| - 1] == NatToString(n / 10);
    }
  }

  /** `c * n` for a one-character string. */
  function Repeat(c: char, n: nat): (r: string)
    ensures |r| == n
    ensures forall i :: 0 <= i < n ==> r[i] == c
  {
    if n == 0 then "" else [c] + Repeat(c, n - 1)
  }

  // ---------------------------------------------------------------------
  // Sequences
  // ---------------------------------------------------------------------

  /** The positions of the items that pass `keep`, in increasing order. */
  function Kept<T>(xs: seq<T>, keep: T -> bool): (r: seq<nat>)
    ensures forall k :: 0 <= k < |r| ==> r[k] < |xs| && keep(xs[r[k]])
    ensures forall k, l :: 0 <= k < l < |r| ==> r[k] < r[l]
    ensures forall i :: 0 <= i < |xs| && keep(xs[i]) ==> i in r
  {
    if |xs| == 0 then []
    else
      var init := xs[..|xs| - 1];
      var r := Kept(init, keep);
      assert forall i :: 0 <= i < |init| ==> init[i] == xs[i];
      if keep(xs[|xs| - 1]) then r + [|xs| - 1] else r
  }

  /** The items at the given positions. */
  function Select<T>(xs: seq<T>, idx: seq<nat>): (r: seq<T>)
    requires forall k :: 0 <= k < |idx| ==> idx[k] < |xs|
    ensures |r| == |idx| && forall k :: 0 <= k < |idx| ==> r[k] == xs[idx[k]]
  {
    seq(|idx|, k requires 0 <= k < |idx| => xs[idx[k]])
  }

  /** Two sequences whose items pass their tests alike keep the same positions. */
  lemma {:induction false} KeptSame<T, U>(xs: seq<T>, p: T -> bool, ys: seq<U>, q: U -> bool)
    requires |xs| == |ys| && forall i :: 0 <= i < |xs| ==> p(xs[i]) == q(ys[i])
    ensures Kept(xs, p) == Kept(ys, q)
    decreases |xs|
  {
    if |xs| > 0 {
      var xi, yi := xs[..|xs| - 1], ys[..|ys| - 1];
      assert forall i :: 0 <= i < |xi| ==> xi[i] == xs[i] && yi[i] == ys[i];
      KeptSame(xi, p, yi, q);
    }
  }
}

=== FILE: batch.dfy ===
/** A batch of tasks (`repype/batch.py`): the registry that loads tasks by
    directory and links each to the task of its parent directory, the run
    contexts of the runnable tasks, the pending ones among them, and the
    loop that runs them one after another.

    The `task.yml` files are one map from a directory to the specification
    it holds. Running a task in a child process is reduced to the exit code
    it reports, given per position in the run. */
module Batches {
  import opened Base
  import opened Values
  import opened Stages
  import opened Paths
  import opened Tasks

  // ---------------------------------------------------------------------
  // The registry
  // ---------------------------------------------------------------------

  /** The loaded tasks, in the order they were registered. */
  datatype Batch = Batch(tasks: seq<Task>)

  /** `path.parent`: the last component dropped; a path without components
      is its own parent. */
  function ParentPath(p: Path): (r: Path)
    ensures r.absolute == p.absolute
    ensures |p.parts| > 0 ==> |r.parts| == |p.parts| - 1 && r.parts == p.parts[..|p.parts| - 1]
    ensures |p.parts| == 0 ==> r == p
  {
    if |p.parts| == 0 then p else Path(p.absolute, p.parts[..|p.parts| - 1])
  }

  /** `self.tasks.get(path)`. */
  function Get(b: Batch, path: Path): (r: Option<Task>)
    ensures r.Some? ==> r.value in b.tasks && r.value.path == path
    ensures r.None? <==> forall i :: 0 <= i < |b.tasks| ==> b.tasks[i].path != path
    decreases |b.tasks|
  {
    if |b.tasks| == 0 then None
    else if b.tasks[0].path == path then Some(b.tasks[0])
    else
      var r := Get(Batch(b.tasks[1..]), path);
      assert forall i :: 1 <= i < |b.tasks| ==> b.tasks[i] == b.tasks[1..][i - 1];
      r
  }

  /** What a registry keeps true: one task per directory, every parent
      registered before its child, and every parent the task of the child's
      immediate parent directory. */
  predicate Registry(b: Batch) {
    (forall i, j :: 0 <= i < j < |b.tasks| ==> b.tasks[i].path != b.tasks[j].path) &&
    (forall i :: 0 <= i < |b.tasks| ==> ParentEarlier(b, i))
  }

  predicate ParentEarlier(b: Batch, i: nat)
    requires i < |b.tasks|
  {
    b.tasks[i].parent.Some? ==>
      |b.tasks[i].path.parts| > 0 &&
      b.tasks[i].parent.value.path == ParentPath(b.tasks[i].path) &&
      exists j :: 0 <= j < i && b.tasks[j] == b.tasks[i].parent.value
  }

  /** The tasks `after` adds to `b` all have fewer than `n` components. */
  predicate Added(b: Batch, after: Batch, n: nat) {
    forall i :: |b.tasks| <= i < |after.tasks| ==> |after.tasks[i].path.parts| < n
  }

  /** Registering a task at a new directory keeps every other lookup. */
  lemma {:induction false} GetAppend(b: Batch, t: Task, path: Path)
    requires Get(b, t.path).None?
    ensures Get(Batch(b.tasks + [t]), path) == if path == t.path then Some(t) else Get(b, path)
    decreases |b.tasks|
  {
    var grown := Batch(b.tasks + [t]);
    if |b.tasks| == 0 {
      assert grown.tasks == [t];
    } else {
      assert grown.tasks[0] == b.tasks[0];
      if b.tasks[0].path != path {
        assert grown.tasks[1..] == b.tasks[1..] + [t];
        GetAppend(Batch(b.tasks[1..]), t, path);
      }
    }
  }

  /** How a new task finds its parent. */
  datatype Guard =
    | AsWritten  // `if path.parent`, which holds for every path
    | Intended   // no parent for a path that is its own parent

  /** `batch.task(path, spec)`: the registered task for the directory, or a
      new one built from `spec` or else from the directory's `task.yml`,
      registered after its parent. */
  function TaskAt(guard: Guard, b: Batch, path: Path, spec: Option<Entries>, files: map<Path, Entries>)
    : (r: Result<(Batch, Option<Task>)>)
    ensures r.Err? ==> r.exc == AssertionError || (guard == AsWritten && r.exc == RecursionError)
    ensures r.Ok? ==> b.tasks <= r.value.0.tasks && Added(b, r.value.0, |path.parts| + 1)
    ensures r.Ok? && Get(b, path).Some? ==> r.value == (b, Get(b, path))
    ensures r.Ok? ==> (r.value.1.None? <==> spec.None? && path !in files && Get(b, path).None?)
    ensures r.Ok? && r.value.1.None? ==> r.value.0 == b
    ensures r.Ok? && r.value.1.Some? ==> r.value.1.value.path == path && Get(r.value.0, path) == r.value.1
    decreases |path.parts|, 2
  {
    var known := Get(b, path);
    if spec.None? && path !in files then Ok((b, known))
    else
      var s := if spec.Some? then spec.value else files[path];
      match known
      case Some(t) =>
        var _ :- Check(PyEq(VMap(t.spec), VMap(s)));
        Ok((b, known))
      case None => Register(guard, b, path, s, files)
  }

  /** A new task for an unregistered directory, after its parent. */
  function Register(guard: Guard, b: Batch, path: Path, s: Entries, files: map<Path, Entries>)
    : (r: Result<(Batch, Option<Task>)>)
    ensures r.Err? ==> r.exc == AssertionError || (guard == AsWritten && r.exc == RecursionError)
    ensures r.Ok? ==> b.tasks <= r.value.0.tasks && Added(b, r.value.0, |path.parts| + 1)
    ensures r.Ok? ==> r.value.1.Some? && r.value.1.value.path == path && Get(r.value.0, path) == r.value.1
    decreases |path.parts|, 1
  {
    var (b1, parent) :- ParentTask(guard, b, path, files);
    var _ :- Check(Get(b1, path).None?);
    var t := Task(path, s, parent);
    GetAppend(b1, t, path);
    Ok((Batch(b1.tasks + [t]), Some(t)))
  }

  /** `self.task(path.parent) if path.parent else None` for an unregistered
      `path`. As written the guard always holds, so a path that is its own
      parent asks for itself again: without a `task.yml` that yields None,
      with one it never ends. */
  function ParentTask(guard: Guard, b: Batch, path: Path, files: map<Path, Entries>)
    : (r: Result<(Batch, Option<Task>)>)
    ensures r.Err? ==> r.exc == AssertionError || (guard == AsWritten && r.exc == RecursionError)
    ensures r.Ok? ==> b.tasks <= r.value.0.tasks && Added(b, r.value.0, |path.parts|)
    ensures r.Ok? && |path.parts| == 0 ==> r.value == (b, None)
    ensures r.Ok? && |path.parts| > 0 ==> r.value.1 == Get(r.value.0, ParentPath(path))
    decreases |path.parts|, 0
  {
    if |path.parts| > 0 then TaskAt(guard, b, ParentPath(path), None, files)
    else match guard
      case Intended => Ok((b, None))
      case AsWritten => if path in files then Err(RecursionError) else Ok((b, None))
  }

  /** The specification a request supplies: the argument, else the file. */
  function Requested(path: Path, spec: Option<Entries>, files: map<Path, Entries>): Option<Entries> {
    if spec.Some? then spec else if path in files then Some(files[path]) else None
  }

  /** An unregistered directory with a specification registers a new task. */
  lemma Registers(guard: Guard, b: Batch, path: Path, spec: Option<Entries>, files: map<Path, Entries>)
    requires Get(b, path).None? && Requested(path, spec, files).Some?
    ensures TaskAt(guard, b, path, spec, files) == Register(guard, b, path, Requested(path, spec, files).value, files)
  {
  }

  /** A registered task is handed back as it is when the request supplies no
      specification or an equal one; a different one fails the assertion. */
  lemma Memoised(guard: Guard, b: Batch, path: Path, spec: Option<Entries>, files: map<Path, Entries>)
    requires Get(b, path).Some?
    ensures var s := Requested(path, spec, files);
      TaskAt(guard, b, path, spec, files) ==
        if s.None? || PyEq(VMap(Get(b, path).value.spec), VMap(s.value)) then Ok((b, Get(b, path)))
        else Err(AssertionError)
  {
  }

  /** A new task carries the requested specification, the argument taking
      precedence over the file, and as parent whatever the registry then
      holds for its immediate parent directory; it is registered last. */
  lemma NewTask(guard: Guard, b: Batch, path: Path, spec: Option<Entries>, files: map<Path, Entries>)
    requires Get(b, path).None?
    requires TaskAt(guard, b, path, spec, files).Ok?
    requires TaskAt(guard, b, path, spec, files).value.1.Some?
    ensures var (after, t) := TaskAt(guard, b, path, spec, files).value;
      Some(t.value.spec) == Requested(path, spec, files) &&
      t.value.parent == (if |path.parts| == 0 then None else Get(after, ParentPath(path))) &&
      after.tasks[|after.tasks| - 1] == t.value
  {
    var (b1, parent) := ParentTask(guard, b, path, files).value;
    var t := Task(path, Requested(path, spec, files).value, parent);
    if |path.parts| > 0 {
      assert ParentPath(path) != path;
      GetAppend(b1, t, ParentPath(path));
    }
  }

  /** Asking again for a task just returned, with the same specification,
      returns the same task and leaves the registry alone. */
  lemma AskAgain(guard: Guard, b: Batch, path: Path, spec: Option<Entries>, files: map<Path, Entries>)
    requires TaskAt(guard, b, path, spec, files).Ok?
    requires Requested(path, spec, files).Some? ==> WellFormed(VMap(Requested(path, spec, files).value))
    ensures var (after, t) := TaskAt(guard, b, path, spec, files).value;
      TaskAt(guard, after, path, spec, files) == Ok((after, t))
  {
    var (after, t) := TaskAt(guard, b, path, spec, files).value;
    if t.Some? {
      Memoised(guard, after, path, spec, files);
      if Get(b, path).None? {
        NewTask(guard, b, path, spec, files);
        PyEqRefl(VMap(Requested(path, spec, files).value));
      } else {
        Memoised(guard, b, path, spec, files);
      }
    }
  }

  /** A task found in a registry is found the same in any extension of it. */
  lemma {:induction false} GetPrefix(b: Batch, c: Batch, path: Path)
    requires b.tasks <= c.tasks && Get(b, path).Some?
    ensures Get(c, path) == Get(b, path)
    decreases |b.tasks|
  {
    if b.tasks[0].path != path {
      assert c.tasks[0] == b.tasks[0];
      assert b.tasks[1..] <= c.tasks[1..];
      GetPrefix(Batch(b.tasks[1..]), Batch(c.tasks[1..]), path);
    }
  }

  /** Registering a new task keeps the registry's invariant. */
  lemma {:induction false} TaskAtKeepsRegistry(guard: Guard, b: Batch, path: Path, spec: Option<Entries>, files: map<Path, Entries>)
    requires Registry(b)
    requires TaskAt(guard, b, path, spec, files).Ok?
    ensures Registry(TaskAt(guard, b, path, spec, files).value.0)
    decreases |path.parts|, 1
  {
    var (after, t) := TaskAt(guard, b, path, spec, files).value;
    if Get(b, path).None? && t.Some? {
      ParentKeepsRegistry(guard, b, path, files);
      NewTask(guard, b, path, spec, files);
      var b1 := ParentTask(guard, b, path, files).value.0;
      assert after.tasks == b1.tasks + [t.value];
      AppendKeepsRegistry(b1, t.value);
    }
  }

  lemma {:induction false} ParentKeepsRegistry(guard: Guard, b: Batch, path: Path, files: map<Path, Entries>)
    requires Registry(b)
    requires ParentTask(guard, b, path, files).Ok?
    ensures Registry(ParentTask(guard, b, path, files).value.0)
    decreases |path.parts|, 0
  {
    if |path.parts| > 0 {
      TaskAtKeepsRegistry(guard, b, ParentPath(path), None, files);
    }
  }

  /** Appending a task at a new directory whose parent, if any, is the
      registered task of its immediate parent directory. */
  lemma AppendKeepsRegistry(b: Batch, t: Task)
    requires Registry(b)
    requires Get(b, t.path).None?
    requires t.parent.Some? ==> |t.path.parts| > 0 && Get(b, ParentPath(t.path)) == t.parent
    ensures Registry(Batch(b.tasks + [t]))
  {
    var c := Batch(b.tasks + [t]);
    forall i | 0 <= i < |c.tasks|
      ensures ParentEarlier(c, i)
    {
      if i < |b.tasks| {
        assert ParentEarlier(b, i);
        assert c.tasks[i] == b.tasks[i];
        if c.tasks[i].parent.Some? {
          var j :| 0 <= j < i && b.tasks[j] == b.tasks[i].parent.value;
          assert c.tasks[j] == b.tasks[j];
        }
      } else if t.parent.Some? {
        var p := t.parent.value;
        assert p in b.tasks;
        var j :| 0 <= j < |b.tasks| && b.tasks[j] == p;
        assert c.tasks[j] == p;
      }
    }
  }

  // ---------------------------------------------------------------------
  // Loading a tree of task files
  // ---------------------------------------------------------------------

  /** `batch.load(root)`: every directory holding a `task.yml` below the
      root, in the order the search lists them, asked for without an
      explicit specification. The search itself is given as `dirs`. */
  function Load(guard: Guard, b: Batch, rootIsDir: bool, dirs: seq<Path>, files: map<Path, Entries>)
    : (r: Result<Batch>)
    ensures !rootIsDir ==> r == Err(AssertionError)
    ensures r.Ok? ==> b.tasks <= r.value.tasks
    ensures r.Ok? ==> forall i :: 0 <= i < |dirs| && dirs[i] in files ==> Get(r.value, dirs[i]).Some?
    ensures r.Ok? && Registry(b) ==> Registry(r.value)
  {
    var _ :- Check(rootIsDir);
    LoadAll(guard, b, dirs, files)
  }

  function LoadAll(guard: Guard, b: Batch, dirs: seq<Path>, files: map<Path, Entries>)
    : (r: Result<Batch>)
    ensures r.Ok? ==> b.tasks <= r.value.tasks
    ensures r.Ok? ==> forall i :: 0 <= i < |dirs| && dirs[i] in files ==> Get(r.value, dirs[i]).Some?
    ensures r.Ok? && Registry(b) ==> Registry(r.value)
    decreases |dirs|
  {
    if |dirs| == 0 then Ok(b)
    else
      var (b1, _) :- TaskAt(guard, b, dirs[0], None, files);
      var r := LoadAll(guard, b1, dirs[1..], files);
      if r.Ok? then
        LoadStep(guard, b, dirs[0], files, r.value);
        assert forall i :: 1 <= i < |dirs| ==> dirs[i] == dirs[1..][i - 1];
        r
      else r
  }

  /** One directory of a load, seen from the end of the load. */
  lemma LoadStep(guard: Guard, b: Batch, dir: Path, files: map<Path, Entries>, last: Batch)
    requires TaskAt(guard, b, dir, None, files).Ok?
    requires TaskAt(guard, b, dir, None, files).value.0.tasks <= last.tasks
    ensures dir in files ==> Get(last, dir).Some?
    ensures Registry(b) ==> Registry(TaskAt(guard, b, dir, None, files).value.0)
  {
    var b1 := TaskAt(guard, b, dir, None, files).value.0;
    if dir in files {
      GetPrefix(b1, last, dir);
    }
    if Registry(b) {
      TaskAtKeepsRegistry(guard, b, dir, None, files);
    }
  }

  // ---------------------------------------------------------------------
  // The root of the file system
  // ---------------------------------------------------------------------

  /** As written, a `task.yml` in a directory that is its own parent (`/`,
      or `.` for relative paths) makes every request that reaches that
      directory unregistered recurse without end. */
  lemma RootRecurses(b: Batch, path: Path, spec: Option<Entries>, files: map<Path, Entries>)
    requires |path.parts| == 0 && path in files && Get(b, path).None?
    ensures TaskAt(AsWritten, b, path, spec, files) == Err(RecursionError)
  {
    Registers(AsWritten, b, path, spec, files);
  }

  /** So a task below such a directory cannot be created either. */
  lemma BelowRootRecurses(b: Batch, path: Path, spec: Option<Entries>, files: map<Path, Entries>)
    requires |path.parts| == 1 && ParentPath(path) in files
    requires Get(b, path).None? && Get(b, ParentPath(path)).None?
    requires spec.Some? || path in files
    ensures TaskAt(AsWritten, b, path, spec, files) == Err(RecursionError)
  {
    Registers(AsWritten, b, path, spec, files);
    RootRecurses(b, ParentPath(path), None, files);
  }

  /** With the guard the code evidently intends, an empty registry accepts
      every request: the only failure left, a spec mismatch, needs a task
      already registered. */
  lemma {:induction false} FreshSucceeds(path: Path, spec: Option<Entries>, files: map<Path, Entries>)
    ensures TaskAt(Intended, Batch([]), path, spec, files).Ok?
    decreases |path.parts|
  {
    if Requested(path, spec, files).Some? {
      Registers(Intended, Batch([]), path, spec, files);
      if |path.parts| > 0 {
        FreshSucceeds(ParentPath(path), None, files);
      }
    }
  }

  /** In particular a root directory with a `task.yml` loads as a task
      without a parent, and a task below it gets it as parent. */
  lemma RootLoads(path: Path, spec: Entries, files: map<Path, Entries>)
    requires |path.parts| == 1 && ParentPath(path) in files
    ensures var r := TaskAt(Intended, Batch([]), path, Some(spec), files);
      r.Ok? && r.value.1.Some? &&
      r.value.0.tasks == [Task(ParentPath(path), files[ParentPath(path)], None), r.value.1.value] &&
      r.value.1.value.parent == Some(Task(ParentPath(path), files[ParentPath(path)], None))
  {
    var root := ParentPath(path);
    var top := Task(root, files[root], None);
    Registers(Intended, Batch([]), root, None, files);
    assert ParentTask(Intended, Batch([]), root, files) == Ok((Batch([]), None));
    assert Batch([]).tasks + [top] == [top];
    assert Register(Intended, Batch([]), root, files[root], files) == Ok((Batch([top]), Some(top)));
    assert TaskAt(Intended, Batch([]), root, None, files) == Ok((Batch([top]), Some(top)));
    assert ParentTask(Intended, Batch([]), path, files) == Ok((Batch([top]), Some(top)));
    Registers(Intended, Batch([]), path, Some(spec), files);
    assert path != root by { assert |path.parts| != |root.parts|; }
    assert Get(Batch([top]), path).None?;
  }

  // ---------------------------------------------------------------------
  // Run contexts
  // ---------------------------------------------------------------------

  /** A task with the pipeline and the hyperparameters to run it with. */
  datatype Context = Context(task: Task, pipeline: seq<Stage>, config: Entries)

  /** `RunContext(task)`: only a runnable task has one. How a task builds
      its pipeline is given as `pipelineOf`; the base configuration files
      the hyperparameters read are `configFiles`. */
  function RunContext(t: Task, pipelineOf: Task -> Result<seq<Stage>>, configFiles: map<Path, Value>)
    : (r: Result<Context>)
    ensures !Runnable(t) ==> r == Err(AssertionError)
    ensures r.Ok? <==> Runnable(t) && pipelineOf(t).Ok? && CreateConfig(t, configFiles).Ok?
    ensures r.Ok? ==> r.value == Context(t, pipelineOf(t).value, CreateConfig(t, configFiles).value)
  {
    var _ :- Check(Runnable(t));
    var p :- pipelineOf(t);
    var cfg :- CreateConfig(t, configFiles);
    Ok(Context(t, p, cfg))
  }

  /** Position `i` is the first whose `f` fails. */
  predicate FailsFirstAt<T, U>(xs: seq<T>, f: T -> Result<U>, i: nat) {
    i < |xs| && f(xs[i]).Err? && forall j :: 0 <= j < i ==> f(xs[j]).Ok?
  }

  /** `[f(x) for x in xs]` where `f` may raise: the first exception ends it. */
  function All<T, U>(xs: seq<T>, f: T -> Result<U>): (r: Result<seq<U>>)
    ensures r.Ok? <==> forall i :: 0 <= i < |xs| ==> f(xs[i]).Ok?
    ensures r.Ok? ==> |r.value| == |xs| && forall i :: 0 <= i < |xs| ==> f(xs[i]) == Ok(r.value[i])
    ensures r.Err? ==> exists i: nat :: FailsFirstAt(xs, f, i) && f(xs[i]) == Err(r.exc)
  {
    if |xs| == 0 then Ok([])
    else
      var init := xs[..|xs| - 1];
      assert forall i :: 0 <= i < |init| ==> init[i] == xs[i];
      var rest :- All(init, f);
      var last :- f(xs[|xs| - 1]);
      Ok(rest + [last])
  }

  /** The runnable tasks, in the order they were registered. */
  function Runnables(b: Batch): (r: seq<Task>)
    ensures |r| == |Kept(b.tasks, Runnable)|
    ensures forall k :: 0 <= k < |r| ==> r[k] == b.tasks[Kept(b.tasks, Runnable)[k]]
    ensures forall t :: t in r <==> t in b.tasks && Runnable(t)
  {
    var idx := Kept(b.tasks, Runnable);
    var r := Select(b.tasks, idx);
    assert forall i :: 0 <= i < |b.tasks| && Runnable(b.tasks[i]) ==> b.tasks[i] in r by {
      forall i | 0 <= i < |b.tasks| && Runnable(b.tasks[i]) ensures b.tasks[i] in r {
        var k :| 0 <= k < |idx| && idx[k] == i;
        assert r[k] == b.tasks[i];
      }
    }
    r
  }

  /** `batch.contexts`: a run context for every runnable task, in the order
      the tasks were registered; the first one that cannot be built raises. */
  function Contexts(b: Batch, pipelineOf: Task -> Result<seq<Stage>>, configFiles: map<Path, Value>)
    : (r: Result<seq<Context>>)
    ensures r.Ok? <==> forall t :: t in Runnables(b) ==> pipelineOf(t).Ok? && CreateConfig(t, configFiles).Ok?
    ensures r.Ok? ==> |r.value| == |Runnables(b)|
    ensures r.Ok? ==> forall k :: 0 <= k < |r.value| ==>
      r.value[k] == Context(Runnables(b)[k], pipelineOf(Runnables(b)[k]).value, CreateConfig(Runnables(b)[k], configFiles).value)
    ensures r.Err? ==> exists t :: t in Runnables(b) && RunContext(t, pipelineOf, configFiles) == Err(r.exc)
  {
    All(Runnables(b), t => RunContext(t, pipelineOf, configFiles))
  }

  /** `rc.task.is_pending(rc.pipeline, rc.config)`. */
  function PendingTest(c: Context, disk: Disk, stageSha: Stage -> string, specSha: Entries -> string): Result<bool> {
    IsPending(c.task, c.pipeline, c.config, disk, stageSha, specSha)
  }

  /** `batch.pending`: the contexts whose task is pending, in their order;
      a task whose stored digests lack a stage raises. */
  function Pending(cs: seq<Context>, disk: Disk, stageSha: Stage -> string, specSha: Entries -> string)
    : (r: Result<seq<Context>>)
    ensures r.Ok? <==> forall i :: 0 <= i < |cs| ==> PendingTest(cs[i], disk, stageSha, specSha).Ok?
    ensures r.Err? ==> r.exc == KeyError
    ensures r.Ok? ==> r.value == Select(cs, Kept(cs, c => PendingTest(c, disk, stageSha, specSha) == Ok(true)))
  {
    var flags :- All(cs, c => PendingTest(c, disk, stageSha, specSha));
    KeptSame(flags, (f: bool) => f, cs, c => PendingTest(c, disk, stageSha, specSha) == Ok(true));
    Ok(Select(cs, Kept(flags, (f: bool) => f)))
  }

  /** A context is pending exactly when it is one of the contexts and its
      task is pending, and the pending contexts keep their order. */
  lemma PendingMembers(cs: seq<Context>, disk: Disk, stageSha: Stage -> string, specSha: Entries -> string)
    requires Pending(cs, disk, stageSha, specSha).Ok?
    ensures var ps := Pending(cs, disk, stageSha, specSha).value;
      forall c :: c in ps <==> c in cs && PendingTest(c, disk, stageSha, specSha) == Ok(true)
  {
    SelectKept(cs, c => PendingTest(c, disk, stageSha, specSha) == Ok(true));
  }

  /** The kept items are exactly the items that pass. */
  lemma SelectKept<T(!new)>(xs: seq<T>, keep: T -> bool)
    ensures forall x :: x in Select(xs, Kept(xs, keep)) <==> x in xs && keep(x)
  {
    var idx := Kept(xs, keep);
    var r := Select(xs, idx);
    forall x | x in xs && keep(x)
      ensures x in r
    {
      var i :| 0 <= i < |xs| && xs[i] == x;
      var k :| 0 <= k < |idx| && idx[k] == i;
      assert r[k] == x;
    }
  }

  // ---------------------------------------------------------------------
  // The run loop
  // ---------------------------------------------------------------------

  /** The status updates of a run: a task entered (in a status derived for
      it), or the run interrupted by a task's non-zero exit code. */
  datatype Event =
    | Enter(task: string, step: nat, count: nat)
    | Interrupted(code: int)

  /** The first `n` events enter the contexts from position `from` on. */
  predicate Entered(cs: seq<Context>, events: seq<Event>, from: nat, n: nat) {
    n <= |events| && from + n <= |cs| &&
    forall k :: 0 <= k < n ==> events[k] == Enter(PathString(cs[from + k].task.path), from + k, |cs|)
  }

  /** The first position from `i` below `n` with a non-zero exit code. */
  function FirstNonZero(exitOf: nat -> int, i: nat, n: nat): (r: Option<nat>)
    ensures r.Some? ==> i <= r.value < n && exitOf(r.value) != 0 && forall m :: i <= m < r.value ==> exitOf(m) == 0
    ensures r.None? ==> forall m :: i <= m < n ==> exitOf(m) == 0
    decreases n - i
  {
    if i >= n then None
    else if exitOf(i) != 0 then Some(i)
    else FirstNonZero(exitOf, i + 1, n)
  }

  lemma EnteredCons(cs: seq<Context>, e: Event, rest: seq<Event>, i: nat, n: nat)
    requires i < |cs| && e == Enter(PathString(cs[i].task.path), i, |cs|)
    requires Entered(cs, rest, i + 1, n)
    ensures Entered(cs, [e] + rest, i, n + 1)
  {
    assert forall k :: 1 <= k < n + 1 ==> ([e] + rest)[k] == rest[k - 1];
  }

  /** The loop of `batch.run` from position `i`: each context is entered and
      run; the first non-zero exit code interrupts the run. */
  function RunFrom(cs: seq<Context>, i: nat, exitOf: nat -> int): (r: (bool, seq<Event>))
    requires i <= |cs|
    ensures r.0 <==> FirstNonZero(exitOf, i, |cs|).None?
    ensures r.0 ==> |r.1| == |cs| - i && Entered(cs, r.1, i, |cs| - i)
    ensures !r.0 ==> var j := FirstNonZero(exitOf, i, |cs|).value;
      |r.1| == j - i + 2 && Entered(cs, r.1, i, j - i + 1) && r.1[j - i + 1] == Interrupted(exitOf(j))
    decreases |cs| - i
  {
    if i == |cs| then (true, [])
    else
      var e := Enter(PathString(cs[i].task.path), i, |cs|);
      if exitOf(i) != 0 then
        assert Entered(cs, [e, Interrupted(exitOf(i))], i, 1);
        (false, [e, Interrupted(exitOf(i))])
      else
        var (ok, rest) := RunFrom(cs, i + 1, exitOf);
        assert FirstNonZero(exitOf, i, |cs|) == FirstNonZero(exitOf, i + 1, |cs|);
        if ok then
          EnteredCons(cs, e, rest, i, |cs| - i - 1);
          (ok, [e] + rest)
        else
          var j := FirstNonZero(exitOf, i + 1, |cs|).value;
          EnteredCons(cs, e, rest, i, j - i);
          assert ([e] + rest)[j - i + 1] == rest[j - i];
          (ok, [e] + rest)
  }

  /** `batch.run(contexts, status)` with the exit code of the task at each
      position given: true iff every task exits with 0. Each task's status
      is derived from `status`, so without one a non-empty run fails. */
  function Run(cs: seq<Context>, exitOf: nat -> int, hasStatus: bool): (r: Result<(bool, seq<Event>)>)
    ensures |cs| > 0 && !hasStatus ==> r == Err(AttributeError)
    ensures hasStatus || |cs| == 0 ==> r.Ok?
    ensures r.Ok? ==> (r.value.0 <==> forall j :: 0 <= j < |cs| ==> exitOf(j) == 0)
    ensures r.Ok? && r.value.0 ==> Entered(cs, r.value.1, 0, |cs|) && |r.value.1| == |cs|
    ensures r.Ok? && !r.value.0 ==> var j := FirstNonZero(exitOf, 0, |cs|).value;
      Entered(cs, r.value.1, 0, j + 1) && r.value.1[j + 1..] == [Interrupted(exitOf(j))]
  {
    if |cs| > 0 && !hasStatus then Err(AttributeError)
    else Ok(RunFrom(cs, 0, exitOf))
  }

  /** `batch.run(contexts, status)` as written: the statement that waits for
      the task process subscripts the coroutine `communicate(…)` before
      awaiting it, which raises TypeError. A non-empty run therefore enters
      its first task and raises, whatever the task would have done. */
  function RunAsWritten(cs: seq<Context>, hasStatus: bool): (r: (seq<Event>, Result<bool>))
    ensures |cs| == 0 ==> r == ([], Ok(true))
    ensures |cs| > 0 && !hasStatus ==> r == ([], Err(AttributeError))
    ensures |cs| > 0 && hasStatus ==> r.1 == Err(TypeError) && |r.0| == 1 && Entered(cs, r.0, 0, 1)
  {
    if |cs| == 0 then ([], Ok(true))
    else if !hasStatus then ([], Err(AttributeError))
    else ([Enter(PathString(cs[0].task.path), 0, |cs|)], Err(TypeError))
  }

  /** With every task exiting cleanly, `Run` reports success, while the code
      as written raises after entering the first task. */
  lemma AsWrittenRaises(cs: seq<Context>, exitOf: nat -> int)
    requires |cs| > 0
    requires forall j :: 0 <= j < |cs| ==> exitOf(j) == 0
    ensures Run(cs, exitOf, true) == Ok((true, Run(cs, exitOf, true).value.1))
    ensures RunAsWritten(cs, true).1 == Err(TypeError)
  {
  }

  /** `batch.run()` without contexts runs the pending ones. */
  function RunBatch(b: Batch, contexts: Option<seq<Context>>, pipelineOf: Task -> Result<seq<Stage>>,
                    configFiles: map<Path, Value>, disk: Disk, stageSha: Stage -> string,
                    specSha: Entries -> string, exitOf: nat -> int, hasStatus: bool)
    : (r: Result<(bool, seq<Event>)>)
    ensures contexts.Some? ==> r == Run(contexts.value, exitOf, hasStatus)
    ensures contexts.None? && Contexts(b, pipelineOf, configFiles).Err? ==> r == Err(Contexts(b, pipelineOf, configFiles).exc)
    ensures contexts.None? && Contexts(b, pipelineOf, configFiles).Ok? ==>
      var pending := Pending(Contexts(b, pipelineOf, configFiles).value, disk, stageSha, specSha);
      r == if pending.Ok? then Run(pending.value, exitOf, hasStatus) else Err(KeyError)
  {
    var cs :- if contexts.Some? then Ok(contexts.value)
              else
                var all :- Contexts(b, pipelineOf, configFiles);
                Pending(all, disk, stageSha, specSha);
    Run(cs, exitOf, hasStatus)
  }

  /** Tasks given by specification alone (tests/test_batch.py:50-66): the
      first has no parent, since its parent directory holds no `task.yml`;
      the second, one level below, gets the first as parent. */
  lemma VirtualPaths(guard: Guard, p: Path, child: Path, spec1: Entries, spec2: Entries, files: map<Path, Entries>)
    requires |p.parts| > 0 && ParentPath(p) !in files && p !in files
    requires |child.parts| > 0 && ParentPath(child) == p
    ensures var r1 := TaskAt(guard, Batch([]), p, Some(spec1), files);
      r1.Ok? && r1.value.1 == Some(Task(p, spec1, None)) &&
      var r2 := TaskAt(guard, r1.value.0, child, Some(spec2), files);
      r2.Ok? && r2.value.1 == Some(Task(child, spec2, Some(Task(p, spec1, None)))) &&
      r2.value.0.tasks == [Task(p, spec1, None), Task(child, spec2, Some(Task(p, spec1, None)))]
  {
    var r1 := TaskAt(guard, Batch([]), p, Some(spec1), files);
    assert Get(Batch([]), p) == None;
    Registers(guard, Batch([]), p, Some(spec1), files);
    assert ParentTask(guard, Batch([]), p, files) == Ok((Batch([]), None));
    assert Batch([]).tasks + [Task(p, spec1, None)] == [Task(p, spec1, None)];
    assert r1 == Ok((Batch([Task(p, spec1, None)]), Some(Task(p, spec1, None))));
    var b1 := r1.value.0;
    assert Get(b1, p) == Some(Task(p, spec1, None));
    assert child != p by { assert |child.parts| != |p.parts|; }
    assert Get(b1, child).None?;
    assert ParentTask(guard, b1, child, files) == Ok((b1, Some(Task(p, spec1, None))));
    Registers(guard, b1, child, Some(spec2), files);
  }
}

=== FILE: cli.dfy ===
/** The console front end (repype/cli.py): elapsed-time text, the progress
    bar, the one-line messages shown for status updates, line clearing, and
    the choice of the pending tasks to run. */
module Console {
  import opened Base
  import opened Values
  import opened Paths

  // ---------------------------------------------------------------------
  // Elapsed time as [H:]MM:SS
  // ---------------------------------------------------------------------

  /** `f'{n:02d}'` for a number below one hundred. */
  function Pad2(n: nat): (r: string)
    requires n < 100
    ensures |r| == 2 && AllDigits(r) && DigitsValue(r) == n
  {
    var r := [DigitChar(n / 10), DigitChar(n % 10)];
    assert r[..1] == [DigitChar(n / 10)] && r[..1][..0] == [];
    assert DigitsValue(r[..1]) == n / 10;
    r
  }

  /** `format_hms` of a whole number of seconds (rounding happens before). */
  function FormatHms(seconds: int): (r: string)
    ensures 0 <= seconds < 3600 ==> |r| == 5 && r[2] == ':' && ':' !in r[..2] + r[3..]
    ensures seconds >= 3600 ==> |Split(r, ':')| == 3
  {
    HmsText(seconds / 3600, (seconds % 3600) / 60, seconds % 60)
  }

  /** The text for given hours, minutes and seconds: the hours are left out
      when there are none. */
  function HmsText(h: int, m: nat, s: nat): (r: string)
    requires m < 60 && s < 60
    ensures h == 0 ==> |r| == 5 && r[2] == ':' && ':' !in r[..2] + r[3..]
    ensures h > 0 ==> |Split(r, ':')| == 3
  {
    MinutesSecondsSplit(m, s);
    if h == 0 then Pad2(m) + ":" + Pad2(s)
    else
      assert h > 0 ==> |Split(IntToString(h) + ":" + (Pad2(m) + ":" + Pad2(s)), ':')| == 3 by {
        if h > 0 {
          HoursSplit(h, m, s);
        }
      }
      IntToString(h) + ":" + (Pad2(m) + ":" + Pad2(s))
  }

  lemma DigitsLack(s: string, c: char)
    requires AllDigits(s) && !IsDigit(c)
    ensures c !in s
  {
    forall i | 0 <= i < |s|
      ensures s[i] != c
    {
      assert IsDigit(s[i]);
    }
  }

  /** Two digits naming a minute or second. */
  predicate Sexagesimal(x: string) {
    |x| == 2 && AllDigits(x) && DigitsValue(x) < 60
  }

  /** Reading `[H:]MM:SS` back as a number of seconds. */
  function ParseHms(text: string): Option<int> {
    var f := Split(text, ':');
    if |f| == 2 && Sexagesimal(f[0]) && Sexagesimal(f[1]) then
      Some(DigitsValue(f[0]) * 60 + DigitsValue(f[1]))
    else if |f| == 3 && |f[0]| > 0 && AllDigits(f[0]) && Sexagesimal(f[1]) && Sexagesimal(f[2]) then
      Some(DigitsValue(f[0]) * 3600 + DigitsValue(f[1]) * 60 + DigitsValue(f[2]))
    else None
  }

  /** Every non-negative duration is printed in a form that reads back as
      the same number of seconds. */
  lemma HmsRoundTrip(seconds: nat)
    ensures ParseHms(FormatHms(seconds)) == Some(seconds)
  {
    HmsParts(seconds);
    HmsTextRead(seconds / 3600, (seconds % 3600) / 60, seconds % 60);
  }

  lemma HmsTextRead(h: nat, m: nat, s: nat)
    requires m < 60 && s < 60
    ensures ParseHms(HmsText(h, m, s)) == Some(h * 3600 + m * 60 + s)
  {
    if h == 0 {
      MinutesSecondsRead(m, s);
    } else {
      HoursRead(h, m, s);
    }
  }

  /** Hours, minutes and seconds recombine to the total. */
  lemma HmsParts(seconds: nat)
    ensures (seconds % 3600) / 60 < 60 && seconds % 60 < 60
    ensures seconds == (seconds / 3600) * 3600 + ((seconds % 3600) / 60) * 60 + seconds % 60
  {
    var r := seconds % 3600;
    assert seconds == (seconds / 3600) * 3600 + r;
    assert r == (r / 60) * 60 + r % 60;
    assert r % 60 == seconds % 60 by {
      assert seconds == (seconds / 3600) * 60 * 60 + r;
    }
  }

  lemma MinutesSecondsRead(m: nat, s: nat)
    requires m < 60 && s < 60
    ensures ParseHms(Pad2(m) + ":" + Pad2(s)) == Some(m * 60 + s)
  {
    MinutesSecondsSplit(m, s);
  }

  lemma HoursRead(h: nat, m: nat, s: nat)
    requires 0 < h && m < 60 && s < 60
    ensures ParseHms(IntToString(h) + ":" + (Pad2(m) + ":" + Pad2(s))) == Some(h * 3600 + m * 60 + s)
  {
    HoursSplit(h, m, s);
    MinutesSecondsSplit(m, s);
  }

  lemma MinutesSecondsSplit(m: nat, s: nat)
    requires m < 60 && s < 60
    ensures Split(Pad2(m) + ":" + Pad2(s), ':') == [Pad2(m), Pad2(s)]
    ensures Sexagesimal(Pad2(m)) && Sexagesimal(Pad2(s))
  {
    DigitsLack(Pad2(m), ':');
    DigitsLack(Pad2(s), ':');
    SplitPrefix(Pad2(m), Pad2(s), ':');
  }

  lemma HoursSplit(h: nat, m: nat, s: nat)
    requires 0 < h && m < 60 && s < 60
    ensures Split(IntToString(h) + ":" + (Pad2(m) + ":" + Pad2(s)), ':') == [NatToString(h), Pad2(m), Pad2(s)]
    ensures |NatToString(h)| > 0 && AllDigits(NatToString(h)) && DigitsValue(NatToString(h)) == h
  {
    MinutesSecondsSplit(m, s);
    NatToStringDigits(h);
    NatToStringValue(h);
    DigitsLack(NatToString(h), ':');
    SplitPrefix(NatToString(h), Pad2(m) + ":" + Pad2(s), ':');
  }

  // ---------------------------------------------------------------------
  // The progress bar
  // ---------------------------------------------------------------------

  const BarLength := 20

  /** Python's `a // b`, which rounds toward negative infinity. */
  function FloorDiv(a: int, b: int): (q: int)
    requires b != 0
    ensures b > 0 ==> q * b <= a < q * b + b
    ensures b < 0 ==> q * b >= a > q * b + b
  {
    if b > 0 then a / b else (-a) / (-b)
  }

  /** How often `s * n` repeats `s`: never for a negative `n`. */
  function Times(n: int): nat {
    if n < 0 then 0 else n
  }

  /** The 20 characters between the brackets: `(20 * step) // max_steps`
      equals signs, padded with blanks. */
  function ProgressBar(step: int, maxSteps: int): (r: Result<string>)
    ensures r.Err? <==> maxSteps == 0
    ensures r.Err? ==> r.exc == ZeroDivisionError
    ensures r.Ok? ==> forall j :: 0 <= j < |r.value| ==> r.value[j] in "= "
    ensures r.Ok? && 0 <= step <= maxSteps ==> |r.value| == BarLength
    ensures r.Ok? && 0 <= step <= maxSteps ==>
      forall j :: 0 <= j < BarLength ==> (r.value[j] == '=' <==> (j + 1) * maxSteps <= BarLength * step)
  {
    if maxSteps == 0 then Err(ZeroDivisionError)
    else
      var filled := Repeat('=', Times(FloorDiv(BarLength * step, maxSteps)));
      var bar := filled + Repeat(' ', Times(BarLength - |filled|));
      assert 0 <= step <= maxSteps ==> FloorDiv(BarLength * step, maxSteps) <= BarLength by {
        if 0 <= step <= maxSteps {
          FloorDivBelow(BarLength * step, maxSteps, BarLength + 1);
        }
      }
      assert 0 <= step <= maxSteps ==> forall j :: 0 <= j < BarLength ==> (bar[j] == '=' <==> (j + 1) * maxSteps <= BarLength * step) by {
        if 0 <= step <= maxSteps {
          forall j | 0 <= j < BarLength
            ensures bar[j] == '=' <==> (j + 1) * maxSteps <= BarLength * step
          {
            FloorDivBelow(BarLength * step, maxSteps, j + 1);
          }
        }
      }
      Ok(bar)
  }

  /** For a positive divisor, `k <= a // b` exactly when `k * b <= a`. */
  lemma FloorDivBelow(a: int, b: int, k: int)
    requires b > 0
    ensures k <= FloorDiv(a, b) <==> k * b <= a
  {
    var q := FloorDiv(a, b);
    if k <= q {
      assert k * b <= q * b by { MulMono(k, q, b); }
    } else {
      assert (q + 1) * b <= k * b by { MulMono(q + 1, k, b); }
    }
  }

  lemma MulMono(x: int, y: int, b: int)
    requires x <= y && b > 0
    ensures x * b <= y * b
  {
    assert y * b - x * b == (y - x) * b;
  }

  /** More steps done never shortens the bar, and the last step fills it. */
  lemma ProgressBarGrows(step1: int, step2: int, maxSteps: int)
    requires 0 <= step1 <= step2 <= maxSteps && maxSteps > 0
    ensures forall j :: 0 <= j < BarLength && ProgressBar(step1, maxSteps).value[j] == '=' ==>
      ProgressBar(step2, maxSteps).value[j] == '='
    ensures ProgressBar(maxSteps, maxSteps).value == Repeat('=', BarLength)
    ensures ProgressBar(0, maxSteps).value == Repeat(' ', BarLength)
  {
    assert BarLength * step1 <= BarLength * step2;
    var full := ProgressBar(maxSteps, maxSteps).value;
    forall j | 0 <= j < BarLength
      ensures full[j] == '='
    {
      MulMono(j + 1, BarLength, maxSteps);
    }
    var empty := ProgressBar(0, maxSteps).value;
    forall j | 0 <= j < BarLength
      ensures empty[j] == ' '
    {
      assert (j + 1) * maxSteps > 0 by { MulMono(1, j + 1, maxSteps); }
    }
  }

  // ---------------------------------------------------------------------
  // Clearing the intermediate line
  // ---------------------------------------------------------------------

  /** `line.replace('\n', ' ')`. */
  function Flatten(line: string): (r: string)
    ensures |r| == |line| && '\n' !in r
    ensures forall i :: 0 <= i < |line| ==> r[i] == (if line[i] == '\n' then ' ' else line[i])
  {
    if |line| == 0 then "" else [if line[0] == '\n' then ' ' else line[0]] + Flatten(line[1..])
  }

  /** `clear_line`: the line on one row, padded with blanks so that it
      covers the `width` characters of the intermediate line before it. */
  function ClearLine(line: string, width: nat): (r: string)
    ensures |r| == if |line| < width then width else |line|
    ensures '\n' !in r
    ensures forall i :: 0 <= i < |line| ==> r[i] == (if line[i] == '\n' then ' ' else line[i])
    ensures forall i :: |line| <= i < |r| ==> r[i] == ' '
  {
    Flatten(line) + Repeat(' ', Times(width - |line|))
  }

  /** Clearing twice changes nothing more. */
  lemma ClearLineIdempotent(line: string, width: nat)
    ensures ClearLine(ClearLine(line, width), width) == ClearLine(line, width)
  {
    var once := ClearLine(line, width);
    var twice := ClearLine(once, width);
    assert |twice| == |once|;
    forall i | 0 <= i < |once|
      ensures twice[i] == once[i]
    {
    }
  }

  // ---------------------------------------------------------------------
  // Messages for status updates
  // ---------------------------------------------------------------------

  /** What `format` turns a status into: a line of text, the status itself,
      or a progress line (details, bar, and the percentage and time estimate
      that are not modelled). */
  datatype Line =
    | Text(text: string)
    | Unchanged(status: Value)
    | ProgressLine(details: Option<string>, bar: string)

  /** `str(v)` as an f-string prints it. */
  function Str(v: Value): string {
    if v.VStr? then v.s else Repr(v)
  }

  /** `status[key]`. */
  function Get(e: Entries, key: string): (r: Result<Value>)
    ensures r.Ok? <==> HasKey(e, key)
    ensures r.Err? ==> r.exc == KeyError
    ensures r.Ok? ==> Lookup(e, key) == Some(r.value)
  {
    match Lookup(e, key)
    case Some(v) => Ok(v)
    case None => Err(KeyError)
  }

  /** A number for arithmetic; anything else raises `TypeError`. */
  function Number(v: Value): (r: Result<int>)
    ensures r.Ok? <==> v.VInt? || v.VBool?
  {
    match NumberOf(v)
    case Some(n) => Ok(n)
    case None => Err(TypeError)
  }

  /** `len(v)`. */
  function Length(v: Value): (r: Result<nat>)
    ensures r.Ok? <==> v.VStr? || v.VList? || v.VMap?
  {
    match v
    case VStr(s) => Ok(|s|)
    case VList(xs) => Ok(|xs|)
    case VMap(e) => Ok(|e|)
    case _ => Err(TypeError)
  }

  const Selected := " task(s) selected for running"
  const DryRun := "DRY RUN: use \"--run\"" + " to run the tasks instead"

  function BatchText(e: Entries): Result<string> {
    var batch :- Get(e, "batch");
    var n :- Length(batch);
    var run :- Get(e, "run");
    Ok("\n" + NatToString(n) + Selected + (if Truthy(run) then "" else "\n" + DryRun))
  }

  /** `(step + 1/step_count) <verb>: <item>`, as for `enter` and `process`. */
  function Counter(e: Entries, verb: string, key: string): Result<string> {
    var step :- Get(e, "step");
    var next :- Number(step);
    var count :- Get(e, "step_count");
    var item :- Get(e, key);
    Ok("(" + IntToString(next + 1) + "/" + Str(count) + ") " + verb + ": " + Str(item))
  }

  function StartText(e: Entries): Result<string> {
    var pickup :- Get(e, "pickup");
    var resumed :- if Truthy(pickup) then Ok(true) else var first :- Get(e, "first_stage"); Ok(Truthy(first));
    if resumed then
      var first :- Get(e, "first_stage");
      Ok("Picking up from: " + Str(pickup) + " (" + (if Truthy(first) then Str(first) else "copy") + ")")
    else Ok("Starting from scratch")
  }

  /** `'-' * 80`, the rule around a traceback. */
  const Rule := Dashes40 + Dashes40
  const Dashes40 := "----------------------------------------"
  const ErrorHead := "\n\U{1F534} An error occurred while processing"

  /** The stage part of the error message: as the source writes it, the
      quote before the stage name is never closed. */
  datatype Quoting = AsWritten | Intended

  function StagePart(q: Quoting, stage: Value): string {
    if q == AsWritten then "the stage " + "\"" + Str(stage) + " of" else "the stage " + "\"" + Str(stage) + "\"" + " of"
  }

  function ErrorText(e: Entries, q: Quoting): Result<string> {
    var stage := Lookup(e, "stage");
    var parts := [ErrorHead] + (if stage.Some? && stage.value != VNone then [StagePart(q, stage.value)] else []);
    var task :- Get(e, "task");
    var traceback :- Get(e, "traceback");
    if traceback.VStr? then
      Ok(Join(parts + ["the task " + Str(task) + ":\n"], " ") + (Rule + "\n" + traceback.s + Rule))
    else Err(TypeError)
  }

  /** The `info` values `format` has a message for. */
  predicate KnownInfo(e: Entries) {
    match Lookup(e, "info")
    case Some(VStr(info)) =>
      info in {"batch", "enter", "start", "process", "start-stage", "storing", "completed", "error", "interrupted", "progress"}
    case _ => false
  }

  /** The state `format` keeps between calls: whether a progress run has
      recorded its start time (`progress_t0`), which every later step of
      the run divides by. */
  datatype Adapter = Adapter(timed: bool)

  /** `status.get('step') == 0`: the status starts a progress run. */
  predicate StartsRun(e: Entries) {
    NumberOf(LookupOr(e, "step")) == Some(0)
  }

  /** A `progress` status: a first step records the start time; a later
      step before any first one finds no start time and raises
      AttributeError before anything else is looked at. */
  function ProgressOf(a: Adapter, e: Entries): (r: (Adapter, Result<Line>))
    ensures r.0.timed <==> a.timed || StartsRun(e)
    ensures r.1 == Err(AttributeError) <==> !a.timed && !StartsRun(e)
  {
    var a' := Adapter(a.timed || StartsRun(e));
    if !a'.timed then (a', Err(AttributeError))
    else (a', ProgressLineOf(e))
  }

  function ProgressLineOf(e: Entries): Result<Line> {
    var step :- Number(LookupOr(e, "step"));
    var maxSteps :- Number(LookupOr(e, "max_steps"));
    var bar :- ProgressBar(step, maxSteps);
    var details := LookupOr(e, "details");
    Ok(ProgressLine(if Truthy(details) then Some(Str(details)) else None, bar))
  }

  /** `status.get(key)`. */
  function LookupOr(e: Entries, key: string): Value {
    match Lookup(e, key)
    case Some(v) => v
    case None => VNone
  }

  function TextOf(r: Result<string>): Result<Line> {
    var t :- r;
    Ok(Text(t))
  }

  /** A `progress` status. */
  predicate IsProgress(status: Value) {
    status.VMap? && Lookup(status.entries, "info") == Some(VStr("progress"))
  }

  /** `StatusReaderConsoleAdapter.format` on an adapter in state `a`, with
      the stage quote of the error message as written or closed. Only a
      progress status changes the state; a progress step that is not the
      first, before any first one, raises AttributeError. */
  function Format(a: Adapter, status: Value, q: Quoting): (r: (Adapter, Result<Line>))
    ensures !status.VMap? ==> r == (a, Ok(Unchanged(status)))
    ensures status.VMap? ==> (r.1 == Ok(Unchanged(status)) <==> !KnownInfo(status.entries))
    ensures r.1.Ok? && r.1.value.Text? ==> |r.1.value.text| > 0
    ensures r.0.timed <==> a.timed || (IsProgress(status) && StartsRun(status.entries))
    ensures IsProgress(status) && !a.timed && !StartsRun(status.entries) ==> r.1 == Err(AttributeError)
  {
    if !status.VMap? then (a, Ok(Unchanged(status)))
    else if IsProgress(status) then ProgressOf(a, status.entries)
    else (a, FormatOther(status, q))
  }

  /** The messages other than `progress`, which keep no state. */
  function FormatOther(status: Value, q: Quoting): (r: Result<Line>)
    requires status.VMap? && !IsProgress(status)
    ensures r == Ok(Unchanged(status)) <==> !KnownInfo(status.entries)
    ensures r.Ok? && r.value.Text? ==> |r.value.text| > 0
  {
      var e := status.entries;
      match Lookup(e, "info")
      case Some(VStr(info)) =>
        if info == "batch" then TextOf(BatchText(e))
        else if info == "enter" then TextOf(var t :- Counter(e, "Entering task", "task"); Ok("\n" + t))
        else if info == "start" then TextOf(StartText(e))
        else if info == "process" then TextOf(Counter(e, "Processing input", "input"))
        else if info == "start-stage" then TextOf(var stage :- Get(e, "stage"); Ok("Starting stage: " + Str(stage)))
        else if info == "storing" then Ok(Text("Storing results..."))
        else if info == "completed" then Ok(Text("Results have been stored \U{2705}"))
        else if info == "error" then TextOf(ErrorText(e, q))
        else if info == "interrupted" then Ok(Text("\U{1F534} Batch run interrupted"))
        else Ok(Unchanged(status))
      case _ => Ok(Unchanged(status))
  }

  /** The message for the start of a run: how many tasks were selected,
      and a note when it is a dry run. */
  lemma BatchLines(e: Entries, items: seq<Value>, run: Value)
    requires Lookup(e, "batch") == Some(VList(items)) && Lookup(e, "run") == Some(run)
    ensures BatchText(e).Ok?
    ensures Split(BatchText(e).value, '\n')
      == ["", NatToString(|items|) + Selected] + (if Truthy(run) then [] else [DryRun])
  {
    NatToStringDigits(|items|);
    DigitsLack(NatToString(|items|), '\n');
    BatchTextValue(e, items, run);
    DryRunOneLine();
    NoteLines(NatToString(|items|) + Selected, DryRun, Truthy(run));
  }

  lemma BatchTextValue(e: Entries, items: seq<Value>, run: Value)
    requires Lookup(e, "batch") == Some(VList(items)) && Lookup(e, "run") == Some(run)
    ensures BatchText(e)
      == Ok("\n" + (NatToString(|items|) + Selected + (if Truthy(run) then "" else "\n" + DryRun)))
  {
    var note := if Truthy(run) then "" else "\n" + DryRun;
    assert BatchText(e) == Ok("\n" + NatToString(|items|) + Selected + note);
    ConcatAssoc3("\n", NatToString(|items|), Selected, note);
  }

  /** The lines of `'\n' + count` with a one-line note unless `run`. */
  lemma NoteLines(count: string, note: string, run: bool)
    requires '\n' !in count && '\n' !in note
    ensures Split("\n" + (count + (if run then "" else "\n" + note)), '\n')
      == ["", count] + (if run then [] else [note])
  {
    if run {
      assert count + "" == count;
      SplitLead(count, '\n');
    } else {
      TwoLines(count, note);
    }
  }

  lemma DryRunOneLine()
    ensures '\n' !in DryRun
  {
  }

  lemma TwoLines(first: string, second: string)
    requires '\n' !in first && '\n' !in second
    ensures Split("\n" + (first + ("\n" + second)), '\n') == ["", first, second]
  {
    SplitLead(first + ("\n" + second), '\n');
    ConcatAssoc(first, ['\n'], second);
    SplitPrefix(first, second, '\n');
  }

  lemma SplitLead(tail: string, c: char)
    ensures Split([c] + tail, c) == [""] + Split(tail, c)
  {
    assert ([c] + tail)[1..] == tail;
  }

  lemma BatchMessage(a: Adapter, q: Quoting, e: Entries, items: seq<Value>, run: Value)
    requires Lookup(e, "info") == Some(VStr("batch"))
    requires Lookup(e, "batch") == Some(VList(items)) && Lookup(e, "run") == Some(run)
    ensures Format(a, VMap(e), q) == (a, Ok(Text(BatchText(e).value)))
    ensures Split(Format(a, VMap(e), q).1.value.text, '\n')
      == ["", NatToString(|items|) + Selected] + (if Truthy(run) then [] else [DryRun])
    ensures DigitsValue(NatToString(|items|)) == |items|
  {
    BatchLines(e, items, run);
    NatToStringValue(|items|);
  }

  /** A run that resumes names where it picks up and the first stage it
      runs, or `copy` when it only copies earlier results. */
  lemma StartLines(e: Entries, pickup: Value, first: Value)
    requires Lookup(e, "pickup") == Some(pickup) && Lookup(e, "first_stage") == Some(first)
    ensures StartText(e).Ok?
    ensures !Truthy(pickup) && !Truthy(first) <==> StartText(e).value == "Starting from scratch"
    ensures Truthy(pickup) && !Truthy(first) ==> StartText(e).value == "Picking up from: " + Str(pickup) + " (copy)"
    ensures Truthy(first) ==> StartText(e).value == "Picking up from: " + Str(pickup) + " (" + Str(first) + ")"
  {
    if Truthy(pickup) || Truthy(first) {
      var t := StartText(e).value;
      assert t[0] == 'P';
      assert "Starting from scratch"[0] == 'S';
    }
  }

  /** A missing key of a known message raises `KeyError`, in the order the
      source reads the keys. */
  lemma MissingKeys(a: Adapter, q: Quoting, e: Entries)
    ensures Lookup(e, "info") == Some(VStr("batch")) && !HasKey(e, "batch") ==> Format(a, VMap(e), q).1 == Err(KeyError)
    ensures Lookup(e, "info") == Some(VStr("enter")) && !HasKey(e, "step") ==> Format(a, VMap(e), q).1 == Err(KeyError)
    ensures Lookup(e, "info") == Some(VStr("start")) && !HasKey(e, "pickup") ==> Format(a, VMap(e), q).1 == Err(KeyError)
    ensures Lookup(e, "info") == Some(VStr("error")) && !HasKey(e, "task") ==> Format(a, VMap(e), q).1 == Err(KeyError)
    ensures Lookup(e, "info") == Some(VStr("start-stage")) && !HasKey(e, "stage") ==> Format(a, VMap(e), q).1 == Err(KeyError)
  {
  }

  // ---------------------------------------------------------------------
  // The stage name in the error message
  // ---------------------------------------------------------------------

  /** The text between the first pair of double quotes, if there is one. */
  function Quoted(text: string): Option<string> {
    var f := Split(text, '"');
    if |f| >= 3 then Some(f[1]) else None
  }

  /** The error status the batch run writes for a failing stage. */
  predicate StageFailure(e: Entries, stage: string, task: string, traceback: string) {
    && Lookup(e, "info") == Some(VStr("error"))
    && Lookup(e, "stage") == Some(VStr(stage))
    && Lookup(e, "task") == Some(VStr(task))
    && Lookup(e, "traceback") == Some(VStr(traceback))
    && '"' !in stage + task + traceback
  }

  lemma ErrorTextShape(e: Entries, q: Quoting, stage: string, task: string, traceback: string)
    requires StageFailure(e, stage, task, traceback)
    ensures ErrorText(e, q).Ok?
    ensures ErrorText(e, q).value
      == ErrorHead + " " + (StagePart(q, VStr(stage)) + " " + ("the task " + task + ":\n")) + (Rule + "\n" + traceback + Rule)
  {
    var parts := [ErrorHead, StagePart(q, VStr(stage)), "the task " + task + ":\n"];
    assert Get(e, "task") == Ok(VStr(task)) && Get(e, "traceback") == Ok(VStr(traceback));
    assert [ErrorHead] + [StagePart(q, VStr(stage))] + ["the task " + task + ":\n"] == parts;
    assert ErrorText(e, q) == Ok(Join(parts, " ") + (Rule + "\n" + traceback + Rule));
    assert parts[1..] == [StagePart(q, VStr(stage)), "the task " + task + ":\n"];
    assert parts[1..][1..] == ["the task " + task + ":\n"];
    assert Join(parts[1..], " ") == StagePart(q, VStr(stage)) + " " + ("the task " + task + ":\n");
  }

  lemma Regroup<X>(h: seq<X>, sp: seq<X>, ts: seq<X>, q: seq<X>, name: seq<X>, of: seq<X>, tp: seq<X>, r: seq<X>)
    ensures h + sp + ((ts + q + name + of) + sp + tp) + r == (h + sp + ts) + q + (name + of + sp + tp + r)
  {
  }

  lemma RegroupClosed<X>(h: seq<X>, sp: seq<X>, ts: seq<X>, q: seq<X>, name: seq<X>, of: seq<X>, tp: seq<X>, r: seq<X>)
    ensures h + sp + ((ts + q + name + q + of) + sp + tp) + r == (h + sp + ts) + q + (name + q + (of + sp + tp + r))
  {
  }

  /** As written, the message opens a quote before the stage name and never
      closes it, so no quoted name can be read out of it. */
  lemma StageQuoteUnclosed(a: Adapter, e: Entries, stage: string, task: string, traceback: string)
    requires StageFailure(e, stage, task, traceback)
    ensures Format(a, VMap(e), AsWritten).1.Ok? && Format(a, VMap(e), AsWritten).1.value.Text?
    ensures Quoted(Format(a, VMap(e), AsWritten).1.value.text) == None
  {
    FormatError(a, e, AsWritten);
    ErrorTextShape(e, AsWritten, stage, task, traceback);
    var tp, r := "the task " + task + ":\n", Rule + "\n" + traceback + Rule;
    Regroup(ErrorHead, " ", "the stage ", "\"", stage, " of", tp, r);
    Unquoted();
    QuotedNone(ErrorHead + " " + "the stage ", stage + " of" + " " + tp + r);
  }

  /** An `error` status is formatted by `ErrorText` and keeps the adapter. */
  lemma FormatError(a: Adapter, e: Entries, q: Quoting)
    requires Lookup(e, "info") == Some(VStr("error"))
    ensures Format(a, VMap(e), q) == (a, TextOf(ErrorText(e, q)))
  {
  }

  /** The fixed parts of the error message hold no double quote. */
  lemma Unquoted()
    ensures '"' !in ErrorHead + " " + "the stage "
    ensures '"' !in Rule
  {
    RuleUnquoted();
  }

  lemma RuleUnquoted()
    ensures '"' !in Rule
  {
    assert '"' !in Dashes40;
  }

  lemma QuotedNone(head: string, tail: string)
    requires '"' !in head && '"' !in tail
    ensures Quoted(head + "\"" + tail) == None
  {
    SplitPrefix(head, tail, '"');
  }

  /** With the quote closed, the quoted text is exactly the stage name. */
  lemma StageQuoteClosed(e: Entries, stage: string, task: string, traceback: string)
    requires StageFailure(e, stage, task, traceback)
    ensures Quoted(ErrorText(e, Intended).value) == Some(stage)
  {
    ErrorTextShape(e, Intended, stage, task, traceback);
    var tp, r := "the task " + task + ":\n", Rule + "\n" + traceback + Rule;
    RegroupClosed(ErrorHead, " ", "the stage ", "\"", stage, " of", tp, r);
    Unquoted();
    QuotedName(ErrorHead + " " + "the stage ", stage, " of" + " " + tp + r);
  }

  lemma QuotedName(head: string, name: string, tail: string)
    requires '"' !in head && '"' !in name && '"' !in tail
    ensures Quoted(head + "\"" + (name + "\"" + tail)) == Some(name)
  {
    SplitPrefix(head, name + "\"" + tail, '"');
    SplitPrefix(name, tail, '"');
  }

  /** The message `format` prints for a failed stage names the stage
      between quotes. */
  lemma FailureNamesStage(a: Adapter, e: Entries, stage: string, task: string, traceback: string)
    requires StageFailure(e, stage, task, traceback)
    ensures Format(a, VMap(e), Intended).1.Ok? && Format(a, VMap(e), Intended).1.value.Text?
    ensures Quoted(Format(a, VMap(e), Intended).1.value.text) == Some(stage)
  {
    FormatError(a, e, Intended);
    StageQuoteClosed(e, stage, task, traceback);
  }

  /** A progress status with whole step counts, at the first step or once
      the start time is recorded, shows a bar of 20 characters whose filled
      part grows with the step, and leaves the start time recorded. */
  lemma ProgressMessage(a: Adapter, q: Quoting, e: Entries, step: int, maxSteps: int)
    requires Lookup(e, "info") == Some(VStr("progress"))
    requires Lookup(e, "step") == Some(VInt(step)) && Lookup(e, "max_steps") == Some(VInt(maxSteps))
    requires 0 <= step <= maxSteps && maxSteps > 0
    requires a.timed || step == 0
    ensures Format(a, VMap(e), q).0.timed
    ensures Format(a, VMap(e), q).1.Ok? && Format(a, VMap(e), q).1.value.ProgressLine?
    ensures Format(a, VMap(e), q).1.value.bar == ProgressBar(step, maxSteps).value
    ensures |Format(a, VMap(e), q).1.value.bar| == BarLength
    ensures Format(a, VMap(e), q).1.value.details.None? <==> !HasKey(e, "details") || !Truthy(LookupOr(e, "details"))
  {
  }

  /** A progress status with `max_steps` 0 raises `ZeroDivisionError` once
      the start time is known; a first step records it all the same. */
  lemma ProgressWithoutSteps(a: Adapter, q: Quoting, e: Entries, step: int)
    requires Lookup(e, "info") == Some(VStr("progress"))
    requires Lookup(e, "step") == Some(VInt(step)) && Lookup(e, "max_steps") == Some(VInt(0))
    requires a.timed || step == 0
    ensures Format(a, VMap(e), q) == (Adapter(true), Err(ZeroDivisionError))
  {
  }

  /** A progress step other than the first, before any first step, finds no
      start time and raises `AttributeError`, whatever else it holds. */
  lemma ProgressUntimed(q: Quoting, e: Entries, step: int)
    requires Lookup(e, "info") == Some(VStr("progress"))
    requires Lookup(e, "step") == Some(VInt(step)) && step != 0
    ensures Format(Adapter(false), VMap(e), q) == (Adapter(false), Err(AttributeError))
  {
  }

  /** A fresh adapter shows a run that starts at step 0: the first status
      records the start time, so the later one shows its bar. */
  lemma ProgressRun(q: Quoting, first: Entries, later: Entries, step: int, maxSteps: int)
    requires Lookup(first, "info") == Some(VStr("progress")) && Lookup(later, "info") == Some(VStr("progress"))
    requires Lookup(first, "step") == Some(VInt(0)) && Lookup(first, "max_steps") == Some(VInt(maxSteps))
    requires Lookup(later, "step") == Some(VInt(step)) && Lookup(later, "max_steps") == Some(VInt(maxSteps))
    requires 0 < step <= maxSteps
    ensures var (a1, r1) := Format(Adapter(false), VMap(first), q);
            r1.Ok? && r1.value.ProgressLine? && Format(a1, VMap(later), q).1.Ok? &&
            Format(a1, VMap(later), q).1.value.bar == ProgressBar(step, maxSteps).value
  {
    ProgressMessage(Adapter(false), q, first, 0, maxSteps);
    ProgressMessage(Format(Adapter(false), VMap(first), q).0, q, later, step, maxSteps);
  }

  // ---------------------------------------------------------------------
  // Choosing the tasks to run
  // ---------------------------------------------------------------------

  /** `d` lies strictly above `p`. */
  predicate StrictAncestor(d: Path, p: Path) {
    d.absolute == p.absolute && |d.parts| < |p.parts| && d.parts == p.parts[..|d.parts|]
  }

  /** `p.parents`, nearest first. */
  function PathParents(p: Path): (r: seq<Path>)
    ensures |r| == |p.parts|
    ensures forall k :: 0 <= k < |r| ==> |r[k].parts| == |p.parts| - 1 - k
    ensures forall d :: d in r <==> StrictAncestor(d, p)
  {
    var r := seq(|p.parts|, k requires 0 <= k < |p.parts| => Path(p.absolute, p.parts[..|p.parts| - 1 - k]));
    assert forall d :: StrictAncestor(d, p) ==> r[|p.parts| - 1 - |d.parts|] == d;
    r
  }

  /** The test `run_cli_ex` applies to a pending task's path. */
  predicate Chosen(path: Path, tasks: seq<Path>, dirs: seq<Path>) {
    path in tasks || exists d :: d in dirs && d in PathParents(path)
  }

  /** The pending contexts that run: all of them without `--task` and
      `--task-dir`, otherwise those named or lying below a named directory,
      in their original order. */
  function SelectContexts<C(==,!new)>(pending: seq<C>, pathOf: C -> Path, tasks: seq<Path>, dirs: seq<Path>): (r: seq<C>)
    ensures |tasks| == 0 && |dirs| == 0 ==> r == pending
    ensures forall x :: x in r <==>
      x in pending && ((|tasks| == 0 && |dirs| == 0) || pathOf(x) in tasks || exists d :: d in dirs && StrictAncestor(d, pathOf(x)))
    ensures exists idx :: Embeds(r, pending, idx)
  {
    if |tasks| > 0 || |dirs| > 0 then
      var idx := Kept(pending, c => Chosen(pathOf(c), tasks, dirs));
      var r := Select(pending, idx);
      assert Embeds(r, pending, idx);
      r
    else
      assert Embeds(pending, pending, seq(|pending|, k => k));
      pending
  }

  /** `r` is `xs` with some items left out: item k of `r` is item `idx[k]`
      of `xs`, and the positions increase. */
  predicate Embeds<T(==)>(r: seq<T>, xs: seq<T>, idx: seq<nat>) {
    && |idx| == |r|
    && (forall k :: 0 <= k < |idx| ==> idx[k] < |xs| && r[k] == xs[idx[k]])
    && (forall k, l :: 0 <= k < l < |idx| ==> idx[k] < idx[l])
  }
}

=== FILE: config.dfy ===
/** The hyperparameter store (`Config`): nested dicts addressed by path keys
    such as `stage1/sub/param1`, one dict level per `/`-separated segment.

    A store is the association list of its top-level dict. Python mutates the
    store in place; here every mutating operation returns the new store
    together with the value Python returns. */
module Config {
  import opened Base
  import opened Values
  import Json

  /** `key.split('/')`: the segments of a path key. */
  function PathOf(key: string): (keys: seq<string>)
    ensures |keys| >= 1
    ensures '/' !in key ==> keys == [key]
  {
    Split(key, '/')
  }

  /** All segments but the last: the levels walked before the leaf operation. */
  function Levels(keys: seq<string>): seq<string>
    requires |keys| >= 1
  {
    keys[..|keys| - 1]
  }

  function Leaf(keys: seq<string>): string
    requires |keys| >= 1
  {
    keys[|keys| - 1]
  }

  lemma LevelsLeaf(keys: seq<string>)
    requires |keys| >= 1
    ensures keys == Levels(keys) + [Leaf(keys)]
  {
  }

  // ---------------------------------------------------------------------
  // Walking a path
  // ---------------------------------------------------------------------

  /** The dict held under `k`, or a fresh one. */
  function Sub(c: Entries, k: string): Entries {
    match Lookup(c, k)
    case Some(VMap(e)) => e
    case _ => []
  }

  /** The walk `config = config.get(k, {})` (or `config.set_default(k, {},
      override_none)` when `replaceNone`) over `path`: a missing level, or a
      None level when `replaceNone`, continues as a fresh dict; any other
      non-dict value has no such method and raises AttributeError.
      Yields the dict reached. */
  function Level(c: Entries, path: seq<string>, replaceNone: bool): (r: Result<Entries>)
    ensures r.Err? ==> r.exc == AttributeError
    decreases |path|
  {
    if |path| == 0 then Ok(c)
    else match Lookup(c, path[0])
      case None => Level([], path[1..], replaceNone)
      case Some(VMap(e)) => Level(e, path[1..], replaceNone)
      case Some(VNone) => if replaceNone then Level([], path[1..], replaceNone) else Err(AttributeError)
      case Some(_) => Err(AttributeError)
  }

  /** Puts `inner` back as the dict at `path`, so that the levels created or
      replaced by the walk become part of the store: an existing key keeps its
      position and a new one is appended. */
  function Graft(c: Entries, path: seq<string>, inner: Entries): Entries
    decreases |path|
  {
    if |path| == 0 then inner
    else Put(c, path[0], VMap(Graft(Sub(c, path[0]), path[1..], inner)))
  }

  /** The walk `config = config[k]` of `__getitem__` over the whole path: a
      missing key raises KeyError, indexing a non-dict raises TypeError. */
  function Find(c: Entries, keys: seq<string>): (r: Result<Value>)
    requires |keys| >= 1
    ensures r.Err? ==> r.exc == KeyError || r.exc == TypeError
    decreases |keys|
  {
    match Lookup(c, keys[0])
    case None => Err(KeyError)
    case Some(v) =>
      if |keys| == 1 then Ok(v)
      else if v.VMap? then Find(v.entries, keys[1..])
      else Err(TypeError)
  }

  /** Paths that differ at some position both of them have. */
  predicate Apart(a: seq<string>, b: seq<string>)
    decreases |a|
  {
    |a| > 0 && |b| > 0 && (a[0] != b[0] || Apart(a[1..], b[1..]))
  }

  /** Below a missing level everything is fresh. */
  lemma {:induction false} LevelFresh(path: seq<string>, replaceNone: bool)
    ensures Level([], path, replaceNone) == Ok([])
    decreases |path|
  {
    if |path| > 0 {
      LevelFresh(path[1..], replaceNone);
    }
  }

  /** Indexing agrees with the `get` walk: TypeError exactly where the walk
      is blocked, otherwise the leaf lookup in the dict reached. */
  lemma {:induction false} FindThroughLevel(c: Entries, path: seq<string>, k: string)
    ensures Find(c, path + [k]) ==
      match Level(c, path, false)
      case Err(_) => Err(TypeError)
      case Ok(l) => (match Lookup(l, k) case None => Err(KeyError) case Some(x) => Ok(x))
    decreases |path|
  {
    if |path| > 0 {
      assert (path + [k])[0] == path[0] && (path + [k])[1..] == path[1..] + [k];
      var x := Lookup(c, path[0]);
      if x.Some? && x.value.VMap? {
        FindThroughLevel(x.value.entries, path[1..], k);
      } else {
        LevelFresh(path[1..], false);
      }
    }
  }

  /** Without a None level in the way, `set_default` walks like `get`. */
  lemma {:induction false} LevelReplaceNone(c: Entries, path: seq<string>)
    ensures Level(c, path, false).Ok? ==> Level(c, path, true) == Level(c, path, false)
    decreases |path|
  {
    if |path| > 0 {
      var x := Lookup(c, path[0]);
      if x.Some? && x.value.VMap? {
        LevelReplaceNone(x.value.entries, path[1..]);
      } else {
        LevelFresh(path[1..], false);
        LevelFresh(path[1..], true);
      }
    }
  }

  /** Walking a grafted path reaches the grafted dict. */
  lemma {:induction false} LevelGraft(c: Entries, path: seq<string>, inner: Entries, replaceNone: bool)
    ensures Level(Graft(c, path, inner), path, replaceNone) == Ok(inner)
    decreases |path|
  {
    if |path| > 0 {
      LevelGraft(Sub(c, path[0]), path[1..], inner, replaceNone);
    }
  }

  /** When the leaf exists, every level existed: grafting the reached dict back
      unchanged gives the store back. */
  lemma {:induction false} GraftSame(c: Entries, path: seq<string>, l: Entries, k: string)
    ensures Level(c, path, false) == Ok(l) && HasKey(l, k) ==> Graft(c, path, l) == c
    decreases |path|
  {
    if |path| > 0 {
      var x := Lookup(c, path[0]);
      if x.Some? && x.value.VMap? {
        GraftSame(x.value.entries, path[1..], l, k);
        if HasKey(l, k) {
          PutSame(c, path[0], x.value);
        }
      } else {
        LevelFresh(path[1..], false);
      }
    }
  }

  /** Changing one leaf of the reached dict leaves every path that parts ways
      with it reading as before. */
  lemma {:induction false} FindGraftApart(c: Entries, path: seq<string>, l: Entries, inner: Entries,
                                          k: string, q: seq<string>)
    requires Level(c, path, false) == Ok(l)
    requires forall k' :: k' != k ==> Lookup(inner, k') == Lookup(l, k')
    requires Apart(path + [k], q)
    ensures |q| >= 1 && Find(Graft(c, path, inner), q) == Find(c, q)
    decreases |path|
  {
    assert (path + [k])[0] == (if |path| == 0 then k else path[0]);
    if |path| > 0 && q[0] == path[0] {
      assert (path + [k])[1..] == path[1..] + [k];
      var x := Lookup(c, path[0]);
      if x.Some? && x.value.VMap? {
        FindGraftApart(x.value.entries, path[1..], l, inner, k, q[1..]);
      } else {
        LevelFresh(path[1..], false);
        FindGraftApart([], path[1..], l, inner, k, q[1..]);
      }
    }
  }

  /** The same for a walk that may replace None levels, for every path that
      parts ways with the changed leaf and could be looked up before: such a
      path only passes through dicts where it shares the walk. */
  lemma {:induction false} FindGraftApartFound(c: Entries, path: seq<string>, l: Entries, inner: Entries,
                                               k: string, q: seq<string>, replaceNone: bool)
    requires Level(c, path, replaceNone) == Ok(l)
    requires forall k' :: k' != k ==> Lookup(inner, k') == Lookup(l, k')
    requires Apart(path + [k], q) && Find(c, q).Ok?
    ensures Find(Graft(c, path, inner), q) == Find(c, q)
    decreases |path|
  {
    assert (path + [k])[0] == (if |path| == 0 then k else path[0]);
    if |path| > 0 && q[0] == path[0] {
      assert (path + [k])[1..] == path[1..] + [k];
      var x := Lookup(c, path[0]);
      FindGraftApartFound(x.value.entries, path[1..], l, inner, k, q[1..], replaceNone);
    }
  }

  /** `config.set_default(key, default, override_none)` leaves every key
      whose path parts ways with `key`, and that could be looked up before,
      untouched. */
  lemma SetDefaultFrame(c: Entries, key: string, d: Value, overrideNone: bool, other: string)
    requires SetDefault(c, key, d, overrideNone).Ok?
    requires Apart(PathOf(key), PathOf(other)) && GetItem(c, other).Ok?
    ensures GetItem(SetDefault(c, key, d, overrideNone).value.0, other) == GetItem(c, other)
  {
    var keys := PathOf(key);
    var (path, k) := (Levels(keys), Leaf(keys));
    LevelsLeaf(keys);
    var l := Level(c, path, overrideNone).value;
    var inner := if !HasKey(l, k) || (overrideNone && Lookup(l, k) == Some(VNone)) then Put(l, k, d) else l;
    FindGraftApartFound(c, path, l, inner, k, PathOf(other), overrideNone);
  }

  /** A well-formed store only leads to well-formed dicts. */
  lemma {:induction false} LevelWellFormed(c: Entries, path: seq<string>, replaceNone: bool)
    ensures WellFormed(VMap(c)) && Level(c, path, replaceNone).Ok? ==> WellFormed(VMap(Level(c, path, replaceNone).value))
    decreases |path|
  {
    if |path| > 0 {
      var x := Lookup(c, path[0]);
      if x.Some? && x.value.VMap? {
        if WellFormed(VMap(c)) {
          var i :| 0 <= i < |c| && c[i] == (path[0], x.value);
          assert WellFormed(c[i].1);
        }
        LevelWellFormed(x.value.entries, path[1..], replaceNone);
      } else {
        LevelFresh(path[1..], replaceNone);
      }
    }
  }

  // ---------------------------------------------------------------------
  // Reading and writing one hyperparameter
  // ---------------------------------------------------------------------

  /** `config[key]`. */
  function GetItem(c: Entries, key: string): (r: Result<Value>)
    ensures r.Err? ==> r.exc == KeyError || r.exc == TypeError
  {
    Find(c, PathOf(key))
  }

  /** `key in config`: only KeyError counts as absent; a TypeError from
      indexing through a non-dict escapes. */
  function Contains(c: Entries, key: string): (r: Result<bool>)
    ensures r == Ok(true) <==> GetItem(c, key).Ok?
    ensures r == Ok(false) <==> GetItem(c, key) == Err(KeyError)
    ensures r.Err? ==> r.exc == TypeError
  {
    match GetItem(c, key)
    case Ok(_) => Ok(true)
    case Err(KeyError) => Ok(false)
    case Err(e) => Err(e)
  }

  /** `config.update(key, func)`: stores `func(old)`, old being None when the
      key is absent, and returns the new value. */
  function Update(c: Entries, key: string, f: Value -> Value): (r: Result<(Entries, Value)>)
    ensures r.Err? <==> GetItem(c, key) == Err(TypeError)
    ensures r.Err? ==> r.exc == AttributeError
    ensures r.Ok? ==> r.value.1 == f(if GetItem(c, key).Ok? then GetItem(c, key).value else VNone)
    ensures r.Ok? ==> GetItem(r.value.0, key) == Ok(r.value.1)
  {
    var keys := PathOf(key);
    LevelsLeaf(keys);
    FindThroughLevel(c, Levels(keys), Leaf(keys));
    var l :- Level(c, Levels(keys), false);
    var v := f(match Lookup(l, Leaf(keys)) case Some(x) => x case None => VNone);
    var c' := Graft(c, Levels(keys), Put(l, Leaf(keys), v));
    LevelGraft(c, Levels(keys), Put(l, Leaf(keys), v), false);
    FindThroughLevel(c', Levels(keys), Leaf(keys));
    Ok((c', v))
  }

  /** `config[key] = value`. */
  function SetItem(c: Entries, key: string, v: Value): (r: Result<Entries>)
    ensures r.Err? <==> GetItem(c, key) == Err(TypeError)
    ensures r.Ok? ==> GetItem(r.value, key) == Ok(v)
  {
    var (c', _) :- Update(c, key, _ => v);
    Ok(c')
  }

  /** `config.get(key, default)`: an absent key is first set to the default. */
  function Get(c: Entries, key: string, default: Value): (r: Result<(Entries, Value)>)
    ensures r.Err? <==> GetItem(c, key) == Err(TypeError)
    ensures r.Err? ==> r.exc == AttributeError
    ensures GetItem(c, key).Ok? ==> r == Ok((c, GetItem(c, key).value))
    ensures GetItem(c, key) == Err(KeyError) ==>
      SetItem(c, key, default).Ok? && r == Ok((SetItem(c, key, default).value, default))
  {
    var keys := PathOf(key);
    LevelsLeaf(keys);
    FindThroughLevel(c, Levels(keys), Leaf(keys));
    var l :- Level(c, Levels(keys), false);
    GraftSame(c, Levels(keys), l, Leaf(keys));
    match Lookup(l, Leaf(keys))
    case Some(x) => Ok((Graft(c, Levels(keys), l), x))
    case None => Ok((Graft(c, Levels(keys), Put(l, Leaf(keys), default)), default))
  }

  /** `config.set_default(key, default, override_none)`: sets the key unless
      it holds a value (a None value counts as unset under `override_none`),
      and returns the value now stored. The walk also treats None levels as
      unset under `override_none`. */
  function SetDefault(c: Entries, key: string, default: Value, overrideNone: bool): (r: Result<(Entries, Value)>)
    ensures !overrideNone ==> (r.Err? <==> GetItem(c, key) == Err(TypeError))
    ensures r.Err? ==> GetItem(c, key) == Err(TypeError) && r.exc == AttributeError
    ensures r.Ok? ==> GetItem(r.value.0, key) == Ok(r.value.1)
    ensures GetItem(c, key).Ok? && !(overrideNone && GetItem(c, key).value == VNone) ==>
      r == Ok((c, GetItem(c, key).value))
    ensures GetItem(c, key) == Err(KeyError) || (overrideNone && GetItem(c, key) == Ok(VNone)) ==>
      SetItem(c, key, default).Ok? && r == Ok((SetItem(c, key, default).value, default))
  {
    var keys := PathOf(key);
    var (path, k) := (Levels(keys), Leaf(keys));
    LevelsLeaf(keys);
    FindThroughLevel(c, path, k);
    LevelReplaceNone(c, path);
    var l :- Level(c, path, overrideNone);
    var inner := if !HasKey(l, k) || (overrideNone && Lookup(l, k) == Some(VNone)) then Put(l, k, default) else l;
    GraftSame(c, path, l, k);
    LevelGraft(c, path, inner, false);
    FindThroughLevel(Graft(c, path, inner), path, k);
    Ok((Graft(c, path, inner), Lookup(inner, k).value))
  }

  /** `config.pop(key, default)`: removes the key and returns its value, or
      returns the default. The walk creates missing levels as `get` does; when
      the last level holds a list, `list.pop` rejects the two arguments. */
  function Pop(c: Entries, key: string, default: Value): (r: Result<(Entries, Value)>)
    ensures r.Err? <==> GetItem(c, key) == Err(TypeError)
    ensures r.Err? ==> r.exc == TypeError || r.exc == AttributeError
    ensures GetItem(c, key).Ok? ==> r.Ok? && r.value.1 == GetItem(c, key).value
    ensures GetItem(c, key) == Err(KeyError) ==> r.Ok? && r.value.1 == default
    ensures WellFormed(VMap(c)) && r.Ok? ==> GetItem(r.value.0, key) == Err(KeyError)
  {
    var keys := PathOf(key);
    var (path, k) := (Levels(keys), Leaf(keys));
    LevelsLeaf(keys);
    FindThroughLevel(c, path, k);
    match Level(c, path, false)
    case Err(_) => Err(if ListAtEnd(c, path) then TypeError else AttributeError)
    case Ok(l) =>
      var inner := Remove(l, k);
      LevelWellFormed(c, path, false);
      LevelGraft(c, path, inner, false);
      FindThroughLevel(Graft(c, path, inner), path, k);
      match Lookup(l, k)
      case Some(x) => Ok((Graft(c, path, inner), x))
      case None => Ok((Graft(c, path, inner), default))
  }

  /** The walk reaches the last level, and it holds a list. */
  predicate ListAtEnd(c: Entries, path: seq<string>) {
    |path| > 0 &&
    match Level(c, Levels(path), false)
    case Ok(l) => Lookup(l, Leaf(path)).Some? && Lookup(l, Leaf(path)).value.VList?
    case Err(_) => false
  }

  /** Writing through `update` leaves every key whose path parts ways with
      the written one untouched. */
  lemma UpdateFrame(c: Entries, key: string, f: Value -> Value, other: string)
    requires Update(c, key, f).Ok?
    requires Apart(PathOf(key), PathOf(other))
    ensures GetItem(Update(c, key, f).value.0, other) == GetItem(c, other)
  {
    var keys := PathOf(key);
    LevelsLeaf(keys);
    var l := Level(c, Levels(keys), false).value;
    var v := f(match Lookup(l, Leaf(keys)) case Some(x) => x case None => VNone);
    FindGraftApart(c, Levels(keys), l, Put(l, Leaf(keys), v), Leaf(keys), PathOf(other));
  }

  /** `config[key] = v` changes nothing but `key` and the levels above it. */
  lemma SetItemFrame(c: Entries, key: string, v: Value, other: string)
    requires SetItem(c, key, v).Ok?
    requires Apart(PathOf(key), PathOf(other))
    ensures GetItem(SetItem(c, key, v).value, other) == GetItem(c, other)
  {
    UpdateFrame(c, key, _ => v, other);
  }

  /** Popping leaves every key whose path parts ways with the popped one
      untouched. */
  lemma PopFrame(c: Entries, key: string, d: Value, other: string)
    requires WellFormed(VMap(c))
    requires Pop(c, key, d).Ok?
    requires Apart(PathOf(key), PathOf(other))
    ensures GetItem(Pop(c, key, d).value.0, other) == GetItem(c, other)
  {
    var keys := PathOf(key);
    LevelsLeaf(keys);
    var l := Level(c, Levels(keys), false).value;
    LevelWellFormed(c, Levels(keys), false);
    FindGraftApart(c, Levels(keys), l, Remove(l, Leaf(keys)), Leaf(keys), PathOf(other));
  }

  // ---------------------------------------------------------------------
  // Merging
  // ---------------------------------------------------------------------

  /** `config.merge(other)`: the entries of `other` in order; a non-dict value
      is assigned under its key as written, a dict value is merged into
      `config.get(key, {})`, which must be a dict (AttributeError otherwise). */
  function Merge(c: Entries, other: Entries): (r: Result<Entries>)
    ensures r.Err? ==> r.exc == AttributeError
    decreases other
  {
    if |other| == 0 then Ok(c)
    else
      var c1 :- MergeEntry(c, other[0]);
      Merge(c1, other[1..])
  }

  function MergeEntry(c: Entries, kv: (string, Value)): (r: Result<Entries>)
    ensures r.Err? ==> r.exc == AttributeError
    decreases kv
  {
    MergeValue(c, kv.0, kv.1)
  }

  function MergeValue(c: Entries, key: string, v: Value): (r: Result<Entries>)
    ensures r.Err? ==> r.exc == AttributeError
    decreases v
  {
    if !v.VMap? then Ok(Put(c, key, v))
    else
      var keys := PathOf(key);
      var l :- Level(c, keys, false);
      var m :- Merge(l, v.entries);
      Ok(Graft(c, keys, m))
  }

  /** No key of the dict holds a `/`. */
  predicate SlashFree(e: Entries) {
    forall i :: 0 <= i < |e| ==> '/' !in e[i].0
  }

  /** A dict value of `other` that cannot be merged: the store holds a
      non-dict there, or merging one level down fails. */
  predicate Clash(c: Entries, kv: (string, Value)) {
    kv.1.VMap? &&
    ((Lookup(c, kv.0).Some? && !Lookup(c, kv.0).value.VMap?) || Merge(Sub(c, kv.0), kv.1.entries).Err?)
  }

  /** One entry with a plain key: assignment, or a merge one level down. */
  lemma MergeValueAtKey(c: Entries, k: string, v: Value)
    requires '/' !in k
    ensures !v.VMap? ==> MergeValue(c, k, v) == Ok(Put(c, k, v))
    ensures v.VMap? && Clash(c, (k, v)) ==> MergeValue(c, k, v) == Err(AttributeError)
    ensures v.VMap? && !Clash(c, (k, v)) ==>
      MergeValue(c, k, v) == Ok(Put(c, k, VMap(Merge(Sub(c, k), v.entries).value)))
  {
    assert PathOf(k) == [k];
    assert [k][0] == k && [k][1..] == [];
    if v.VMap? {
      assert Level(c, [k], false) ==
        if Lookup(c, k).Some? && !Lookup(c, k).value.VMap? then Err(AttributeError) else Ok(Sub(c, k));
      if !Clash(c, (k, v)) {
        var m := Merge(Sub(c, k), v.entries).value;
        assert Graft(c, [k], m) == Put(c, k, VMap(Graft(Sub(c, k), [], m)));
      }
    }
  }

  /** What `merge` leaves under each key, for another store with plain keys:
      keys the other store lacks keep their values, its non-dict values
      overwrite, and its dict values are merged one level down. */
  lemma {:induction false} MergeLookup(c: Entries, other: Entries, k: string)
    requires Unique(other) && SlashFree(other)
    requires Merge(c, other).Ok?
    ensures !HasKey(other, k) ==> Lookup(Merge(c, other).value, k) == Lookup(c, k)
    ensures HasKey(other, k) && !Lookup(other, k).value.VMap? ==>
      Lookup(Merge(c, other).value, k) == Lookup(other, k)
    ensures HasKey(other, k) && Lookup(other, k).value.VMap? ==>
      Merge(Sub(c, k), Lookup(other, k).value.entries).Ok? &&
      Lookup(Merge(c, other).value, k) == Some(VMap(Merge(Sub(c, k), Lookup(other, k).value.entries).value))
    decreases |other|
  {
    if |other| > 0 {
      var (k0, v0) := other[0];
      UniqueTail(other);
      MergeHead(c, k0, v0, other);
      var c1 := MergeValue(c, k0, v0).value;
      MergeLookup(c1, other[1..], k);
      if k != k0 {
        LookupTail(other, k);
        assert Sub(c1, k) == Sub(c, k);
      }
    }
  }

  /** The first entry of `other` is merged before the rest, and what it
      leaves under its own key and elsewhere. */
  lemma MergeHead(c: Entries, k0: string, v0: Value, other: Entries)
    requires |other| > 0 && other[0] == (k0, v0) && '/' !in k0
    requires Merge(c, other).Ok?
    ensures MergeValue(c, k0, v0).Ok?
    ensures Merge(c, other) == Merge(MergeValue(c, k0, v0).value, other[1..])
    ensures !v0.VMap? ==> Lookup(MergeValue(c, k0, v0).value, k0) == Some(v0)
    ensures v0.VMap? ==> Merge(Sub(c, k0), v0.entries).Ok?
    ensures v0.VMap? ==>
      Lookup(MergeValue(c, k0, v0).value, k0) == Some(VMap(Merge(Sub(c, k0), v0.entries).value))
    ensures forall k :: k != k0 ==> Lookup(MergeValue(c, k0, v0).value, k) == Lookup(c, k)
  {
    MergeValueAtKey(c, k0, v0);
  }

  /** Below the first key, a store with unique keys looks up as its tail. */
  lemma LookupTail(other: Entries, k: string)
    requires |other| > 0 && k != other[0].0
    ensures Lookup(other, k) == Lookup(other[1..], k)
    ensures HasKey(other, k) == HasKey(other[1..], k)
  {
  }

  /** For another store with plain keys, `merge` fails exactly when one of
      its entries clashes with the store. */
  lemma {:induction false} MergeFails(c: Entries, other: Entries)
    requires Unique(other) && SlashFree(other)
    ensures Merge(c, other).Err? <==> exists i :: 0 <= i < |other| && Clash(c, other[i])
    decreases |other|
  {
    if |other| > 0 {
      var (k0, v0) := other[0];
      MergeValueAtKey(c, k0, v0);
      UniqueTail(other);
      if MergeValue(c, k0, v0).Ok? {
        var c1 := MergeValue(c, k0, v0).value;
        MergeFails(c1, other[1..]);
        ClashShift(c, c1, other);
      } else {
        assert Clash(c, other[0]);
      }
    }
  }

  lemma UniqueTail(other: Entries)
    requires Unique(other) && SlashFree(other) && |other| > 0
    ensures Unique(other[1..]) && SlashFree(other[1..]) && '/' !in other[0].0
    ensures forall j :: 0 < j < |other| ==> other[j].0 != other[0].0
    ensures !HasKey(other[1..], other[0].0)
  {
    var rest := other[1..];
    forall j | 0 <= j < |rest| ensures rest[j].0 != other[0].0 {
      assert rest[j] == other[j + 1];
    }
  }

  /** After a first entry that merged cleanly, the remaining entries clash
      with the new store exactly when they clash with the old one. */
  lemma ClashShift(c: Entries, c1: Entries, other: Entries)
    requires |other| > 0 && !Clash(c, other[0])
    requires forall k :: k != other[0].0 ==> Lookup(c1, k) == Lookup(c, k)
    requires forall j :: 0 < j < |other| ==> other[j].0 != other[0].0
    ensures (exists i :: 0 <= i < |other| && Clash(c, other[i])) <==>
            (exists j :: 0 <= j < |other[1..]| && Clash(c1, other[1..][j]))
  {
    forall j | 0 < j < |other| ensures Clash(c1, other[j]) <==> Clash(c, other[j]) {
      assert Lookup(c1, other[j].0) == Lookup(c, other[j].0);
      assert Sub(c1, other[j].0) == Sub(c, other[j].0);
    }
    if exists i :: 0 <= i < |other| && Clash(c, other[i]) {
      var i :| 0 <= i < |other| && Clash(c, other[i]);
      assert other[1..][i - 1] == other[i];
    }
    if exists j :: 0 <= j < |other[1..]| && Clash(c1, other[1..][j]) {
      var j :| 0 <= j < |other[1..]| && Clash(c1, other[1..][j]);
      assert other[1..][j] == other[j + 1];
    }
  }

  // ---------------------------------------------------------------------
  // Copies, equality and the YAML view
  // ---------------------------------------------------------------------

  /** `config.copy()`: `json.loads(json.dumps(entries))`, which rebuilds every
      nested dict and list. */
  function Copy(c: Entries): (r: Entries)
    ensures WellFormed(VMap(c)) ==> r == c
  {
    ReadBack(VMap(c));
    match Json.Loads(Json.Dumps(VMap(c), None, 0))
    case Some(VMap(e)) => e
    case _ => c
  }

  lemma ReadBack(v: Value)
    ensures WellFormed(v) ==> Json.Loads(Json.Dumps(v, None, 0)) == Some(v)
  {
    if WellFormed(v) {
      Json.LoadsDumps(v, None);
    }
  }

  /** `str(config)`: `json.dumps(entries, indent=2)`. */
  function Text(c: Entries): string {
    Json.Dumps(VMap(c), Some(2), 0)
  }

  /** `config1 == config2` compares the two JSON texts. */
  predicate Eq(a: Entries, b: Entries) {
    Text(a) == Text(b)
  }

  /** Comparing the texts is comparing the stores, insertion order included. */
  lemma EqIsIdentity(a: Entries, b: Entries)
    requires WellFormed(VMap(a)) && WellFormed(VMap(b))
    ensures Eq(a, b) <==> a == b
  {
    Json.DumpsInjective(VMap(a), VMap(b), Some(2));
  }

  /** The lines `_as_yaml(indent)` yields, one per key at every depth. */
  function YamlLines(e: Entries, indent: nat): (r: seq<string>)
    decreases e
  {
    if |e| == 0 then [] else YamlEntry(e[0], indent) + YamlLines(e[1..], indent)
  }

  function YamlEntry(kv: (string, Value), indent: nat): (r: seq<string>)
    decreases kv
  {
    YamlValue(kv.0, kv.1, indent)
  }

  /** `key:` followed by the nested lines one level deeper for a dict,
      otherwise `key: repr(value)`; each line starts with two spaces per level. */
  function YamlValue(key: string, v: Value, indent: nat): (r: seq<string>)
    decreases v
  {
    var prefix := Repeat(' ', 2 * indent);
    if v.VMap? then [prefix + key + ":"] + YamlLines(v.entries, indent + 1)
    else [prefix + key + ": " + Repr(v)]
  }

  /** `config.yaml`. */
  function Yaml(c: Entries): string {
    Join(YamlLines(c, 0), "\n")
  }

  /** The number of keys at every depth. */
  function KeyCount(e: Entries): nat
    decreases e
  {
    if |e| == 0 then 0 else 1 + ValueKeyCount(e[0]) + KeyCount(e[1..])
  }

  function ValueKeyCount(kv: (string, Value)): nat
    decreases kv
  {
    if kv.1.VMap? then KeyCount(kv.1.entries) else 0
  }

  /** One YAML line per key, nested keys included. */
  lemma {:induction false} YamlLineCount(e: Entries, indent: nat)
    ensures |YamlLines(e, indent)| == KeyCount(e)
    decreases e, 1
  {
    if |e| > 0 {
      YamlEntryCount(e[0], indent);
      YamlLineCount(e[1..], indent);
    }
  }

  lemma {:induction false} YamlEntryCount(kv: (string, Value), indent: nat)
    ensures |YamlEntry(kv, indent)| == 1 + ValueKeyCount(kv)
    decreases kv, 0
  {
    if kv.1.VMap? {
      YamlLineCount(kv.1.entries, indent + 1);
    }
  }

  /** Every line of a level carries at least that level's indentation, and
      each entry starts with its key at exactly that indentation. */
  lemma {:induction false} YamlIndent(e: Entries, indent: nat)
    ensures forall i :: 0 <= i < |YamlLines(e, indent)| ==>
      StartsWith(YamlLines(e, indent)[i], Repeat(' ', 2 * indent))
    ensures |e| > 0 ==> |YamlLines(e, indent)| > 0 && StartsWith(YamlLines(e, indent)[0], Repeat(' ', 2 * indent) + e[0].0 + ":")
    decreases e, 1
  {
    if |e| > 0 {
      YamlEntryIndent(e[0], indent);
      YamlIndent(e[1..], indent);
      var a := YamlEntry(e[0], indent);
      var b := YamlLines(e[1..], indent);
      assert YamlLines(e, indent) == a + b;
      forall i | 0 <= i < |a + b| ensures StartsWith((a + b)[i], Repeat(' ', 2 * indent)) {
        if i < |a| { assert (a + b)[i] == a[i]; } else { assert (a + b)[i] == b[i - |a|]; }
      }
    }
  }

  lemma {:induction false} YamlEntryIndent(kv: (string, Value), indent: nat)
    ensures forall i :: 0 <= i < |YamlEntry(kv, indent)| ==>
      StartsWith(YamlEntry(kv, indent)[i], Repeat(' ', 2 * indent))
    ensures |YamlEntry(kv, indent)| > 0 &&
      StartsWith(YamlEntry(kv, indent)[0], Repeat(' ', 2 * indent) + kv.0 + ":")
    decreases kv, 0
  {
    var prefix := Repeat(' ', 2 * indent);
    var r := YamlEntry(kv, indent);
    if kv.1.VMap? {
      var deeper := YamlLines(kv.1.entries, indent + 1);
      YamlIndent(kv.1.entries, indent + 1);
      assert r == YamlValue(kv.0, kv.1, indent) == [prefix + kv.0 + ":"] + deeper;
      forall i | 0 <= i < |r| ensures StartsWith(r[i], prefix) {
        if i > 0 {
          assert r[i] == deeper[i - 1];
          DeeperIndent(deeper[i - 1], indent);
        } else {
          PrefixOf(prefix, kv.0 + ":");
        }
      }
      PrefixOf(prefix + kv.0 + ":", "");
    } else {
      assert r == YamlValue(kv.0, kv.1, indent) == [prefix + kv.0 + ": " + Repr(kv.1)];
      PrefixOf(prefix, kv.0 + ": " + Repr(kv.1));
      PrefixOf(prefix + kv.0 + ":", " " + Repr(kv.1));
      ConcatAssoc(prefix, kv.0, ": " + Repr(kv.1));
      assert ": " + Repr(kv.1) == ":" + (" " + Repr(kv.1));
      ConcatAssoc(prefix + kv.0, ":", " " + Repr(kv.1));
    }
  }

  lemma PrefixOf(p: string, s: string)
    ensures StartsWith(p + s, p)
  {
    assert (p + s)[..|p|] == p;
  }

  lemma DeeperIndent(line: string, indent: nat)
    requires StartsWith(line, Repeat(' ', 2 * (indent + 1)))
    ensures StartsWith(line, Repeat(' ', 2 * indent))
  {
    assert line[..2 * indent] == Repeat(' ', 2 * (indent + 1))[..2 * indent];
  }

  // ---------------------------------------------------------------------
  // Two- and three-segment keys, and the documented example
  // ---------------------------------------------------------------------

  lemma PathOf2(a: string, b: string)
    requires '/' !in a && '/' !in b
    ensures PathOf(a + "/" + b) == [a, b]
  {
    assert Join([a, b], "/") == a + "/" + b;
    SplitJoin([a, b], '/');
  }

  lemma PathOf3(a: string, b: string, d: string)
    requires '/' !in a && '/' !in b && '/' !in d
    ensures PathOf(a + "/" + b + "/" + d) == [a, b, d]
  {
    assert [a, b, d][1..] == [b, d] && [b, d][1..] == [d];
    assert Join([b, d], "/") == b + "/" + d;
    assert Join([a, b, d], "/") == a + "/" + Join([b, d], "/");
    ConcatAssoc3(a + "/", b, "/", d);
    SplitJoin([a, b, d], '/');
  }

  /** `config[key] = v` is the leaf assignment in the dict the walk reaches,
      grafted back into the store. */
  lemma SetItemAt(c: Entries, key: string, v: Value)
    ensures Level(c, Levels(PathOf(key)), false).Ok? ==>
      SetItem(c, key, v) == Ok(Graft(c, Levels(PathOf(key)),
                                     Put(Level(c, Levels(PathOf(key)), false).value, Leaf(PathOf(key)), v)))
  {
  }

  /** `config['a/b'] = v` creates or reuses the dict under `a`. */
  lemma SetItem2(c: Entries, a: string, b: string, v: Value)
    requires '/' !in a && '/' !in b
    requires Lookup(c, a).None? || Lookup(c, a).value.VMap?
    ensures SetItem(c, a + "/" + b, v) == Ok(Put(c, a, VMap(Put(Sub(c, a), b, v))))
  {
    PathOf2(a, b);
    SetItemAt(c, a + "/" + b, v);
    var p := [a];
    assert Levels([a, b]) == p && Leaf([a, b]) == b;
    assert p[1..] == [];
    assert Level(c, p, false) == Ok(Sub(c, a));
  }

  /** `config['a/b/d'] = v` creates or reuses the dicts under `a` and `a/b`. */
  lemma SetItem3(c: Entries, a: string, b: string, d: string, v: Value)
    requires '/' !in a && '/' !in b && '/' !in d
    requires Lookup(c, a).None? || Lookup(c, a).value.VMap?
    requires Lookup(Sub(c, a), b).None? || Lookup(Sub(c, a), b).value.VMap?
    ensures SetItem(c, a + "/" + b + "/" + d, v) ==
      Ok(Put(c, a, VMap(Put(Sub(c, a), b, VMap(Put(Sub(Sub(c, a), b), d, v))))))
  {
    PathOf3(a, b, d);
    SetItemAt(c, a + "/" + b + "/" + d, v);
    var p := [a, b];
    assert Levels([a, b, d]) == p && Leaf([a, b, d]) == d;
    assert p[1..] == [b] && p[1..][1..] == [];
    assert Level(Sub(c, a), [b], false) == Ok(Sub(Sub(c, a), b));
    assert Level(c, p, false) == Ok(Sub(Sub(c, a), b));
    var inner := Put(Sub(Sub(c, a), b), d, v);
    assert Graft(Sub(c, a), [b], inner) == Put(Sub(c, a), b, VMap(inner));
  }

  /** The assignments of the `yaml` documentation and test, and the text
      they produce. */
  lemma YamlExample()
    ensures
      var c1 := SetItem([], "stage1/param1", VInt(1000));
      c1.Ok? &&
      var c2 := SetItem(c1.value, "stage2/param2", VInt(5));
      c2.Ok? &&
      var c3 := SetItem(c2.value, "stage1/sub/param1", VStr("xyz"));
      c3.Ok? &&
      Yaml(c3.value) == Join(["stage1:", "  param1: 1000", "  sub:", "    param1: 'xyz'", "stage2:", "  param2: 5"], "\n")
  {
    assert "stage1/param1" == "stage1" + "/" + "param1";
    assert "stage2/param2" == "stage2" + "/" + "param2";
    assert "stage1/sub/param1" == "stage1" + "/" + "sub" + "/" + "param1";
    ExampleChain("stage1", "stage2", "param1", "param2", "sub");
    YamlExampleText();
  }

  /** The three assignments, for any keys without a `/`. */
  lemma ExampleChain(s1: string, s2: string, p1: string, p2: string, sub: string)
    requires '/' !in s1 && '/' !in s2 && '/' !in p1 && '/' !in p2 && '/' !in sub
    requires s1 != s2 && sub != p1
    ensures
      var c1 := SetItem([], s1 + "/" + p1, VInt(1000));
      c1.Ok? &&
      var c2 := SetItem(c1.value, s2 + "/" + p2, VInt(5));
      c2.Ok? &&
      var c3 := SetItem(c2.value, s1 + "/" + sub + "/" + p1, VStr("xyz"));
      c3 == Ok([(s1, VMap([(p1, VInt(1000)), (sub, VMap([(p1, VStr("xyz"))]))])), (s2, VMap([(p2, VInt(5))]))])
  {
    ExampleStep1(s1, p1);
    ExampleStep2(s1, s2, p1, p2);
    ExampleStep3(s1, s2, p1, p2, sub);
  }

  lemma ExampleStep1(s1: string, p1: string)
    requires '/' !in s1 && '/' !in p1
    ensures SetItem([], s1 + "/" + p1, VInt(1000)) == Ok([(s1, VMap([(p1, VInt(1000))]))])
  {
    SetItem2([], s1, p1, VInt(1000));
    assert Sub([], s1) == [];
    assert Put([], p1, VInt(1000)) == [(p1, VInt(1000))];
    assert Put([], s1, VMap([(p1, VInt(1000))])) == [(s1, VMap([(p1, VInt(1000))]))];
  }

  lemma ExampleStep2(s1: string, s2: string, p1: string, p2: string)
    requires '/' !in s2 && '/' !in p2 && s1 != s2
    ensures SetItem([(s1, VMap([(p1, VInt(1000))]))], s2 + "/" + p2, VInt(5)) ==
      Ok([(s1, VMap([(p1, VInt(1000))])), (s2, VMap([(p2, VInt(5))]))])
  {
    NewSection(s1, VMap([(p1, VInt(1000))]), s2, p2, VInt(5));
  }

  /** Assigning below a section that is not there yet appends the section. */
  lemma NewSection(s1: string, v: Value, s2: string, p2: string, x: Value)
    requires '/' !in s2 && '/' !in p2 && s1 != s2
    ensures SetItem([(s1, v)], s2 + "/" + p2, x) == Ok([(s1, v), (s2, VMap([(p2, x)]))])
  {
    var c1 := [(s1, v)];
    var y := VMap([(p2, x)]);
    SingleMiss(s1, v, s2);
    SetItem2(c1, s2, p2, x);
    PutNew([], p2, x);
    assert Put([], p2, x) == [(p2, x)];
    assert VMap(Put(Sub(c1, s2), p2, x)) == y;
    PutNew(c1, s2, y);
    PairOf((s1, v), (s2, y));
  }

  lemma SingleMiss(s1: string, v: Value, s2: string)
    requires s1 != s2
    ensures IndexOf([(s1, v)], s2) == None && Lookup([(s1, v)], s2).None? && Sub([(s1, v)], s2) == []
  {
    assert [(s1, v)][1..] == [];
  }

  lemma ExampleStep3(s1: string, s2: string, p1: string, p2: string, sub: string)
    requires '/' !in s1 && '/' !in sub && '/' !in p1 && s1 != s2 && sub != p1
    ensures SetItem([(s1, VMap([(p1, VInt(1000))])), (s2, VMap([(p2, VInt(5))]))],
                    s1 + "/" + sub + "/" + p1, VStr("xyz")) ==
      Ok([(s1, VMap([(p1, VInt(1000)), (sub, VMap([(p1, VStr("xyz"))]))])), (s2, VMap([(p2, VInt(5))]))])
  {
    var l1 := [(p1, VInt(1000))];
    var c2 := [(s1, VMap(l1)), (s2, VMap([(p2, VInt(5))]))];
    var z := VMap([(p1, VStr("xyz"))]);
    var l2 := l1 + [(sub, z)];
    Step3Levels(c2, s1, sub, l1);
    SetItem3(c2, s1, sub, p1, VStr("xyz"));
    Step3Put(l1, sub, p1, VStr("xyz"));
    assert Put(Sub(c2, s1), sub, VMap(Put(Sub(Sub(c2, s1), sub), p1, VStr("xyz")))) == l2;
    Step3Replace(s1, s2, l1, l2, VMap([(p2, VInt(5))]));
    assert SetItem(c2, s1 + "/" + sub + "/" + p1, VStr("xyz")) == Ok([(s1, VMap(l2)), (s2, VMap([(p2, VInt(5))]))]);
    PairOf((p1, VInt(1000)), (sub, z));
  }

  /** The levels the third assignment walks through. */
  lemma Step3Levels(c2: Entries, s1: string, sub: string, l1: Entries)
    requires |c2| == 2 && c2[0] == (s1, VMap(l1)) && |l1| == 1 && l1[0].0 != sub
    ensures Lookup(c2, s1) == Some(VMap(l1)) && Sub(c2, s1) == l1
    ensures Lookup(l1, sub).None? && Sub(l1, sub) == []
  {
    assert IndexOf(c2, s1) == Some(0);
    assert IndexOf(l1, sub) == None by { assert IndexOf(l1[1..], sub) == None; }
  }

  /** The inner dict `{sub: {p1: v}}` joins `l1` as a new key. */
  lemma Step3Put(l1: Entries, sub: string, p1: string, v: Value)
    requires IndexOf(l1, sub) == None
    ensures Put(l1, sub, VMap(Put([], p1, v))) == l1 + [(sub, VMap([(p1, v)]))]
  {
    PutNew([], p1, v);
    assert [(p1, v)] == [] + [(p1, v)];
    PutNew(l1, sub, VMap([(p1, v)]));
  }

  /** Re-assigning the first of two keys keeps the order. */
  lemma Step3Replace(s1: string, s2: string, l1: Entries, l2: Entries, y: Value)
    ensures Put([(s1, VMap(l1)), (s2, y)], s1, VMap(l2)) == [(s1, VMap(l2)), (s2, y)]
  {
    var c := [(s1, VMap(l1)), (s2, y)];
    assert IndexOf(c, s1) == Some(0);
  }

  /** A new key is appended. */
  lemma PutNew(e: Entries, k: string, v: Value)
    requires IndexOf(e, k) == None
    ensures Put(e, k, v) == e + [(k, v)]
  {
  }

  lemma YamlExampleText()
    ensures Yaml([("stage1", VMap([("param1", VInt(1000)), ("sub", VMap([("param1", VStr("xyz"))]))])),
                  ("stage2", VMap([("param2", VInt(5))]))])
      == Join(["stage1:", "  param1: 1000", "  sub:", "    param1: 'xyz'", "stage2:", "  param2: 5"], "\n")
  {
    YamlLineExamples();
    var sub := [("param1", VStr("xyz"))];
    var s1 := [("param1", VInt(1000)), ("sub", VMap(sub))];
    var s2 := [("param2", VInt(5))];
    var top := [("stage1", VMap(s1)), ("stage2", VMap(s2))];
    assert YamlLines(sub[1..], 2) == [] && YamlLines(s1[2..], 1) == [] && YamlLines(s2[1..], 1) == [];
    assert YamlLines(sub, 2) == ["    param1: 'xyz'"];
    YamlMapEntry("sub", sub, 1);
    assert Repeat(' ', 2) == "  ";
    assert "  " + "sub" + ":" == "  sub:";
    assert s1[1..][0] == ("sub", VMap(sub)) && s1[1..][1..] == s1[2..];
    assert YamlLines(s1[1..], 1) == ["  sub:", "    param1: 'xyz'"];
    assert YamlLines(s1, 1) == ["  param1: 1000", "  sub:", "    param1: 'xyz'"];
    assert YamlLines(s2, 1) == ["  param2: 5"];
    YamlMapEntry("stage1", s1, 0);
    YamlMapEntry("stage2", s2, 0);
    assert Repeat(' ', 0) + "stage1" + ":" == "stage1:";
    assert Repeat(' ', 0) + "stage2" + ":" == "stage2:";
    assert YamlLines(top[2..], 0) == [];
    assert YamlLines(top[1..], 0) == ["stage2:", "  param2: 5"];
    var lines := ["stage1:", "  param1: 1000", "  sub:", "    param1: 'xyz'", "stage2:", "  param2: 5"];
    assert YamlLines(top, 0) == lines;
  }

  /** A dict entry: its `key:` line, then its own lines one level deeper. */
  lemma YamlMapEntry(key: string, e: Entries, indent: nat)
    ensures YamlEntry((key, VMap(e)), indent) == [Repeat(' ', 2 * indent) + key + ":"] + YamlLines(e, indent + 1)
  {
    assert YamlEntry((key, VMap(e)), indent) == YamlValue(key, VMap(e), indent);
  }

  /** A non-dict value takes one `key: repr(value)` line. */
  lemma YamlScalarEntry(key: string, v: Value, indent: nat)
    requires !v.VMap?
    ensures YamlEntry((key, v), indent) == [Repeat(' ', 2 * indent) + key + ": " + Repr(v)]
  {
  }

  /** The individual lines of the example. */
  lemma YamlLineExamples()
    ensures YamlEntry(("param1", VStr("xyz")), 2) == ["    param1: 'xyz'"]
    ensures YamlEntry(("param1", VInt(1000)), 1) == ["  param1: 1000"]
    ensures YamlEntry(("param2", VInt(5)), 1) == ["  param2: 5"]
  {
    XyzLine();
    ThousandLine();
    FiveLine();
  }

  lemma XyzLine()
    ensures YamlEntry(("param1", VStr("xyz")), 2) == ["    param1: 'xyz'"]
  {
    YamlScalarEntry("param1", VStr("xyz"), 2);
    ReprXyz();
    assert Repeat(' ', 4) == "    ";
    assert "    " + "param1" + ": " + "'xyz'" == "    param1: 'xyz'";
  }

  lemma ReprXyz()
    ensures Repr(VStr("xyz")) == "'xyz'"
  {
    var t := "xyz";
    assert forall k :: 0 <= k < |t| ==> t[k] != '\'' && t[k] != '\\' && !Latin1Unprintable(t[k]);
    assert ReprChars(t, '\'') == t;
  }

  lemma ThousandLine()
    ensures YamlEntry(("param1", VInt(1000)), 1) == ["  param1: 1000"]
  {
    YamlScalarEntry("param1", VInt(1000), 1);
    assert Repr(VInt(1000)) == "1000" by {
      assert NatToString(1) == "1" && NatToString(10) == "10" && NatToString(100) == "100";
    }
    assert Repeat(' ', 2) == "  ";
    assert "  " + "param1" + ": " + "1000" == "  param1: 1000";
  }

  lemma FiveLine()
    ensures YamlEntry(("param2", VInt(5)), 1) == ["  param2: 5"]
  {
    YamlScalarEntry("param2", VInt(5), 1);
    assert Repr(VInt(5)) == "5";
    assert Repeat(' ', 2) == "  ";
    assert "  " + "param2" + ": " + "5" == "  param2: 5";
  }
}

=== FILE: cursor.dfy ===
/** The cursor that walks the nested lists a status reader assembles
    (repype/status.py, `Cursor`). A path holds one position per level, and
    positions follow Python indexing: a negative position counts from the
    end of its list, so the starting path `[-1]` names the last element. */
module Cursors {
  import opened Base
  import opened Values

  /** A cursor path is never empty. */
  type Positions = p: seq<int> | |p| > 0 witness [-1]

  datatype Cursor = Cursor(data: seq<Value>, path: Positions)

  /** `Cursor(data)`. */
  function Start(data: seq<Value>): Cursor {
    Cursor(data, [-1])
  }

  // ---------------------------------------------------------------------
  // Python indexing
  // ---------------------------------------------------------------------

  /** `xs[pos]` with Python's negative positions; `None` for an
      `IndexError`. */
  function At<T>(xs: seq<T>, pos: int): (r: Option<T>)
    ensures r.Some? <==> -|xs| <= pos < |xs|
    ensures r.Some? ==> r.value in xs
  {
    if 0 <= pos < |xs| then Some(xs[pos])
    else if -|xs| <= pos < 0 then Some(xs[|xs| + pos])
    else None
  }

  /** `v[pos]` for one step of `get_elements`: a list yields an element, a
      string a one-character string, both `None` when `pos` is out of range;
      a dict raises `KeyError` (its keys are strings) and anything else
      `TypeError`. */
  function Index(v: Value, pos: int): (r: Result<Option<Value>>)
    ensures r.Ok? <==> v.VList? || v.VStr?
    ensures r.Err? ==> r.exc == (if v.VMap? then KeyError else TypeError)
    ensures v.VList? ==> r == Ok(At(v.items, pos))
    ensures v.VStr? && r.Ok? && r.value.Some? ==> r.value.value.VStr? && |r.value.value.s| == 1
    ensures r.Ok? ==> (r.value.None? <==> pos + Len(v) < 0 || pos >= Len(v))
  {
    match v
    case VList(xs) => Ok(At(xs, pos))
    case VStr(s) =>
      (match At(s, pos)
       case None => Ok(None)
       case Some(ch) => Ok(Some(VStr([ch]))))
    case VMap(_) => Err(KeyError)
    case _ => Err(TypeError)
  }

  /** The length of a list or a string. */
  function Len(v: Value): nat {
    match v
    case VList(xs) => |xs|
    case VStr(s) => |s|
    case _ => 0
  }

  // ---------------------------------------------------------------------
  // get_elements, valid, intermediate, parent
  // ---------------------------------------------------------------------

  /** `get_elements`: the data, then the element each position leads to;
      `None` as soon as a position is out of range. */
  function Elements(data: seq<Value>, path: seq<int>): (r: Result<Option<seq<Value>>>)
    ensures r.Ok? && r.value.Some? ==> |r.value.value| == |path| + 1 && r.value.value[0] == VList(data)
    ensures r.Ok? && r.value.Some? ==>
      forall k :: 0 <= k < |path| ==> Index(r.value.value[k], path[k]) == Ok(Some(r.value.value[k + 1]))
    decreases |path|
  {
    if |path| == 0 then Ok(Some([VList(data)]))
    else
      var prev :- Elements(data, path[..|path| - 1]);
      match prev
      case None => Ok(None)
      case Some(es) =>
        var next :- Index(es[|es| - 1], path[|path| - 1]);
        match next
        case None => Ok(None)
        case Some(e) => Ok(Some(es + [e]))
  }

  /** Position `k` is the first one out of range: everything before it
      resolves, and `path[k]` does not index what it leads to. */
  predicate OutOfRange(data: seq<Value>, path: seq<int>, k: nat) {
    k < |path|
    && var prev := Elements(data, path[..k]);
    && prev.Ok? && prev.value.Some?
    && Index(prev.value.value[k], path[k]) == Ok(None)
  }

  /** `get_elements` returns `None` exactly when some position is out of
      range. */
  lemma {:induction false} ElementsNone(data: seq<Value>, path: seq<int>)
    ensures Elements(data, path) == Ok(None) <==> exists k :: OutOfRange(data, path, k)
    decreases |path|
  {
    if |path| > 0 {
      var n := |path| - 1;
      var init := path[..n];
      ElementsNone(data, init);
      forall k: nat | k < n
        ensures OutOfRange(data, path, k) <==> OutOfRange(data, init, k)
      {
        assert path[..k] == init[..k];
      }
      assert path[..n] == init;
      if Elements(data, path) == Ok(None) {
        if Elements(data, init) == Ok(None) {
          var k :| OutOfRange(data, init, k);
          assert OutOfRange(data, path, k);
        } else {
          assert OutOfRange(data, path, n);
        }
      }
      if k: nat :| OutOfRange(data, path, k) {
        if k < n {
          assert OutOfRange(data, init, k);
        }
      }
    }
  }

  /** Resolving a path resolves each of its prefixes to a prefix of the
      elements. */
  lemma {:induction false} ElementsPrefix(data: seq<Value>, path: seq<int>, k: nat)
    requires k <= |path|
    requires Elements(data, path).Ok? && Elements(data, path).value.Some?
    ensures Elements(data, path[..k]) == Ok(Some(Elements(data, path).value.value[..k + 1]))
    decreases |path|
  {
    if k < |path| {
      var n := |path| - 1;
      assert path[..n][..k] == path[..k];
      var es := Elements(data, path).value.value;
      var init := Elements(data, path[..n]);
      assert init.Ok? && init.value.Some? && es == init.value.value + [es[n + 1]];
      ElementsPrefix(data, path[..n], k);
      assert es[..k + 1] == init.value.value[..k + 1];
    } else {
      assert path[..k] == path;
      var es := Elements(data, path).value.value;
      assert es[..k + 1] == es;
    }
  }

  /** `valid`: the cursor resolves. */
  function Valid(c: Cursor): (r: Result<bool>)
    ensures r == Ok(false) <==> exists k :: OutOfRange(c.data, c.path, k)
    ensures r == Ok(true) <==> Elements(c.data, c.path).Ok? && Elements(c.data, c.path).value.Some?
  {
    ElementsNone(c.data, c.path);
    var es :- Elements(c.data, c.path);
    Ok(es.Some?)
  }

  /** The element a resolving cursor points at. */
  function Element(c: Cursor): Value
    requires Valid(c) == Ok(true)
  {
    var es := Elements(c.data, c.path).value.value;
    es[|es| - 1]
  }

  /** A dict tagged `content_type: 'intermediate'`. */
  predicate Tagged(v: Value) {
    v.VMap? && Lookup(v.entries, "content_type") == Some(VStr("intermediate"))
  }

  /** `intermediate`: `None` for a cursor that does not resolve, otherwise
      whether it points at a tagged dict. */
  function IsIntermediate(c: Cursor): (r: Result<Option<bool>>)
    ensures r.Ok? <==> Valid(c).Ok?
    ensures r.Ok? ==> (r.value.None? <==> exists k :: OutOfRange(c.data, c.path, k))
    ensures r.Ok? && r.value.Some? ==> Valid(c) == Ok(true) && (r.value.value <==> Tagged(Element(c)))
  {
    var ok :- Valid(c);
    if ok then Ok(Some(Tagged(Element(c)))) else Ok(None)
  }

  /** `parent`: the path without its last position; none for a top-level
      cursor. */
  function Parent(c: Cursor): (r: Option<Cursor>)
    ensures r.None? <==> |c.path| == 1
    ensures r.Some? ==> r.value.data == c.data && c.path == r.value.path + [c.path[|c.path| - 1]]
  {
    if |c.path| > 1 then Some(Cursor(c.data, c.path[..|c.path| - 1])) else None
  }

  /** `parents`: parent, grandparent, and so on up to the top level. */
  function Parents(c: Cursor): (r: seq<Cursor>)
    ensures |r| == |c.path| - 1
    ensures forall k :: 0 <= k < |r| ==> r[k].data == c.data && r[k].path == c.path[..|c.path| - 1 - k]
    decreases |c.path|
  {
    match Parent(c)
    case None => []
    case Some(p) =>
      var rest := Parents(p);
      forall k | 0 <= k < |rest|
        ensures rest[k].path == c.path[..|c.path| - 1 - (k + 1)]
      {
        assert p.path[..|p.path| - 1 - k] == c.path[..|c.path| - 1 - (k + 1)];
      }
      [p] + rest
  }

  // ---------------------------------------------------------------------
  // Moving forward
  // ---------------------------------------------------------------------

  /** The cursor moved to the next position on its level. */
  function Bump(c: Cursor): (r: Cursor)
    ensures r.data == c.data && |r.path| == |c.path|
    ensures r.path[..|c.path| - 1] == c.path[..|c.path| - 1]
    ensures r.path[|c.path| - 1] == c.path[|c.path| - 1] + 1
  {
    var n := |c.path| - 1;
    Cursor(c.data, c.path[n := c.path[n] + 1])
  }

  /** `increment`: the cursor at the next position on its level, if that
      position exists. */
  function Increment(c: Cursor): (r: Result<Option<Cursor>>)
    ensures r.Ok? <==> Valid(Bump(c)).Ok?
    ensures r.Ok? ==> (r.value.Some? <==> Valid(Bump(c)) == Ok(true))
    ensures r.Ok? && r.value.Some? ==> r.value.value == Bump(c)
  {
    var ok :- Valid(Bump(c));
    Ok(if ok then Some(Bump(c)) else None)
  }

  /** How deeply lists nest in a value. */
  function Height(v: Value): nat
    decreases v
  {
    match v
    case VList(xs) => 1 + Highest(seq(|xs|, i requires 0 <= i < |xs| => Height(xs[i])))
    case _ => 0
  }

  function Highest(ns: seq<nat>): (r: nat)
    ensures forall i :: 0 <= i < |ns| ==> ns[i] <= r
  {
    if |ns| == 0 then 0
    else var m := Highest(ns[1..]); if ns[0] < m then m else ns[0]
  }

  lemma HeightBelow(xs: seq<Value>, e: Value)
    requires e in xs
    ensures Height(e) < Height(VList(xs))
  {
    var i :| 0 <= i < |xs| && xs[i] == e;
    var hs := seq(|xs|, i requires 0 <= i < |xs| => Height(xs[i]));
    assert hs[i] == Height(e);
  }

  /** The list the cursor's last position indexes, if the rest of the path
      resolves. */
  function Container(c: Cursor): Value {
    var prev := Elements(c.data, c.path[..|c.path| - 1]);
    if prev.Ok? && prev.value.Some? then prev.value.value[|c.path| - 1] else VNone
  }

  /** `d` is where the search from `c` went: at level `m` one step past `c`,
      and at the first position of every level below. */
  predicate After(c: Cursor, d: Cursor, m: nat) {
    && 1 <= m <= |c.path| && m <= |d.path|
    && d.data == c.data
    && d.path[..m - 1] == c.path[..m - 1]
    && d.path[m - 1] == c.path[m - 1] + 1
    && (forall k :: m <= k < |d.path| ==> d.path[k] == 0)
  }

  /** A resolving cursor that points at something other than a list. */
  predicate AtLeaf(c: Cursor) {
    Valid(c) == Ok(true) && !Element(c).VList?
  }

  /** The cursor one level down, before the first element of the list the
      bumped cursor points at. */
  function Down(c: Cursor): (r: Cursor)
    ensures r.data == c.data && r.path == Bump(c).path + [-1]
  {
    Cursor(c.data, Bump(c).path + [-1])
  }

  /** Descending into a list lowers the height of the container. */
  lemma DownLower(c: Cursor)
    requires Valid(Bump(c)) == Ok(true) && Element(Bump(c)).VList?
    ensures Height(Container(Down(c))) < Height(Container(c))
  {
    var b := Bump(c);
    var n := |c.path| - 1;
    var down := Down(c);
    assert down.path[..|down.path| - 1] == b.path;
    assert b.path[..n] == c.path[..n];
    var es := Elements(c.data, b.path).value.value;
    assert Index(es[n], b.path[n]) == Ok(Some(es[n + 1]));
    ElementsPrefix(c.data, b.path, n);
    HeightBelow(es[n].items, es[n + 1]);
  }

  /** A search that succeeded below `Down(c)` went where the search from `c`
      goes. */
  lemma DownAfter(c: Cursor, d: Cursor)
    requires After(Down(c), d, |Down(c).path|)
    ensures After(c, d, |c.path|)
  {
    var n := |c.path| - 1;
    var down := Down(c);
    assert d.path[..n] == down.path[..n];
    assert d.path[n] == down.path[n];
  }

  /** `find_next_child_or_sibling`: step to the next position; if that is a
      list, descend into it and search again from before its first
      element. The receiver is a value and stays as it was. */
  function FindNextChildOrSibling(c: Cursor): (r: Result<Option<Cursor>>)
    ensures r.Ok? && r.value.Some? ==> AtLeaf(r.value.value) && After(c, r.value.value, |c.path|)
    ensures Valid(Bump(c)).Err? ==> r == Err(Valid(Bump(c)).exc)
    ensures Valid(Bump(c)) == Ok(false) ==> r == Ok(None)
    ensures AtLeaf(Bump(c)) ==> r == Ok(Some(Bump(c)))
    decreases Height(Container(c))
  {
    var b := Bump(c);
    var ok :- Valid(b);
    if !ok then Ok(None)
    else if Element(b).VList? then
      DownLower(c);
      var r :- FindNextChildOrSibling(Down(c));
      if r.Some? then DownAfter(c, r.value); Ok(r) else Ok(r)
    else Ok(Some(b))
  }

  /** Every search before position `k` of `ps` finds nothing. */
  predicate NoneBefore(ps: seq<Cursor>, k: nat)
    requires k <= |ps|
  {
    forall j :: 0 <= j < k ==> FindNextChildOrSibling(ps[j]) == Ok(None)
  }

  /** The search finds nothing exactly when the next position is out of
      range, or holds a list in which the search from before its first
      element finds nothing. */
  lemma NoNextChild(c: Cursor)
    requires Valid(Bump(c)).Ok?
    ensures FindNextChildOrSibling(c) == Ok(None) <==>
      Valid(Bump(c)) == Ok(false) || (Element(Bump(c)).VList? && FindNextChildOrSibling(Down(c)) == Ok(None))
  {
  }

  /** The first answer among the parents, in order, with the first error:
      an answer comes from the first parent whose search finds something,
      and there is none exactly when every parent's search finds nothing. */
  function FirstFound(ps: seq<Cursor>): (r: Result<Option<Cursor>>)
    ensures r.Ok? && r.value.Some? ==>
      exists k :: 0 <= k < |ps| && NoneBefore(ps, k) && FindNextChildOrSibling(ps[k]) == r
    ensures r == Ok(None) <==> NoneBefore(ps, |ps|)
  {
    if |ps| == 0 then Ok(None)
    else
      var f :- FindNextChildOrSibling(ps[0]);
      if f.Some? then
        assert NoneBefore(ps, 0);
        Ok(f)
      else
        var r := FirstFound(ps[1..]);
        ShiftNone(ps);
        if r.Ok? && r.value.Some? then
          var k :| 0 <= k < |ps[1..]| && NoneBefore(ps[1..], k) && FindNextChildOrSibling(ps[1..][k]) == r;
          assert FindNextChildOrSibling(ps[k + 1]) == r;
          assert NoneBefore(ps, k + 1);
          r
        else r
  }

  /** When the first search finds nothing, nothing is found before `k + 1`
      in `ps` exactly when nothing is found before `k` in its tail. */
  lemma ShiftNone(ps: seq<Cursor>)
    requires |ps| > 0 && FindNextChildOrSibling(ps[0]) == Ok(None)
    ensures forall k :: 0 <= k < |ps| ==> (NoneBefore(ps, k + 1) <==> NoneBefore(ps[1..], k))
  {
    forall k | 0 <= k < |ps| ensures NoneBefore(ps, k + 1) <==> NoneBefore(ps[1..], k) {
      if NoneBefore(ps[1..], k) {
        forall j | 0 <= j < k + 1 ensures FindNextChildOrSibling(ps[j]) == Ok(None) {
          if j > 0 { assert ps[j] == ps[1..][j - 1]; }
        }
      }
      if NoneBefore(ps, k + 1) {
        forall j | 0 <= j < k ensures FindNextChildOrSibling(ps[1..][j]) == Ok(None) {
          assert ps[1..][j] == ps[j + 1];
        }
      }
    }
  }

  /** A search that went somewhere from a parent of `c` at level `m` went
      where a search from `c` may go. */
  lemma ParentAfter(c: Cursor, p: Cursor, d: Cursor)
    requires 1 <= |p.path| < |c.path| && p.data == c.data && p.path == c.path[..|p.path|]
    requires After(p, d, |p.path|)
    ensures After(c, d, |p.path|)
  {
    var m := |p.path|;
    assert d.path[..m - 1] == p.path[..m - 1] == c.path[..m - 1];
  }

  /** `find_next_element`: the next child or sibling, or else the next
      child or sibling of the nearest parent that has one. */
  function FindNextElement(c: Cursor): (r: Result<Option<Cursor>>)
    ensures r.Ok? && r.value.Some? ==> AtLeaf(r.value.value)
    ensures r.Ok? && r.value.Some? ==> exists m :: After(c, r.value.value, m)
    ensures FindNextChildOrSibling(c).Ok? && FindNextChildOrSibling(c).value.Some? ==> r == FindNextChildOrSibling(c)
    ensures r == Ok(None) <==> FindNextChildOrSibling(c) == Ok(None) && NoneBefore(Parents(c), |Parents(c)|)
    ensures r.Ok? && r.value.Some? && FindNextChildOrSibling(c) != r ==>
      && FindNextChildOrSibling(c) == Ok(None)
      && exists k :: 0 <= k < |Parents(c)| && NoneBefore(Parents(c), k) && FindNextChildOrSibling(Parents(c)[k]) == r
  {
    var first :- FindNextChildOrSibling(c);
    if first.Some? then Ok(first)
    else
      var r := FirstFound(Parents(c));
      if r.Ok? && r.value.Some? then FromParents(c); r else r
  }

  /** An answer found among the parents is a leaf after the receiver. */
  lemma FromParents(c: Cursor)
    requires FirstFound(Parents(c)).Ok? && FirstFound(Parents(c)).value.Some?
    ensures var d := FirstFound(Parents(c)).value.value;
      AtLeaf(d) && exists m :: After(c, d, m)
  {
    var ps := Parents(c);
    var r := FirstFound(ps);
    var k :| 0 <= k < |ps| && NoneBefore(ps, k) && FindNextChildOrSibling(ps[k]) == r;
    var q := ps[k];
    var d := r.value.value;
    assert q.data == c.data && q.path == c.path[..|c.path| - 1 - k];
    assert |q.path| == |c.path| - 1 - k && q.path == c.path[..|q.path|];
    assert FindNextChildOrSibling(q) == Ok(Some(d));
    assert After(q, d, |q.path|);
    ParentAfter(c, q, d);
    assert After(c, r.value.value, |q.path|);
  }

  /** A walk that takes steps while they land on tagged elements: true at
      the first untagged one, false when the steps run out, `None` once
      `budget + 1` steps have all been tagged. */
  function Walk<S>(next: S -> Result<Option<(S, bool)>>, s: S, budget: nat): Result<Option<bool>>
    decreases budget
  {
    var step :- next(s);
    match step
    case None => Ok(Some(false))
    case Some((n, tagged)) =>
      if !tagged then Ok(Some(true))
      else if budget == 0 then Ok(None)
      else Walk(next, n, budget - 1)
  }

  /** Step `k + 1` of the walk, ignoring the tags. */
  function Iterate<S>(next: S -> Result<Option<(S, bool)>>, s: S, k: nat): Result<Option<(S, bool)>>
    decreases k
  {
    if k == 0 then next(s)
    else
      var step :- next(s);
      match step
      case None => Ok(None)
      case Some((n, _)) => Iterate(next, n, k - 1)
  }

  /** A step that lands on an untagged element. */
  predicate Found<S>(x: Result<Option<(S, bool)>>) {
    x.Ok? && x.value.Some? && !x.value.value.1
  }

  /** A walk that answers true found an untagged element within its budget;
      one that answers false ran out of steps. */
  lemma {:induction false} WalkAnswers<S>(next: S -> Result<Option<(S, bool)>>, s: S, budget: nat)
    ensures Walk(next, s, budget) == Ok(Some(true)) ==> exists k :: 0 <= k <= budget && Found(Iterate(next, s, k))
    ensures Walk(next, s, budget) == Ok(Some(false)) ==> exists k :: 0 <= k <= budget && Iterate(next, s, k) == Ok(None)
    decreases budget
  {
    var step := next(s);
    if step.Ok? && step.value.Some? && step.value.value.1 && budget > 0 {
      var n := step.value.value.0;
      WalkAnswers(next, n, budget - 1);
      if Walk(next, s, budget) == Ok(Some(true)) {
        var k :| 0 <= k <= budget - 1 && Found(Iterate(next, n, k));
        assert Iterate(next, s, k + 1) == Iterate(next, n, k);
      }
      if Walk(next, s, budget) == Ok(Some(false)) {
        var k :| 0 <= k <= budget - 1 && Iterate(next, n, k) == Ok(None);
        assert Iterate(next, s, k + 1) == Iterate(next, n, k);
      }
    } else {
      assert Iterate(next, s, 0) == step;
    }
  }

  /** A larger budget gives the same answer once the walk has one. */
  lemma {:induction false} WalkBudget<S>(next: S -> Result<Option<(S, bool)>>, s: S, budget: nat, more: nat)
    requires budget <= more
    requires Walk(next, s, budget).Ok? && Walk(next, s, budget).value.Some?
    ensures Walk(next, s, more) == Walk(next, s, budget)
    decreases budget
  {
    var step := next(s);
    if step.Ok? && step.value.Some? && step.value.value.1 {
      WalkBudget(next, step.value.value.0, budget - 1, more - 1);
    }
  }

  /** One step of the walk in `has_subsequent_non_intermediate`: the next
      element, and whether it is a tagged dict. */
  function NextStep(c: Cursor): (r: Result<Option<(Cursor, bool)>>)
    ensures r.Ok? <==> FindNextElement(c).Ok?
    ensures r.Ok? ==> (r.value.None? <==> FindNextElement(c).value.None?)
    ensures r.Ok? && r.value.Some? ==>
      && FindNextElement(c) == Ok(Some(r.value.value.0))
      && AtLeaf(r.value.value.0)
      && (r.value.value.1 <==> Tagged(Element(r.value.value.0)))
  {
    var next :- FindNextElement(c);
    match next
    case None => Ok(None)
    case Some(d) => Ok(Some((d, Tagged(Element(d)))))
  }

  /** `has_subsequent_non_intermediate`: walk `find_next_element` until an
      element that is not a tagged dict turns up (true) or the walk ends
      (false). The walk takes at most `budget + 1` steps; `None` says the
      budget ran out first. */
  function HasSubsequentNonIntermediate(c: Cursor, budget: nat): (r: Result<Option<bool>>)
    ensures r == Ok(Some(true)) ==> exists k :: 0 <= k <= budget && Found(Iterate(NextStep, c, k))
    ensures r == Ok(Some(false)) ==> exists k :: 0 <= k <= budget && Iterate(NextStep, c, k) == Ok(None)
  {
    WalkAnswers(NextStep, c, budget);
    Walk(NextStep, c, budget)
  }

  /** A larger budget reaches the same answer once the walk has ended. */
  lemma BudgetSuffices(c: Cursor, budget: nat, more: nat)
    requires budget <= more
    requires HasSubsequentNonIntermediate(c, budget).Ok?
    requires HasSubsequentNonIntermediate(c, budget).value.Some?
    ensures HasSubsequentNonIntermediate(c, more) == HasSubsequentNonIntermediate(c, budget)
  {
    WalkBudget(NextStep, c, budget, more);
  }

  // ---------------------------------------------------------------------
  // Consequences
  // ---------------------------------------------------------------------

  /** A fresh cursor resolves exactly when there is data, and then points at
      the last element. */
  lemma StartAtLast(data: seq<Value>)
    ensures Valid(Start(data)) == Ok(|data| > 0)
    ensures |data| > 0 ==> Element(Start(data)) == data[|data| - 1]
  {
    var p: seq<int> := [-1];
    assert p[..0] == [];
    assert Elements(data, p[..0]) == Ok(Some([VList(data)]));
  }

  /** From a fresh cursor, the first step goes to the first element when
      that is not a list. */
  lemma StartSteps(data: seq<Value>)
    requires |data| > 0 && !data[0].VList?
    ensures FindNextChildOrSibling(Start(data)) == Ok(Some(Cursor(data, [0])))
  {
    var b := Bump(Start(data));
    assert b.path == [0];
    assert b.path[..0] == [];
    assert Elements(data, b.path[..0]) == Ok(Some([VList(data)]));
    assert Index(VList(data), 0) == Ok(Some(data[0]));
    assert [VList(data)] + [data[0]] == [VList(data), data[0]];
    assert Elements(data, b.path) == Ok(Some([VList(data), data[0]]));
  }

  /** When the next position holds an empty list, the search ends there:
      the siblings after that list are not looked at. */
  lemma EmptyListStops(c: Cursor)
    requires Valid(Bump(c)) == Ok(true) && Element(Bump(c)) == VList([])
    ensures FindNextChildOrSibling(c) == Ok(None)
  {
    var d := Down(c);
    var b := Bump(d);
    var n := |d.path| - 1;
    assert b.path[..n] == Bump(c).path;
    var es := Elements(c.data, Bump(c).path).value.value;
    assert Index(VList([]), b.path[n]) == Ok(None);
    assert Elements(c.data, b.path) == Ok(None);
  }

  /** So `find_next_element` from the first of `["a", [], "c"]` finds
      nothing, although `"c"` follows. */
  lemma EmptyListHidesSibling(a: Value, z: Value)
    requires !a.VList? && !z.VList?
    ensures FindNextElement(Cursor([a, VList([]), z], [0])) == Ok(None)
  {
    var data := [a, VList([]), z];
    var c := Cursor(data, [0]);
    var b := Bump(c);
    assert b.path == [1] && b.path[..0] == [];
    assert Elements(data, b.path[..0]) == Ok(Some([VList(data)]));
    assert Index(VList(data), 1) == Ok(Some(VList([])));
    assert [VList(data)] + [VList([])] == [VList(data), VList([])];
    assert Elements(data, b.path) == Ok(Some([VList(data), VList([])]));
    EmptyListStops(c);
    assert Parents(c) == [];
  }
}

=== FILE: inputs.dfy ===
/** `decode_inputs` in `repype/task.py`: the parser for the `inputs` field
    of a task specification, a list of ints or strs, the keys of a dict, or
    a comma-separated text of numbers and `a-b` ranges, read into a sorted
    list without repetitions. */
module InputLists {
  import opened Base
  import opened Values

  /** `s.replace(' ', "")`: every space removed. */
  function NoSpaces(s: string): (r: string)
    ensures forall c :: c in r <==> c in s && c != ' '
  {
    if |s| == 0 then ""
    else (if s[0] == ' ' then "" else [s[0]]) + NoSpaces(s[1..])
  }

  /** The comma-separated tokens of an input specification. */
  function InputTokens(s: string): seq<string> {
    Split(NoSpaces(s), ',')
  }

  /** What a pattern anchored with `^...$` is matched against: `$` also
      matches just before one trailing newline. */
  function Body(t: string): string {
    if |t| > 0 && t[|t| - 1] == '\n' then t[..|t| - 1] else t
  }

  predicate IsDigits(s: string) {
    |s| > 0 && AllDigits(s)
  }

  /** The token matches `^[0-9]+$`. */
  predicate IsNumber(t: string) {
    IsDigits(Body(t))
  }

  /** The two groups of `^([0-9]+)-([0-9]+)$`, as numbers. */
  function Bounds(t: string): Option<(int, int)> {
    var parts := Split(Body(t), '-');
    if |parts| == 2 && IsDigits(parts[0]) && IsDigits(parts[1])
    then Some((DigitsValue(parts[0]), DigitsValue(parts[1])))
    else None
  }

  /** A token the parser accepts: empty, a number, or an increasing range. */
  predicate Accepted(t: string) {
    t == "" || IsNumber(t) || (Bounds(t).Some? && Bounds(t).value.0 < Bounds(t).value.1)
  }

  /** The token stands for input `n`. */
  predicate Denotes(t: string, n: int) {
    (IsNumber(t) && n == DigitsValue(Body(t))) ||
    (Bounds(t).Some? && Bounds(t).value.0 <= n <= Bounds(t).value.1)
  }

  /** `list(range(a, b + 1))`. */
  function Range(a: int, b: int): (r: seq<int>)
    requires a <= b
    ensures forall n :: n in r <==> a <= n <= b
    decreases b - a
  {
    if a == b then [a] else [a] + Range(a + 1, b)
  }

  /** One token's inputs, or the ValueError for a token it cannot parse. */
  function ParseToken(t: string): (r: Result<seq<int>>)
    requires t != ""
    ensures r.Ok? <==> Accepted(t)
    ensures r.Err? ==> r.exc == ValueError
    ensures r.Ok? ==> forall n :: n in r.value <==> Denotes(t, n)
  {
    var m := Bounds(t);
    if m.None? && IsNumber(t) then Ok([DigitsValue(Body(t))])
    else if m.Some? && m.value.0 < m.value.1 then
      assert !IsNumber(t) by { assert '-' in Body(t) by { SplitTwo(Body(t), '-'); } }
      Ok(Range(m.value.0, m.value.1))
    else Err(ValueError)
  }

  /** A string split in two pieces holds the separator. */
  lemma SplitTwo(s: string, c: char)
    requires |Split(s, c)| == 2
    ensures c in s
  {
  }

  /** The loop over the tokens: empty ones are skipped, the first bad one
      raises. */
  function DecodeTokens(ts: seq<string>): (r: Result<seq<int>>)
    ensures r.Err? <==> exists i :: 0 <= i < |ts| && !Accepted(ts[i])
    ensures r.Err? ==> r.exc == ValueError
    ensures r.Ok? ==> forall n :: n in r.value <==> exists i :: 0 <= i < |ts| && Denotes(ts[i], n)
  {
    if |ts| == 0 then Ok([])
    else
      var rest := DecodeTokens(ts[1..]);
      assert forall i :: 0 < i < |ts| ==> ts[i] == ts[1..][i - 1];
      if ts[0] == "" then
        assert !Denotes(ts[0], 0) && !Denotes(ts[0], 1) by { SplitEmpty(); }
        assert forall n :: !Denotes(ts[0], n) by { SplitEmpty(); }
        rest
      else
        var first :- ParseToken(ts[0]);
        var tail :- rest;
        Ok(first + tail)
  }

  lemma SplitEmpty()
    ensures Split("", '-') == [""]
  {
  }

  predicate Increasing(xs: seq<int>) {
    forall i, j :: 0 <= i < j < |xs| ==> xs[i] < xs[j]
  }

  /** Adds `x` to an increasing sequence, keeping it increasing. */
  function Insert(xs: seq<int>, x: int): (r: seq<int>)
    requires Increasing(xs)
    ensures Increasing(r)
    ensures forall y :: y in r <==> y in xs || y == x
  {
    if |xs| == 0 then [x]
    else if x < xs[0] then [x] + xs
    else if x == xs[0] then xs
    else
      var r := [xs[0]] + Insert(xs[1..], x);
      assert forall i :: 0 < i < |r| ==> r[i] in xs[1..] || r[i] == x;
      r
  }

  /** `sorted(frozenset(xs))`. */
  function SortedSet(xs: seq<int>): (r: seq<int>)
    ensures Increasing(r)
    ensures forall y :: y in r <==> y in xs
  {
    if |xs| == 0 then []
    else
      var init := xs[..|xs| - 1];
      assert xs == init + [xs[|xs| - 1]];
      Insert(SortedSet(init), xs[|xs| - 1])
  }

  /** There is only one increasing enumeration of a finite set of numbers. */
  lemma {:induction false} IncreasingUnique(a: seq<int>, b: seq<int>)
    requires Increasing(a) && Increasing(b)
    requires forall y :: y in a <==> y in b
    ensures a == b
    decreases |a|
  {
    if |a| > 0 { assert a[0] in a; }
    if |b| > 0 { assert b[0] in b; }
    if |a| > 0 && |b| > 0 {
      assert a[0] == b[0] by {
        assert a[0] in a && b[0] in b;
        var i :| 0 <= i < |b| && b[i] == a[0];
        var j :| 0 <= j < |a| && a[j] == b[0];
        assert a[0] <= a[j] && b[0] <= b[i];
      }
      forall y ensures y in a[1..] <==> y in b[1..] {
        if y in a[1..] {
          assert y in b && y != b[0];
        }
        if y in b[1..] {
          assert y in a && y != a[0];
        }
      }
      IncreasingUnique(a[1..], b[1..]);
      assert a == [a[0]] + a[1..] && b == [b[0]] + b[1..];
    }
  }

  /** `decode_inputs` on a string: spaces are removed, the comma-separated
      tokens parsed, and the inputs returned sorted without repetition. */
  function DecodeString(s: string): (r: Result<seq<int>>)
    ensures r.Err? <==> exists i :: 0 <= i < |InputTokens(s)| && !Accepted(InputTokens(s)[i])
    ensures r.Err? ==> r.exc == ValueError
    ensures r.Ok? ==> Increasing(r.value)
    ensures r.Ok? ==> forall n :: n in r.value <==>
      exists i :: 0 <= i < |InputTokens(s)| && Denotes(InputTokens(s)[i], n)
  {
    var inputs :- DecodeTokens(InputTokens(s));
    Ok(SortedSet(inputs))
  }

  // ---------------------------------------------------------------------
  // Text inputs, in code point order
  // ---------------------------------------------------------------------

  /** Python's `<` on str: code point by code point, a proper prefix first. */
  predicate LexLess(a: string, b: string) {
    if |a| == 0 then |b| > 0
    else |b| > 0 && (a[0] < b[0] || (a[0] == b[0] && LexLess(a[1..], b[1..])))
  }

  lemma {:induction false} LexIrreflexive(a: string)
    ensures !LexLess(a, a)
  {
    if |a| > 0 {
      LexIrreflexive(a[1..]);
    }
  }

  lemma {:induction false} LexAsymmetric(a: string, b: string)
    requires LexLess(a, b)
    ensures !LexLess(b, a)
  {
    if |a| > 0 && a[0] == b[0] {
      LexAsymmetric(a[1..], b[1..]);
    }
  }

  lemma {:induction false} LexTransitive(a: string, b: string, c: string)
    requires LexLess(a, b) && LexLess(b, c)
    ensures LexLess(a, c)
  {
    if |a| > 0 && a[0] == b[0] && b[0] == c[0] {
      LexTransitive(a[1..], b[1..], c[1..]);
    }
  }

  /** Any two different texts are ordered one way or the other. */
  lemma {:induction false} LexTotal(a: string, b: string)
    requires a != b
    ensures LexLess(a, b) || LexLess(b, a)
  {
    if |a| > 0 && |b| > 0 && a[0] == b[0] {
      assert a == [a[0]] + a[1..] && b == [b[0]] + b[1..];
      LexTotal(a[1..], b[1..]);
    }
  }

  predicate LexIncreasing(xs: seq<string>) {
    forall i, j :: 0 <= i < j < |xs| ==> LexLess(xs[i], xs[j])
  }

  /** Adds `x` to a text sequence in increasing order, keeping the order. */
  function InsertText(xs: seq<string>, x: string): (r: seq<string>)
    requires LexIncreasing(xs)
    ensures LexIncreasing(r)
    ensures forall y :: y in r <==> y in xs || y == x
  {
    if |xs| == 0 then [x]
    else if x == xs[0] then xs
    else if LexLess(x, xs[0]) then
      forall j | 0 <= j < |xs| ensures LexLess(x, xs[j]) {
        if j > 0 { LexTransitive(x, xs[0], xs[j]); }
      }
      [x] + xs
    else
      LexTotal(x, xs[0]);
      var r := [xs[0]] + InsertText(xs[1..], x);
      assert forall i :: 0 < i < |r| ==> r[i] in xs[1..] || r[i] == x;
      r
  }

  /** `sorted(frozenset(xs))` for texts: increasing, with the same members. */
  function SortedTexts(xs: seq<string>): (r: seq<string>)
    ensures LexIncreasing(r)
    ensures forall y :: y in r <==> y in xs
  {
    if |xs| == 0 then []
    else
      var init := xs[..|xs| - 1];
      assert xs == init + [xs[|xs| - 1]];
      InsertText(SortedTexts(init), xs[|xs| - 1])
  }

  // ---------------------------------------------------------------------
  // Inputs of either kind
  // ---------------------------------------------------------------------

  /** An input of a task: an int or a str (`repype.typing.Input`). */
  datatype Input = IntIn(n: int) | StrIn(s: string)

  /** `a < b` on inputs of one kind; an int and a str are not comparable. */
  predicate Before(a: Input, b: Input) {
    (a.IntIn? && b.IntIn? && a.n < b.n) || (a.StrIn? && b.StrIn? && LexLess(a.s, b.s))
  }

  /** Sorted without repetition, hence all of one kind once there are two. */
  predicate Ascending(xs: seq<Input>) {
    forall i, j :: 0 <= i < j < |xs| ==> Before(xs[i], xs[j])
  }

  /** The value an input stands for in a specification. */
  function AsValue(x: Input): Value {
    match x
    case IntIn(n) => VInt(n)
    case StrIn(s) => VStr(s)
  }

  function IntInputs(ns: seq<int>): (r: seq<Input>)
    ensures |r| == |ns| && forall i :: 0 <= i < |ns| ==> r[i] == IntIn(ns[i])
    ensures Increasing(ns) ==> Ascending(r)
  {
    seq(|ns|, i requires 0 <= i < |ns| => IntIn(ns[i]))
  }

  function StrInputs(ts: seq<string>): (r: seq<Input>)
    ensures |r| == |ts| && forall i :: 0 <= i < |ts| ==> r[i] == StrIn(ts[i])
    ensures LexIncreasing(ts) ==> Ascending(r)
  {
    seq(|ts|, i requires 0 <= i < |ts| => StrIn(ts[i]))
  }

  /** There is only one ascending enumeration of a finite set of inputs. */
  lemma {:induction false} AscendingUnique(a: seq<Input>, b: seq<Input>)
    requires Ascending(a) && Ascending(b)
    requires forall x :: x in a <==> x in b
    ensures a == b
  {
    if |a| > 0 { assert a[0] in a; }
    if |b| > 0 { assert b[0] in b; }
    if |a| > 0 && |b| > 0 {
      assert a[0] == b[0] by {
        var i :| 0 <= i < |b| && b[i] == a[0];
        var j :| 0 <= j < |a| && a[j] == b[0];
        if a[0] != b[0] {
          assert i > 0 && j > 0;
          assert Before(b[0], a[0]) && Before(a[0], b[0]);
          if a[0].StrIn? { LexAsymmetric(a[0].s, b[0].s); }
        }
      }
      forall y ensures y in a[1..] <==> y in b[1..] {
        if y in a[1..] {
          var k :| 1 <= k < |a| && a[k] == y;
          assert Before(a[0], y);
          if y.StrIn? { LexIrreflexive(y.s); }
          assert y in b && y != b[0];
        }
        if y in b[1..] {
          var k :| 1 <= k < |b| && b[k] == y;
          assert Before(b[0], y);
          if y.StrIn? { LexIrreflexive(y.s); }
          assert y in a && y != a[0];
        }
      }
      AscendingUnique(a[1..], b[1..]);
      assert a == [a[0]] + a[1..] && b == [b[0]] + b[1..];
    }
  }

  /** The numbers held by a list value, or None when some item is not an int. */
  function Ints(xs: seq<Value>): (r: Option<seq<int>>)
    ensures r.Some? <==> forall i :: 0 <= i < |xs| ==> xs[i].VInt?
    ensures r.Some? ==> |r.value| == |xs| && forall i :: 0 <= i < |xs| ==> xs[i] == VInt(r.value[i])
  {
    if |xs| == 0 then Some([])
    else if !xs[0].VInt? then None
    else match Ints(xs[1..])
      case None => None
      case Some(rest) => Some([xs[0].i] + rest)
  }

  /** The texts held by a list value, or None when some item is not a str. */
  function Texts(xs: seq<Value>): (r: Option<seq<string>>)
    ensures r.Some? <==> forall i :: 0 <= i < |xs| ==> xs[i].VStr?
    ensures r.Some? ==> |r.value| == |xs| && forall i :: 0 <= i < |xs| ==> xs[i] == VStr(r.value[i])
  {
    if |xs| == 0 then Some([])
    else if !xs[0].VStr? then None
    else match Texts(xs[1..])
      case None => None
      case Some(rest) => Some([xs[0].s] + rest)
  }

  /** The items of a list that can be sorted together: all ints or all strs. */
  predicate OneKind(xs: seq<Value>) {
    (forall i :: 0 <= i < |xs| ==> xs[i].VInt?) || (forall i :: 0 <= i < |xs| ==> xs[i].VStr?)
  }

  /** `decode_inputs(spec)`: a string is parsed into numbers; a list of ints
      or of strs, or the keys of a dict, are sorted and deduplicated
      (`sorted(frozenset(spec))`); sorting an int against a str, or iterating
      a scalar, raises TypeError. */
  function DecodeInputs(spec: Value): (r: Result<seq<Input>>)
    ensures spec.VStr? && DecodeString(spec.s).Err? ==> r == Err(DecodeString(spec.s).exc)
    ensures spec.VStr? && DecodeString(spec.s).Ok? ==> r == Ok(IntInputs(DecodeString(spec.s).value))
    ensures r.Ok? ==> Ascending(r.value)
    ensures spec.VList? && OneKind(spec.items) ==>
      r.Ok? && forall x :: x in r.value <==> AsValue(x) in spec.items
    ensures spec.VMap? ==>
      r.Ok? && forall x :: x in r.value <==> x.StrIn? && x.s in KeysOf(spec.entries)
    ensures spec.VList? && !OneKind(spec.items) ==> r == Err(TypeError)
    ensures !spec.VStr? && !spec.VList? && !spec.VMap? ==> r == Err(TypeError)
  {
    match spec
    case VStr(s) =>
      var ns :- DecodeString(s);
      Ok(IntInputs(ns))
    case VList(xs) =>
      if Ints(xs).Some? then
        IntListMembers(xs);
        Ok(IntInputs(SortedSet(Ints(xs).value)))
      else if Texts(xs).Some? then
        TextListMembers(xs);
        Ok(StrInputs(SortedTexts(Texts(xs).value)))
      else Err(TypeError)
    case VMap(e) =>
      KeyMembers(e);
      Ok(StrInputs(SortedTexts(KeysOf(e))))
    case _ => Err(TypeError)
  }

  lemma IntListMembers(xs: seq<Value>)
    requires Ints(xs).Some?
    ensures forall x :: x in IntInputs(SortedSet(Ints(xs).value)) <==> AsValue(x) in xs
  {
    var ns := Ints(xs).value;
    var r := IntInputs(SortedSet(ns));
    forall x ensures x in r <==> AsValue(x) in xs {
      if x in r {
        var k :| 0 <= k < |r| && r[k] == x;
        assert SortedSet(ns)[k] in SortedSet(ns);
        var i :| 0 <= i < |ns| && ns[i] == SortedSet(ns)[k];
        assert xs[i] == AsValue(x);
      }
      if AsValue(x) in xs {
        var i :| 0 <= i < |xs| && xs[i] == AsValue(x);
        assert ns[i] in SortedSet(ns);
        var k :| 0 <= k < |SortedSet(ns)| && SortedSet(ns)[k] == ns[i];
        assert r[k] == x;
      }
    }
  }

  lemma TextListMembers(xs: seq<Value>)
    requires Texts(xs).Some?
    ensures forall x :: x in StrInputs(SortedTexts(Texts(xs).value)) <==> AsValue(x) in xs
  {
    var ts := Texts(xs).value;
    var r := StrInputs(SortedTexts(ts));
    forall x ensures x in r <==> AsValue(x) in xs {
      if x in r {
        var k :| 0 <= k < |r| && r[k] == x;
        assert SortedTexts(ts)[k] in SortedTexts(ts);
        var i :| 0 <= i < |ts| && ts[i] == SortedTexts(ts)[k];
        assert xs[i] == AsValue(x);
      }
      if AsValue(x) in xs {
        var i :| 0 <= i < |xs| && xs[i] == AsValue(x);
        assert ts[i] in SortedTexts(ts);
        var k :| 0 <= k < |SortedTexts(ts)| && SortedTexts(ts)[k] == ts[i];
        assert r[k] == x;
      }
    }
  }

  lemma KeyMembers(e: Entries)
    ensures forall x :: x in StrInputs(SortedTexts(KeysOf(e))) <==> x.StrIn? && x.s in KeysOf(e)
  {
    var ks := KeysOf(e);
    var r := StrInputs(SortedTexts(ks));
    forall x ensures x in r <==> x.StrIn? && x.s in ks {
      if x.StrIn? && x.s in ks {
        var k :| 0 <= k < |SortedTexts(ks)| && SortedTexts(ks)[k] == x.s;
        assert r[k] == x;
      }
    }
  }

  /** The inputs of a list are its one ascending enumeration. */
  lemma DecodeListUnique(items: seq<Value>, want: seq<Input>)
    requires OneKind(items) && Ascending(want)
    requires forall x :: x in want <==> AsValue(x) in items
    ensures DecodeInputs(VList(items)) == Ok(want)
  {
    AscendingUnique(DecodeInputs(VList(items)).value, want);
  }
}

=== FILE: json.dfy ===
/** Python's `json.dumps` (default `ensure_ascii`, optional `indent`) on the
    values the engine stores, and a reader for JSON text in the manner of
    `json.loads`. The store's deep copy goes through this text and its
    equality compares it, so the reader's round trip is what makes both
    behave as structural operations. */
module Json {
  import opened Base
  import opened Values

  // ---------------------------------------------------------------------
  // Writing
  // ---------------------------------------------------------------------

  /** Four lower-case hex digits, as in `'\\u{0:04x}'.format(n)`. */
  function Hex4(n: nat): (r: string)
    requires n < 0x10000
    ensures |r| == 4
  {
    var r1 := n % 0x1000;
    var r2 := r1 % 0x100;
    [HexDigit(n / 0x1000), HexDigit(r1 / 0x100), HexDigit(r2 / 16), HexDigit(r2 % 16)]
  }

  /** One character as `ensure_ascii` writes it: the short escapes, printable
      ASCII as is, everything else as `\uXXXX` (a surrogate pair above the
      Basic Multilingual Plane). */
  function EscapeChar(c: char): (r: string)
    ensures |r| > 0 && r[0] != '"'
  {
    if c == '\\' then "\\\\"
    else if c == '"' then "\\\""
    else if c as int == 8 then "\\b"
    else if c as int == 12 then "\\f"
    else if c == '\n' then "\\n"
    else if c == '\r' then "\\r"
    else if c == '\t' then "\\t"
    else if ' ' <= c <= '~' then [c]
    else if c as int < 0x10000 then "\\u" + Hex4(c as int)
    else
      var n := c as int - 0x10000;
      "\\u" + Hex4(0xD800 + n / 0x400) + "\\u" + Hex4(0xDC00 + n % 0x400)
  }

  function EscapeString(s: string): string {
    if |s| == 0 then "" else EscapeChar(s[0]) + EscapeString(s[1..])
  }

  /** A JSON string literal. */
  function Quote(s: string): string {
    "\"" + EscapeString(s) + "\""
  }

  /** Line break and indentation before an item at nesting `level`
      (nothing without `indent`). */
  function Newline(indent: Option<nat>, level: nat): string {
    match indent
    case None => ""
    case Some(n) => "\n" + Repeat(' ', n * level)
  }

  /** Item separator: `", "` in compact form, `","` and a line break when indenting. */
  function ItemSep(indent: Option<nat>, level: nat): string {
    match indent
    case None => ", "
    case Some(_) => "," + Newline(indent, level)
  }

  /** `json.dumps(v, indent=indent)` for a value nested `level` deep. */
  function Dumps(v: Value, indent: Option<nat>, level: nat): string
    decreases v
  {
    match v
    case VNone => "null"
    case VBool(b) => if b then "true" else "false"
    case VInt(i) => IntToString(i)
    case VStr(s) => Quote(s)
    case VList(xs) =>
      if |xs| == 0 then "[]"
      else "[" + Newline(indent, level + 1) + DumpItems(xs, indent, level + 1) + Newline(indent, level) + "]"
    case VMap(e) =>
      if |e| == 0 then "{}"
      else "{" + Newline(indent, level + 1) + DumpMembers(e, indent, level + 1) + Newline(indent, level) + "}"
  }

  function DumpItems(xs: seq<Value>, indent: Option<nat>, level: nat): string
    decreases xs
  {
    if |xs| == 0 then ""
    else if |xs| == 1 then Dumps(xs[0], indent, level)
    else Dumps(xs[0], indent, level) + ItemSep(indent, level) + DumpItems(xs[1..], indent, level)
  }

  function DumpMembers(e: Entries, indent: Option<nat>, level: nat): string
    decreases e
  {
    if |e| == 0 then ""
    else if |e| == 1 then DumpMember(e[0], indent, level)
    else DumpMember(e[0], indent, level) + ItemSep(indent, level) + DumpMembers(e[1..], indent, level)
  }

  function DumpMember(kv: (string, Value), indent: Option<nat>, level: nat): string
    decreases kv
  {
    Quote(kv.0) + ": " + Dumps(kv.1, indent, level)
  }

  // ---------------------------------------------------------------------
  // Reading
  // ---------------------------------------------------------------------

  predicate IsWs(c: char) {
    c == ' ' || c == '\t' || c == '\n' || c == '\r'
  }

  predicate AllWs(w: string) {
    forall i :: 0 <= i < |w| ==> IsWs(w[i])
  }

  function SkipWs(s: string): (r: string)
    ensures |r| <= |s|
    ensures |r| > 0 ==> !IsWs(r[0])
  {
    if |s| > 0 && IsWs(s[0]) then SkipWs(s[1..]) else s
  }

  function HexValue(c: char): Option<nat> {
    if '0' <= c <= '9' then Some(c as int - '0' as int)
    else if 'a' <= c <= 'f' then Some(c as int - 'a' as int + 10)
    else if 'A' <= c <= 'F' then Some(c as int - 'A' as int + 10)
    else None
  }

  /** The number written by four hex digits. */
  function ReadHex4(s: string): (r: Option<nat>)
    requires |s| == 4
    ensures r.Some? ==> r.value < 0x10000
  {
    match (HexValue(s[0]), HexValue(s[1]), HexValue(s[2]), HexValue(s[3]))
    case (Some(a), Some(b), Some(c), Some(d)) =>
      if a < 16 && b < 16 && c < 16 && d < 16 then Some(((a * 16 + b) * 16 + c) * 16 + d) else None
    case _ => None
  }

  /** One character of a string literal's body (not the closing quote),
      decoding an escape; a surrogate pair combines into one character and a
      lone surrogate is refused. */
  function ReadChar(s: string): (r: Option<(char, string)>)
    requires |s| > 0
    ensures r.Some? ==> |r.value.1| < |s|
  {
    if s[0] != '\\' then Some((s[0], s[1..]))
    else if |s| < 2 then None
    else if s[1] == '"' then Some(('"', s[2..]))
    else if s[1] == '\\' then Some(('\\', s[2..]))
    else if s[1] == '/' then Some(('/', s[2..]))
    else if s[1] == 'b' then Some((8 as char, s[2..]))
    else if s[1] == 'f' then Some((12 as char, s[2..]))
    else if s[1] == 'n' then Some(('\n', s[2..]))
    else if s[1] == 'r' then Some(('\r', s[2..]))
    else if s[1] == 't' then Some(('\t', s[2..]))
    else if s[1] != 'u' || |s| < 6 then None
    else match ReadHex4(s[2..6])
      case None => None
      case Some(n) =>
        if 0xD800 <= n < 0xDC00 then
          if |s| >= 12 && s[6] == '\\' && s[7] == 'u' then
            match ReadHex4(s[8..12])
            case Some(m) =>
              if 0xDC00 <= m < 0xE000 then
                Some(((0x10000 + (n - 0xD800) * 0x400 + (m - 0xDC00)) as char, s[12..]))
              else None
            case None => None
          else None
        else if 0xDC00 <= n < 0xE000 then None
        else Some((n as char, s[6..]))
  }

  /** The body of a string literal up to its closing quote, and what follows. */
  function ReadString(s: string): (r: Option<(string, string)>)
    ensures r.Some? ==> |r.value.1| < |s|
    decreases |s|
  {
    if |s| == 0 then None
    else if s[0] == '"' then Some(("", s[1..]))
    else match ReadChar(s)
      case None => None
      case Some((c, t)) =>
        match ReadString(t)
        case None => None
        case Some((str, u)) => Some(([c] + str, u))
  }

  /** Number of leading decimal digits. */
  function DigitRun(s: string): (n: nat)
    ensures n <= |s|
  {
    if |s| > 0 && IsDigit(s[0]) then 1 + DigitRun(s[1..]) else 0
  }

  function ReadNumber(s: string): (r: Option<(Value, string)>)
    ensures r.Some? ==> |r.value.1| < |s|
  {
    var neg := |s| > 0 && s[0] == '-';
    var t := if neg then s[1..] else s;
    match ReadDigits(t)
    case None => None
    case Some((d, u)) => Some((VInt(if neg then -d else d), u))
  }

  /** A non-empty run of decimal digits, as a number. */
  function ReadDigits(t: string): (r: Option<(int, string)>)
    ensures r.Some? ==> |r.value.1| < |t|
  {
    var n := DigitRun(t);
    if n == 0 then None else Some((DigitsValue(t[..n]), t[n..]))
  }

  /** A dict built from key/value pairs in order: a repeated key keeps its
      first position and takes its last value, as `dict(pairs)`. */
  function FromPairs(acc: Entries, pairs: Entries): Entries
    decreases |pairs|
  {
    if |pairs| == 0 then acc else FromPairs(Put(acc, pairs[0].0, pairs[0].1), pairs[1..])
  }

  /** A JSON value after optional whitespace, and the text that follows it. */
  function ReadValue(s: string): (r: Option<(Value, string)>)
    ensures r.Some? ==> |r.value.1| < |s|
    decreases |s|, 1
  {
    ReadToken(SkipWs(s))
  }

  /** A JSON value starting right at the first character. */
  function ReadToken(t: string): (r: Option<(Value, string)>)
    ensures r.Some? ==> |r.value.1| < |t|
    decreases |t|, 0
  {
    if |t| == 0 then None
    else if t[0] == 'n' then (if StartsWith(t, "null") then Some((VNone, t[4..])) else None)
    else if t[0] == 't' then (if StartsWith(t, "true") then Some((VBool(true), t[4..])) else None)
    else if t[0] == 'f' then (if StartsWith(t, "false") then Some((VBool(false), t[5..])) else None)
    else if t[0] == '"' then
      match ReadString(t[1..])
      case None => None
      case Some((str, u)) => Some((VStr(str), u))
    else if t[0] == '[' then ReadArray(t[1..])
    else if t[0] == '{' then ReadObject(t[1..])
    else ReadNumber(t)
  }

  /** An array after its opening bracket. */
  function ReadArray(s: string): (r: Option<(Value, string)>)
    ensures r.Some? ==> |r.value.1| < |s|
    decreases |s|, 3
  {
    var u := SkipWs(s);
    if |u| > 0 && u[0] == ']' then Some((VList([]), u[1..]))
    else
      match ReadItems(s)
      case None => None
      case Some((xs, w)) => Some((VList(xs), w))
  }

  /** An object after its opening brace. */
  function ReadObject(s: string): (r: Option<(Value, string)>)
    ensures r.Some? ==> |r.value.1| < |s|
    decreases |s|, 4
  {
    var u := SkipWs(s);
    if |u| > 0 && u[0] == '}' then Some((VMap([]), u[1..]))
    else
      match ReadMembers(s)
      case None => None
      case Some((pairs, w)) => Some((VMap(FromPairs([], pairs)), w))
  }

  /** The items of a non-empty array and its closing bracket. */
  function ReadItems(s: string): (r: Option<(seq<Value>, string)>)
    ensures r.Some? ==> |r.value.1| < |s|
    decreases |s|, 2
  {
    match ReadValue(s)
    case None => None
    case Some((v, t)) =>
      var u := SkipWs(t);
      if |u| > 0 && u[0] == ']' then Some(([v], u[1..]))
      else if |u| > 0 && u[0] == ',' then
        match ReadItems(u[1..])
        case None => None
        case Some((vs, w)) => Some(([v] + vs, w))
      else None
  }

  /** One `"key": value` pair. */
  function ReadMember(s: string): (r: Option<((string, Value), string)>)
    ensures r.Some? ==> |r.value.1| < |s|
    decreases |s|, 2
  {
    var t := SkipWs(s);
    if |t| == 0 || t[0] != '"' then None
    else match ReadString(t[1..])
      case None => None
      case Some((k, u)) =>
        var w := SkipWs(u);
        if |w| == 0 || w[0] != ':' then None
        else match ReadValue(w[1..])
          case None => None
          case Some((v, x)) => Some(((k, v), x))
  }

  /** The pairs of a non-empty object and its closing brace. */
  function ReadMembers(s: string): (r: Option<(Entries, string)>)
    ensures r.Some? ==> |r.value.1| < |s|
    decreases |s|, 3
  {
    match ReadMember(s)
    case None => None
    case Some((kv, t)) =>
      var u := SkipWs(t);
      if |u| > 0 && u[0] == '}' then Some(([kv], u[1..]))
      else if |u| > 0 && u[0] == ',' then
        match ReadMembers(u[1..])
        case None => None
        case Some((kvs, w)) => Some(([kv] + kvs, w))
      else None
  }

  /** `json.loads(s)`: one value with nothing but whitespace after it. */
  function Loads(s: string): Option<Value> {
    match ReadValue(s)
    case Some((v, rest)) => if SkipWs(rest) == "" then Some(v) else None
    case None => None
  }

  // ---------------------------------------------------------------------
  // Round trip
  // ---------------------------------------------------------------------

  lemma HexDigitValue(d: nat)
    requires d < 16
    ensures HexValue(HexDigit(d)) == Some(d)
  {
  }

  lemma ReadHex4Inverse(n: nat)
    requires n < 0x10000
    ensures ReadHex4(Hex4(n)) == Some(n)
  {
    var r1 := n % 0x1000;
    var r2 := r1 % 0x100;
    var a, b, c, d := n / 0x1000, r1 / 0x100, r2 / 16, r2 % 16;
    HexDigitValue(a);
    HexDigitValue(b);
    HexDigitValue(c);
    HexDigitValue(d);
    assert n == a * 0x1000 + r1;
    assert r1 == b * 0x100 + r2;
    assert r2 == c * 16 + d;
  }

  lemma ReadPlainChar(c: char, t: string)
    requires c != '\\'
    ensures ReadChar([c] + t) == Some((c, t))
  {
    assert ([c] + t)[1..] == t;
  }

  lemma ReadShortEscape(e: char, c: char, t: string)
    requires (e, c) in [('"', '"'), ('\\', '\\'), ('b', 8 as char), ('f', 12 as char),
                        ('n', '\n'), ('r', '\r'), ('t', '\t')]
    ensures ReadChar(['\\', e] + t) == Some((c, t))
  {
    assert (['\\', e] + t)[2..] == t;
  }

  lemma ReadBmpEscape(c: char, t: string)
    requires c as int < 0x10000
    ensures ReadChar("\\u" + Hex4(c as int) + t) == Some((c, t))
  {
    var s := "\\u" + Hex4(c as int) + t;
    ReadHex4Inverse(c as int);
    assert s[2..6] == Hex4(c as int);
    assert s[6..] == t;
  }

  lemma ReadSurrogatePair(c: char, t: string)
    requires c as int >= 0x10000
    ensures var n := c as int - 0x10000;
      ReadChar("\\u" + Hex4(0xD800 + n / 0x400) + "\\u" + Hex4(0xDC00 + n % 0x400) + t) == Some((c, t))
  {
    var n := c as int - 0x10000;
    var hi, lo := 0xD800 + n / 0x400, 0xDC00 + n % 0x400;
    var s := "\\u" + Hex4(hi) + "\\u" + Hex4(lo) + t;
    ReadHex4Inverse(hi);
    ReadHex4Inverse(lo);
    assert s[2..6] == Hex4(hi);
    assert s[6] == '\\' && s[7] == 'u';
    assert s[8..12] == Hex4(lo);
    assert s[12..] == t;
    assert n == n / 0x400 * 0x400 + n % 0x400;
  }

  /** Every escape that `EscapeChar` writes reads back as the character. */
  lemma ReadEscapeChar(c: char, t: string)
    ensures ReadChar(EscapeChar(c) + t) == Some((c, t))
  {
    if c == '\\' {
      ReadShortEscape('\\', c, t);
    } else if c == '"' {
      ReadShortEscape('"', c, t);
    } else if c as int == 8 {
      ReadShortEscape('b', c, t);
    } else if c as int == 12 {
      ReadShortEscape('f', c, t);
    } else if c == '\n' {
      ReadShortEscape('n', c, t);
    } else if c == '\r' {
      ReadShortEscape('r', c, t);
    } else if c == '\t' {
      ReadShortEscape('t', c, t);
    } else if ' ' <= c <= '~' {
      ReadPlainChar(c, t);
    } else if c as int < 0x10000 {
      ReadBmpEscape(c, t);
    } else {
      ReadSurrogatePair(c, t);
    }
  }

  /** A string literal's body reads back as the text. */
  lemma {:induction false} ReadEscapeString(s: string, t: string)
    ensures ReadString(EscapeString(s) + "\"" + t) == Some((s, t))
    decreases |s|
  {
    if |s| == 0 {
      assert EscapeString(s) + "\"" + t == "\"" + t;
    } else {
      var x := EscapeString(s[1..]) + "\"" + t;
      assert EscapeString(s) == EscapeChar(s[0]) + EscapeString(s[1..]);
      ConcatAssoc3(EscapeChar(s[0]), EscapeString(s[1..]), "\"", t);
      ReadEscapeChar(s[0], x);
      ReadEscapeString(s[1..], t);
      assert [s[0]] + s[1..] == s;
    }
  }

  lemma {:induction false} SkipWsPrefix(w: string, y: string)
    requires AllWs(w)
    ensures SkipWs(w + y) == SkipWs(y)
    decreases |w|
  {
    if |w| > 0 {
      assert IsWs(w[0]) && AllWs(w[1..]);
      assert (w + y)[0] == w[0];
      assert (w + y)[1..] == w[1..] + y;
      SkipWsPrefix(w[1..], y);
    } else {
      assert w + y == y;
    }
  }

  lemma NewlineWs(indent: Option<nat>, level: nat)
    ensures AllWs(Newline(indent, level))
  {
  }

  lemma {:induction false} DigitRunPrefix(ds: string, rest: string)
    requires AllDigits(ds)
    requires |rest| == 0 || !IsDigit(rest[0])
    ensures DigitRun(ds + rest) == |ds|
    decreases |ds|
  {
    if |ds| > 0 {
      assert (ds + rest)[0] == ds[0];
      assert (ds + rest)[1..] == ds[1..] + rest;
      DigitRunPrefix(ds[1..], rest);
    } else {
      assert ds + rest == rest;
    }
  }

  lemma ReadNatDigits(m: nat, rest: string)
    requires |rest| == 0 || !IsDigit(rest[0])
    ensures ReadDigits(NatToString(m) + rest) == Some((m, rest))
  {
    var ds := NatToString(m);
    var t := ds + rest;
    NatToStringDigits(m);
    DigitRunPrefix(ds, rest);
    NatToStringValue(m);
    assert t[..|ds|] == ds;
    assert t[|ds|..] == rest;
  }

  lemma ReadMinus(t: string, m: int, rest: string)
    requires ReadDigits(t) == Some((m, rest))
    ensures ReadNumber("-" + t) == Some((VInt(-m), rest))
  {
    assert ("-" + t)[1..] == t;
  }

  lemma ReadNegative(m: nat, rest: string)
    requires |rest| == 0 || !IsDigit(rest[0])
    ensures ReadNumber("-" + (NatToString(m) + rest)) == Some((VInt(-(m as int)), rest))
  {
    ReadNatDigits(m, rest);
    ReadMinus(NatToString(m) + rest, m, rest);
  }

  lemma ReadNonNegative(m: nat, rest: string)
    requires |rest| == 0 || !IsDigit(rest[0])
    ensures ReadNumber(NatToString(m) + rest) == Some((VInt(m), rest))
  {
    ReadNatDigits(m, rest);
    assert IsDigit(NatToString(m)[0]);
    assert (NatToString(m) + rest)[0] == NatToString(m)[0];
  }

  lemma ReadIntToString(i: int, rest: string)
    requires |rest| == 0 || !IsDigit(rest[0])
    ensures ReadNumber(IntToString(i) + rest) == Some((VInt(i), rest))
  {
    if i < 0 {
      ReadNegative(-i, rest);
      ConcatAssoc("-", NatToString(-i), rest);
    } else {
      ReadNonNegative(i, rest);
    }
  }

  /** The first character of a written value: never whitespace, never a
      closing bracket or brace. */
  lemma DumpsHead(v: Value, indent: Option<nat>, level: nat)
    ensures |Dumps(v, indent, level)| > 0
    ensures var c := Dumps(v, indent, level)[0]; !IsWs(c) && c != ']' && c != '}'
  {
    match v
    case VInt(i) =>
      if i >= 0 {
        assert IsDigit(NatToString(i)[0]);
      }
    case _ =>
  }

  lemma {:induction false} FromPairsUnique(acc: Entries, pairs: Entries)
    requires Unique(acc + pairs)
    ensures FromPairs(acc, pairs) == acc + pairs
    decreases |pairs|
  {
    if |pairs| > 0 {
      var p := pairs[0];
      FirstKeyFresh(acc, pairs);
      assert Put(acc, p.0, p.1) == acc + [p];
      ConcatAssoc(acc, [p], pairs[1..]);
      assert [p] + pairs[1..] == pairs;
      FromPairsUnique(acc + [p], pairs[1..]);
    }
  }

  lemma FirstKeyFresh(acc: Entries, pairs: Entries)
    requires Unique(acc + pairs) && |pairs| > 0
    ensures IndexOf(acc, pairs[0].0).None?
  {
    forall j | 0 <= j < |acc| ensures acc[j].0 != pairs[0].0 {
      assert (acc + pairs)[j] == acc[j] && (acc + pairs)[|acc|] == pairs[0];
    }
  }

  /** Reading back a dict's pairs rebuilds the dict when its keys are unique. */
  lemma FromPairsOfUnique(e: Entries)
    requires Unique(e)
    ensures FromPairs([], e) == e
  {
    assert [] + e == e;
    FromPairsUnique([], e);
  }


  lemma Regroup(a: string, b: string, c: string, d: string, e: string)
    ensures a + b + c + d + e == a + (b + c + d + e)
  {
  }

  lemma Regroup2(a: string, b: string, c: string, d: string)
    ensures a + (b + c) + d == a + (b + (c + d))
  {
  }

  lemma QuoteRest(str: string, rest: string)
    ensures Quote(str) + rest == "\"" + (EscapeString(str) + "\"" + rest)
  {
    var e := EscapeString(str);
    assert Quote(str) == "\"" + e + "\"";
    assert "\"" + e + "\"" + rest == "\"" + (e + "\"" + rest);
  }

  lemma MemberText(k: string, d: string, x: string)
    ensures Quote(k) + ": " + d + x == "\"" + (EscapeString(k) + "\"" + (":" + (" " + (d + x))))
  {
    var e := EscapeString(k);
    assert Quote(k) == "\"" + e + "\"";
    assert "\"" + e + "\"" + ": " + d + x == "\"" + (e + "\"" + (":" + (" " + (d + x))));
  }

  /** `w1 + (head + tail) + w2 + c + rest` regrouped around `head`. */
  lemma ItemsText(w1: string, head: string, tail: string, w2: string, c: string, rest: string)
    ensures w1 + (head + tail) + w2 + c + rest == w1 + (head + (tail + w2 + c + rest))
  {
  }

  lemma LastText(w2: string, c: string, rest: string)
    ensures "" + w2 + c + rest == w2 + (c + rest)
  {
  }

  lemma NextText(w3: string, more: string, w2: string, c: string, rest: string)
    ensures "," + w3 + more + w2 + c + rest == "," + (w3 + more + w2 + c + rest)
  {
  }

  lemma ReadValueArray(a: string)
    ensures ReadValue("[" + a) == ReadArray(a)
  {
    assert ("[" + a)[0] == '[' && ("[" + a)[1..] == a;
  }

  lemma ReadValueObject(a: string)
    ensures ReadValue("{" + a) == ReadObject(a)
  {
    assert ("{" + a)[0] == '{' && ("{" + a)[1..] == a;
  }

  lemma ReadValueString(a: string, str: string, rest: string)
    requires ReadString(a) == Some((str, rest))
    ensures ReadValue("\"" + a) == Some((VStr(str), rest))
  {
    assert ("\"" + a)[0] == '"' && ("\"" + a)[1..] == a;
  }

  lemma ReadEmptyArray(rest: string)
    ensures ReadArray("]" + rest) == Some((VList([]), rest))
  {
    assert SkipWs("]" + rest) == "]" + rest;
    assert ("]" + rest)[1..] == rest;
  }

  lemma ReadEmptyObject(rest: string)
    ensures ReadObject("}" + rest) == Some((VMap([]), rest))
  {
    assert SkipWs("}" + rest) == "}" + rest;
    assert ("}" + rest)[1..] == rest;
  }

  lemma ReadItemsLast(s: string, v: Value, t: string, rest: string)
    requires ReadValue(s) == Some((v, t)) && SkipWs(t) == "]" + rest
    ensures ReadItems(s) == Some(([v], rest))
  {
    assert ("]" + rest)[1..] == rest;
  }

  lemma ReadItemsNext(s: string, v: Value, t: string, u: string, vs: seq<Value>, rest: string)
    requires ReadValue(s) == Some((v, t)) && SkipWs(t) == "," + u && ReadItems(u) == Some((vs, rest))
    ensures ReadItems(s) == Some(([v] + vs, rest))
  {
    assert ("," + u)[1..] == u;
  }

  lemma ReadMembersLast(s: string, kv: (string, Value), t: string, rest: string)
    requires ReadMember(s) == Some((kv, t)) && SkipWs(t) == "}" + rest
    ensures ReadMembers(s) == Some(([kv], rest))
  {
    assert ("}" + rest)[1..] == rest;
  }

  lemma ReadMembersNext(s: string, kv: (string, Value), t: string, u: string, kvs: Entries, rest: string)
    requires ReadMember(s) == Some((kv, t)) && SkipWs(t) == "," + u && ReadMembers(u) == Some((kvs, rest))
    ensures ReadMembers(s) == Some(([kv] + kvs, rest))
  {
    assert ("," + u)[1..] == u;
  }

  lemma ReadMemberStep(a: string, k: string, b: string, v: Value, x: string)
    requires ReadString(a) == Some((k, ":" + b)) && ReadValue(b) == Some((v, x))
    ensures ReadMember("\"" + a) == Some(((k, v), x))
  {
    assert ("\"" + a)[0] == '"' && ("\"" + a)[1..] == a;
    assert SkipWs("\"" + a) == "\"" + a;
    assert SkipWs(":" + b) == ":" + b;
    assert (":" + b)[1..] == b;
  }

  lemma ReadArrayDumps(xs: seq<Value>, indent: Option<nat>, level: nat, rest: string)
    requires |xs| > 0
    requires forall i :: 0 <= i < |xs| ==> WellFormed(xs[i])
    ensures ReadArray(Newline(indent, level + 1) + DumpItems(xs, indent, level + 1) + Newline(indent, level) + "]" + rest)
      == Some((VList(xs), rest))
    decreases xs, 3
  {
    var w1, w2 := Newline(indent, level + 1), Newline(indent, level);
    NewlineWs(indent, level + 1);
    NewlineWs(indent, level);
    var body := DumpItems(xs, indent, level + 1);
    ItemsHead(xs, indent, level + 1);
    Regroup(w1, body, w2, "]", rest);
    SkipWsPrefix(w1, body + w2 + "]" + rest);
    assert (body + w2 + "]" + rest)[0] == body[0];
    ReadDumpItems(xs, indent, level + 1, w1, w2, rest);
  }

  lemma ReadObjectDumps(e: Entries, indent: Option<nat>, level: nat, rest: string)
    requires |e| > 0
    requires WellFormed(VMap(e))
    ensures ReadObject(Newline(indent, level + 1) + DumpMembers(e, indent, level + 1) + Newline(indent, level) + "}" + rest)
      == Some((VMap(e), rest))
    decreases e, 3
  {
    var w1, w2 := Newline(indent, level + 1), Newline(indent, level);
    NewlineWs(indent, level + 1);
    NewlineWs(indent, level);
    var body := DumpMembers(e, indent, level + 1);
    MembersHead(e, indent, level + 1);
    Regroup(w1, body, w2, "}", rest);
    SkipWsPrefix(w1, body + w2 + "}" + rest);
    assert (body + w2 + "}" + rest)[0] == body[0];
    ReadDumpMembers(e, indent, level + 1, w1, w2, rest);
    FromPairsOfUnique(e);
  }

  /** Reading a written value gives the value back, leaving the text that
      followed it (which must not extend a number). */
  lemma {:induction false} ReadDumps(v: Value, indent: Option<nat>, level: nat, rest: string)
    requires WellFormed(v)
    requires |rest| == 0 || !IsDigit(rest[0])
    ensures ReadValue(Dumps(v, indent, level) + rest) == Some((v, rest))
    decreases v, 4
  {
    match v
    case VList(_) => ReadDumpsList(v, indent, level, rest);
    case VMap(_) => ReadDumpsMap(v, indent, level, rest);
    case _ => ReadDumpsScalar(v, indent, level, rest);
  }

  lemma ReadDumpsScalar(v: Value, indent: Option<nat>, level: nat, rest: string)
    requires !v.VList? && !v.VMap?
    requires |rest| == 0 || !IsDigit(rest[0])
    ensures ReadValue(Dumps(v, indent, level) + rest) == Some((v, rest))
  {
    match v
    case VNone => ReadKeyword("null", VNone, rest);
    case VBool(b) =>
      if b { ReadKeyword("true", v, rest); } else { ReadKeyword("false", v, rest); }
    case VInt(i) => ReadIntValue(i, rest);
    case VStr(str) => ReadStrValue(str, rest);
  }

  lemma ReadKeyword(word: string, v: Value, rest: string)
    requires (word, v) in [("null", VNone), ("true", VBool(true)), ("false", VBool(false))]
    ensures ReadValue(word + rest) == Some((v, rest))
  {
    var s := word + rest;
    assert s[0] == word[0] && s[..|word|] == word && s[|word|..] == rest;
  }

  lemma ReadNumberToken(t: string)
    requires |t| > 0 && (t[0] == '-' || IsDigit(t[0]))
    ensures ReadValue(t) == ReadNumber(t)
  {
    assert SkipWs(t) == t;
    assert t[0] != 'n' && t[0] != 't' && t[0] != 'f' && t[0] != '"' && t[0] != '[' && t[0] != '{';
    assert ReadToken(t) == ReadNumber(t);
  }

  lemma ReadIntValue(i: int, rest: string)
    requires |rest| == 0 || !IsDigit(rest[0])
    ensures ReadValue(IntToString(i) + rest) == Some((VInt(i), rest))
  {
    var s := IntToString(i) + rest;
    assert s[0] == IntToString(i)[0];
    ReadNumberToken(s);
    ReadIntToString(i, rest);
  }

  lemma ReadStrValue(str: string, rest: string)
    ensures ReadValue(Quote(str) + rest) == Some((VStr(str), rest))
  {
    ReadEscapeString(str, rest);
    QuoteRest(str, rest);
    ReadValueString(EscapeString(str) + "\"" + rest, str, rest);
  }

  lemma {:induction false} ReadDumpsList(v: Value, indent: Option<nat>, level: nat, rest: string)
    requires v.VList? && WellFormed(v)
    ensures ReadValue(Dumps(v, indent, level) + rest) == Some((v, rest))
    decreases v, 3
  {
    var xs := v.items;
    if |xs| == 0 {
      ReadEmptyArray(rest);
      ReadValueArray("]" + rest);
      assert "[]" == "[" + "]";
      ConcatAssoc("[", "]", rest);
    } else {
      var w1, w2 := Newline(indent, level + 1), Newline(indent, level);
      var body := DumpItems(xs, indent, level + 1);
      assert Dumps(v, indent, level) == "[" + w1 + body + w2 + "]";
      Regroup("[", w1, body, w2, "]");
      ConcatAssoc("[", w1 + body + w2 + "]", rest);
      ReadArrayDumps(xs, indent, level, rest);
      ReadValueArray(w1 + body + w2 + "]" + rest);
    }
  }

  lemma {:induction false} ReadDumpsMap(v: Value, indent: Option<nat>, level: nat, rest: string)
    requires v.VMap? && WellFormed(v)
    ensures ReadValue(Dumps(v, indent, level) + rest) == Some((v, rest))
    decreases v, 3
  {
    var e := v.entries;
    if |e| == 0 {
      ReadEmptyObject(rest);
      ReadValueObject("}" + rest);
      assert "{}" == "{" + "}";
      ConcatAssoc("{", "}", rest);
    } else {
      var w1, w2 := Newline(indent, level + 1), Newline(indent, level);
      var body := DumpMembers(e, indent, level + 1);
      assert Dumps(v, indent, level) == "{" + w1 + body + w2 + "}";
      Regroup("{", w1, body, w2, "}");
      ConcatAssoc("{", w1 + body + w2 + "}", rest);
      ReadObjectDumps(e, indent, level, rest);
      ReadValueObject(w1 + body + w2 + "}" + rest);
    }
  }

  lemma MembersHead(e: Entries, indent: Option<nat>, level: nat)
    requires |e| > 0
    ensures |DumpMembers(e, indent, level)| > 0 && DumpMembers(e, indent, level)[0] == '"'
  {
    var m := DumpMember(e[0], indent, level);
    assert m[0] == '"';
  }

  lemma ItemsHead(xs: seq<Value>, indent: Option<nat>, level: nat)
    requires |xs| > 0
    ensures |DumpItems(xs, indent, level)| > 0
    ensures var c := DumpItems(xs, indent, level)[0]; !IsWs(c) && c != ']'
  {
    DumpsHead(xs[0], indent, level);
  }

  /** Whitespace in front of a value does not change what is read. */
  lemma ReadValueWs(w: string, y: string)
    requires AllWs(w)
    ensures ReadValue(w + y) == ReadValue(y)
  {
    SkipWsPrefix(w, y);
  }

  /** The separator after an item is a comma and whitespace. */
  lemma ItemSepShape(indent: Option<nat>, level: nat)
    ensures ItemSep(indent, level) == "," + (if indent.None? then " " else Newline(indent, level))
    ensures AllWs(if indent.None? then " " else Newline(indent, level))
  {
  }

  /** Reading the written items of a non-empty list, between any whitespace
      and the closing bracket. */
  lemma {:induction false} ReadDumpItems(xs: seq<Value>, indent: Option<nat>, level: nat,
                                         w1: string, w2: string, rest: string)
    requires |xs| > 0
    requires forall i :: 0 <= i < |xs| ==> WellFormed(xs[i])
    requires AllWs(w1) && AllWs(w2)
    ensures ReadItems(w1 + DumpItems(xs, indent, level) + w2 + "]" + rest) == Some((xs, rest))
    decreases xs, 2
  {
    if |xs| == 1 {
      ReadDumpLastItem(xs, indent, level, w1, w2, rest);
    } else {
      ReadDumpNextItem(xs, indent, level, w1, w2, rest);
    }
  }

  lemma {:induction false} ReadDumpLastItem(xs: seq<Value>, indent: Option<nat>, level: nat,
                                            w1: string, w2: string, rest: string)
    requires |xs| == 1 && WellFormed(xs[0])
    requires AllWs(w1) && AllWs(w2)
    ensures ReadItems(w1 + DumpItems(xs, indent, level) + w2 + "]" + rest) == Some((xs, rest))
    decreases xs, 1
  {
    var head := Dumps(xs[0], indent, level);
    var x := "" + w2 + "]" + rest;
    assert DumpItems(xs, indent, level) == head + "";
    ItemsText(w1, head, "", w2, "]", rest);
    ReadValueWs(w1, head + x);
    LastText(w2, "]", rest);
    SkipWsPrefix(w2, "]" + rest);
    assert SkipWs("]" + rest) == "]" + rest;
    ReadDumps(xs[0], indent, level, x);
    ReadItemsLast(w1 + (head + x), xs[0], x, rest);
    assert [xs[0]] == xs;
  }

  lemma DumpItemsCons(xs: seq<Value>, indent: Option<nat>, level: nat)
    requires |xs| > 1
    ensures DumpItems(xs, indent, level)
         == Dumps(xs[0], indent, level) + ("," + (if indent.None? then " " else Newline(indent, level)))
            + DumpItems(xs[1..], indent, level)
    ensures AllWs(if indent.None? then " " else Newline(indent, level))
  {
    var w3 := if indent.None? then " " else Newline(indent, level);
    assert ItemSep(indent, level) == "," + w3;
    assert DumpItems(xs, indent, level)
        == Dumps(xs[0], indent, level) + ItemSep(indent, level) + DumpItems(xs[1..], indent, level);
  }

  lemma {:induction false} ReadDumpNextItem(xs: seq<Value>, indent: Option<nat>, level: nat,
                                            w1: string, w2: string, rest: string)
    requires |xs| > 1
    requires forall i :: 0 <= i < |xs| ==> WellFormed(xs[i])
    requires AllWs(w1) && AllWs(w2)
    ensures ReadItems(w1 + DumpItems(xs, indent, level) + w2 + "]" + rest) == Some((xs, rest))
    decreases xs, 1
  {
    var w3 := if indent.None? then " " else Newline(indent, level);
    var more := DumpItems(xs[1..], indent, level);
    DumpItemsCons(xs, indent, level);
    ReadDumps(xs[0], indent, level, "," + (w3 + more + w2 + "]" + rest));
    ReadDumpItems(xs[1..], indent, level, w3, w2, rest);
    ComposeItems(w1, DumpItems(xs, indent, level), Dumps(xs[0], indent, level), w3, more, w2, rest, xs);
  }



  /** Text regrouping for a list item followed by more items. */
  lemma ConsText(w1: string, head: string, w3: string, more: string, w2: string, c: string, rest: string)
    ensures w1 + (head + ("," + w3) + more) + w2 + c + rest
         == w1 + (head + ("," + (w3 + more + w2 + c + rest)))
  {
  }

  lemma ComposeItems(w1: string, d: string, head: string, w3: string, more: string, w2: string, rest: string,
                       xs: seq<Value>)
    requires |xs| > 0 && AllWs(w1)
    requires d == head + ("," + w3) + more
    requires ReadValue(head + ("," + (w3 + more + w2 + "]" + rest))) == Some((xs[0], "," + (w3 + more + w2 + "]" + rest)))
    requires ReadItems(w3 + more + w2 + "]" + rest) == Some((xs[1..], rest))
    ensures ReadItems(w1 + d + w2 + "]" + rest) == Some((xs, rest))
  {
    var x := "," + (w3 + more + w2 + "]" + rest);
    ConsText(w1, head, w3, more, w2, "]", rest);
    ReadValueWs(w1, head + x);
    assert SkipWs(x) == x;
    ReadItemsNext(w1 + (head + x), xs[0], x, w3 + more + w2 + "]" + rest, xs[1..], rest);
    assert [xs[0]] + xs[1..] == xs;
  }


  lemma ReadDumpMember(kv: (string, Value), indent: Option<nat>, level: nat, x: string)
    requires WellFormed(kv.1)
    requires |x| == 0 || !IsDigit(x[0])
    ensures ReadMember(DumpMember(kv, indent, level) + x) == Some((kv, x))
    decreases kv
  {
    var d := Dumps(kv.1, indent, level);
    var b := " " + (d + x);
    var a := EscapeString(kv.0) + "\"" + (":" + b);
    MemberText(kv.0, d, x);
    ReadEscapeString(kv.0, ":" + b);
    ReadValueWs(" ", d + x);
    ReadDumps(kv.1, indent, level, x);
    ReadMemberStep(a, kv.0, b, kv.1, x);
  }

  /** Reading the written pairs of a non-empty dict, between any whitespace
      and the closing brace. */
  lemma {:induction false} ReadDumpMembers(e: Entries, indent: Option<nat>, level: nat,
                                         w1: string, w2: string, rest: string)
    requires |e| > 0
    requires forall i :: 0 <= i < |e| ==> WellFormed(e[i].1)
    requires AllWs(w1) && AllWs(w2)
    ensures ReadMembers(w1 + DumpMembers(e, indent, level) + w2 + "}" + rest) == Some((e, rest))
    decreases e, 2
  {
    if |e| == 1 {
      ReadDumpLastMember(e, indent, level, w1, w2, rest);
    } else {
      ReadDumpNextMember(e, indent, level, w1, w2, rest);
    }
  }

  lemma {:induction false} ReadDumpLastMember(e: Entries, indent: Option<nat>, level: nat,
                                            w1: string, w2: string, rest: string)
    requires |e| == 1 && WellFormed(e[0].1)
    requires AllWs(w1) && AllWs(w2)
    ensures ReadMembers(w1 + DumpMembers(e, indent, level) + w2 + "}" + rest) == Some((e, rest))
    decreases e, 1
  {
    var head := DumpMember(e[0], indent, level);
    var x := "" + w2 + "}" + rest;
    assert DumpMembers(e, indent, level) == head + "";
    ItemsText(w1, head, "", w2, "}", rest);
    ReadMemberWs(w1, head + x);
    LastText(w2, "}", rest);
    SkipWsPrefix(w2, "}" + rest);
    assert SkipWs("}" + rest) == "}" + rest;
    ReadDumpMember(e[0], indent, level, x);
    ReadMembersLast(w1 + (head + x), e[0], x, rest);
    assert [e[0]] == e;
  }

  lemma DumpMembersCons(e: Entries, indent: Option<nat>, level: nat)
    requires |e| > 1
    ensures DumpMembers(e, indent, level)
         == DumpMember(e[0], indent, level) + ("," + (if indent.None? then " " else Newline(indent, level)))
            + DumpMembers(e[1..], indent, level)
    ensures AllWs(if indent.None? then " " else Newline(indent, level))
  {
    var w3 := if indent.None? then " " else Newline(indent, level);
    assert ItemSep(indent, level) == "," + w3;
    assert DumpMembers(e, indent, level)
        == DumpMember(e[0], indent, level) + ItemSep(indent, level) + DumpMembers(e[1..], indent, level);
  }

  lemma {:induction false} ReadDumpNextMember(e: Entries, indent: Option<nat>, level: nat,
                                              w1: string, w2: string, rest: string)
    requires |e| > 1
    requires forall i :: 0 <= i < |e| ==> WellFormed(e[i].1)
    requires AllWs(w1) && AllWs(w2)
    ensures ReadMembers(w1 + DumpMembers(e, indent, level) + w2 + "}" + rest) == Some((e, rest))
    decreases e, 1
  {
    var w3 := if indent.None? then " " else Newline(indent, level);
    var more := DumpMembers(e[1..], indent, level);
    DumpMembersCons(e, indent, level);
    ReadDumpMember(e[0], indent, level, "," + (w3 + more + w2 + "}" + rest));
    ReadDumpMembers(e[1..], indent, level, w3, w2, rest);
    ComposeMembers(w1, DumpMembers(e, indent, level), DumpMember(e[0], indent, level), w3, more, w2, rest, e);
  }



  lemma ComposeMembers(w1: string, d: string, head: string, w3: string, more: string, w2: string, rest: string,
                       e: Entries)
    requires |e| > 0 && AllWs(w1)
    requires d == head + ("," + w3) + more
    requires ReadMember(head + ("," + (w3 + more + w2 + "}" + rest))) == Some((e[0], "," + (w3 + more + w2 + "}" + rest)))
    requires ReadMembers(w3 + more + w2 + "}" + rest) == Some((e[1..], rest))
    ensures ReadMembers(w1 + d + w2 + "}" + rest) == Some((e, rest))
  {
    var x := "," + (w3 + more + w2 + "}" + rest);
    ConsText(w1, head, w3, more, w2, "}", rest);
    ReadMemberWs(w1, head + x);
    assert SkipWs(x) == x;
    ReadMembersNext(w1 + (head + x), e[0], x, w3 + more + w2 + "}" + rest, e[1..], rest);
    assert [e[0]] + e[1..] == e;
  }


  lemma ReadMemberWs(w: string, y: string)
    requires AllWs(w)
    ensures ReadMember(w + y) == ReadMember(y)
  {
    SkipWsPrefix(w, y);
  }

  /** `json.loads(json.dumps(v, indent=...))` is `v`. */
  lemma LoadsDumps(v: Value, indent: Option<nat>)
    requires WellFormed(v)
    ensures Loads(Dumps(v, indent, 0)) == Some(v)
  {
    ReadDumps(v, indent, 0, "");
    assert Dumps(v, indent, 0) + "" == Dumps(v, indent, 0);
  }

  /** Different well-formed values are written differently. */
  lemma DumpsInjective(a: Value, b: Value, indent: Option<nat>)
    requires WellFormed(a) && WellFormed(b)
    ensures Dumps(a, indent, 0) == Dumps(b, indent, 0) <==> a == b
  {
    LoadsDumps(a, indent);
    LoadsDumps(b, indent);
  }
}

=== FILE: ordering.dfy ===
/** `create_pipeline` (repype/pipeline.py): the automatic ordering of a set
    of stages. Stages are taken greedily, each time the first remaining one
    whose inputs are available and which does not conflict with another
    remaining stage over the fields it consumes. Two readings of "conflict"
    are modelled: the one the code applies and the one its comment states. */
module Ordering {
  import opened Base
  import opened Stages
  import Pipelines

  /** Which conflict test the ordering applies. */
  datatype Rule =
    | AsWritten  // `consumes` non-empty and a subset of the other stage's inputs
    | Intended   // some consumed field is an input of the other stage

  predicate Conflicts(rule: Rule, s: Stage, other: Stage) {
    match rule
    case AsWritten => |s.consumes| > 0 && s.consumes <= other.inputs
    case Intended => s.consumes * other.inputs != {}
  }

  /** Any field a stage consumes that another stage needs is a conflict
      under the intended rule, whether or not the as-written rule sees it. */
  lemma ConflictsWeaker(s: Stage, other: Stage)
    ensures Conflicts(AsWritten, s, other) ==> Conflicts(Intended, s, other)
    ensures !Conflicts(Intended, s, other) ==> s.consumes * other.inputs == {}
  {
    if Conflicts(AsWritten, s, other) {
      var x :| x in s.consumes;
      assert x in s.consumes * other.inputs;
    }
  }

  /** The stage at `k` may be taken next. */
  predicate Ready(rule: Rule, rem: seq<Stage>, k: nat, avail: set<string>)
    requires k < |rem|
  {
    rem[k].inputs <= avail &&
    forall j :: 0 <= j < |rem| && j != k ==> !Conflicts(rule, rem[k], rem[j])
  }

  /** The first remaining stage that may be taken next. */
  function Next(rule: Rule, rem: seq<Stage>, avail: set<string>, from: nat): (r: Option<nat>)
    requires from <= |rem|
    ensures r.Some? ==> from <= r.value < |rem| && Ready(rule, rem, r.value, avail)
    ensures r.Some? ==> forall k :: from <= k < r.value ==> !Ready(rule, rem, k, avail)
    ensures r.None? ==> forall k :: from <= k < |rem| ==> !Ready(rule, rem, k, avail)
    decreases |rem| - from
  {
    if from == |rem| then None
    else if Ready(rule, rem, from, avail) then Some(from)
    else Next(rule, rem, avail, from + 1)
  }

  /** The fields available after the stages of `done` ran in order, starting
      from `avail`: each adds its outputs and removes what it consumes. */
  function After(avail: set<string>, done: seq<Stage>): set<string>
    decreases |done|
  {
    if |done| == 0 then avail
    else After((avail + done[0].outputs) - done[0].consumes, done[1..])
  }

  /** Every stage finds its inputs available at its position. */
  predicate ValidFrom(avail: set<string>, order: seq<Stage>) {
    forall i :: 0 <= i < |order| ==> order[i].inputs <= After(avail, order[..i])
  }

  /** A pipeline order is valid when, starting from `input`, every stage
      finds its inputs available. */
  predicate ValidOrder(order: seq<Stage>) {
    ValidFrom({"input"}, order)
  }

  /** No stage needs a field that an earlier stage consumed. */
  predicate NoLateUse(order: seq<Stage>) {
    forall i, j :: 0 <= i < j < |order| ==> order[i].consumes * order[j].inputs == {}
  }

  lemma ValidCons(avail: set<string>, s: Stage, rest: seq<Stage>)
    requires s.inputs <= avail
    requires ValidFrom((avail + s.outputs) - s.consumes, rest)
    ensures ValidFrom(avail, [s] + rest)
  {
    var order := [s] + rest;
    forall i | 0 < i < |order| ensures order[i].inputs <= After(avail, order[..i]) {
      assert order[..i][1..] == rest[..i - 1];
    }
  }

  lemma NoLateUseCons(s: Stage, rest: seq<Stage>)
    requires NoLateUse(rest)
    requires forall j :: 0 <= j < |rest| ==> s.consumes * rest[j].inputs == {}
    ensures NoLateUse([s] + rest)
  {
    var order := [s] + rest;
    forall i, j | 0 <= i < j < |order| ensures order[i].consumes * order[j].inputs == {} {
      assert order[j] == rest[j - 1];
      if i > 0 {
        assert order[i] == rest[i - 1];
      }
    }
  }

  /** The `while remaining_stages` loop: takes the next stage, appends it and
      updates the available fields, until no stage is left or none may be
      taken (RuntimeError). */
  function Order(rule: Rule, rem: seq<Stage>, avail: set<string>): (r: Result<seq<Stage>>)
    ensures r.Err? ==> r.exc == RuntimeError
    ensures r.Ok? ==> multiset(r.value) == multiset(rem)
    ensures r.Ok? ==> ValidFrom(avail, r.value)
    ensures r.Ok? && rule == Intended ==> NoLateUse(r.value)
    decreases |rem|
  {
    if |rem| == 0 then Ok([])
    else match Next(rule, rem, avail, 0)
      case None => Err(RuntimeError)
      case Some(k) =>
        var s := rem[k];
        var others := rem[..k] + rem[k + 1..];
        var rest :- Order(rule, others, (avail + s.outputs) - s.consumes);
        TakeNext(rule, rem, k, avail, rest);
        Ok([s] + rest)
  }

  /** Taking the ready stage at `k` in front of an ordering of the others
      keeps the three properties `Order` promises. */
  lemma TakeNext(rule: Rule, rem: seq<Stage>, k: nat, avail: set<string>, rest: seq<Stage>)
    requires k < |rem| && Ready(rule, rem, k, avail)
    requires multiset(rest) == multiset(rem[..k] + rem[k + 1..])
    requires ValidFrom((avail + rem[k].outputs) - rem[k].consumes, rest)
    requires rule == Intended ==> NoLateUse(rest)
    ensures multiset([rem[k]] + rest) == multiset(rem)
    ensures ValidFrom(avail, [rem[k]] + rest)
    ensures rule == Intended ==> NoLateUse([rem[k]] + rest)
  {
    assert rem == rem[..k] + [rem[k]] + rem[k + 1..];
    ValidCons(avail, rem[k], rest);
    if rule == Intended {
      OthersNoConflict(rem, k, rest, avail);
      NoLateUseCons(rem[k], rest);
    }
  }

  /** Under the intended rule, the stage taken shares no consumed field with
      any stage ordered after it. */
  lemma OthersNoConflict(rem: seq<Stage>, k: nat, rest: seq<Stage>, avail: set<string>)
    requires k < |rem| && Ready(Intended, rem, k, avail)
    requires multiset(rest) == multiset(rem[..k] + rem[k + 1..])
    ensures forall j :: 0 <= j < |rest| ==> rem[k].consumes * rest[j].inputs == {}
  {
    var others := rem[..k] + rem[k + 1..];
    forall j | 0 <= j < |rest| ensures rem[k].consumes * rest[j].inputs == {} {
      assert rest[j] in multiset(others);
      var m :| 0 <= m < |others| && others[m] == rest[j];
      var n := if m < k then m else m + 1;
      assert rem[n] == rest[j];
    }
  }

  /** The outputs, with `input` in front, occur once each. */
  predicate UniqueOutputs(stages: seq<Stage>) {
    (forall i :: 0 <= i < |stages| ==> "input" !in stages[i].outputs) &&
    forall i, j :: 0 <= i < j < |stages| ==> stages[i].outputs * stages[j].outputs == {}
  }

  /** `create_pipeline(stages)`: the stages in an order in which each finds
      its inputs, after checking that ids and outputs are unambiguous. */
  function CreatePipeline(rule: Rule, stages: seq<Stage>): (r: Result<seq<Stage>>)
    ensures !Pipelines.Distinct(Pipelines.Ids(stages)) ==> r == Err(AssertionError)
    ensures Pipelines.Distinct(Pipelines.Ids(stages)) && !UniqueOutputs(stages) ==> r == Err(AssertionError)
    ensures r.Err? ==> r.exc == AssertionError || r.exc == RuntimeError
    ensures r.Ok? ==> multiset(r.value) == multiset(stages) && ValidOrder(r.value)
    ensures r.Ok? ==> Pipelines.Distinct(Pipelines.Ids(r.value))
    ensures r.Ok? && rule == Intended ==> NoLateUse(r.value)
  {
    var _ :- Check(Pipelines.Distinct(Pipelines.Ids(stages)));
    var _ :- Check(UniqueOutputs(stages));
    var order :- Order(rule, stages, {"input"});
    PermutationDistinct(stages, order);
    Ok(order)
  }

  /** Reordering keeps ids distinct. */
  lemma PermutationDistinct(a: seq<Stage>, b: seq<Stage>)
    requires multiset(a) == multiset(b) && Pipelines.Distinct(Pipelines.Ids(a))
    ensures Pipelines.Distinct(Pipelines.Ids(b))
  {
    forall i, j | 0 <= i < j < |b| ensures b[i].id != b[j].id {
      assert b[i] in multiset(a) && b[j] in multiset(a);
      var x :| 0 <= x < |a| && a[x] == b[i];
      var y :| 0 <= y < |a| && a[y] == b[j];
      AtMostOnce(a, x);
      TwoPositions(b, i, j);
      assert b[i] != b[j];
      assert Pipelines.Ids(a)[x] != Pipelines.Ids(a)[y];
    }
  }

  lemma TwoPositions<T>(b: seq<T>, i: nat, j: nat)
    requires i < j < |b|
    ensures b[i] == b[j] ==> multiset(b)[b[i]] >= 2
  {
    assert b == b[..i] + [b[i]] + b[i + 1..j] + [b[j]] + b[j + 1..];
  }

  /** Under distinct ids, each stage occurs once. */
  lemma {:induction false} AtMostOnce(a: seq<Stage>, x: nat)
    requires x < |a| && Pipelines.Distinct(Pipelines.Ids(a))
    ensures multiset(a)[a[x]] == 1
    decreases |a|
  {
    var s := a[x];
    var t := a[1..];
    assert a == [a[0]] + t;
    assert Pipelines.Distinct(Pipelines.Ids(t)) by {
      forall i, j | 0 <= i < j < |t| ensures t[i].id != t[j].id {
        assert Pipelines.Ids(a)[i + 1] != Pipelines.Ids(a)[j + 1];
      }
    }
    if x == 0 {
      forall i | 0 <= i < |t| ensures t[i] != s {
        assert Pipelines.Ids(a)[0] != Pipelines.Ids(a)[i + 1];
      }
      assert s !in multiset(t);
    } else {
      AtMostOnce(t, x - 1);
      assert a[0] != s by {
        assert Pipelines.Ids(a)[0] != Pipelines.Ids(a)[x];
      }
    }
  }

  // ---------------------------------------------------------------------
  // A consumed input the as-written rule does not protect
  // ---------------------------------------------------------------------

  /** The three stages of the example. */
  predicate Example(a: Stage, c: Stage, d: Stage) {
    a == Stage("a", {}, {"x", "y"}, {}, true, map[]) &&
    c == Stage("c", {"x", "y"}, {"z"}, {"x", "y"}, true, map[]) &&
    d == Stage("d", {"x"}, {"w"}, {}, true, map[])
  }

  /** `a` produces `x` and `y`; `c` consumes both; `d` needs `x`. Taking `c`
      before `d` loses `x`: the as-written rule lets it happen, because `c`
      consumes more than `d` needs, and then fails, although `a, d, c` is a
      valid order, which the intended rule finds. */
  lemma ConsumedInputLost(a: Stage, c: Stage, d: Stage)
    requires Example(a, c, d)
    ensures CreatePipeline(AsWritten, [a, c, d]) == Err(RuntimeError)
    ensures ValidOrder([a, d, c]) && multiset([a, d, c]) == multiset([a, c, d])
    ensures CreatePipeline(Intended, [a, c, d]) == Ok([a, d, c])
  {
    AsWrittenFails(a, c, d);
    IntendedSucceeds(a, c, d);
    ExampleValid(a, c, d);
  }

  lemma AsWrittenFails(a: Stage, c: Stage, d: Stage)
    requires Example(a, c, d)
    ensures CreatePipeline(AsWritten, [a, c, d]) == Err(RuntimeError)
  {
    ExampleChecks(a, c, d);
    AsWrittenLoses(a, c, d);
    OrderFirst(AsWritten, a, c, d);
    CreateIsOrder(AsWritten, [a, c, d]);
  }

  lemma IntendedSucceeds(a: Stage, c: Stage, d: Stage)
    requires Example(a, c, d)
    ensures CreatePipeline(Intended, [a, c, d]) == Ok([a, d, c])
  {
    ExampleChecks(a, c, d);
    IntendedOrders(a, c, d);
    CreateFirst(Intended, [a, c, d], [d, c]);
  }

  /** When the first stage is taken first and the rest orders as `rest`,
      `create_pipeline` returns the first stage followed by `rest`. */
  lemma CreateFirst(rule: Rule, stages: seq<Stage>, rest: seq<Stage>)
    requires Pipelines.Distinct(Pipelines.Ids(stages)) && UniqueOutputs(stages)
    requires |stages| > 0 && Next(rule, stages, {"input"}, 0) == Some(0)
    requires Order(rule, stages[1..], ({"input"} + stages[0].outputs) - stages[0].consumes) == Ok(rest)
    ensures CreatePipeline(rule, stages) == Ok([stages[0]] + rest)
  {
    OrderTakes(rule, stages, {"input"}, 0);
    assert stages[..0] + stages[1..] == stages[1..];
  }

  /** Past its checks, `create_pipeline` is the ordering loop from `input`. */
  lemma CreateIsOrder(rule: Rule, stages: seq<Stage>)
    requires Pipelines.Distinct(Pipelines.Ids(stages)) && UniqueOutputs(stages)
    ensures CreatePipeline(rule, stages) == Order(rule, stages, {"input"})
  {
  }

  /** Both rules take `a` first. */
  lemma OrderFirst(rule: Rule, a: Stage, c: Stage, d: Stage)
    requires Example(a, c, d)
    ensures var rest := Order(rule, [c, d], {"input", "x", "y"});
      Order(rule, [a, c, d], {"input"}) == if rest.Ok? then Ok([a] + rest.value) else rest
  {
    ExampleFirstReady(rule, a, c, d);
    ExampleAfterA(a, c, d);
    OrderFront(rule, a, c, d, {"input"}, {"input", "x", "y"});
  }

  lemma ExampleAfterA(a: Stage, c: Stage, d: Stage)
    requires Example(a, c, d)
    ensures ({"input"} + a.outputs) - a.consumes == {"input", "x", "y"}
  {
  }

  /** When the first of three stages is taken, the other two are ordered next. */
  lemma OrderFront(rule: Rule, x: Stage, y: Stage, z: Stage, avail: set<string>, avail': set<string>)
    requires Next(rule, [x, y, z], avail, 0) == Some(0)
    requires (avail + x.outputs) - x.consumes == avail'
    ensures var rest := Order(rule, [y, z], avail');
      Order(rule, [x, y, z], avail) == if rest.Ok? then Ok([x] + rest.value) else rest
  {
    ThreeShapes(x, y, z);
    OrderTakes(rule, [x, y, z], avail, 0);
  }

  /** One round of the loop: the stage `Next` picks goes first. */
  lemma OrderTakes(rule: Rule, rem: seq<Stage>, avail: set<string>, k: nat)
    requires |rem| > 0 && Next(rule, rem, avail, 0) == Some(k)
    ensures var rest := Order(rule, rem[..k] + rem[k + 1..], (avail + rem[k].outputs) - rem[k].consumes);
      Order(rule, rem, avail) == if rest.Ok? then Ok([rem[k]] + rest.value) else rest
  {
  }

  /** The loop fails when no remaining stage may be taken. */
  lemma OrderStuck(rule: Rule, rem: seq<Stage>, avail: set<string>)
    requires |rem| > 0 && Next(rule, rem, avail, 0).None?
    ensures Order(rule, rem, avail) == Err(RuntimeError)
  {
  }

  lemma ExampleValid(a: Stage, c: Stage, d: Stage)
    requires Example(a, c, d)
    ensures ValidOrder([a, d, c]) && multiset([a, d, c]) == multiset([a, c, d])
  {
    var order := [a, d, c];
    assert order[..0] == [] && order[..1] == [a] && order[..2] == [a, d];
    assert After({"input"}, [a]) == {"input", "x", "y"} by {
      assert [a][1..] == [];
    }
    assert After({"input"}, [a, d]) == {"input", "x", "y", "w"} by {
      assert [a, d][1..] == [d] && [d][1..] == [];
      assert After({"input", "x", "y"}, [d]) == {"input", "x", "y", "w"};
    }
  }

  lemma ExampleChecks(a: Stage, c: Stage, d: Stage)
    requires Example(a, c, d)
    ensures Pipelines.Distinct(Pipelines.Ids([a, c, d])) && UniqueOutputs([a, c, d])
    ensures ({"input"} + a.outputs) - a.consumes == {"input", "x", "y"}
    ensures [a, c, d][..0] + [a, c, d][1..] == [c, d] && [a, c, d][1..] == [c, d] && [a, c, d][0] == a
    ensures [a] + [d, c] == [a, d, c]
    ensures forall rule :: Next(rule, [a, c, d], {"input"}, 0) == Some(0)
  {
    ExampleIds(a, c, d);
    ThreeShapes(a, c, d);
    forall rule ensures Next(rule, [a, c, d], {"input"}, 0) == Some(0) {
      ExampleFirstReady(rule, a, c, d);
    }
  }

  lemma ExampleIds(a: Stage, c: Stage, d: Stage)
    requires Example(a, c, d)
    ensures Pipelines.Distinct(Pipelines.Ids([a, c, d])) && UniqueOutputs([a, c, d])
  {
    assert Pipelines.Ids([a, c, d]) == [a.id, c.id, d.id];
  }

  lemma ThreeShapes<T>(a: T, c: T, d: T)
    ensures [a, c, d][..0] + [a, c, d][1..] == [c, d] && [a, c, d][1..] == [c, d] && [a, c, d][0] == a
    ensures [a] + [d, c] == [a, d, c]
  {
  }

  lemma ExampleFirstReady(rule: Rule, a: Stage, c: Stage, d: Stage)
    requires Example(a, c, d)
    ensures Next(rule, [a, c, d], {"input"}, 0) == Some(0)
  {
    assert Ready(rule, [a, c, d], 0, {"input"});
  }

  lemma AsWrittenLoses(a: Stage, c: Stage, d: Stage)
    requires Example(a, c, d)
    ensures Order(AsWritten, [c, d], {"input", "x", "y"}) == Err(RuntimeError)
  {
    var av1: set<string> := {"input", "x", "y"};
    assert Ready(AsWritten, [c, d], 0, av1);
    assert Next(AsWritten, [c, d], av1, 0) == Some(0);
    var av2 := (av1 + c.outputs) - c.consumes;
    assert av2 == {"input", "z"};
    assert [c, d][..0] + [c, d][1..] == [d];
    assert "x" in d.inputs && "x" !in av2;
    assert Next(AsWritten, [d], av2, 0) == None;
  }

  lemma IntendedOrders(a: Stage, c: Stage, d: Stage)
    requires Example(a, c, d)
    ensures Order(Intended, [c, d], {"input", "x", "y"}) == Ok([d, c])
  {
    var av1: set<string> := {"input", "x", "y"};
    assert !Ready(Intended, [c, d], 0, av1) by {
      assert "x" in c.consumes * d.inputs;
      assert Conflicts(Intended, [c, d][0], [c, d][1]);
    }
    assert Ready(Intended, [c, d], 1, av1);
    assert Next(Intended, [c, d], av1, 0) == Some(1);
    assert [c, d][..1] + [c, d][2..] == [c];
    var av3 := (av1 + d.outputs) - d.consumes;
    LastOrdered(c, av3);
    assert [d] + [c] == [d, c];
  }

  /** A single stage whose inputs are available is ordered by itself. */
  lemma LastOrdered(s: Stage, avail: set<string>)
    requires s.inputs <= avail
    ensures Order(Intended, [s], avail) == Ok([s])
  {
    assert Next(Intended, [s], avail, 0) == Some(0);
    assert [s][..0] + [s][1..] == [];
    assert Order(Intended, [], (avail + s.outputs) - s.consumes) == Ok([]);
    assert [s] + [] == [s];
  }
}

=== FILE: path.dfy ===
/** Paths as `pathlib` handles them in `repype/task.py`: parsing the text
    of a path, printing it back, and joining one path onto another. */
module Paths {
  import opened Base

  /** A `pathlib.Path`: whether it is absolute, and its components. */
  datatype Path = Path(absolute: bool, parts: seq<string>)

  /** A component `pathlib` keeps: not empty and not `.`. */
  predicate Component(x: string) {
    x != "" && x != "." && '/' !in x
  }

  /** The pieces of a split path that `pathlib` keeps. */
  function Components(xs: seq<string>): (r: seq<string>)
    ensures (forall i :: 0 <= i < |xs| ==> '/' !in xs[i]) ==> forall i :: 0 <= i < |r| ==> Component(r[i])
    ensures (forall i :: 0 <= i < |xs| ==> Component(xs[i])) ==> r == xs
  {
    if |xs| == 0 then []
    else (if xs[0] == "" || xs[0] == "." then [] else [xs[0]]) + Components(xs[1..])
  }

  /** `pathlib.Path(s)`: `/`-separated components, empty ones and `.`
      dropped. */
  function ParsePath(s: string): (r: Path)
    ensures r.absolute <==> |s| > 0 && s[0] == '/'
    ensures forall i :: 0 <= i < |r.parts| ==> Component(r.parts[i])
  {
    Path(|s| > 0 && s[0] == '/', Components(Split(s, '/')))
  }

  /** `str(path)`. */
  function PathString(p: Path): string {
    if p.absolute then "/" + Join(p.parts, "/")
    else if |p.parts| == 0 then "."
    else Join(p.parts, "/")
  }

  predicate NormalPath(p: Path) {
    forall i :: 0 <= i < |p.parts| ==> Component(p.parts[i])
  }

  /** Printing a path and parsing the text gives the path back. */
  lemma ParsePathString(p: Path)
    requires NormalPath(p)
    ensures ParsePath(PathString(p)) == p
  {
    if |p.parts| == 0 {
      if p.absolute {
        assert "" + ['/'] + "" == "/";
        SplitPrefix("", "", '/');
        assert Split("/", '/') == ["", ""];
        assert Components(["", ""]) == [];
      }
    } else {
      SplitJoin(p.parts, '/');
      if p.absolute {
        var j := Join(p.parts, "/");
        SplitPrefix("", j, '/');
        assert "" + ['/'] + j == "/" + j;
        assert Components([""] + p.parts) == Components(p.parts);
      }
    }
  }

  /** `path.name`. */
  function Name(p: Path): string {
    if |p.parts| == 0 then "" else p.parts[|p.parts| - 1]
  }

  /** `a / b`: an absolute `b` replaces `a`. */
  function JoinPath(a: Path, b: Path): (r: Path)
    ensures b.absolute ==> r == b
    ensures !b.absolute ==> r.absolute == a.absolute && r.parts == a.parts + b.parts
  {
    if b.absolute then b else Path(a.absolute, a.parts + b.parts)
  }
}

=== FILE: pipeline.dfy ===
/** Pipelines (repype/pipeline.py): the first/last-stage window, stage lookup
    and insertion, the produced fields, the automatic configuration of
    hyperparameters, the closure of extra stages, one processing run, and the
    automatic ordering of stages. A pipeline is the sequence of its stages. */
module Pipelines {
  import opened Base
  import opened Values
  import Config
  import opened Stages

  // ---------------------------------------------------------------------
  // Stage ids and positions
  // ---------------------------------------------------------------------

  function Ids(p: seq<Stage>): (ids: seq<string>)
    ensures |ids| == |p|
    ensures forall i :: 0 <= i < |p| ==> ids[i] == p[i].id
  {
    seq(|p|, i requires 0 <= i < |p| => p[i].id)
  }

  predicate Distinct(ids: seq<string>) {
    forall i, j :: 0 <= i < j < |ids| ==> ids[i] != ids[j]
  }

  /** `list.index(x)`, with absence as None. */
  function Pos(ids: seq<string>, x: string): (r: Option<nat>)
    ensures r.Some? ==> r.value < |ids| && ids[r.value] == x
    ensures r.Some? ==> forall j :: 0 <= j < r.value ==> ids[j] != x
    ensures r.None? <==> x !in ids
  {
    if |ids| == 0 then None
    else if ids[0] == x then Some(0)
    else match Pos(ids[1..], x)
      case None => None
      case Some(i) => Some(i + 1)
  }

  /** Under distinct ids, the position of the id at `i` is `i`. */
  lemma PosOfDistinct(ids: seq<string>, i: nat)
    requires Distinct(ids) && i < |ids|
    ensures Pos(ids, ids[i]) == Some(i)
  {
  }

  /** `Pipeline.find(stage_id)`: the position, None standing for the
      `float('inf')` returned for a missing id. */
  function Find(p: seq<Stage>, id: string): (r: Option<nat>)
    ensures r.Some? ==> r.value < |p| && p[r.value].id == id
    ensures r.Some? ==> forall j :: 0 <= j < r.value ==> p[j].id != id
    ensures r.None? <==> forall j :: 0 <= j < |p| ==> p[j].id != id
  {
    Pos(Ids(p), id)
  }

  // ---------------------------------------------------------------------
  // ProcessingControl
  // ---------------------------------------------------------------------

  /** The state of a `ProcessingControl`. */
  datatype Control = Control(started: bool, first: Option<string>, last: Option<string>)

  function NewControl(first: Option<string>, last: Option<string>): Control {
    Control(first.None?, first, last)
  }

  /** `step(stage)`: the next state and whether the stage is processed. */
  function Step(c: Control, id: string): (Control, bool) {
    var started := c.started || c.first == Some(id);
    (c.(started := started && c.last != Some(id)), started)
  }

  /** The answers of `step` over a sequence of stage ids. */
  function Steps(c: Control, ids: seq<string>): (r: seq<bool>)
    ensures |r| == |ids|
    decreases |ids|
  {
    if |ids| == 0 then []
    else
      var (c', b) := Step(c, ids[0]);
      [b] + Steps(c', ids[1..])
  }

  /** Reference definition of the window: from the first stage (the start
      when None, nowhere when not a stage) up to the last stage inclusive
      (the end when None or not a stage). A last stage placed before the
      first one does not close the window. */
  predicate Window(ids: seq<string>, first: Option<string>, last: Option<string>, i: nat) {
    var a := match first case None => 0 case Some(f) => (match Pos(ids, f) case Some(k) => k case None => |ids|);
    var l := match last case None => None case Some(x) => Pos(ids, x);
    a <= i && (l.None? || i <= l.value || l.value < a)
  }

  /** Where a control state begins processing within `ids`. */
  function From(c: Control, ids: seq<string>): nat {
    if c.started then 0
    else match c.first
      case None => |ids|
      case Some(f) => (match Pos(ids, f) case Some(k) => k case None => |ids|)
  }

  predicate InWindow(c: Control, ids: seq<string>, i: nat) {
    var a := From(c, ids);
    var l := match c.last case None => None case Some(x) => Pos(ids, x);
    a <= i && (l.None? || i <= l.value || l.value < a)
  }

  /** Over distinct ids, `step` answers true exactly inside the window. */
  lemma WindowSteps(ids: seq<string>, first: Option<string>, last: Option<string>)
    requires Distinct(ids)
    ensures forall i :: 0 <= i < |ids| ==> (Steps(NewControl(first, last), ids)[i] <==> Window(ids, first, last, i))
  {
    StepsInWindow(NewControl(first, last), ids);
  }

  lemma {:induction false} StepsInWindow(c: Control, ids: seq<string>)
    requires Distinct(ids)
    requires c.started && c.first.Some? ==> c.first.value !in ids
    ensures forall i :: 0 <= i < |ids| ==> (Steps(c, ids)[i] <==> InWindow(c, ids, i))
    decreases |ids|
  {
    if |ids| > 0 {
      var (c', b) := Step(c, ids[0]);
      var t := ids[1..];
      assert Steps(c, ids) == [b] + Steps(c', t);
      assert c'.started && c'.first.Some? ==> c'.first.value !in t;
      StepsInWindow(c', t);
      forall i | 0 < i < |ids| ensures Steps(c, ids)[i] <==> InWindow(c, ids, i) {
        assert Steps(c, ids)[i] == Steps(c', t)[i - 1];
        ShiftWindow(c, ids, i);
      }
    }
  }

  /** One step moves the window by one position. */
  lemma ShiftWindow(c: Control, ids: seq<string>, i: nat)
    requires Distinct(ids) && 0 < i < |ids|
    requires c.started && c.first.Some? ==> c.first.value !in ids
    ensures InWindow(Step(c, ids[0]).0, ids[1..], i - 1) <==> InWindow(c, ids, i)
  {
    var t := ids[1..];
    var c' := Step(c, ids[0]).0;
    forall x ensures Pos(ids, x) == (if ids[0] == x then Some(0) else match Pos(t, x) case None => None case Some(k) => Some(k + 1)) {
    }
    assert ids[0] !in t;
  }

  // ---------------------------------------------------------------------
  // append
  // ---------------------------------------------------------------------

  /** The `after` argument of `append`: none, a stage id, or an index. */
  datatype Place = AtEnd | AfterId(id: string) | AfterIndex(index: int)

  /** `Pipeline.append(stage, after)`: the new stages and the returned index. */
  function Append(p: seq<Stage>, s: Stage, after: Place): (r: Result<(seq<Stage>, nat)>)
    ensures s.id in Ids(p) ==> r == Err(RuntimeError)
    ensures s.id !in Ids(p) && after.AfterId? && Find(p, after.id).None? ==> r == Err(AssertionError)
    ensures s.id !in Ids(p) && after.AfterIndex? && !(-1 <= after.index < |p|) ==> r == Err(AssertionError)
    ensures r.Err? ==> r.exc == RuntimeError || r.exc == AssertionError
    ensures r.Ok? ==> s.id !in Ids(p) && r.value.1 <= |p|
    ensures r.Ok? && after.AtEnd? ==> r.value.1 == |p|
    ensures r.Ok? && after.AfterId? ==> Find(p, after.id) == Some(r.value.1 - 1)
    ensures r.Ok? && after.AfterIndex? ==> r.value.1 == after.index + 1
    ensures r.Ok? ==> r.value.0 == p[..r.value.1] + [s] + p[r.value.1..]
  {
    if s.id in Ids(p) then Err(RuntimeError)
    else match after
      case AtEnd => Ok((p + [s], |p|))
      case AfterId(x) =>
        (match Find(p, x)
         case None => Err(AssertionError)
         case Some(k) => Ok((p[..k + 1] + [s] + p[k + 1..], k + 1)))
      case AfterIndex(k) =>
        if -1 <= k < |p| then Ok((p[..k + 1] + [s] + p[k + 1..], k + 1)) else Err(AssertionError)
  }

  /** A successful `append` keeps the ids distinct, and `find` then reports
      the returned index for the new stage. */
  lemma AppendFind(p: seq<Stage>, s: Stage, after: Place)
    requires Distinct(Ids(p))
    requires Append(p, s, after).Ok?
    ensures Distinct(Ids(Append(p, s, after).value.0))
    ensures Find(Append(p, s, after).value.0, s.id) == Some(Append(p, s, after).value.1)
  {
    var (q, k) := Append(p, s, after).value;
    InsertDistinct(p, s, k);
    PosOfDistinct(Ids(q), k);
  }

  /** Inserting a stage with a new id keeps the ids distinct. */
  lemma InsertDistinct(p: seq<Stage>, s: Stage, k: nat)
    requires Distinct(Ids(p)) && s.id !in Ids(p) && k <= |p|
    ensures var q := p[..k] + [s] + p[k..];
      Distinct(Ids(q)) && k < |q| && q[k] == s
  {
    var q := p[..k] + [s] + p[k..];
    assert forall j :: 0 <= j < |q| ==> q[j] == (if j < k then p[j] else if j == k then s else p[j - 1]);
  }

  // ---------------------------------------------------------------------
  // fields and persistent_fields
  // ---------------------------------------------------------------------

  /** `Pipeline.fields`: `input` and every output. */
  function Fields(p: seq<Stage>): (r: set<string>)
    ensures forall f :: f in r <==> f == "input" || exists i :: 0 <= i < |p| && f in p[i].outputs
  {
    if |p| == 0 then {"input"}
    else
      var r := Fields(p[..|p| - 1]) + p[|p| - 1].outputs;
      assert forall i :: 0 <= i < |p| - 1 ==> p[..|p| - 1][i] == p[i];
      r
  }

  /** Every field minus those consumed by the stages. */
  function Consumed(p: seq<Stage>): (r: set<string>)
    ensures forall f :: f in r <==> exists i :: 0 <= i < |p| && f in p[i].consumes
  {
    if |p| == 0 then {}
    else
      var r := Consumed(p[..|p| - 1]) + p[|p| - 1].consumes;
      assert forall i :: 0 <= i < |p| - 1 ==> p[..|p| - 1][i] == p[i];
      r
  }

  /** `Pipeline.persistent_fields`: a field is persistent iff it is produced
      (or is `input`) and no stage consumes it. */
  function PersistentFields(p: seq<Stage>): (r: set<string>)
    ensures forall f :: f in r <==> f in Fields(p) && forall i :: 0 <= i < |p| ==> f !in p[i].consumes
  {
    Fields(p) - Consumed(p)
  }

  // ---------------------------------------------------------------------
  // create_config_entry and configure (integer hyperparameters)
  // ---------------------------------------------------------------------

  /** `af_key`: the levels of `key` joined with `/`, then `/AF_` and the last
      segment. A key without `/` gets the empty level: `/AF_key`. */
  function FactorKey(key: string): string {
    var keys := Split(key, '/');
    Join(keys[..|keys| - 1], "/") + "/AF_" + keys[|keys| - 1]
  }

  /** The factor key sits next to the key, or below the empty level for a
      key without `/`. */
  lemma FactorKeyPath(key: string)
    ensures var keys := Config.PathOf(key);
      Config.PathOf(FactorKey(key)) ==
        (if |keys| == 1 then [""] else Config.Levels(keys)) + ["AF_" + Config.Leaf(keys)]
  {
    var parts := FactorKeyParts(key);
    SplitJoin(parts, '/');
  }

  /** The segments of the factor key, joined. */
  lemma FactorKeyParts(key: string) returns (parts: seq<string>)
    ensures var keys := Config.PathOf(key);
      parts == (if |keys| == 1 then [""] else Config.Levels(keys)) + ["AF_" + Config.Leaf(keys)]
    ensures |parts| >= 1 && forall i :: 0 <= i < |parts| ==> '/' !in parts[i]
    ensures Join(parts, ['/']) == FactorKey(key)
  {
    var keys := Config.PathOf(key);
    var leaf := keys[|keys| - 1];
    var front := if |keys| == 1 then [""] else keys[..|keys| - 1];
    parts := front + ["AF_" + leaf];
    FactorKeyJoin(keys, front, leaf);
    forall i | 0 <= i < |parts| ensures '/' !in parts[i] {
      if i == |parts| - 1 {
        assert parts[i] == "AF_" + leaf;
      } else if |keys| > 1 {
        assert parts[i] == keys[i];
      }
    }
  }

  lemma FactorKeyJoin(keys: seq<string>, front: seq<string>, leaf: string)
    requires |keys| >= 1 && leaf == keys[|keys| - 1]
    requires front == if |keys| == 1 then [""] else keys[..|keys| - 1]
    ensures Join(front + ["AF_" + leaf], ['/']) == Join(keys[..|keys| - 1], "/") + "/AF_" + leaf
  {
    assert Join(front, "/") == Join(keys[..|keys| - 1], "/");
    JoinSnoc(front, "AF_" + leaf, "/");
    assert "/AF_" + leaf == "/" + ("AF_" + leaf);
    assert "/" == ['/'];
  }

  lemma {:induction false} JoinSnoc(xs: seq<string>, y: string, sep: string)
    requires |xs| >= 1
    ensures Join(xs + [y], sep) == Join(xs, sep) + sep + y
  {
    if |xs| > 1 {
      assert (xs + [y])[1..] == xs[1..] + [y];
      JoinSnoc(xs[1..], y, sep);
    }
  }

  /** Two paths that share their front and differ in the last segment part ways. */
  lemma {:induction false} ApartLast(front: seq<string>, a: string, b: string)
    requires a != b
    ensures Config.Apart(front + [a], front + [b])
    decreases |front|
  {
    if |front| > 0 {
      assert (front + [a])[1..] == front[1..] + [a];
      assert (front + [b])[1..] == front[1..] + [b];
      ApartLast(front[1..], a, b);
    }
  }

  lemma {:induction false} ApartSym(a: seq<string>, b: seq<string>)
    requires Config.Apart(a, b)
    ensures Config.Apart(b, a)
    decreases |a|
  {
    if a[0] == b[0] {
      ApartSym(a[1..], b[1..]);
    }
  }

  /** The factor key of a non-empty key never shares its entry. */
  lemma FactorKeyApart(key: string)
    requires key != ""
    ensures Config.Apart(Config.PathOf(FactorKey(key)), Config.PathOf(key))
    ensures Config.Apart(Config.PathOf(key), Config.PathOf(FactorKey(key)))
  {
    var keys := Config.PathOf(key);
    FactorKeyPath(key);
    var leaf := Config.Leaf(keys);
    assert |"AF_" + leaf| != |leaf|;
    if |keys| == 1 {
      JoinSplit(key, '/');
      assert Join(keys, ['/']) == keys[0];
      assert keys[0] != "";
    } else {
      Config.LevelsLeaf(keys);
      ApartLast(Config.Levels(keys), "AF_" + leaf, leaf);
    }
    ApartSym(Config.PathOf(FactorKey(key)), keys);
  }

  /** `seq * n` for an int n: n copies, none when n <= 0. */
  function Times<T>(s: seq<T>, n: int): seq<T>
    decreases n
  {
    if n <= 0 then [] else s + Times(s, n - 1)
  }

  /** `factor * value` for an int factor: numbers multiply (a bool counts as
      0 or 1), strings and lists repeat, anything else raises TypeError. */
  function Scale(factor: int, v: Value): (r: Result<Value>)
    ensures NumberOf(v).Some? ==> r == Ok(VInt(factor * NumberOf(v).value))
    ensures v.VNone? || v.VMap? ==> r == Err(TypeError)
    ensures r.Err? ==> r.exc == TypeError
  {
    match v
    case VBool(_) => Ok(VInt(factor * NumberOf(v).value))
    case VInt(n) => Ok(VInt(factor * n))
    case VStr(s) => Ok(VStr(Times(s, factor)))
    case VList(xs) => Ok(VList(Times(xs, factor)))
    case _ => Err(TypeError)
  }

  /** `max((value, m))`: `m` if it is greater, else the value itself;
      comparing an int with a non-number raises TypeError. */
  function AtLeast(v: Value, m: int): (r: Result<Value>) {
    match NumberOf(v)
    case None => Err(TypeError)
    case Some(n) => Ok(if m > n then VInt(m) else v)
  }

  /** `min((value, m))`: `m` if it is smaller, else the value itself. */
  function AtMost(v: Value, m: int): (r: Result<Value>) {
    match NumberOf(v)
    case None => Err(TypeError)
    case Some(n) => Ok(if m < n then VInt(m) else v)
  }

  /** The lower bound applied, then the upper bound. */
  function Clamp(v: Value, min: Option<int>, max: Option<int>): Result<Value> {
    var v1 :- if min.Some? then AtLeast(v, min.value) else Ok(v);
    if max.Some? then AtMost(v1, max.value) else Ok(v1)
  }

  /** A number between the bounds that are given. */
  predicate Within(v: Value, min: Option<int>, max: Option<int>) {
    NumberOf(v).Some? &&
    (min.Some? ==> NumberOf(v).value >= min.value) &&
    (max.Some? ==> NumberOf(v).value <= max.value)
  }

  /** Clamping ends within the bounds (when they do not cross), keeps a value
      already within them, and fails exactly on a non-number when a bound is
      given. */
  lemma ClampBounds(v: Value, min: Option<int>, max: Option<int>)
    ensures Clamp(v, min, max).Err? <==> (min.Some? || max.Some?) && NumberOf(v).None?
    ensures Clamp(v, min, max).Err? ==> Clamp(v, min, max).exc == TypeError
    ensures Clamp(v, min, max).Ok? && (min.None? || max.None? || min.value <= max.value) ==>
      (min.Some? || max.Some? ==> Within(Clamp(v, min, max).value, min, max))
    ensures Clamp(v, min, max).Ok? && min.Some? && max.Some? && min.value > max.value ==>
      NumberOf(Clamp(v, min, max).value) == Some(max.value)
    ensures Within(v, min, max) ==> Clamp(v, min, max) == Ok(v)
  {
  }

  /** What `config.get(af_key, default_user_factor)` yields. */
  function UserFactor(c: Entries, key: string, userFactor: int): Value {
    match Config.GetItem(c, FactorKey(key))
    case Ok(a) => a
    case Err(_) => VInt(userFactor)
  }

  /** `create_config_entry(config, key, factor, default_user_factor, min=..., max=...)`:
      the entry ends up holding a number within the bounds when bounds are
      given; a user factor that cannot be multiplied raises TypeError. */
  function CreateConfigEntry(c: Entries, key: string, factor: int, userFactor: int,
                             min: Option<int>, max: Option<int>): (r: Result<Entries>)
    ensures r.Err? ==> r.exc == AttributeError || r.exc == TypeError
    ensures Config.GetItem(c, FactorKey(key)).Ok? && Scale(factor, UserFactor(c, key, userFactor)).Err? ==>
      r == Err(TypeError)
    ensures r.Ok? ==> Config.GetItem(r.value, key).Ok?
    ensures r.Ok? && (min.Some? || max.Some?) && (min.None? || max.None? || min.value <= max.value) ==>
      Within(Config.GetItem(r.value, key).value, min, max)
  {
    var (c1, a) :- Config.Get(c, FactorKey(key), VInt(userFactor));
    var v0 :- Scale(factor, a);
    var (c2, v1) :- Config.SetDefault(c1, key, v0, true);
    ClampBounds(v1, min, max);
    Clamped(c2, key, v1, min, max)
  }

  /** The value `create_config_entry` leaves: a stored non-None value is
      kept, otherwise factor times the user factor is stored, and the bounds
      are applied either way; an absent user factor is recorded with its
      default. */
  lemma CreateConfigEntryValue(c: Entries, key: string, factor: int, userFactor: int,
                               min: Option<int>, max: Option<int>)
    requires key != ""
    requires CreateConfigEntry(c, key, factor, userFactor, min, max).Ok?
    ensures var r := CreateConfigEntry(c, key, factor, userFactor, min, max).value;
      Config.GetItem(c, key).Ok? && Config.GetItem(c, key).value != VNone ==>
        Config.GetItem(r, key) == Clamp(Config.GetItem(c, key).value, min, max)
    ensures var r := CreateConfigEntry(c, key, factor, userFactor, min, max).value;
      Config.GetItem(c, key) == Err(KeyError) || Config.GetItem(c, key) == Ok(VNone) ==>
        Scale(factor, UserFactor(c, key, userFactor)).Ok? &&
        Config.GetItem(r, key) == Clamp(Scale(factor, UserFactor(c, key, userFactor)).value, min, max)
    ensures var r := CreateConfigEntry(c, key, factor, userFactor, min, max).value;
      Config.GetItem(c, key) != Err(TypeError) && Config.GetItem(c, FactorKey(key)) == Err(KeyError) ==>
        Config.GetItem(r, FactorKey(key)) == Ok(VInt(userFactor))
  {
    var af := FactorKey(key);
    FactorKeyApart(key);
    var (c1, a) := Config.Get(c, af, VInt(userFactor)).value;
    if Config.GetItem(c, af) == Err(KeyError) {
      Config.SetItemFrame(c, af, VInt(userFactor), key);
    }
    assert Config.GetItem(c1, key) == Config.GetItem(c, key);
    assert a == UserFactor(c, key, userFactor);
    var v0 := Scale(factor, a).value;
    var (c2, v1) := Config.SetDefault(c1, key, v0, true).value;
    var unset := Config.GetItem(c1, key) == Err(KeyError) || Config.GetItem(c1, key) == Ok(VNone);
    if unset {
      Config.SetItemFrame(c1, key, v0, af);
    }
    ClampFrame(c2, key, v1, min, max, af);
  }

  /** One entry of what a stage's `configure` returns: the key within the
      stage's namespace, the factor, the default user factor and the optional
      bounds. */
  datatype Spec = Spec(key: string, factor: int, userFactor: int, min: Option<int>, max: Option<int>)

  /** `Pipeline.configure(base_config)`: on a copy of the base, every stage's
      specs create their entries under `<stage id>/<key>`, stage by stage. */
  function Configure(p: seq<Stage>, base: Entries, specs: Stage -> seq<Spec>): (r: Result<Entries>)
    ensures r.Err? ==> r.exc == AttributeError || r.exc == TypeError
    ensures WellFormed(VMap(base)) && (forall i :: 0 <= i < |p| ==> specs(p[i]) == []) ==> r == Ok(base)
  {
    ConfigureStages(p, Config.Copy(base), specs)
  }

  function ConfigureStages(p: seq<Stage>, c: Entries, specs: Stage -> seq<Spec>): (r: Result<Entries>)
    ensures r.Err? ==> r.exc == AttributeError || r.exc == TypeError
    ensures (forall i :: 0 <= i < |p| ==> specs(p[i]) == []) ==> r == Ok(c)
    decreases |p|
  {
    if |p| == 0 then Ok(c)
    else
      var c1 :- ConfigureStage(p[0].id, specs(p[0]), c);
      ConfigureStages(p[1..], c1, specs)
  }

  function ConfigureStage(id: string, ss: seq<Spec>, c: Entries): (r: Result<Entries>)
    ensures r.Err? ==> r.exc == AttributeError || r.exc == TypeError
    ensures ss == [] ==> r == Ok(c)
    decreases |ss|
  {
    if |ss| == 0 then Ok(c)
    else
      var s := ss[0];
      var c1 :- CreateConfigEntry(c, id + "/" + s.key, s.factor, s.userFactor, s.min, s.max);
      ConfigureStage(id, ss[1..], c1)
  }

  /** `create_config_entry` touches only the entry and its factor key:
      every key whose path parts ways with both, and that could be looked
      up before, keeps its value. */
  lemma CreateConfigEntryFrame(c: Entries, key: string, factor: int, userFactor: int,
                               min: Option<int>, max: Option<int>, other: string)
    requires CreateConfigEntry(c, key, factor, userFactor, min, max).Ok?
    requires Config.Apart(Config.PathOf(key), Config.PathOf(other))
    requires Config.Apart(Config.PathOf(FactorKey(key)), Config.PathOf(other))
    requires Config.GetItem(c, other).Ok?
    ensures Config.GetItem(CreateConfigEntry(c, key, factor, userFactor, min, max).value, other) == Config.GetItem(c, other)
  {
    var (c1, a) := Config.Get(c, FactorKey(key), VInt(userFactor)).value;
    GetFrame(c, FactorKey(key), VInt(userFactor), other);
    var v0 := Scale(factor, a).value;
    var (c2, v1) := Config.SetDefault(c1, key, v0, true).value;
    Config.SetDefaultFrame(c1, key, v0, true, other);
    ClampFrame(c2, key, v1, min, max, other);
  }

  /** `config.get` leaves every key apart from its own as it was. */
  lemma GetFrame(c: Entries, key: string, d: Value, other: string)
    requires Config.Get(c, key, d).Ok?
    requires Config.Apart(Config.PathOf(key), Config.PathOf(other))
    ensures Config.GetItem(Config.Get(c, key, d).value.0, other) == Config.GetItem(c, other)
  {
    if Config.GetItem(c, key) == Err(KeyError) {
      Config.SetItemFrame(c, key, d, other);
    }
  }

  /** The clamping steps of `create_config_entry` from the stored value on. */
  function Clamped(c: Entries, key: string, v: Value, min: Option<int>, max: Option<int>): (r: Result<Entries>)
    requires Config.GetItem(c, key) == Ok(v)
    ensures r.Ok? <==> Clamp(v, min, max).Ok?
    ensures r.Err? ==> r.exc == TypeError
    ensures r.Ok? ==> Config.GetItem(r.value, key) == Clamp(v, min, max)
  {
    var v2 :- if min.Some? then AtLeast(v, min.value) else Ok(v);
    var c3 := if min.Some? then Config.SetItem(c, key, v2).value else c;
    var v3 :- if max.Some? then AtMost(v2, max.value) else Ok(v2);
    Ok(if max.Some? then Config.SetItem(c3, key, v3).value else c3)
  }

  /** Clamping leaves every key apart from the entry as it was. */
  lemma ClampFrame(c: Entries, key: string, v: Value, min: Option<int>, max: Option<int>, other: string)
    requires Config.GetItem(c, key) == Ok(v)
    requires Clamped(c, key, v, min, max).Ok?
    requires Config.Apart(Config.PathOf(key), Config.PathOf(other))
    ensures Config.GetItem(Clamped(c, key, v, min, max).value, other) == Config.GetItem(c, other)
  {
    var v2 := (if min.Some? then AtLeast(v, min.value) else Ok(v)).value;
    var c3 := if min.Some? then Config.SetItem(c, key, v2).value else c;
    if min.Some? {
      Config.SetItemFrame(c, key, v2, other);
    }
    var v3 := (if max.Some? then AtMost(v2, max.value) else Ok(v2)).value;
    if max.Some? {
      Config.SetItemFrame(c3, key, v3, other);
    }
  }

  /** The keys `configure` declares: `<stage id>/<key>` for every spec of
      every stage. */
  function DeclaredKeys(p: seq<Stage>, specs: Stage -> seq<Spec>): set<string> {
    set i, s | 0 <= i < |p| && s in specs(p[i]) :: p[i].id + "/" + s.key
  }

  /** Declared keys that do not nest in one another, and none of which is
      the factor key of another. */
  predicate Separate(keys: set<string>) {
    forall a, b :: a in keys && b in keys && a != b ==>
      Config.Apart(Config.PathOf(a), Config.PathOf(b)) && Config.Apart(Config.PathOf(FactorKey(a)), Config.PathOf(b))
  }

  /** One stage's specs: a declared key present before stays present, and
      every key of these specs is present afterwards. */
  lemma {:induction false} ConfigureStagePresent(id: string, ss: seq<Spec>, c: Entries, keys: set<string>)
    requires ConfigureStage(id, ss, c).Ok? && Separate(keys)
    requires forall s :: s in ss ==> id + "/" + s.key in keys
    ensures forall k :: k in keys && Config.GetItem(c, k).Ok? ==> Config.GetItem(ConfigureStage(id, ss, c).value, k).Ok?
    ensures forall s :: s in ss ==> Config.GetItem(ConfigureStage(id, ss, c).value, id + "/" + s.key).Ok?
    decreases |ss|
  {
    if |ss| > 0 {
      var s := ss[0];
      var key := id + "/" + s.key;
      var c1 := CreateConfigEntry(c, key, s.factor, s.userFactor, s.min, s.max).value;
      forall k | k in keys && k != key && Config.GetItem(c, k).Ok?
        ensures Config.GetItem(c1, k) == Config.GetItem(c, k)
      {
        CreateConfigEntryFrame(c, key, s.factor, s.userFactor, s.min, s.max, k);
      }
      assert forall t :: t in ss[1..] ==> t in ss;
      ConfigureStagePresent(id, ss[1..], c1, keys);
    }
  }

  /** The stages from `c` on: a declared key present before stays present,
      and every key the stages declare is present afterwards. */
  lemma {:induction false} ConfigureStagesPresent(p: seq<Stage>, c: Entries, specs: Stage -> seq<Spec>, keys: set<string>)
    requires ConfigureStages(p, c, specs).Ok? && Separate(keys) && DeclaredKeys(p, specs) <= keys
    ensures forall k :: k in keys && Config.GetItem(c, k).Ok? ==> Config.GetItem(ConfigureStages(p, c, specs).value, k).Ok?
    ensures forall k :: k in DeclaredKeys(p, specs) ==> Config.GetItem(ConfigureStages(p, c, specs).value, k).Ok?
    decreases |p|
  {
    if |p| > 0 {
      var c1 := ConfigureStage(p[0].id, specs(p[0]), c).value;
      assert forall s :: s in specs(p[0]) ==> p[0].id + "/" + s.key in DeclaredKeys(p, specs);
      ConfigureStagePresent(p[0].id, specs(p[0]), c, keys);
      forall k | k in DeclaredKeys(p[1..], specs) ensures k in DeclaredKeys(p, specs) {
        var i, s :| 0 <= i < |p[1..]| && s in specs(p[1..][i]) && k == p[1..][i].id + "/" + s.key;
        assert p[1..][i] == p[i + 1];
      }
      ConfigureStagesPresent(p[1..], c1, specs, keys);
      forall k | k in DeclaredKeys(p, specs)
        ensures Config.GetItem(ConfigureStages(p, c, specs).value, k).Ok?
      {
        var i, s :| 0 <= i < |p| && s in specs(p[i]) && k == p[i].id + "/" + s.key;
        if i > 0 {
          assert p[1..][i - 1] == p[i];
        }
      }
    }
  }

  /** After `configure`, every declared entry is present in the result,
      whenever the declared keys neither nest nor collide with a factor key. */
  lemma ConfigureDeclares(p: seq<Stage>, base: Entries, specs: Stage -> seq<Spec>)
    requires Configure(p, base, specs).Ok? && Separate(DeclaredKeys(p, specs))
    ensures forall i, s :: 0 <= i < |p| && s in specs(p[i]) ==>
      Config.GetItem(Configure(p, base, specs).value, p[i].id + "/" + s.key).Ok?
  {
    var keys := DeclaredKeys(p, specs);
    ConfigureStagesPresent(p, Config.Copy(base), specs, keys);
    forall i, s | 0 <= i < |p| && s in specs(p[i])
      ensures Config.GetItem(Configure(p, base, specs).value, p[i].id + "/" + s.key).Ok?
    {
      assert p[i].id + "/" + s.key in keys;
    }
  }

  // ---------------------------------------------------------------------
  // get_extra_stages
  // ---------------------------------------------------------------------

  /** The positions of the stages `step` lets through. */
  function WindowSet(p: seq<Stage>, first: Option<string>, last: Option<string>): set<nat> {
    var steps := Steps(NewControl(first, last), Ids(p));
    set i | 0 <= i < |p| && steps[i]
  }

  /** The positions of the stages a run processes: the window and the extra stages. */
  function Selected(p: seq<Stage>, first: Option<string>, last: Option<string>, extras: seq<string>): set<nat> {
    var steps := Steps(NewControl(first, last), Ids(p));
    set i | 0 <= i < |p| && (steps[i] || p[i].id in extras)
  }

  function OutputsAt(p: seq<Stage>, sel: set<nat>): set<string> {
    set i, x | i in sel && 0 <= i < |p| && x in p[i].outputs :: x
  }

  function InputsAt(p: seq<Stage>, sel: set<nat>): set<string> {
    set i, x | i in sel && 0 <= i < |p| && x in p[i].inputs :: x
  }

  /** Every position of the pipeline. */
  function All(p: seq<Stage>): (r: set<nat>)
    ensures forall i: int :: i in r <==> 0 <= i < |p|
  {
    Below(|p|)
  }

  function Below(n: nat): (r: set<nat>)
    ensures forall i: int :: i in r <==> 0 <= i < n
  {
    if n == 0 then {} else Below(n - 1) + {n - 1}
  }

  /** `stage_by_output[o]`: later stages overwrite earlier ones, so the last
      stage producing `o`. */
  function Producer(p: seq<Stage>, o: string): (r: Option<nat>)
    ensures r.Some? ==> r.value < |p| && o in p[r.value].outputs
    ensures r.Some? ==> forall j :: r.value < j < |p| ==> o !in p[j].outputs
    ensures r.None? ==> forall j :: 0 <= j < |p| ==> o !in p[j].outputs
  {
    if |p| == 0 then None
    else if o in p[|p| - 1].outputs then Some(|p| - 1)
    else Producer(p[..|p| - 1], o)
  }

  /** A strictly larger subset of a set leaves fewer elements outside. */
  lemma FewerMissing(u: set<string>, a: set<string>, b: set<string>, m: string)
    requires a <= b && m in b && m !in a && m in u
    ensures |u - b| < |u - a|
  {
    var x, y := u - b, u - a;
    assert x <= y && m in y && m !in x;
    assert y == x + (y - x);
    assert m in y - x;
  }

  /** `m` is an input of the stages at `sel` that is neither given nor
      produced by one of them. */
  predicate Missing(p: seq<Stage>, sel: set<nat>, given: set<string>, m: string) {
    m in InputsAt(p, sel) && m !in given + {"input"} + OutputsAt(p, sel)
  }

  function Positions(ks: seq<nat>): set<nat> {
    set k | k in ks
  }

  /** The ids of the stages at the positions `ks`, in order. */
  function IdsAt(p: seq<Stage>, ks: seq<nat>): (r: seq<string>)
    ensures |r| == |ks|
  {
    seq(|ks|, i requires 0 <= i < |ks| => if ks[i] < |p| then p[ks[i]].id else "")
  }

  /** The choices of the closure loop: the `i`-th extra stage is the one
      `stage_by_output` gives for `ms[i]`, an input that is missing once the
      window and the stages chosen before are taken into account. */
  predicate Chain(p: seq<Stage>, w: set<nat>, given: set<string>, ks: seq<nat>, ms: seq<string>) {
    |ks| == |ms| &&
    forall i :: 0 <= i < |ks| ==>
      Missing(p, w + Positions(ks[..i]), given, ms[i]) && Producer(p, ms[i]) == Some(ks[i])
  }

  /** A chain grows by the producer of an input that is still missing. */
  lemma ChainGrows(p: seq<Stage>, w: set<nat>, given: set<string>, ks: seq<nat>, ms: seq<string>, k: nat, m: string)
    requires Chain(p, w, given, ks, ms)
    requires Missing(p, w + Positions(ks), given, m) && Producer(p, m) == Some(k)
    ensures Chain(p, w, given, ks + [k], ms + [m])
    ensures Positions(ks + [k]) == Positions(ks) + {k}
    ensures IdsAt(p, ks + [k]) == IdsAt(p, ks) + [p[k].id]
  {
    var ks', ms' := ks + [k], ms + [m];
    forall i | 0 <= i < |ks'|
      ensures Missing(p, w + Positions(ks'[..i]), given, ms'[i]) && Producer(p, ms'[i]) == Some(ks'[i])
    {
      if i < |ks| {
        assert ks'[..i] == ks[..i] && ks'[i] == ks[i] && ms'[i] == ms[i];
      } else {
        assert ks'[..i] == ks;
      }
    }
    Appended(p, ks, k);
  }

  /** Appending a choice adds its position and its id. */
  lemma Appended(p: seq<Stage>, ks: seq<nat>, k: nat)
    requires k < |p|
    ensures Positions(ks + [k]) == Positions(ks) + {k}
    ensures IdsAt(p, ks + [k]) == IdsAt(p, ks) + [p[k].id]
  {
    assert IdsAt(p, ks + [k]) == IdsAt(p, ks) + [p[k].id];
  }

  /** A closed selection: every input that is not given is produced by one
      of the selected stages, so it has a producer. */
  lemma ClosedProduced(p: seq<Stage>, sel: set<nat>, given: set<string>, m: string)
    requires InputsAt(p, sel) <= given + {"input"} + OutputsAt(p, sel)
    requires m in InputsAt(p, sel) && m !in given + {"input"}
    ensures Producer(p, m).Some?
  {
    var i :| i in sel && 0 <= i < |p| && m in p[i].outputs;
  }

  /** `Pipeline.get_extra_stages(first_stage, last_stage, available_inputs)`:
      the ids of the stages that must also run so that every input needed
      by the window is available. Which missing input is resolved next is
      left open (the source takes whichever a set iteration yields first):
      every extra stage is the producer of an input missing when it is
      chosen, and KeyError means that an input needed by the window and the
      stages chosen so far has no producer at all. */
  method ExtraStages(p: seq<Stage>, first: Option<string>, last: Option<string>, given: set<string>)
    returns (r: Result<seq<string>>)
    ensures r.Err? ==> r.exc == KeyError
    ensures r.Err? ==> exists ks, ms, m ::
      Chain(p, WindowSet(p, first, last), given, ks, ms)
      && Missing(p, WindowSet(p, first, last) + Positions(ks), given, m) && Producer(p, m).None?
    ensures (exists m :: m in InputsAt(p, WindowSet(p, first, last)) && m !in given + {"input"} && Producer(p, m).None?) ==>
      r.Err?
    ensures (forall m :: m in InputsAt(p, All(p)) ==> m in given + {"input"} || Producer(p, m).Some?) ==> r.Ok?
    ensures r.Ok? ==> ExtrasFor(p, first, last, given, r.value)
  {
    var w := WindowSet(p, first, last);
    var required := InputsAt(p, w);
    var avail := given + {"input"} + OutputsAt(p, w);
    var extras: seq<string> := [];
    ghost var chosen: set<nat> := {};
    ghost var ks: seq<nat>, ms: seq<string> := [], [];
    ghost var u := given + {"input"} + OutputsAt(p, All(p));
    AtMonotone(p, w, All(p));
    while !(required <= avail)
      invariant Closing(p, w, given, chosen, extras, required, avail)
      invariant Chain(p, w, given, ks, ms) && chosen == Positions(ks) && extras == IdsAt(p, ks)
      invariant avail <= u
      decreases |u - avail|
    {
      var m :| m in required && m !in avail;
      AtMonotone(p, w + chosen, All(p));
      var j := Producer(p, m);
      assert Missing(p, w + Positions(ks), given, m);
      if j.None? {
        return Err(KeyError);
      }
      var k := j.value;
      OutputAt(p, All(p), k, m);
      FewerMissing(u, avail, avail + p[k].outputs, m);
      ChooseStage(p, w, given, chosen, extras, required, avail, k, m);
      ChainGrows(p, w, given, ks, ms, k, m);
      required := required + p[k].inputs;
      avail := avail + p[k].outputs;
      extras := extras + [p[k].id];
      chosen := chosen + {k};
      ks, ms := ks + [k], ms + [m];
    }
    ExtrasChosen(p, first, last, given, w, chosen, extras, required, avail, ks, ms);
    AtMonotone(p, w, w + chosen);
    forall m | m in InputsAt(p, w) && m !in given + {"input"} ensures Producer(p, m).Some? {
      ClosedProduced(p, w + chosen, given, m);
    }
    r := Ok(extras);
  }

  /** Every input of the stages at `sel` is given or produced among them. */
  predicate Closed(p: seq<Stage>, sel: set<nat>, given: set<string>) {
    InputsAt(p, sel) <= given + {"input"} + OutputsAt(p, sel)
  }

  /** What the extra stages promise: they are the stages of a chain of
      choices, each producing an input still missing when it was chosen, that
      leaves nothing missing; so they are stages of the pipeline, and over
      distinct ids they are listed once and, together with the window, find
      every input they need given or produced among them. */
  ghost predicate ExtrasFor(p: seq<Stage>, first: Option<string>, last: Option<string>, given: set<string>, extras: seq<string>) {
    (exists ks, ms ::
      Chain(p, WindowSet(p, first, last), given, ks, ms) && extras == IdsAt(p, ks)
      && Closed(p, WindowSet(p, first, last) + Positions(ks), given)) &&
    (forall x :: x in extras ==> x in Ids(p)) &&
    (Distinct(Ids(p)) ==> Distinct(extras)) &&
    (Distinct(Ids(p)) ==>
      var sel := Selected(p, first, last, extras);
      InputsAt(p, sel) <= given + {"input"} + OutputsAt(p, sel))
  }

  /** A closed loop state gives extra stages that keep their promise. */
  lemma ExtrasChosen(p: seq<Stage>, first: Option<string>, last: Option<string>, given: set<string>, w: set<nat>,
                     chosen: set<nat>, extras: seq<string>, required: set<string>, avail: set<string>,
                     ks: seq<nat>, ms: seq<string>)
    requires w == WindowSet(p, first, last)
    requires Closing(p, w, given, chosen, extras, required, avail) && required <= avail
    requires Chain(p, w, given, ks, ms) && chosen == Positions(ks) && extras == IdsAt(p, ks)
    ensures ExtrasFor(p, first, last, given, extras)
  {
    assert Closed(p, w + Positions(ks), given);
    ChosenIds(p, chosen, extras);
    if Distinct(Ids(p)) {
      SelectedIsChosen(p, first, last, chosen, extras);
      assert Selected(p, first, last, extras) == w + chosen;
    }
  }

  /** Every extra is the id of a chosen stage, so a pipeline id. */
  lemma ChosenIds(p: seq<Stage>, chosen: set<nat>, extras: seq<string>)
    requires forall x :: x in extras ==> exists i :: i in chosen && i < |p| && p[i].id == x
    ensures forall x :: x in extras ==> x in Ids(p)
  {
    forall x | x in extras ensures x in Ids(p) {
      var i :| i in chosen && i < |p| && p[i].id == x;
      assert Ids(p)[i] == x;
    }
  }

  /** The state of the closure loop: `chosen` holds the positions of the
      extra stages, `required` the inputs of the window and the extras, and
      `avail` what is given plus their outputs. */
  ghost predicate Closing(p: seq<Stage>, w: set<nat>, given: set<string>, chosen: set<nat>,
                          extras: seq<string>, required: set<string>, avail: set<string>)
  {
    (forall i :: i in chosen ==> i < |p| && p[i].id in extras) &&
    (forall x :: x in extras ==> exists i :: i in chosen && i < |p| && p[i].id == x) &&
    (Distinct(Ids(p)) ==> Distinct(extras)) &&
    required == InputsAt(p, w + chosen) &&
    avail == given + {"input"} + OutputsAt(p, w + chosen)
  }

  /** Adding the stage producing a missing input keeps the loop state. */
  lemma ChooseStage(p: seq<Stage>, w: set<nat>, given: set<string>, chosen: set<nat>,
                    extras: seq<string>, required: set<string>, avail: set<string>, k: nat, m: string)
    requires Closing(p, w, given, chosen, extras, required, avail)
    requires k < |p| && m in p[k].outputs && m !in avail
    ensures Closing(p, w, given, chosen + {k}, extras + [p[k].id], required + p[k].inputs, avail + p[k].outputs)
  {
    OutputAt(p, w + chosen, k, m);
    AtAdd(p, w + chosen, k);
    assert w + (chosen + {k}) == (w + chosen) + {k};
    if Distinct(Ids(p)) {
      NewExtra(p, chosen, extras, k);
    }
  }

  lemma OutputAt(p: seq<Stage>, sel: set<nat>, k: nat, x: string)
    requires k < |p| && x in p[k].outputs
    ensures k in sel ==> x in OutputsAt(p, sel)
  {
  }

  /** Under unique ids, a stage not chosen yet brings an id not in the extras yet. */
  lemma NewExtra(p: seq<Stage>, chosen: set<nat>, extras: seq<string>, k: nat)
    requires Distinct(Ids(p)) && Distinct(extras) && k < |p| && k !in chosen
    requires forall x :: x in extras ==> exists i :: i in chosen && i < |p| && p[i].id == x
    ensures Distinct(extras + [p[k].id])
  {
    forall i | i in chosen && i < |p| ensures p[i].id != p[k].id {
      assert Ids(p)[i] != Ids(p)[k];
    }
    assert p[k].id !in extras;
  }

  lemma SelectedIsChosen(p: seq<Stage>, first: Option<string>, last: Option<string>, chosen: set<nat>, extras: seq<string>)
    requires Distinct(Ids(p))
    requires forall i :: i in chosen ==> i < |p| && p[i].id in extras
    requires forall x :: x in extras ==> exists i :: i in chosen && i < |p| && p[i].id == x
    ensures Selected(p, first, last, extras) == WindowSet(p, first, last) + chosen
  {
    forall i | 0 <= i < |p| && p[i].id in extras ensures i in chosen {
      var k :| k in chosen && p[k].id == p[i].id;
      assert Ids(p)[i] == Ids(p)[k];
    }
  }

  lemma AtMonotone(p: seq<Stage>, a: set<nat>, b: set<nat>)
    requires a <= b
    ensures InputsAt(p, a) <= InputsAt(p, b) && OutputsAt(p, a) <= OutputsAt(p, b)
  {
  }

  lemma AtAdd(p: seq<Stage>, a: set<nat>, k: nat)
    requires k < |p|
    ensures InputsAt(p, a + {k}) == InputsAt(p, a) + p[k].inputs
    ensures OutputsAt(p, a + {k}) == OutputsAt(p, a) + p[k].outputs
  {
  }

  // ---------------------------------------------------------------------
  // process
  // ---------------------------------------------------------------------

  /** What the stage loop of `process` leaves: the data, the configuration,
      the ids entered into `timings` in the order they were entered, and the
      status notices. Elapsed times are not modelled. */
  datatype Run = Run(data: Data, config: Entries, timings: seq<string>, notices: seq<Notice>)

  /** The ids of the stages that are processed, in pipeline order. */
  function Picked(p: seq<Stage>, steps: seq<bool>, extras: seq<string>): (r: seq<string>)
    requires |steps| == |p|
    ensures forall x :: x in r <==> exists i :: 0 <= i < |p| && (steps[i] || p[i].id in extras) && p[i].id == x
    decreases |p|
  {
    if |p| == 0 then []
    else
      var rest := Picked(p[1..], steps[1..], extras);
      assert forall x :: (exists i :: 0 < i < |p| && (steps[i] || p[i].id in extras) && p[i].id == x) ==> x in rest by {
        forall x, i | 0 < i < |p| && (steps[i] || p[i].id in extras) && p[i].id == x ensures x in rest {
          assert p[1..][i - 1] == p[i] && steps[1..][i - 1] == steps[i];
        }
      }
      (if steps[0] || p[0].id in extras then [p[0].id] else []) + rest
  }

  /** `stage.run(...)` inside `try`: any exception becomes a StageError
      naming the stage. */
  function Guarded(s: Stage, data: Data, config: Value, process: Process): (r: Result<Outcome>)
    ensures r.Err? ==> r.exc == StageError(s.id)
    ensures r.Ok? <==> Stages.Run(s, data, config, process).Ok?
    ensures r.Ok? ==> r == Stages.Run(s, data, config, process)
  {
    match Stages.Run(s, data, config, process)
    case Ok(o) => Ok(o)
    case Err(_) => Err(StageError(s.id))
  }

  /** After `config.get(key, default)` the key can be assigned. */
  lemma GetThenSet(c: Entries, key: string, d: Value, v: Value)
    requires Config.Get(c, key, d).Ok?
    ensures Config.SetItem(Config.Get(c, key, d).value.0, key, v).Ok?
  {
  }

  /** One processed stage of `process`: the dict under the stage id (created
      empty when absent) is the stage's configuration, and what the stage
      writes into it, such as the `enabled` flag, stays in the pipeline's
      configuration. */
  function RunStage(s: Stage, data: Data, cfg: Entries, process: Process): (r: Result<(Data, Entries, seq<Notice>)>)
    ensures r.Err? ==> r.exc == AttributeError || r.exc == StageError(s.id)
    ensures Config.GetItem(cfg, s.id) == Err(TypeError) ==> r == Err(AttributeError)
    ensures r.Ok? ==>
      var v := Config.GetItem(r.value.1, s.id);
      v.Ok? && v.value.VMap? && HasKey(v.value.entries, "enabled")
    ensures r.Ok? ==> WritesOnly(data, r.value.0, s.outputs)
  {
    var (cfg1, sc) :- Config.Get(cfg, s.id, VMap([]));
    var o :- Guarded(s, data, sc, process);
    GetThenSet(cfg, s.id, VMap([]), VMap(o.config));
    Ok((o.data, Config.SetItem(cfg1, s.id, VMap(o.config)).value, o.notices))
  }

  /** The stage loop of `process`: every stage that `step` lets through or
      that is an extra stage is processed, every other stage is skipped. */
  function RunStages(p: seq<Stage>, c: Control, extras: seq<string>, data: Data, cfg: Entries, process: Process): (r: Result<Run>)
    ensures r.Ok? ==> r.value.timings == Picked(p, Steps(c, Ids(p)), extras)
    ensures r.Err? ==> r.exc == AttributeError || (r.exc.StageError? && r.exc.stage in Ids(p))
    ensures r.Ok? ==> WritesOnly(data, r.value.data, OutputsAt(p, Ran(p, r.value.timings)))
    decreases |p|
  {
    if |p| == 0 then Ok(Run(data, cfg, [], []))
    else
      var s := p[0];
      assert Ids(p)[1..] == Ids(p[1..]);
      var (c', go) := Step(c, s.id);
      if go || s.id in extras then
        var (d, cfg1, ns) :- RunStage(s, data, cfg, process);
        var rest :- RunStages(p[1..], c', extras, d, cfg1, process);
        WritesRan(p, data, d, rest.data, rest.timings);
        Ok(Run(rest.data, rest.config, [s.id] + rest.timings, ns + rest.notices))
      else
        var rest :- RunStages(p[1..], c', extras, data, cfg, process);
        OutputsShift(p, rest.timings, rest.timings);
        Ok(Run(rest.data, rest.config, rest.timings, SkipStage(s, data, cfg).notices + rest.notices))
  }

  /** The first stage's writes followed by the tail's stay within the
      outputs of the stages that ran. */
  lemma WritesRan(p: seq<Stage>, data: Data, d: Data, last: Data, tail: seq<string>)
    requires |p| > 0
    requires WritesOnly(data, d, p[0].outputs)
    requires WritesOnly(d, last, OutputsAt(p[1..], Ran(p[1..], tail)))
    ensures WritesOnly(data, last, OutputsAt(p, Ran(p, [p[0].id] + tail)))
  {
    OutputsShift(p, tail, [p[0].id] + tail);
    OutputsHead(p, [p[0].id] + tail);
    WritesThen(data, d, last, p[0].outputs, OutputsAt(p[1..], Ran(p[1..], tail)));
  }

  /** Writes in two steps write the union of their fields. */
  lemma WritesThen(a: Data, b: Data, c: Data, o1: set<string>, o2: set<string>)
    requires WritesOnly(a, b, o1) && WritesOnly(b, c, o2)
    ensures WritesOnly(a, c, o1 + o2)
  {
  }

  /** The outputs of the stages run in the tail are outputs of stages run
      in the whole list, when the ids run in the tail are among those run. */
  lemma OutputsShift(p: seq<Stage>, tail: seq<string>, whole: seq<string>)
    requires |p| > 0
    requires forall x :: x in tail ==> x in whole
    ensures OutputsAt(p[1..], Ran(p[1..], tail)) <= OutputsAt(p, Ran(p, whole))
  {
    forall x | x in OutputsAt(p[1..], Ran(p[1..], tail)) ensures x in OutputsAt(p, Ran(p, whole)) {
      var i :| i in Ran(p[1..], tail) && 0 <= i < |p[1..]| && x in p[1..][i].outputs;
      assert p[i + 1] == p[1..][i];
      assert i + 1 in Ran(p, whole);
    }
  }

  /** The outputs of the first stage, when it has run. */
  lemma OutputsHead(p: seq<Stage>, whole: seq<string>)
    requires |p| > 0 && p[0].id in whole
    ensures p[0].outputs <= OutputsAt(p, Ran(p, whole))
  {
    assert 0 in Ran(p, whole);
  }

  /** The caller's `data` dict once the stage loop has ended, by finishing
      or by raising: `process` updates that dict in place, so the outputs of
      the stages processed before a failing one stay in it. */
  function DataLeft(p: seq<Stage>, c: Control, extras: seq<string>, data: Data, cfg: Entries, process: Process): (r: Data)
    ensures RunStages(p, c, extras, data, cfg, process).Ok? ==> r == RunStages(p, c, extras, data, cfg, process).value.data
    decreases |p|
  {
    if |p| == 0 then data
    else
      var (c', go) := Step(c, p[0].id);
      LoopHead(p, c, extras, data, cfg, process);
      if go || p[0].id in extras then
        match RunStage(p[0], data, cfg, process)
        case Err(_) => data
        case Ok((d, cfg1, _)) => DataLeft(p[1..], c', extras, d, cfg1, process)
      else DataLeft(p[1..], c', extras, data, cfg, process)
  }

  /** When the stage loop raises, it raises at some stage `k`: the loop over
      the stages before `k` alone succeeds, the caller's dict holds exactly
      what that shorter loop leaves, and stage `k`, processed on that data
      and configuration, raises the loop's error. */
  lemma {:induction false} FailureKeepsEarlier(p: seq<Stage>, c: Control, extras: seq<string>, data: Data, cfg: Entries, process: Process)
    returns (k: nat)
    requires RunStages(p, c, extras, data, cfg, process).Err?
    ensures k < |p| && RunStages(p[..k], c, extras, data, cfg, process).Ok?
    ensures var before := RunStages(p[..k], c, extras, data, cfg, process).value;
      && DataLeft(p, c, extras, data, cfg, process) == before.data
      && RunStage(p[k], before.data, before.config, process).Err?
      && RunStage(p[k], before.data, before.config, process).exc == RunStages(p, c, extras, data, cfg, process).exc
    decreases |p|
  {
    var s := p[0];
    var (c', go) := Step(c, s.id);
    LoopHead(p, c, extras, data, cfg, process);
    if (go || s.id in extras) && RunStage(s, data, cfg, process).Err? {
      LeftAtError(p, c, extras, data, cfg, process);
      k := 0;
      assert p[..0] == [];
    } else {
      var (d, cfg1) := if go || s.id in extras then (RunStage(s, data, cfg, process).value.0, RunStage(s, data, cfg, process).value.1) else (data, cfg);
      var j := FailureKeepsEarlier(p[1..], c', extras, d, cfg1, process);
      k := j + 1;
      if go || s.id in extras {
        LeftAfterRun(p, c, extras, data, cfg, process);
      } else {
        LeftAfterSkip(p, c, extras, data, cfg, process);
      }
      PrefixHead(p, c, extras, data, cfg, process, j);
      assert DataLeft(p, c, extras, data, cfg, process) == DataLeft(p[1..], c', extras, d, cfg1, process);
      assert p[k] == p[1..][j];
      assert SameEnd(RunStages(p, c, extras, data, cfg, process), RunStages(p[1..], c', extras, d, cfg1, process));
      assert SameEnd(RunStages(p[..k], c, extras, data, cfg, process), RunStages(p[1..][..j], c', extras, d, cfg1, process));
    }
  }

  /** The loop over the first `j + 1` stages is its first turn followed by
      the loop over the next `j`. */
  lemma PrefixHead(p: seq<Stage>, c: Control, extras: seq<string>, data: Data, cfg: Entries, process: Process, j: nat)
    requires j < |p|
    ensures var (c', go) := Step(c, p[0].id);
      var one := RunStage(p[0], data, cfg, process);
      var run := RunStages(p[..j + 1], c, extras, data, cfg, process);
      && ((go || p[0].id in extras) && one.Ok? ==>
            SameEnd(run, RunStages(p[1..][..j], c', extras, one.value.0, one.value.1, process)))
      && (!(go || p[0].id in extras) ==> SameEnd(run, RunStages(p[1..][..j], c', extras, data, cfg, process)))
  {
    var q := p[..j + 1];
    assert q[0] == p[0] && q[1..] == p[1..][..j];
    LoopHead(q, c, extras, data, cfg, process);
  }

  /** One turn of the stage loop: a processed stage that raises ends the
      loop with its error; otherwise the loop goes on over the remaining
      stages from the data and configuration the turn leaves. */
  lemma LoopHead(p: seq<Stage>, c: Control, extras: seq<string>, data: Data, cfg: Entries, process: Process)
    requires |p| > 0
    ensures var (c', go) := Step(c, p[0].id);
      var run := RunStages(p, c, extras, data, cfg, process);
      var one := RunStage(p[0], data, cfg, process);
      && ((go || p[0].id in extras) && one.Err? ==> run == Err(one.exc))
      && ((go || p[0].id in extras) && one.Ok? ==>
            SameEnd(run, RunStages(p[1..], c', extras, one.value.0, one.value.1, process)))
      && (!(go || p[0].id in extras) ==> SameEnd(run, RunStages(p[1..], c', extras, data, cfg, process)))
  {
  }

  /** A processed stage that raises leaves the caller's data as it was. */
  lemma LeftAtError(p: seq<Stage>, c: Control, extras: seq<string>, data: Data, cfg: Entries, process: Process)
    requires |p| > 0 && (Step(c, p[0].id).1 || p[0].id in extras) && RunStage(p[0], data, cfg, process).Err?
    ensures DataLeft(p, c, extras, data, cfg, process) == data
  {
  }

  /** A processed stage that succeeds hands its data on to the rest of the
      loop. */
  lemma LeftAfterRun(p: seq<Stage>, c: Control, extras: seq<string>, data: Data, cfg: Entries, process: Process)
    requires |p| > 0 && (Step(c, p[0].id).1 || p[0].id in extras) && RunStage(p[0], data, cfg, process).Ok?
    ensures var one := RunStage(p[0], data, cfg, process).value;
      DataLeft(p, c, extras, data, cfg, process) == DataLeft(p[1..], Step(c, p[0].id).0, extras, one.0, one.1, process)
  {
  }

  /** A skipped stage leaves the data to the rest of the loop. */
  lemma LeftAfterSkip(p: seq<Stage>, c: Control, extras: seq<string>, data: Data, cfg: Entries, process: Process)
    requires |p| > 0 && !(Step(c, p[0].id).1 || p[0].id in extras)
    ensures DataLeft(p, c, extras, data, cfg, process) == DataLeft(p[1..], Step(c, p[0].id).0, extras, data, cfg, process)
  {
  }

  /** Two runs of the stage loop end alike: both fail with the same error,
      or both succeed with the same data and configuration. */
  predicate SameEnd(a: Result<Run>, b: Result<Run>) {
    a.Ok? == b.Ok?
    && (a.Err? ==> a.exc == b.exc)
    && (a.Ok? ==> a.value.data == b.value.data && a.value.config == b.value.config)
  }

  /** Every stage the loop passes over reports `skip-stage`. */
  lemma {:induction false} SkipsNoted(p: seq<Stage>, c: Control, extras: seq<string>, data: Data, cfg: Entries, process: Process)
    requires RunStages(p, c, extras, data, cfg, process).Ok?
    ensures forall i :: 0 <= i < |p| && !(Steps(c, Ids(p))[i] || p[i].id in extras) ==>
      Note("skip-stage", p[i].id) in RunStages(p, c, extras, data, cfg, process).value.notices
    decreases |p|
  {
    if |p| > 0 {
      var s := p[0];
      assert Ids(p)[1..] == Ids(p[1..]);
      var (c', go) := Step(c, s.id);
      var steps := Steps(c, Ids(p));
      assert steps[0] == go && steps[1..] == Steps(c', Ids(p[1..]));
      var ns := RunStages(p, c, extras, data, cfg, process).value.notices;
      var rest: Result<Run>;
      if go || s.id in extras {
        NoticesAfterRun(p, c, extras, data, cfg, process);
        var (d, cfg1, _) := RunStage(s, data, cfg, process).value;
        rest := RunStages(p[1..], c', extras, d, cfg1, process);
        SkipsNoted(p[1..], c', extras, d, cfg1, process);
      } else {
        NoticesAfterSkip(p, c, extras, data, cfg, process);
        rest := RunStages(p[1..], c', extras, data, cfg, process);
        SkipsNoted(p[1..], c', extras, data, cfg, process);
      }
      if !(go || s.id in extras) {
        assert ns[0] == Note("skip-stage", s.id);
      }
      NotedShift(p, steps, extras, ns, rest.value.notices);
    }
  }

  /** The skip notes of the tail of the loop, found at the end of the whole
      loop's notices, together with the head's own, cover the whole loop. */
  lemma NotedShift(p: seq<Stage>, steps: seq<bool>, extras: seq<string>, ns: seq<Notice>, tail: seq<Notice>)
    requires |p| > 0 && |steps| == |p| && |tail| <= |ns| && ns[|ns| - |tail|..] == tail
    requires !(steps[0] || p[0].id in extras) ==> Note("skip-stage", p[0].id) in ns
    requires forall i :: 0 <= i < |p| - 1 && !(steps[1..][i] || p[1..][i].id in extras) ==>
      Note("skip-stage", p[1..][i].id) in tail
    ensures forall i :: 0 <= i < |p| && !(steps[i] || p[i].id in extras) ==> Note("skip-stage", p[i].id) in ns
  {
    forall i | 0 <= i < |p| && !(steps[i] || p[i].id in extras)
      ensures Note("skip-stage", p[i].id) in ns
    {
      if i > 0 {
        assert p[1..][i - 1] == p[i] && steps[1..][i - 1] == steps[i];
        var j :| 0 <= j < |tail| && tail[j] == Note("skip-stage", p[i].id);
        assert ns[|ns| - |tail| + j] == tail[j];
      }
    }
  }

  /** A processed stage's notices come first, then the rest of the loop's. */
  lemma NoticesAfterRun(p: seq<Stage>, c: Control, extras: seq<string>, data: Data, cfg: Entries, process: Process)
    requires |p| > 0 && (Step(c, p[0].id).1 || p[0].id in extras)
    requires RunStages(p, c, extras, data, cfg, process).Ok?
    ensures RunStage(p[0], data, cfg, process).Ok?
    ensures var one := RunStage(p[0], data, cfg, process).value;
      var rest := RunStages(p[1..], Step(c, p[0].id).0, extras, one.0, one.1, process);
      rest.Ok? && RunStages(p, c, extras, data, cfg, process).value.notices == one.2 + rest.value.notices
  {
  }

  /** A skipped stage's notices come first, then the rest of the loop's. */
  lemma NoticesAfterSkip(p: seq<Stage>, c: Control, extras: seq<string>, data: Data, cfg: Entries, process: Process)
    requires |p| > 0 && !(Step(c, p[0].id).1 || p[0].id in extras)
    requires RunStages(p, c, extras, data, cfg, process).Ok?
    ensures var rest := RunStages(p[1..], Step(c, p[0].id).0, extras, data, cfg, process);
      rest.Ok? && RunStages(p, c, extras, data, cfg, process).value.notices
        == [Note("skip-stage", p[0].id)] + Calls(p[0], Skip) + rest.value.notices
  {
  }

  /** The start of `process`: `stages[0]` must exist; the first stage's id
      is written as None; `x+` names the stage after `x`. A missing `x`
      makes `find` return infinity, which cannot index the stage list. */
  function ResolveFirst(p: seq<Stage>, first: Option<string>): (r: Result<Option<string>>)
    ensures |p| == 0 <==> r == Err(IndexError) && |p| == 0
    ensures r.Err? ==> r.exc == IndexError || r.exc == TypeError
    ensures r.Ok? ==> |p| > 0
    ensures |p| > 0 && (first.None? || first == Some(p[0].id)) ==> r == Ok(None)
    ensures |p| > 0 && first.Some? && first != Some(p[0].id) && !EndsWith(first.value, "+") ==> r == Ok(first)
    ensures |p| > 0 && first.Some? && first != Some(p[0].id) && EndsWith(first.value, "+") ==>
      var j := Find(p, first.value[..|first.value| - 1]);
      (j.None? ==> r == Err(TypeError)) &&
      (j.Some? && j.value + 1 == |p| ==> r == Err(IndexError)) &&
      (j.Some? && j.value + 1 < |p| ==> r == Ok(Some(p[j.value + 1].id)))
  {
    if |p| == 0 then Err(IndexError)
    else
      var f := if first == Some(p[0].id) then None else first;
      if f.Some? && EndsWith(f.value, "+") then
        match Find(p, f.value[..|f.value| - 1])
        case None => Err(TypeError)
        case Some(j) => if j + 1 < |p| then Ok(Some(p[j + 1].id)) else Err(IndexError)
      else Ok(f)
  }

  /** `find(a) > find(b)`, where a missing id is at infinity. */
  predicate Later(p: seq<Stage>, a: string, b: string) {
    match (Find(p, a), Find(p, b))
    case (None, None) => false
    case (None, Some(_)) => true
    case (Some(_), None) => false
    case (Some(i), Some(j)) => i > j
  }

  /** Starting from `x+` processes exactly what starting from the stage
      after `x` processes. */
  lemma PlusStartsAfter(p: seq<Stage>, x: string, last: Option<string>)
    requires Distinct(Ids(p)) && |p| > 0 && x + "+" != p[0].id
    requires ResolveFirst(p, Some(x + "+")).Ok?
    ensures Find(p, x).Some? && Find(p, x).value + 1 < |p|
    ensures forall i :: 0 <= i < |p| ==>
      (Window(Ids(p), ResolveFirst(p, Some(x + "+")).value, last, i) <==>
       Window(Ids(p), Some(p[Find(p, x).value + 1].id), last, i))
    ensures forall i :: 0 <= i < |p| && Window(Ids(p), ResolveFirst(p, Some(x + "+")).value, last, i) ==>
      Find(p, x).value < i
  {
    var f := x + "+";
    assert EndsWith(f, "+") && f[..|f| - 1] == x;
    var j := Find(p, x).value;
    PosOfDistinct(Ids(p), j + 1);
  }

  /** The positions of the stages whose ids were entered into `timings`. */
  function Ran(p: seq<Stage>, timings: seq<string>): set<nat> {
    set i | 0 <= i < |p| && p[i].id in timings
  }

  /** Over distinct ids, the stages the loop processes are the window and
      the extra stages. */
  lemma RanIsSelected(p: seq<Stage>, first: Option<string>, last: Option<string>, extras: seq<string>)
    requires Distinct(Ids(p))
    ensures Ran(p, Picked(p, Steps(NewControl(first, last), Ids(p)), extras)) == Selected(p, first, last, extras)
  {
    RanPicked(p, Steps(NewControl(first, last), Ids(p)), extras);
  }

  /** Over distinct ids, a stage's id is entered exactly when that stage was picked. */
  lemma RanPicked(p: seq<Stage>, steps: seq<bool>, extras: seq<string>)
    requires Distinct(Ids(p)) && |steps| == |p|
    ensures Ran(p, Picked(p, steps, extras)) == set i | 0 <= i < |p| && (steps[i] || p[i].id in extras)
  {
    var t := Picked(p, steps, extras);
    forall i | 0 <= i < |p| && p[i].id in t ensures steps[i] || p[i].id in extras {
      var k :| 0 <= k < |p| && (steps[k] || p[k].id in extras) && p[k].id == p[i].id;
      assert Ids(p)[k] == Ids(p)[i];
    }
  }

  /** `process` returns at once when the first stage comes after the last. */
  predicate Early(p: seq<Stage>, first: Option<string>, last: Option<string>) {
    first.Some? && last.Some? && Later(p, first.value, last.value)
  }

  /** What a run promises: every stage of the window has run, and the
      inputs of the stages that ran were given or produced by one of them. */
  predicate Covers(p: seq<Stage>, first: Option<string>, last: Option<string>, given: set<string>, timings: seq<string>) {
    (forall i :: 0 <= i < |p| && Window(Ids(p), first, last, i) ==> p[i].id in timings) &&
    InputsAt(p, Ran(p, timings)) <= given + {"input"} + OutputsAt(p, Ran(p, timings))
  }

  lemma RunCovers(p: seq<Stage>, first: Option<string>, last: Option<string>, given: set<string>, extras: seq<string>)
    requires Distinct(Ids(p))
    requires var sel := Selected(p, first, last, extras);
      InputsAt(p, sel) <= given + {"input"} + OutputsAt(p, sel)
    ensures Covers(p, first, last, given, Picked(p, Steps(NewControl(first, last), Ids(p)), extras))
  {
    WindowSteps(Ids(p), first, last);
    RanIsSelected(p, first, last, extras);
  }

  /** What `process` returns: the data (None only when nothing was to be
      done and none was given), the configuration used, the ids entered into
      `timings` in order, and the status notices. */
  datatype Processed = Processed(data: Option<Data>, config: Entries, timings: seq<string>, notices: seq<Notice>)

  function Keys(data: Option<Data>): set<string> {
    if data.Some? then data.value.Keys else {}
  }

  /** How `process` proceeds after checking its arguments: nothing to do,
      or the resolved first stage and the data dict to work on. */
  datatype Start = Done | Go(first: Option<string>, data: Data)

  /** The argument checks of `process`, before any stage runs. */
  function Prepare(p: seq<Stage>, input: Option<Value>, first: Option<string>,
                   last: Option<string>, data: Option<Data>): (r: Result<Start>)
    ensures r.Err? ==> r.exc in {IndexError, TypeError, ValueError}
    ensures ResolveFirst(p, first).Err? ==> r == Err(ResolveFirst(p, first).exc)
    ensures var f := ResolveFirst(p, first);
      f.Ok? ==> (r == Ok(Done) <==> Early(p, f.value, last))
    ensures var f := ResolveFirst(p, first);
      (f.Ok? && !Early(p, f.value, last)) ==>
        (r == Err(ValueError) <==> f.value.Some? && f.value.value != p[0].id && data.None?)
    ensures r.Ok? && r.value.Go? ==> r.value.first == ResolveFirst(p, first).value
    ensures r.Ok? && r.value.Go? ==>
      r.value.data.Keys == Keys(data) + (if input.Some? then {"input"} else {})
    ensures r.Ok? && r.value.Go? && input.Some? ==> r.value.data["input"] == input.value
    ensures r.Ok? && r.value.Go? ==>
      forall k :: k in Keys(data) && (input.None? || k != "input") ==> r.value.data[k] == data.value[k]
  {
    var f :- ResolveFirst(p, first);
    if Early(p, f, last) then Ok(Done)
    else if f.Some? && f.value != p[0].id && data.None? then Err(ValueError)
    else
      var d := if data.Some? then data.value else map[];
      var d' := if input.Some? then d["input" := input.value] else d;
      Ok(Go(f, d'))
  }

  /** `out` is what the stage loop yields from `d` and `cfg` with extra
      stages as `ExtraStages` chooses them; over distinct ids the stages
      that ran are exactly the window and those extra stages. */
  ghost predicate RunWith(p: seq<Stage>, f: Option<string>, last: Option<string>, d: Data, cfg: Entries,
                          process: Process, out: Processed)
  {
    out.data.Some? &&
    exists extras ::
      && ExtrasFor(p, f, last, d.Keys, extras)
      && RunStages(p, NewControl(f, last), extras, d, cfg, process) == Ok(Run(out.data.value, out.config, out.timings, out.notices))
      && (Distinct(Ids(p)) ==> Ran(p, out.timings) == Selected(p, f, last, extras))
  }

  /** `Pipeline.process(input, config, first_stage, last_stage, data)`. */
  method Process(p: seq<Stage>, input: Option<Value>, config: Entries, first: Option<string>,
                 last: Option<string>, data: Option<Data>, process: Process)
    returns (r: Result<Processed>)
    ensures |p| == 0 ==> r == Err(IndexError)
    ensures r.Err? ==>
      (r.exc in {IndexError, TypeError, ValueError, KeyError, AttributeError} ||
       (r.exc.StageError? && r.exc.stage in Ids(p)))
    ensures r.Ok? ==> ResolveFirst(p, first).Ok? && forall x :: x in r.value.timings ==> x in Ids(p)
    ensures var f := ResolveFirst(p, first);
      f.Ok? && Early(p, f.value, last) ==> r == Ok(Processed(data, Config.Copy(config), [], []))
    ensures var f := ResolveFirst(p, first);
      (f.Ok? && !Early(p, f.value, last) && f.value.Some? && f.value.value != p[0].id && data.None?) ==>
        r == Err(ValueError)
    ensures var f := ResolveFirst(p, first);
      (r.Ok? && Distinct(Ids(p)) && f.Ok? && !Early(p, f.value, last)) ==>
        Covers(p, f.value, last, Keys(data), r.value.timings)
    ensures var s := Prepare(p, input, first, last, data);
      r.Ok? && s.Ok? && s.value.Go? ==>
        RunWith(p, s.value.first, last, s.value.data, Config.Copy(config), process, r.value) &&
        WritesOnly(s.value.data, r.value.data.value, OutputsAt(p, Ran(p, r.value.timings)))
  {
    var cfg := Config.Copy(config);
    var start :- Prepare(p, input, first, last, data);
    if start.Done? {
      return Ok(Processed(data, cfg, [], []));
    }
    r := Proceed(p, start.first, last, start.data, cfg, process);
  }

  /** The part of `process` after the argument checks: the extra stages
      are worked out and the stages run from the resolved first stage on. */
  method Proceed(p: seq<Stage>, f: Option<string>, last: Option<string>, d: Data, cfg: Entries, process: Process)
    returns (r: Result<Processed>)
    requires |p| > 0
    ensures r.Err? ==>
      (r.exc in {IndexError, TypeError, ValueError, KeyError, AttributeError} ||
       (r.exc.StageError? && r.exc.stage in Ids(p)))
    ensures r.Ok? ==> forall x :: x in r.value.timings ==> x in Ids(p)
    ensures r.Ok? && Distinct(Ids(p)) ==> Covers(p, f, last, d.Keys, r.value.timings)
    ensures r.Ok? ==> RunWith(p, f, last, d, cfg, process, r.value)
    ensures r.Ok? ==> r.value.data.Some? && WritesOnly(d, r.value.data.value, OutputsAt(p, Ran(p, r.value.timings)))
  {
    var e := ExtraStages(p, f, last, d.Keys);
    if e.Err? {
      return Err(e.exc);
    }
    var rs := RunStages(p, NewControl(f, last), e.value, d, cfg, process);
    if rs.Err? {
      return Err(rs.exc);
    }
    var run := rs.value;
    Proceeded(p, f, last, d, cfg, process, e.value, run);
    r := Ok(Processed(Some(run.data), run.config, run.timings, run.notices));
  }

  /** A stage loop over extra stages that keep their promise is a run of
      `process`: it covers the window and writes only the outputs of the
      stages that ran. */
  lemma Proceeded(p: seq<Stage>, f: Option<string>, last: Option<string>, d: Data, cfg: Entries,
                  process: Process, extras: seq<string>, run: Run)
    requires ExtrasFor(p, f, last, d.Keys, extras)
    requires RunStages(p, NewControl(f, last), extras, d, cfg, process) == Ok(run)
    ensures forall x :: x in run.timings ==> x in Ids(p)
    ensures Distinct(Ids(p)) ==> Covers(p, f, last, d.Keys, run.timings)
    ensures RunWith(p, f, last, d, cfg, process, Processed(Some(run.data), run.config, run.timings, run.notices))
    ensures WritesOnly(d, run.data, OutputsAt(p, Ran(p, run.timings)))
  {
    PickedIds(p, Steps(NewControl(f, last), Ids(p)), extras);
    if Distinct(Ids(p)) {
      RunCovers(p, f, last, d.Keys, extras);
      RanIsSelected(p, f, last, extras);
    }
    assert RunStages(p, NewControl(f, last), extras, d, cfg, process) == Ok(Run(run.data, run.config, run.timings, run.notices));
  }

  /** Only pipeline ids are picked. */
  lemma PickedIds(p: seq<Stage>, steps: seq<bool>, extras: seq<string>)
    requires |steps| == |p|
    ensures forall x :: x in Picked(p, steps, extras) ==> x in Ids(p)
  {
    forall x | x in Picked(p, steps, extras) ensures x in Ids(p) {
      var i :| 0 <= i < |p| && (steps[i] || p[i].id in extras) && p[i].id == x;
      assert Ids(p)[i] == x;
    }
  }
}

=== FILE: pipeline_examples.dfy ===
/** Small pipelines that show what the promise of `get_extra_stages`
    (pipeline.py:232-260) rules in and rules out. */
module PipelineExamples {
  import opened Base
  import opened Stages
  import opened Pipelines

  function Plain(id: string, inputs: set<string>, outputs: set<string>): Stage {
    Stage(id, inputs, outputs, {}, true, map[])
  }

  /** An empty prefix of the choices adds nothing to the window. */
  lemma NothingChosenYet(w: set<nat>)
    ensures forall ks: seq<nat> :: |ks| > 0 ==> w + Positions(ks[..0]) == w
  {
    forall ks: seq<nat> | |ks| > 0 ensures w + Positions(ks[..0]) == w {
      assert ks[..0] == [];
    }
  }

  /** Stage `b` needs `x`, which is given, so running from `b` needs no
      extra stage; the producer `a` of `x` is not an acceptable extra. */
  lemma GivenInputNeedsNoExtra()
    ensures var p := [Plain("a", {}, {"x"}), Plain("b", {"x"}, {})];
      ExtrasFor(p, Some("b"), None, {"x"}, [])
      && !ExtrasFor(p, Some("b"), None, {"x"}, ["a"])
  {
    var p := [Plain("a", {}, {"x"}), Plain("b", {"x"}, {})];
    assert Steps(NewControl(Some("b"), None), Ids(p)) == [false, true];
    assert WindowSet(p, Some("b"), None) == {1};
    assert InputsAt(p, {1}) == {"x"};
    assert forall m :: !Missing(p, {1}, {"x"}, m);
    NothingChosenYet({1});
    assert Chain(p, {1}, {"x"}, [], []);
    assert Positions([]) == {};
    assert Selected(p, Some("b"), None, []) == {1};
  }

  /** Stage `b` at the end of the pipeline needs nothing, so running from
      `b` cannot raise KeyError, though the earlier stage `a` needs a field
      nobody produces. */
  lemma UnusedStageCannotFail()
    ensures var p := [Plain("a", {"z"}, {}), Plain("b", {}, {"y"})];
      !exists ks, ms, m ::
        Chain(p, WindowSet(p, Some("b"), None), {}, ks, ms)
        && Missing(p, WindowSet(p, Some("b"), None) + Positions(ks), {}, m) && Producer(p, m).None?
  {
    var p := [Plain("a", {"z"}, {}), Plain("b", {}, {"y"})];
    assert Steps(NewControl(Some("b"), None), Ids(p)) == [false, true];
    assert WindowSet(p, Some("b"), None) == {1};
    assert InputsAt(p, {1}) == {};
    assert forall m :: !Missing(p, {1}, {}, m);
    NothingChosenYet({1});
    assert forall ks: seq<nat>, ms :: Chain(p, {1}, {}, ks, ms) ==> |ks| == 0;
    assert Positions([]) == {};
  }

  /** The fields of one stage. */
  lemma AtOne(p: seq<Stage>, i: nat)
    requires i < |p|
    ensures InputsAt(p, {i}) == p[i].inputs && OutputsAt(p, {i}) == p[i].outputs
  {
    assert forall x :: x in p[i].inputs ==> x in InputsAt(p, {i});
    assert forall x :: x in p[i].outputs ==> x in OutputsAt(p, {i});
  }

  /** The fields of a union of selections. */
  lemma AtUnion(p: seq<Stage>, a: set<nat>, b: set<nat>)
    ensures InputsAt(p, a + b) == InputsAt(p, a) + InputsAt(p, b)
    ensures OutputsAt(p, a + b) == OutputsAt(p, a) + OutputsAt(p, b)
  {
  }

  /** The pipeline of `ChoiceMatters`: `b` needs `m` and `n`; `x` produces
      both, `y` only `m`. */
  function Shared(): seq<Stage> {
    [Plain("x", {}, {"m", "n"}), Plain("y", {}, {"m"}), Plain("b", {"m", "n"}, {})]
  }

  lemma SharedWindow()
    ensures Ids(Shared()) == ["x", "y", "b"]
    ensures Steps(NewControl(Some("b"), None), Ids(Shared())) == [false, false, true]
    ensures WindowSet(Shared(), Some("b"), None) == {2}
    ensures Producer(Shared(), "n") == Some(0)
    ensures Producer(Shared(), "m") == Some(1)
  {
    assert Ids(Shared()) == ["x", "y", "b"];
  }

  lemma SharedFields()
    ensures InputsAt(Shared(), {2}) == {"m", "n"} && OutputsAt(Shared(), {2}) == {}
    ensures OutputsAt(Shared(), {2} + {0}) == {"m", "n"}
    ensures InputsAt(Shared(), {2} + {0}) == {"m", "n"}
    ensures InputsAt(Shared(), {2} + {1}) == {"m", "n"} && OutputsAt(Shared(), {2} + {1}) == {"m"}
    ensures InputsAt(Shared(), {2} + {1} + {0}) == {"m", "n"}
    ensures OutputsAt(Shared(), {2} + {1} + {0}) == {"m", "n"}
  {
    var p := Shared();
    AtOne(p, 0);
    AtOne(p, 1);
    AtOne(p, 2);
    AtUnion(p, {2}, {0});
    AtUnion(p, {2}, {1});
    AtUnion(p, {2} + {1}, {0});
  }

  /** The positions and ids of the chosen stages. */
  lemma SharedChoices()
    ensures Positions([0]) == {0} && Positions([1]) == {1} && Positions([1, 0]) == {1} + {0}
    ensures IdsAt(Shared(), [0]) == ["x"] && IdsAt(Shared(), [1, 0]) == ["y", "x"]
    ensures Selected(Shared(), Some("b"), None, ["x"]) == {2} + {0}
    ensures Selected(Shared(), Some("b"), None, ["y", "x"]) == {2} + {1} + {0}
  {
    SharedWindow();
  }

  /** The two lists of extras name distinct stages of the pipeline. */
  lemma SharedIds()
    ensures Distinct(["x"]) && Distinct(["y", "x"])
    ensures forall x :: x in ["y", "x"] ==> x in Ids(Shared())
  {
    SharedWindow();
    var e := ["y", "x"];
    assert e[0] != e[1];
  }

  /** The promise, from a chain that closes the window and closes the run. */
  lemma Keeps(p: seq<Stage>, first: Option<string>, last: Option<string>, given: set<string>,
              ks: seq<nat>, ms: seq<string>, extras: seq<string>)
    requires Chain(p, WindowSet(p, first, last), given, ks, ms) && extras == IdsAt(p, ks)
    requires Closed(p, WindowSet(p, first, last) + Positions(ks), given)
    requires forall x :: x in extras ==> x in Ids(p)
    requires Distinct(extras)
    requires Closed(p, Selected(p, first, last, extras), given)
    ensures ExtrasFor(p, first, last, given, extras)
  {
  }

  /** Resolving `n` first chooses `x` alone. */
  lemma ResolveNFirst()
    ensures ExtrasFor(Shared(), Some("b"), None, {}, ["x"])
  {
    SharedWindow();
    SharedChoices();
    NAlone();
    ClosedX();
    SharedIds();
    Keeps(Shared(), Some("b"), None, {}, [0], ["n"], ["x"]);
  }

  lemma NAlone()
    ensures Chain(Shared(), {2}, {}, [0], ["n"])
  {
    var p := Shared();
    SharedWindow();
    SharedFields();
    NothingChosenYet({2});
    assert Missing(p, {2}, {}, "n");
  }

  /** `x` and `b` together find every input they need. */
  lemma ClosedX()
    ensures Closed(Shared(), {2} + Positions([0]), {})
    ensures Closed(Shared(), Selected(Shared(), Some("b"), None, ["x"]), {})
  {
    SharedFields();
    SharedChoices();
  }

  /** A chain of two choices. */
  lemma TwoChoices(p: seq<Stage>, w: set<nat>, given: set<string>, k0: nat, m0: string, k1: nat, m1: string)
    requires Missing(p, w, given, m0) && Producer(p, m0) == Some(k0)
    requires Missing(p, w + {k0}, given, m1) && Producer(p, m1) == Some(k1)
    ensures Chain(p, w, given, [k0, k1], [m0, m1])
  {
    var ks, ms := [k0, k1], [m0, m1];
    assert ks[..0] == [] && ks[..1] == [k0];
    assert Positions([]) == {} && Positions([k0]) == {k0};
    assert w + Positions(ks[..0]) == w;
    assert w + Positions(ks[..1]) == w + {k0};
  }

  lemma MThenN()
    ensures Chain(Shared(), {2}, {}, [1, 0], ["m", "n"])
  {
    var p := Shared();
    SharedWindow();
    SharedFields();
    assert Missing(p, {2}, {}, "m");
    assert Missing(p, {2} + {1}, {}, "n");
    TwoChoices(p, {2}, {}, 1, "m", 0, "n");
  }

  /** All three stages together find every input they need. */
  lemma ClosedAll()
    ensures Closed(Shared(), {2} + Positions([1, 0]), {})
    ensures Closed(Shared(), Selected(Shared(), Some("b"), None, ["y", "x"]), {})
  {
    SharedFields();
    SharedChoices();
  }

  /** Resolving `m` first chooses `y`, the last producer of `m`, and then
      `x` for `n`. */
  lemma ResolveMFirst()
    ensures ExtrasFor(Shared(), Some("b"), None, {}, ["y", "x"])
  {
    SharedWindow();
    SharedChoices();
    MThenN();
    ClosedAll();
    SharedIds();
    Keeps(Shared(), Some("b"), None, {}, [1, 0], ["m", "n"], ["y", "x"]);
  }

  /** When two stages produce the same field, which extra stages are chosen
      depends on which missing input is resolved first, so the promise
      admits two different lists for the same window and the same given
      fields. */
  lemma ChoiceMatters()
    ensures ExtrasFor(Shared(), Some("b"), None, {}, ["x"])
    ensures ExtrasFor(Shared(), Some("b"), None, {}, ["y", "x"])
  {
    ResolveNFirst();
    ResolveMFirst();
  }
}

=== FILE: stage.dfy ===
/** Pipeline stages: the class-name tokenizer that suggests stage ids, the
    stage record with its callback registry, and one run of a stage over the
    pipeline data (`Stage.__call__` and `Stage.skip`). */
module Stages {
  import opened Base
  import opened Values
  import Config

  // ---------------------------------------------------------------------
  // Class names
  // ---------------------------------------------------------------------

  predicate IsUpper(c: char) { 'A' <= c <= 'Z' }
  predicate IsLower(c: char) { 'a' <= c <= 'z' }
  predicate IsLetter(c: char) { IsUpper(c) || IsLower(c) }
  predicate IsWordChar(c: char) { IsLetter(c) || IsDigit(c) || c == '_' }

  predicate AllWordChars(s: string) {
    forall i :: 0 <= i < |s| ==> IsWordChar(s[i])
  }

  /** The assertion opening `suggest_stage_id`: not `_`, a letter first, and
      otherwise letters, digits and underscores as `^[a-zA-Z_](?:[a-zA-Z0-9_])*$`
      accepts them. Python's `$` also matches right before a final newline,
      so one trailing newline passes as well. */
  predicate ValidClassName(s: string) {
    s != "_" && |s| > 0 && IsLetter(s[0]) &&
    (AllWordChars(s) || (s[|s| - 1] == '\n' && AllWordChars(s[..|s| - 1])))
  }

  /** A character a valid class name may contain. */
  predicate NameChar(c: char) { IsWordChar(c) || c == '\n' }

  lemma ValidNameChars(s: string)
    requires ValidClassName(s)
    ensures forall i :: 0 <= i < |s| ==> NameChar(s[i])
  {
    if !AllWordChars(s) {
      forall i | 0 <= i < |s| ensures NameChar(s[i]) {
        if i < |s| - 1 {
          assert s[..|s| - 1][i] == s[i];
        }
      }
    }
  }

  // ---------------------------------------------------------------------
  // Tokens: re.findall('[A-Z0-9][^A-Z0-9_]*', name)
  // ---------------------------------------------------------------------

  /** `[A-Z0-9]`: a character that opens a token. */
  predicate Opens(c: char) { IsUpper(c) || IsDigit(c) }

  /** `[^A-Z0-9_]`: a character that continues one. */
  predicate Continues(c: char) { !Opens(c) && c != '_' }

  predicate IsToken(t: string) {
    |t| > 0 && Opens(t[0]) && forall i :: 1 <= i < |t| ==> Continues(t[i])
  }

  /** Length of the longest prefix of continuing characters. */
  function RunLength(s: string): (n: nat)
    ensures n <= |s|
    ensures forall i :: 0 <= i < n ==> Continues(s[i])
    ensures n < |s| ==> !Continues(s[n])
  {
    if |s| == 0 || !Continues(s[0]) then 0 else 1 + RunLength(s[1..])
  }

  /** The non-overlapping matches of `[A-Z0-9][^A-Z0-9_]*`, left to right:
      each is an opening character and the longest run after it; characters
      outside any match are skipped. */
  function Tokens(s: string): (ts: seq<string>)
    ensures forall i :: 0 <= i < |ts| ==> IsToken(ts[i])
    decreases |s|
  {
    if |s| == 0 then []
    else if Opens(s[0]) then
      var n := RunLength(s[1..]);
      [s[..n + 1]] + Tokens(s[n + 1..])
    else Tokens(s[1..])
  }

  function Concat(ts: seq<string>): string {
    if |ts| == 0 then "" else ts[0] + Concat(ts[1..])
  }

  lemma {:induction false} ConcatAppend(a: seq<string>, b: seq<string>)
    ensures Concat(a + b) == Concat(a) + Concat(b)
  {
    if |a| > 0 {
      assert (a + b)[1..] == a[1..] + b;
      ConcatAppend(a[1..], b);
      ConcatAssoc(a[0], Concat(a[1..]), Concat(b));
    } else {
      assert a + b == b;
    }
  }

  /** A text without underscores that starts a token is exactly the
      concatenation of its tokens: nothing is skipped. */
  lemma {:induction false} TokensCover(s: string)
    requires |s| > 0 && Opens(s[0])
    requires forall i :: 0 <= i < |s| ==> s[i] != '_'
    ensures Concat(Tokens(s)) == s
    decreases |s|
  {
    var n := RunLength(s[1..]);
    var head, rest := s[..n + 1], s[n + 1..];
    var ts := Tokens(rest);
    assert Tokens(s) == [head] + ts;
    assert ([head] + ts)[1..] == ts;
    assert Concat([head] + ts) == head + Concat(ts);
    if |rest| > 0 {
      assert rest[0] == s[1..][n] == s[n + 1];
      assert !Continues(rest[0]) && rest[0] != '_';
      assert forall i :: 0 <= i < |rest| ==> rest[i] == s[n + 1 + i];
      TokensCover(rest);
      assert Concat(ts) == rest;
    } else {
      assert ts == [];
    }
    assert s == head + rest;
  }

  /** Scanning a concatenation of tokens finds exactly those tokens. */
  lemma TokensOfConcat(ts: seq<string>)
    requires forall i :: 0 <= i < |ts| ==> IsToken(ts[i])
    ensures Tokens(Concat(ts)) == ts
  {
    TokensAppend(ts, "");
    assert Concat(ts) + "" == Concat(ts);
  }

  /** Tokens followed by text that does not continue the last of them are
      found first, in order. */
  lemma {:induction false} TokensAppend(ts: seq<string>, rest: string)
    requires forall i :: 0 <= i < |ts| ==> IsToken(ts[i])
    requires |rest| > 0 ==> !Continues(rest[0])
    ensures Tokens(Concat(ts) + rest) == ts + Tokens(rest)
  {
    if |ts| > 0 {
      TokensAppend(ts[1..], rest);
      TokensAppendStep(ts, rest);
    } else {
      assert Concat(ts) + rest == rest;
      assert ts + Tokens(rest) == Tokens(rest);
    }
  }

  lemma TokensAppendStep(ts: seq<string>, rest: string)
    requires |ts| > 0 && forall i :: 0 <= i < |ts| ==> IsToken(ts[i])
    requires |rest| > 0 ==> !Continues(rest[0])
    requires Tokens(Concat(ts[1..]) + rest) == ts[1..] + Tokens(rest)
    ensures Tokens(Concat(ts) + rest) == ts + Tokens(rest)
  {
    TokensFirst(ts, rest);
    assert ts == [ts[0]] + ts[1..];
    ConcatAssoc([ts[0]], ts[1..], Tokens(rest));
  }

  /** The first token comes off the front of the concatenation. */
  lemma TokensFirst(ts: seq<string>, rest: string)
    requires |ts| > 0 && forall i :: 0 <= i < |ts| ==> IsToken(ts[i])
    requires |rest| > 0 ==> !Continues(rest[0])
    ensures Tokens(Concat(ts) + rest) == [ts[0]] + Tokens(Concat(ts[1..]) + rest)
  {
    var t, more := ts[0], ts[1..];
    TailOpens(more, rest);
    TokensCons(t, Concat(more) + rest);
    assert Concat(ts) == t + Concat(more);
    ConcatAssoc(t, Concat(more), rest);
  }

  lemma TailOpens(ts: seq<string>, rest: string)
    requires forall i :: 0 <= i < |ts| ==> IsToken(ts[i])
    requires |rest| > 0 ==> !Continues(rest[0])
    ensures |Concat(ts) + rest| > 0 ==> !Continues((Concat(ts) + rest)[0])
  {
    if |ts| > 0 {
      ConcatHead(ts);
    } else {
      assert Concat(ts) + rest == rest;
    }
  }

  /** Characters that cannot open a token are skipped at a token boundary. */
  lemma {:induction false} TokensSkip(p: string, rest: string)
    requires forall i :: 0 <= i < |p| ==> !Opens(p[i])
    ensures Tokens(p + rest) == Tokens(rest)
  {
    if |p| > 0 {
      assert (p + rest)[1..] == p[1..] + rest;
      TokensSkip(p[1..], rest);
    } else {
      assert p + rest == rest;
    }
  }

  lemma ConcatHead(ts: seq<string>)
    requires |ts| > 0 && |ts[0]| > 0
    ensures |Concat(ts)| > 0 && Concat(ts)[0] == ts[0][0]
  {
  }

  /** A token followed by text that opens the next token (or nothing) is
      scanned as that token first. */
  lemma TokensCons(t: string, rest: string)
    requires IsToken(t)
    requires |rest| > 0 ==> !Continues(rest[0])
    ensures Tokens(t + rest) == [t] + Tokens(rest)
  {
    var s := t + rest;
    assert s[1..] == t[1..] + rest;
    assert forall i :: 0 <= i < |t[1..]| ==> t[1..][i] == t[i + 1];
    RunLengthOf(t[1..], rest);
    assert s[..|t|] == t && s[|t|..] == rest;
  }

  /** The run after an opening character stops where the next token opens. */
  lemma {:induction false} RunLengthOf(a: string, b: string)
    requires forall i :: 0 <= i < |a| ==> Continues(a[i])
    requires |b| > 0 ==> !Continues(b[0])
    ensures RunLength(a + b) == |a|
  {
    if |a| > 0 {
      assert (a + b)[1..] == a[1..] + b;
      RunLengthOf(a[1..], b);
    } else {
      assert a + b == b;
    }
  }

  /** Every character of a token comes from the scanned text. */
  lemma {:induction false} TokensChars(s: string)
    requires forall i :: 0 <= i < |s| ==> NameChar(s[i])
    ensures forall j, i :: 0 <= j < |Tokens(s)| && 0 <= i < |Tokens(s)[j]| ==> NameChar(Tokens(s)[j][i])
    decreases |s|
  {
    if |s| > 0 {
      if Opens(s[0]) {
        var n := RunLength(s[1..]);
        TokensChars(s[n + 1..]);
      } else {
        TokensChars(s[1..]);
      }
    }
  }

  // ---------------------------------------------------------------------
  // Grouping single-character tokens
  // ---------------------------------------------------------------------

  /** `str.isnumeric()` and `str.isalpha()` on the characters tokens open with. */
  predicate IsNumeric(s: string) { |s| > 0 && forall i :: 0 <= i < |s| ==> IsDigit(s[i]) }
  predicate IsAlpha(s: string) { |s| > 0 && forall i :: 0 <= i < |s| ==> IsLetter(s[i]) }

  /** The test that lets a one-character token `t` join the run `token`. */
  predicate Fusable(token: string, t: string) {
    |t| == 1 && (IsNumeric(token) == IsNumeric(t) || IsAlpha(token) == IsAlpha(t))
  }

  /** The inner `for` loop: extends `token` by the following one-character
      tokens while they pass the test; yields the run and how many tokens it
      absorbed. */
  function Fuse(token: string, rest: seq<string>): (r: (string, nat))
    ensures r.1 <= |rest|
    decreases |rest|
  {
    if |rest| > 0 && Fusable(token, rest[0]) then
      var (t, n) := Fuse(token + rest[0], rest[1..]);
      (t, n + 1)
    else (token, 0)
  }

  /** The run is the start token followed by the tokens it absorbed. */
  lemma {:induction false} FuseSpells(token: string, rest: seq<string>)
    ensures Fuse(token, rest).0 == token + Concat(rest[..Fuse(token, rest).1])
    decreases |rest|
  {
    if |rest| > 0 && Fusable(token, rest[0]) {
      FuseSpells(token + rest[0], rest[1..]);
      var n := Fuse(token + rest[0], rest[1..]).1;
      assert rest[..n + 1] == [rest[0]] + rest[1..][..n];
      assert Concat(rest[..n + 1]) == rest[0] + Concat(rest[1..][..n]);
      ConcatAssoc(token, rest[0], Concat(rest[1..][..n]));
    } else {
      assert rest[..0] == [];
    }
  }

  /** The outer `while` loop: a one-character token starts a run, longer
      tokens pass through. */
  function Group(ts: seq<string>): seq<string>
    decreases |ts|
  {
    if |ts| == 0 then []
    else if |ts[0]| == 1 then
      var (t, n) := Fuse(ts[0], ts[1..]);
      [t] + Group(ts[1 + n..])
    else [ts[0]] + Group(ts[1..])
  }

  /** Grouping only joins neighbours: the text is unchanged. */
  lemma {:induction false} GroupConcat(ts: seq<string>)
    ensures Concat(Group(ts)) == Concat(ts)
    decreases |ts|
  {
    if |ts| > 0 {
      if |ts[0]| == 1 {
        var n := Fuse(ts[0], ts[1..]).1;
        FuseSpells(ts[0], ts[1..]);
        GroupConcat(ts[1 + n..]);
        assert ts == [ts[0]] + ts[1..][..n] + ts[1 + n..];
        ConcatAppend([ts[0]] + ts[1..][..n], ts[1 + n..]);
        ConcatAppend([ts[0]], ts[1..][..n]);
        assert Concat([ts[0]]) == ts[0];
        assert Group(ts) == [Fuse(ts[0], ts[1..]).0] + Group(ts[1 + n..]);
      } else {
        GroupConcat(ts[1..]);
      }
    }
  }

  /** A run of one-character tokens of one kind (all digits, or all
      capitals) becomes a single group. */
  lemma GroupSameKind(ts: seq<string>, digits: bool)
    requires |ts| > 0
    requires forall i :: 0 <= i < |ts| ==> |ts[i]| == 1 && OfKind(ts[i], digits)
    ensures Group(ts) == [Concat(ts)]
  {
    FuseAll(ts[0], ts[1..], digits);
    FuseSpells(ts[0], ts[1..]);
    var t := Fuse(ts[0], ts[1..]).0;
    assert ts[1..][..|ts| - 1] == ts[1..];
    assert t == Concat(ts);
    assert ts[|ts|..] == [];
    assert Group(ts) == [t] + Group(ts[|ts|..]);
  }

  /** A token of two or more characters is a group of its own. */
  lemma GroupLong(t: string, rest: seq<string>)
    requires |t| != 1
    ensures Group([t] + rest) == [t] + Group(rest)
  {
    assert ([t] + rest)[1..] == rest;
  }

  /** A run of one-character tokens of one kind forms one group when the
      next token cannot join it: it is longer, or of the other kind. */
  lemma GroupRun(run: seq<string>, rest: seq<string>, digits: bool)
    requires |run| > 0
    requires forall i :: 0 <= i < |run| ==> |run[i]| == 1 && OfKind(run[i], digits)
    requires |rest| > 0 ==> |rest[0]| != 1 || OfKind(rest[0], !digits)
    ensures Group(run + rest) == [Concat(run)] + Group(rest)
  {
    var ts := run + rest;
    assert ts[0] == run[0];
    assert ts[1..] == run[1..] + rest;
    FuseRun(run[0], run[1..], rest, digits);
    FuseSpells(run[0], ts[1..]);
    assert ts[1..][..|run| - 1] == run[1..];
    assert Concat(run) == run[0] + Concat(run[1..]);
    assert ts[1 + (|run| - 1)..] == rest;
  }

  lemma {:induction false} FuseRun(token: string, run: seq<string>, rest: seq<string>, digits: bool)
    requires OfKind(token, digits)
    requires forall i :: 0 <= i < |run| ==> |run[i]| == 1 && OfKind(run[i], digits)
    requires |rest| > 0 ==> |rest[0]| != 1 || OfKind(rest[0], !digits)
    ensures Fuse(token, run + rest).1 == |run|
    decreases |run|
  {
    if |run| > 0 {
      KindTests(token, run[0], digits);
      var t := token + run[0];
      assert OfKind(t, digits) by {
        forall i | 0 <= i < |t| ensures if digits then IsDigit(t[i]) else IsUpper(t[i]) {
          if i >= |token| { assert t[i] == run[0][i - |token|]; }
        }
      }
      assert (run + rest)[1..] == run[1..] + rest;
      FuseRun(t, run[1..], rest, digits);
    } else {
      assert run + rest == rest;
      if |rest| > 0 && |rest[0]| == 1 {
        KindDiffers(token, rest[0], digits);
      }
    }
  }

  lemma KindDiffers(token: string, t: string, digits: bool)
    requires OfKind(token, digits) && OfKind(t, !digits) && |t| == 1
    ensures !Fusable(token, t)
  {
    if digits {
      assert IsNumeric(token) && !IsAlpha(token) by { assert !IsLetter(token[0]); }
      assert !IsNumeric(t) && IsAlpha(t) by { assert !IsDigit(t[0]); }
    } else {
      assert !IsNumeric(token) && IsAlpha(token) by { assert !IsDigit(token[0]); }
      assert IsNumeric(t) && !IsAlpha(t) by { assert !IsLetter(t[0]); }
    }
  }

  /** The kind a run keeps: digits, or capitals. */
  predicate OfKind(t: string, digits: bool) {
    |t| > 0 && forall i :: 0 <= i < |t| ==> if digits then IsDigit(t[i]) else IsUpper(t[i])
  }

  lemma {:induction false} FuseAll(token: string, rest: seq<string>, digits: bool)
    requires OfKind(token, digits)
    requires forall i :: 0 <= i < |rest| ==> |rest[i]| == 1 && OfKind(rest[i], digits)
    ensures Fuse(token, rest).1 == |rest|
    decreases |rest|
  {
    if |rest| > 0 {
      KindTests(token, rest[0], digits);
      var t := token + rest[0];
      assert OfKind(t, digits) by {
        forall i | 0 <= i < |t| ensures if digits then IsDigit(t[i]) else IsUpper(t[i]) {
          if i >= |token| { assert t[i] == rest[0][i - |token|]; }
        }
      }
      FuseAll(t, rest[1..], digits);
    }
  }

  lemma KindTests(token: string, t: string, digits: bool)
    requires OfKind(token, digits) && OfKind(t, digits) && |t| == 1
    ensures Fusable(token, t)
  {
    if digits {
      assert IsNumeric(token) && IsNumeric(t);
    } else {
      assert IsAlpha(token) && IsAlpha(t);
    }
  }

  /** A one-character token of the other kind ends a run. */
  lemma FuseStops(token: string, rest: seq<string>)
    requires |rest| > 0 && |rest[0]| == 1
    requires (IsNumeric(token) && IsUpper(rest[0][0])) || (IsAlpha(token) && IsDigit(rest[0][0]))
    ensures Fuse(token, rest) == (token, 0)
  {
    var t := rest[0];
    if IsNumeric(token) {
      assert !IsAlpha(token) by { assert !IsLetter(token[0]); }
      assert !IsNumeric(t) by { assert !IsDigit(t[0]); }
      assert IsAlpha(t);
    } else {
      assert !IsNumeric(token) by { assert !IsDigit(token[0]); }
      assert IsNumeric(t);
      assert !IsAlpha(t) by { assert !IsLetter(t[0]); }
    }
  }

  // ---------------------------------------------------------------------
  // Suggested ids
  // ---------------------------------------------------------------------

  function Lower(c: char): char {
    if IsUpper(c) then (c as int + 32) as char else c
  }

  /** `str.lower()`. Class names that pass the assertion are ASCII, so only
      capitals change. */
  function Lowered(t: string): (r: string)
    ensures |r| == |t|
    ensures forall i :: 0 <= i < |t| ==> r[i] == Lower(t[i])
  {
    seq(|t|, i requires 0 <= i < |t| => Lower(t[i]))
  }

  /** `token.lower().replace('_', '')`. */
  function Clean(t: string): string {
    ReplaceAll(Lowered(t), "_", "")
  }

  /** Tokens hold no underscore, so cleaning only lowers them. */
  lemma CleanLower(t: string)
    requires '_' !in t
    ensures Clean(t) == Lowered(t)
  {
    NoUnderscore(Lowered(t));
  }

  lemma {:induction false} NoUnderscore(s: string)
    requires '_' !in s
    ensures !Contains(s, "_")
    decreases |s|
  {
    if |s| > 0 {
      NoUnderscore(s[1..]);
      assert s[..1] == [s[0]];
    }
  }

  /** The lower-cased groups of a class name. */
  function Words(name: string): (ws: seq<string>)
    ensures |ws| == |Group(Tokens(name))|
  {
    var gs := Group(Tokens(name));
    seq(|gs|, i requires 0 <= i < |gs| => Clean(gs[i]))
  }

  /** A last word `stage` goes, as long as another word remains. */
  function DropStage(ws: seq<string>): seq<string> {
    if |ws| >= 2 && ws[|ws| - 1] == "stage" then ws[..|ws| - 1] else ws
  }

  /** `suggest_stage_id(class_name)`. */
  function SuggestStageId(name: string): (r: Result<string>)
    ensures r.Ok? <==> ValidClassName(name)
    ensures r.Err? ==> r.exc == AssertionError
  {
    if !ValidClassName(name) then Err(AssertionError)
    else Ok(Join(DropStage(Words(name)), "-"))
  }

  /** A character a suggested id may contain. */
  predicate IdChar(c: char) { IsLower(c) || IsDigit(c) || c == '-' || c == '\n' }

  /** Suggested ids contain no capitals and no underscores: only lower-case
      letters, digits and hyphens (and the newline a name may end with). */
  lemma SuggestedIdChars(name: string)
    requires SuggestStageId(name).Ok?
    ensures forall i :: 0 <= i < |SuggestStageId(name).value| ==> IdChar(SuggestStageId(name).value[i])
  {
    ValidNameChars(name);
    TokensChars(name);
    var gs := Group(Tokens(name));
    forall j | 0 <= j < |gs| ensures forall i :: 0 <= i < |Words(name)[j]| ==> IdChar(Words(name)[j][i]) {
      GroupChars(Tokens(name), j);
      CleanChars(gs[j]);
    }
    var ws := DropStage(Words(name));
    assert forall j :: 0 <= j < |ws| ==> ws[j] == Words(name)[j];
    JoinChars(ws);
  }

  lemma CleanChars(t: string)
    requires forall i :: 0 <= i < |t| ==> NameChar(t[i])
    ensures forall i :: 0 <= i < |Clean(t)| ==> IdChar(Clean(t)[i])
  {
    ReplaceChars(Lowered(t), '_');
  }

  /** Removing every `_` keeps the other characters and nothing else. */
  lemma {:induction false} ReplaceChars(s: string, c: char)
    requires forall i :: 0 <= i < |s| ==> s[i] == '_' || IdChar(s[i])
    ensures forall i :: 0 <= i < |ReplaceAll(s, "_", "")| ==> IdChar(ReplaceAll(s, "_", "")[i])
    decreases |s|
  {
    if |s| >= 1 {
      ReplaceChars(s[1..], c);
      if s[..1] != "_" {
        assert s[0] != '_';
      }
    }
  }

  lemma {:induction false} JoinChars(ws: seq<string>)
    requires forall j, i :: 0 <= j < |ws| && 0 <= i < |ws[j]| ==> IdChar(ws[j][i])
    ensures forall i :: 0 <= i < |Join(ws, "-")| ==> IdChar(Join(ws, "-")[i])
  {
    if |ws| > 1 {
      JoinChars(ws[1..]);
      var r := Join(ws[1..], "-");
      assert Join(ws, "-") == ws[0] + "-" + r;
      forall i | 0 <= i < |ws[0] + "-" + r| ensures IdChar((ws[0] + "-" + r)[i]) {
        if i < |ws[0]| {
        } else if i == |ws[0]| {
        } else {
          assert (ws[0] + "-" + r)[i] == r[i - |ws[0]| - 1];
        }
      }
    }
  }

  /** The characters of each group come from the tokens. */
  lemma GroupChars(ts: seq<string>, j: nat)
    requires forall k, i :: 0 <= k < |ts| && 0 <= i < |ts[k]| ==> NameChar(ts[k][i])
    requires j < |Group(ts)|
    ensures forall i :: 0 <= i < |Group(ts)[j]| ==> NameChar(Group(ts)[j][i])
  {
    GroupAllChars(ts);
  }

  lemma {:induction false} GroupAllChars(ts: seq<string>)
    requires forall k, i :: 0 <= k < |ts| && 0 <= i < |ts[k]| ==> NameChar(ts[k][i])
    ensures forall k, i :: 0 <= k < |Group(ts)| && 0 <= i < |Group(ts)[k]| ==> NameChar(Group(ts)[k][i])
    decreases |ts|
  {
    if |ts| > 0 {
      if |ts[0]| == 1 {
        var n := Fuse(ts[0], ts[1..]).1;
        FuseSpells(ts[0], ts[1..]);
        ConcatChars(ts[1..][..n]);
        GroupAllChars(ts[1 + n..]);
        var t := Fuse(ts[0], ts[1..]).0;
        assert forall i :: 0 <= i < |t| ==> NameChar(t[i]) by {
          forall i | 0 <= i < |t| ensures NameChar(t[i]) {
            if i >= |ts[0]| {
              assert t[i] == Concat(ts[1..][..n])[i - |ts[0]|];
            }
          }
        }
        assert Group(ts) == [t] + Group(ts[1 + n..]);
      } else {
        GroupAllChars(ts[1..]);
        assert Group(ts) == [ts[0]] + Group(ts[1..]);
      }
    }
  }

  lemma {:induction false} ConcatChars(ts: seq<string>)
    requires forall k, i :: 0 <= k < |ts| && 0 <= i < |ts[k]| ==> NameChar(ts[k][i])
    ensures forall i :: 0 <= i < |Concat(ts)| ==> NameChar(Concat(ts)[i])
  {
    if |ts| > 0 {
      ConcatChars(ts[1..]);
      forall i | 0 <= i < |Concat(ts)| ensures NameChar(Concat(ts)[i]) {
        if i >= |ts[0]| {
          assert Concat(ts)[i] == Concat(ts[1..])[i - |ts[0]|];
        } else {
          assert Concat(ts)[i] == ts[0][i];
        }
      }
    }
  }

  // ---------------------------------------------------------------------
  // Stages and their callbacks
  // ---------------------------------------------------------------------

  /** The events a callback can be registered for: 'start', 'end', 'skip'
      and 'after' (which stands for both 'end' and 'skip'). */
  datatype Event = Start | End | Skip | After

  /** Callbacks are compared by identity, as `list.remove` does for plain
      functions. */
  type CallbackId = nat

  /** A constructed stage. `inputs` already includes the consumed fields. */
  datatype Stage = Stage(
    id: string,
    inputs: set<string>,
    outputs: set<string>,
    consumes: set<string>,
    enabledByDefault: bool,
    callbacks: map<Event, seq<CallbackId>>)

  /** The class attributes a stage subclass declares; `id` is absent when the
      class does not set one. */
  datatype StageClass = StageClass(
    name: string,
    id: Option<string>,
    inputs: set<string>,
    outputs: set<string>,
    consumes: set<string>,
    enabledByDefault: bool)

  /** `Stage.__init__`. */
  function NewStage(cls: StageClass): (r: Result<Stage>)
    ensures cls.id.Some? ==> (r.Ok? <==> !EndsWith(cls.id.value, "+"))
    ensures cls.id.None? ==> (r.Ok? <==> ValidClassName(cls.name))
    ensures r.Err? ==> r.exc == AssertionError
    ensures r.Ok? ==> r.value.id == (if cls.id.Some? then cls.id.value else SuggestStageId(cls.name).value)
    ensures r.Ok? ==> r.value.inputs == cls.inputs + cls.consumes && r.value.consumes <= r.value.inputs
    ensures r.Ok? ==> r.value.outputs == cls.outputs && r.value.consumes == cls.consumes
    ensures r.Ok? ==> r.value.enabledByDefault == cls.enabledByDefault && r.value.callbacks == map[]
  {
    SuggestedNoPlus(cls.name);
    var id :- if cls.id.Some? then Ok(cls.id.value) else SuggestStageId(cls.name);
    var _ :- Check(!EndsWith(id, "+"));
    Ok(Stage(id, cls.inputs + cls.consumes, cls.outputs, cls.consumes, cls.enabledByDefault, map[]))
  }

  /** A suggested id never carries the reserved `+` suffix. */
  lemma SuggestedNoPlus(name: string)
    ensures ValidClassName(name) ==> !EndsWith(SuggestStageId(name).value, "+")
  {
    if ValidClassName(name) {
      SuggestedIdChars(name);
      NoPlusEnd(SuggestStageId(name).value);
    }
  }

  lemma NoPlusEnd(id: string)
    requires forall i :: 0 <= i < |id| ==> IdChar(id[i])
    ensures !EndsWith(id, "+")
  {
    if |id| > 0 {
      assert IdChar(id[|id| - 1]);
      assert id[|id| - 1..] == [id[|id| - 1]];
    }
  }

  /** `callback(event)` calls these callbacks, in this order. */
  function Fire(s: Stage, e: Event): seq<CallbackId> {
    if e in s.callbacks then s.callbacks[e] else []
  }

  /** The events an event name registers on. */
  function Targets(e: Event): set<Event> {
    if e == After then {End, Skip} else {e}
  }

  function Append(s: Stage, e: Event, cb: CallbackId): Stage {
    s.(callbacks := s.callbacks[e := Fire(s, e) + [cb]])
  }

  /** `add_callback(event, callback)`: the callback is called last for the
      target events, and nothing else changes. */
  function AddCallback(s: Stage, e: Event, cb: CallbackId): (r: Stage)
    ensures forall e' :: Fire(r, e') == Fire(s, e') + (if e' in Targets(e) then [cb] else [])
    ensures r.(callbacks := s.callbacks) == s
  {
    if e == After then Append(Append(s, End, cb), Skip, cb) else Append(s, e, cb)
  }

  /** `list.remove(x)`: drops the first occurrence. */
  function RemoveFirst(xs: seq<CallbackId>, x: CallbackId): (r: seq<CallbackId>)
    ensures x !in xs ==> r == xs
    ensures x in xs ==> |r| == |xs| - 1 && multiset(r) == multiset(xs) - multiset{x}
  {
    if |xs| == 0 then []
    else
      assert xs == [xs[0]] + xs[1..];
      if xs[0] == x then xs[1..]
      else [xs[0]] + RemoveFirst(xs[1..], x)
  }

  /** `RemoveFirst` drops the first occurrence of `x` and keeps the rest in
      order, as `list.remove` does. */
  lemma {:induction false} RemovesFirstOccurrence(xs: seq<CallbackId>, x: CallbackId) returns (i: nat)
    requires x in xs
    ensures i < |xs| && xs[i] == x && x !in xs[..i]
    ensures RemoveFirst(xs, x) == xs[..i] + xs[i + 1..]
  {
    if xs[0] == x {
      i := 0;
      assert xs[..0] == [];
    } else {
      var j := RemovesFirstOccurrence(xs[1..], x);
      i := j + 1;
      PastHead(xs, x, j, RemoveFirst(xs[1..], x));
    }
  }

  /** The step of `RemovesFirstOccurrence` past a head that is not `x`. */
  lemma PastHead(xs: seq<CallbackId>, x: CallbackId, j: nat, rest: seq<CallbackId>)
    requires |xs| > 0 && xs[0] != x
    requires j < |xs| - 1 && xs[1..][j] == x && x !in xs[1..][..j]
    requires rest == xs[1..][..j] + xs[1..][j + 1..]
    ensures xs[j + 1] == x && x !in xs[..j + 1]
    ensures [xs[0]] + rest == xs[..j + 1] + xs[j + 2..]
  {
    assert xs[..j + 1] == [xs[0]] + xs[1..][..j];
    assert xs[j + 2..] == xs[1..][j + 1..];
  }

  /** Removing the callback just appended restores the list, when it was not
      already registered. */
  lemma {:induction false} RemoveAppended(xs: seq<CallbackId>, x: CallbackId)
    requires x !in xs
    ensures RemoveFirst(xs + [x], x) == xs
  {
    if |xs| > 0 {
      assert (xs + [x])[1..] == xs[1..] + [x];
      RemoveAppended(xs[1..], x);
    }
  }

  /** Removal for one plain event: an event with no list is left alone; a
      list without the callback raises ValueError. */
  function RemoveFrom(s: Stage, e: Event, cb: CallbackId): (r: Result<Stage>)
    ensures r.Err? <==> e in s.callbacks && cb !in s.callbacks[e]
    ensures r.Err? ==> r.exc == ValueError
    ensures r.Ok? ==> r.value.(callbacks := s.callbacks) == s
    ensures r.Ok? ==> forall e' :: Fire(r.value, e') == if e' == e then RemoveFirst(Fire(s, e), cb) else Fire(s, e')
  {
    if e !in s.callbacks then Ok(s)
    else if cb !in s.callbacks[e] then Err(ValueError)
    else Ok(s.(callbacks := s.callbacks[e := RemoveFirst(s.callbacks[e], cb)]))
  }

  /** The stage as `remove_callback` leaves it, returning or raising, and the
      error raised, if any. */
  datatype Removal = Removal(stage: Stage, error: Option<Exc>)

  /** `remove_callback(event, callback)`. For `after` the `end` list is
      changed before the `skip` list is looked at, so a callback missing from
      `skip` raises with the removal from `end` already made. */
  function RemoveCallback(s: Stage, e: Event, cb: CallbackId): (r: Removal)
    ensures r.error.Some? <==> exists t :: t in Targets(e) && t in s.callbacks && cb !in s.callbacks[t]
    ensures r.error.Some? ==> r.error.value == ValueError
    ensures r.error.None? ==> forall e' ::
                                Fire(r.stage, e') == if e' in Targets(e) then RemoveFirst(Fire(s, e'), cb) else Fire(s, e')
    ensures r.error.Some? ==> forall e' ::
                                Fire(r.stage, e') == if e == After && e' == End then RemoveFirst(Fire(s, End), cb) else Fire(s, e')
    ensures r.stage.(callbacks := s.callbacks) == s
  {
    if e == After then RemoveAfter(s, cb)
    else
      assert forall t :: t in Targets(e) <==> t == e;
      match RemoveFrom(s, e, cb)
      case Err(x) => Removal(s, Some(x))
      case Ok(s1) => Removal(s1, None)
  }

  /** `remove_callback('after', callback)`: `end`, then `skip`. */
  function RemoveAfter(s: Stage, cb: CallbackId): (r: Removal)
    ensures r.error.Some? <==> (End in s.callbacks && cb !in s.callbacks[End]) || (Skip in s.callbacks && cb !in s.callbacks[Skip])
    ensures r.error.Some? ==> r.error.value == ValueError
    ensures Fire(r.stage, End) == RemoveFirst(Fire(s, End), cb)
    ensures Fire(r.stage, Skip) == if r.error.None? then RemoveFirst(Fire(s, Skip), cb) else Fire(s, Skip)
    ensures forall e' :: e' != End && e' != Skip ==> Fire(r.stage, e') == Fire(s, e')
    ensures r.stage.(callbacks := s.callbacks) == s
  {
    match RemoveFrom(s, End, cb)
    case Err(x) => Removal(s, Some(x))
    case Ok(s1) =>
      assert Fire(s1, Skip) == Fire(s, Skip);
      match RemoveFrom(s1, Skip, cb)
      case Err(x) => Removal(s1, Some(x))
      case Ok(s2) => Removal(s2, None)
  }

  /** A callback registered on `end` but not on `skip`, removed from `after`:
      the call raises, and `end` has lost the callback all the same. */
  lemma PartialRemoval(s: Stage, cb: CallbackId)
    requires End in s.callbacks && s.callbacks[End] == [cb]
    requires Skip in s.callbacks && cb !in s.callbacks[Skip]
    ensures RemoveCallback(s, After, cb) == Removal(s.(callbacks := s.callbacks[End := []]), Some(ValueError))
  {
  }

  /** Removing a callback right after adding it restores every event's
      callbacks, unless it was registered there already. */
  lemma AddThenRemove(s: Stage, e: Event, cb: CallbackId)
    requires forall t :: t in Targets(e) ==> cb !in Fire(s, t)
    ensures RemoveCallback(AddCallback(s, e, cb), e, cb).error.None?
    ensures forall e' :: Fire(RemoveCallback(AddCallback(s, e, cb), e, cb).stage, e') == Fire(s, e')
  {
    var a := AddCallback(s, e, cb);
    AddedEverywhere(s, e, cb);
    forall e' ensures Fire(RemoveCallback(a, e, cb).stage, e') == Fire(s, e') {
      if e' in Targets(e) {
        RemoveAppended(Fire(s, e'), cb);
      }
    }
  }

  lemma AddedEverywhere(s: Stage, e: Event, cb: CallbackId)
    ensures forall t :: t in Targets(e) ==> t in AddCallback(s, e, cb).callbacks && cb in AddCallback(s, e, cb).callbacks[t]
  {
    var a := AddCallback(s, e, cb);
    forall t | t in Targets(e) ensures t in a.callbacks && cb in a.callbacks[t] {
      assert Fire(a, t) == Fire(s, t) + [cb];
    }
  }

  // ---------------------------------------------------------------------
  // Running a stage
  // ---------------------------------------------------------------------

  /** The pipeline data object: field name to value. */
  type Data = map<string, Value>

  /** `Stage.process`, which each concrete stage supplies: from the stage, its
      cleaned hyperparameters and its input fields to the output fields it
      returns, or the exception it raises. */
  type Process = (Stage, Entries, Data) -> Result<Data>

  /** What a run reports, in order: the status note (`start-stage` or
      `skip-stage`, with the stage id) and each callback called. */
  datatype Notice = Note(info: string, stage: string) | Called(cb: CallbackId, event: Event)

  /** The data after the run, the stage's hyperparameters after the run
      (reading `enabled` stores its default), whether the stage ran, and what
      it reported. */
  datatype Outcome = Outcome(data: Data, config: Entries, ran: bool, notices: seq<Notice>)

  function Calls(s: Stage, e: Event): (ns: seq<Notice>)
    ensures |ns| == |Fire(s, e)|
    ensures forall i :: 0 <= i < |ns| ==> ns[i] == Called(Fire(s, e)[i], e)
  {
    seq(|Fire(s, e)|, i requires 0 <= i < |Fire(s, e)| => Called(Fire(s, e)[i], e))
  }

  /** `bool()` of what `config.get('enabled', ...)` returns: a dict comes back
      wrapped in a `Config`, which defines no truth value and so is true. */
  predicate Enabled(v: Value) {
    v.VMap? || Truthy(v)
  }

  /** Whether the stage is on under these hyperparameters: the stored
      `enabled` value, or the class default when none is stored. */
  predicate On(s: Stage, cfg: Entries) {
    match Lookup(cfg, "enabled")
    case Some(v) => Enabled(v)
    case None => s.enabledByDefault
  }

  /** `{key: data[key] for key in self.inputs}`. */
  function Inputs(s: Stage, data: Data): (r: Data)
    ensures s.inputs <= data.Keys ==> r.Keys == s.inputs
    ensures forall k :: k in r ==> k in data && r[k] == data[k]
  {
    map k | k in s.inputs && k in data :: data[k]
  }

  /** The copy of the hyperparameters handed to `process`, without
      `enabled`; for a well-formed store, the store minus that key. */
  function CleanConfig(cfg: Entries): (r: Entries)
    ensures WellFormed(VMap(cfg)) ==> r == Remove(cfg, "enabled")
  {
    PopEnabled(Config.Copy(cfg));
    Config.Pop(Config.Copy(cfg), "enabled", VNone).value.0
  }

  /** `pop('enabled', None)` never fails and removes the key. */
  lemma PopEnabled(c: Entries)
    ensures Config.Pop(c, "enabled", VNone).Ok?
    ensures Config.Pop(c, "enabled", VNone).value.0 == Remove(c, "enabled")
  {
    PlainKey("enabled");
  }

  /** A key without `/` is a one-segment path. */
  lemma PlainKey(k: string)
    requires '/' !in k
    ensures Config.PathOf(k) == [k]
    ensures Config.Levels(Config.PathOf(k)) == [] && Config.Leaf(Config.PathOf(k)) == k
  {
  }

  /** The enabled branch, from the input extraction to the deletion of the
      consumed fields: the outputs must be exactly the declared ones; they
      overwrite, consumed fields go, every other field is kept. */
  function Execute(s: Stage, data: Data, clean: Entries, process: Process): (r: Result<Data>)
    ensures !(s.inputs <= data.Keys) ==> r == Err(KeyError)
    ensures var p := process(s, clean, Inputs(s, data));
      s.inputs <= data.Keys && p.Err? ==> r == Err(p.exc)
    ensures var p := process(s, clean, Inputs(s, data));
      s.inputs <= data.Keys && p.Ok? && p.value.Keys != s.outputs ==> r == Err(AssertionError)
    ensures var p := process(s, clean, Inputs(s, data));
      r.Ok? ==> s.inputs <= data.Keys && p.Ok? && p.value.Keys == s.outputs
    ensures r.Ok? ==> r.value.Keys == (data.Keys + s.outputs) - s.consumes
    ensures var p := process(s, clean, Inputs(s, data));
      r.Ok? ==> forall k :: k in r.value ==> r.value[k] == (if k in s.outputs then p.value[k] else data[k])
  {
    if !(s.inputs <= data.Keys) then Err(KeyError)
    else
      var out :- process(s, clean, Inputs(s, data));
      var _ :- Check(out.Keys == s.outputs);
      if !(s.consumes <= data.Keys + out.Keys) then Err(KeyError)
      else Ok((data + out) - s.consumes)
  }

  /** `Stage.skip`: the data is left alone and the 'skip' callbacks run. */
  function SkipStage(s: Stage, data: Data, cfg: Entries): (r: Outcome)
    ensures r.data == data && r.config == cfg && !r.ran
    ensures r.notices == [Note("skip-stage", s.id)] + Calls(s, Skip)
  {
    Outcome(data, cfg, false, [Note("skip-stage", s.id)] + Calls(s, Skip))
  }

  /** `after` differs from `before` only in the fields `outs`: it gains no
      other field and keeps every other value. */
  predicate WritesOnly(before: Data, after: Data, outs: set<string>) {
    after.Keys <= before.Keys + outs &&
    forall k :: k in after && k !in outs ==> k in before && after[k] == before[k]
  }

  /** The run fails as the enabled branch does, or ends with its data. */
  predicate Agrees(r: Result<Outcome>, x: Result<Data>) {
    (r.Ok? <==> x.Ok?) && (r.Ok? ==> r.value.data == x.value) && (r.Err? ==> r.exc == x.exc)
  }

  /** `stage(pipeline, data, config)`: `config` is what the pipeline found
      under the stage id. */
  function Run(s: Stage, data: Data, config: Value, process: Process): (r: Result<Outcome>)
    ensures !config.VMap? ==> r == Err(AttributeError)
    ensures config.VMap? && !On(s, config.entries) ==>
      r.Ok? && r.value == SkipStage(s, data, r.value.config)
    ensures r.Ok? ==> (r.value.ran <==> On(s, config.entries))
    ensures var d := VBool(s.enabledByDefault);
      r.Ok? ==> Lookup(r.value.config, "enabled") == Some(if HasKey(config.entries, "enabled") then Lookup(config.entries, "enabled").value else d)
    ensures r.Ok? ==> forall k :: k != "enabled" ==> Lookup(r.value.config, k) == Lookup(config.entries, k)
    ensures config.VMap? && WellFormed(config) && On(s, config.entries) ==>
      Agrees(r, Execute(s, data, Remove(config.entries, "enabled"), process))
    ensures r.Ok? && r.value.ran ==>
      r.value.notices == [Note("start-stage", s.id)] + Calls(s, Start) + Calls(s, End)
    ensures r.Ok? ==> WritesOnly(data, r.value.data, s.outputs)
  {
    if !config.VMap? then Err(AttributeError)
    else
      var (cfg, flag) := Settle(s, config.entries);
      if !Enabled(flag) then Ok(SkipStage(s, data, cfg))
      else
        var out :- Execute(s, data, CleanConfig(cfg), process);
        Ok(Outcome(out, cfg, true, [Note("start-stage", s.id)] + Calls(s, Start) + Calls(s, End)))
  }

  /** The hyperparameters after `config.get('enabled', default)`, and the
      value read: the stored one, or the class default, which is then stored. */
  function Settle(s: Stage, c: Entries): (r: (Entries, Value))
    ensures r.1 == (if HasKey(c, "enabled") then Lookup(c, "enabled").value else VBool(s.enabledByDefault))
    ensures Enabled(r.1) <==> On(s, c)
    ensures Lookup(r.0, "enabled") == Some(r.1)
    ensures forall k :: k != "enabled" ==> Lookup(r.0, k) == Lookup(c, k)
    ensures WellFormed(VMap(c)) ==> CleanConfig(r.0) == Remove(c, "enabled")
  {
    GetEnabled(c, VBool(s.enabledByDefault));
    EnabledRemoved(c, VBool(s.enabledByDefault));
    Config.Get(c, "enabled", VBool(s.enabledByDefault)).value
  }

  /** `config.get('enabled', default)` on a stage's hyperparameters: never
      fails, and stores the default when no value is there. */
  lemma GetEnabled(c: Entries, d: Value)
    ensures Config.Get(c, "enabled", d).Ok?
    ensures Config.Get(c, "enabled", d).value.1 ==
      (if HasKey(c, "enabled") then Lookup(c, "enabled").value else d)
    ensures Config.Get(c, "enabled", d).value.0 ==
      (if HasKey(c, "enabled") then c else Put(c, "enabled", d))
  {
    var keys := Config.PathOf("enabled");
    assert keys == ["enabled"];
    assert Config.Levels(keys) == [] && Config.Leaf(keys) == "enabled";
  }

  /** Cleaning the store after the default was stored gives the original
      store without `enabled`. */
  lemma EnabledRemoved(c: Entries, d: Value)
    ensures Config.Get(c, "enabled", d).Ok?
    ensures WellFormed(VMap(c)) && WellFormed(d) ==>
      CleanConfig(Config.Get(c, "enabled", d).value.0) == Remove(c, "enabled")
  {
    GetEnabled(c, d);
    if WellFormed(VMap(c)) && WellFormed(d) {
      if !HasKey(c, "enabled") {
        PutFresh(c, "enabled", d);
      }
    }
  }

  /** Adding a new key to a well-formed store keeps it well-formed, and
      removing the key again gives the store back. */
  lemma PutFresh(c: Entries, k: string, d: Value)
    requires WellFormed(VMap(c)) && WellFormed(d) && !HasKey(c, k)
    ensures WellFormed(VMap(Put(c, k, d)))
    ensures Remove(Put(c, k, d), k) == c
  {
    var p := c + [(k, d)];
    assert Put(c, k, d) == p;
    assert forall i :: 0 <= i < |p| ==> WellFormed(p[i].1) by {
      forall i | 0 <= i < |p| ensures WellFormed(p[i].1) {
        if i < |c| { assert p[i] == c[i]; }
      }
    }
    IndexOfAppend(c, (k, d), k);
    assert p[..|c|] + p[|c| + 1..] == c;
  }
}

=== FILE: stage_examples.dfy ===
/** The stage ids `suggest_stage_id` gives for the class names of the
    repository's tests (tests/test_stage.py:19-36). Each name is taken apart
    with the general tokenizer lemmas: its tokens, its groups, the lowered
    words and the joined id. */
module StageExamples {
  import opened Base
  import opened Stages

  /** Once the tokens, groups and lowered words of a valid name are known,
      the id is the joined words. */
  lemma Suggests(name: string, ts: seq<string>, gs: seq<string>, ws: seq<string>)
    requires ValidClassName(name)
    requires Tokens(name) == ts && Group(ts) == gs
    requires |ws| == |gs|
    requires forall i :: 0 <= i < |gs| ==> '_' !in gs[i] && ws[i] == Lowered(gs[i])
    ensures SuggestStageId(name) == Ok(Join(DropStage(ws), "-"))
  {
    forall i | 0 <= i < |gs| ensures Words(name)[i] == ws[i] {
      CleanLower(gs[i]);
    }
    assert Words(name) == ws;
  }

  lemma ConcatCons(x: string, ts: seq<string>)
    ensures Concat([x] + ts) == x + Concat(ts)
  {
    assert ([x] + ts)[1..] == ts;
  }

  lemma JoinCons(x: string, ws: seq<string>, sep: string)
    requires |ws| > 0
    ensures Join([x] + ws, sep) == x + sep + Join(ws, sep)
  {
    assert ([x] + ws)[1..] == ws;
  }

  // ---------------------------------------------------------------------
  // The Great PC Mapper: tokens The, Great, P, C, Mapper
  // ---------------------------------------------------------------------

  /** Any valid name with these tokens suggests `the-great-pc-mapper`. */
  lemma PCMapperId(name: string, id: string)
    requires ValidClassName(name)
    requires Tokens(name) == ["The", "Great", "P", "C", "Mapper"]
    requires id == "the-great-pc-mapper"
    ensures SuggestStageId(name) == Ok(id)
  {
    var ts := ["The", "Great", "P", "C", "Mapper"];
    var gs := ["The", "Great", "PC", "Mapper"];
    var ws := ["the", "great", "pc", "mapper"];
    PCMapperGroups(ts, gs);
    PCMapperWords(gs, ws);
    Suggests(name, ts, gs, ws);
    PCMapperJoin(ws, id);
  }

  lemma PCMapperGroups(ts: seq<string>, gs: seq<string>)
    requires ts == ["The", "Great", "P", "C", "Mapper"] && gs == ["The", "Great", "PC", "Mapper"]
    ensures Group(ts) == gs
  {
    GroupRun(["P", "C"], ["Mapper"], false);
    assert Concat(["P", "C"]) == "PC";
    assert ["P", "C"] + ["Mapper"] == ts[2..];
    GroupLong("Great", ts[2..]);
    GroupLong("The", ts[1..]);
    assert Group(["Mapper"]) == ["Mapper"];
  }

  lemma PCMapperWords(gs: seq<string>, ws: seq<string>)
    requires gs == ["The", "Great", "PC", "Mapper"] && ws == ["the", "great", "pc", "mapper"]
    ensures |ws| == |gs| && forall i :: 0 <= i < |gs| ==> '_' !in gs[i] && ws[i] == Lowered(gs[i])
  {
    assert Lowered(gs[0]) == ws[0];
    assert Lowered(gs[1]) == ws[1];
    assert Lowered(gs[2]) == ws[2];
    assert Lowered(gs[3]) == ws[3];
  }

  lemma PCMapperJoin(ws: seq<string>, id: string)
    requires ws == ["the", "great", "pc", "mapper"] && id == "the-great-pc-mapper"
    ensures Join(DropStage(ws), "-") == id
  {
    assert DropStage(ws) == ws;
    var w1 := ws[1..]; var w2 := w1[1..];
    assert Join(w2, "-") == ws[2] + "-" + ws[3];
    assert Join(w1, "-") == ws[1] + "-" + Join(w2, "-");
    assert Join(ws, "-") == ws[0] + "-" + Join(w1, "-");
  }

  /** `TheGreatPCMapper` suggests `the-great-pc-mapper`: P and C fuse. */
  lemma SuggestPCMapper(name: string, id: string)
    requires name == "TheGreatPCMapper" && id == "the-great-pc-mapper"
    ensures SuggestStageId(name) == Ok(id)
  {
    var ts := ["The", "Great", "P", "C", "Mapper"];
    assert IsToken(ts[0]) && IsToken(ts[1]) && IsToken(ts[2]) && IsToken(ts[3]) && IsToken(ts[4]);
    TokensOfConcat(ts);
    PCMapperSpelling(name, ts);
    PCMapperId(name, id);
  }

  lemma PCMapperSpelling(name: string, ts: seq<string>)
    requires name == "TheGreatPCMapper" && ts == ["The", "Great", "P", "C", "Mapper"]
    ensures Concat(ts) == name && ValidClassName(name)
  {
    PCMapperConcat(ts[2..]);
    ConcatCons("Great", ["P", "C", "Mapper"]);
    ConcatCons("The", ["Great", "P", "C", "Mapper"]);
    assert "Great" + "PCMapper" == "GreatPCMapper";
    assert "The" + "GreatPCMapper" == name;
    PCMapperValid(name);
  }

  lemma PCMapperValid(name: string)
    requires name == "TheGreatPCMapper"
    ensures ValidClassName(name)
  {
  }

  /** Underscores between tokens are skipped. */
  lemma TokensGap(head: seq<string>, gap: string, rest: string)
    requires forall i :: 0 <= i < |head| ==> IsToken(head[i])
    requires |gap| > 0 && forall i :: 0 <= i < |gap| ==> gap[i] == '_'
    ensures Tokens(Concat(head) + (gap + rest)) == head + Tokens(rest)
  {
    TokensAppend(head, gap + rest);
    TokensSkip(gap, rest);
  }

  lemma PCMapperTail(tail: seq<string>)
    requires tail == ["P", "C", "Mapper"]
    ensures forall i :: 0 <= i < |tail| ==> IsToken(tail[i])
    ensures Concat(tail) == "PCMapper" && Tokens("PCMapper") == tail
  {
    PCMapperTokens(tail);
    PCMapperConcat(tail);
    TokensOfConcat(tail);
  }

  lemma PCMapperTokens(tail: seq<string>)
    requires tail == ["P", "C", "Mapper"]
    ensures forall i :: 0 <= i < |tail| ==> IsToken(tail[i])
  {
    assert IsToken(tail[0]) && IsToken(tail[1]) && IsToken(tail[2]);
  }

  lemma PCMapperConcat(tail: seq<string>)
    requires tail == ["P", "C", "Mapper"]
    ensures Concat(tail) == "PCMapper"
  {
    ConcatCons("Mapper", []);
    ConcatCons("C", ["Mapper"]);
    ConcatCons("P", ["C", "Mapper"]);
    assert "C" + "Mapper" == "CMapper";
    assert "P" + "CMapper" == "PCMapper";
  }

  lemma TheGreatHead(head: seq<string>)
    requires head == ["The", "Great"]
    ensures forall i :: 0 <= i < |head| ==> IsToken(head[i])
    ensures Concat(head) == "TheGreat"
  {
    TheToken();
    GreatToken();
    TheGreatConcat(head);
  }

  lemma TheToken()
    ensures IsToken("The")
  {
    assert "The"[0] == 'T' && "The"[1] == 'h' && "The"[2] == 'e';
  }

  lemma GreatToken()
    ensures IsToken("Great")
  {
    assert "Great"[0] == 'G' && "Great"[1] == 'r' && "Great"[2] == 'e' && "Great"[3] == 'a' && "Great"[4] == 't';
  }

  lemma TheGreatConcat(head: seq<string>)
    requires head == ["The", "Great"]
    ensures Concat(head) == "TheGreat"
  {
    ConcatCons("Great", []);
    ConcatCons("The", ["Great"]);
    assert "The" + "Great" == "TheGreat";
  }

  /** `TheGreat_PCMapper` and `TheGreat__PCMapper` also suggest
      `the-great-pc-mapper`: underscores only separate tokens. */
  lemma SuggestUnderscored(name: string, id: string)
    requires name == "TheGreat_PCMapper" || name == "TheGreat__PCMapper"
    requires id == "the-great-pc-mapper"
    ensures SuggestStageId(name) == Ok(id)
  {
    var gap := UnderscoredSpelling(name);
    GappedTokens(name, gap);
    PCMapperId(name, id);
  }

  lemma UnderscoredSpelling(name: string) returns (gap: string)
    requires name == "TheGreat_PCMapper" || name == "TheGreat__PCMapper"
    ensures |gap| > 0 && forall i :: 0 <= i < |gap| ==> gap[i] == '_'
    ensures name == "TheGreat" + (gap + "PCMapper") && ValidClassName(name)
  {
    gap := if name == "TheGreat_PCMapper" then "_" else "__";
  }

  lemma GappedTokens(name: string, gap: string)
    requires |gap| > 0 && forall i :: 0 <= i < |gap| ==> gap[i] == '_'
    requires name == "TheGreat" + (gap + "PCMapper")
    ensures Tokens(name) == ["The", "Great", "P", "C", "Mapper"]
  {
    var head, tail := ["The", "Great"], ["P", "C", "Mapper"];
    TheGreatHead(head);
    PCMapperTail(tail);
    TokensGap(head, gap, "PCMapper");
    PCMapperCat(head, tail);
  }

  lemma PCMapperCat(head: seq<string>, tail: seq<string>)
    requires head == ["The", "Great"] && tail == ["P", "C", "Mapper"]
    ensures head + tail == ["The", "Great", "P", "C", "Mapper"]
  {
  }

  // ---------------------------------------------------------------------
  // The Great 123 PC Mapper: digits fuse among themselves
  // ---------------------------------------------------------------------

  /** Any valid name with these tokens suggests `the-great-123-pc-mapper`. */
  lemma DigitsId(name: string, id: string)
    requires ValidClassName(name)
    requires Tokens(name) == ["The", "Great", "1", "2", "3", "P", "C", "Mapper"]
    requires id == "the-great-123-pc-mapper"
    ensures SuggestStageId(name) == Ok(id)
  {
    var ts := ["The", "Great", "1", "2", "3", "P", "C", "Mapper"];
    var gs := ["The", "Great", "123", "PC", "Mapper"];
    var ws := ["the", "great", "123", "pc", "mapper"];
    DigitsGroups(ts, gs);
    DigitsWords(gs, ws);
    Suggests(name, ts, gs, ws);
    DigitsJoin(ws, id);
  }

  lemma DigitsGroups(ts: seq<string>, gs: seq<string>)
    requires ts == ["The", "Great", "1", "2", "3", "P", "C", "Mapper"]
    requires gs == ["The", "Great", "123", "PC", "Mapper"]
    ensures Group(ts) == gs
  {
    var tail := ts[2..];
    var rest := DigitsTail(ts);
    GroupLongTwo(ts[0], ts[1], tail);
    assert ts == [ts[0], ts[1]] + tail;
    assert gs == [gs[0], gs[1]] + rest by {
      assert gs[0] == ts[0] && gs[1] == ts[1];
    }
  }

  lemma DigitsTail(ts: seq<string>) returns (rest: seq<string>)
    requires ts == ["The", "Great", "1", "2", "3", "P", "C", "Mapper"]
    ensures |ts[0]| != 1 && |ts[1]| != 1
    ensures rest == ["123", "PC", "Mapper"] && Group(ts[2..]) == rest
  {
    DigitsRun(ts[2..]);
    rest := ["123", "PC", "Mapper"];
  }

  /** Two leading tokens longer than one character stay groups of their own. */
  lemma GroupLongTwo(x: string, y: string, tail: seq<string>)
    requires |x| != 1 && |y| != 1
    ensures Group([x, y] + tail) == [x, y] + Group(tail)
  {
    GroupLong(y, tail);
    GroupLong(x, [y] + tail);
    assert [x, y] + tail == [x] + ([y] + tail);
    assert [x] + ([y] + Group(tail)) == [x, y] + Group(tail);
  }

  lemma DigitsRun(ts: seq<string>)
    requires ts == ["1", "2", "3", "P", "C", "Mapper"]
    ensures Group(ts) == ["123", "PC", "Mapper"]
  {
    PCRun(ts[3..]);
    DigitsMid(ts[..3]);
    assert OfKind("P", false);
    GroupRun(ts[..3], ts[3..], true);
    assert ts[..3] + ts[3..] == ts;
  }

  lemma PCRun(ts: seq<string>)
    requires ts == ["P", "C", "Mapper"]
    ensures Group(ts) == ["PC", "Mapper"]
  {
    GroupRun(["P", "C"], ["Mapper"], false);
    assert Concat(["P", "C"]) == "PC";
    assert Group(["Mapper"]) == ["Mapper"];
    assert ["P", "C"] + ["Mapper"] == ts;
  }

  lemma DigitsWords(gs: seq<string>, ws: seq<string>)
    requires gs == ["The", "Great", "123", "PC", "Mapper"]
    requires ws == ["the", "great", "123", "pc", "mapper"]
    ensures |ws| == |gs| && forall i :: 0 <= i < |gs| ==> '_' !in gs[i] && ws[i] == Lowered(gs[i])
  {
    assert Lowered(gs[0]) == ws[0];
    assert Lowered(gs[1]) == ws[1];
    assert Lowered(gs[2]) == ws[2];
    assert Lowered(gs[3]) == ws[3];
    assert Lowered(gs[4]) == ws[4];
  }

  lemma DigitsJoin(ws: seq<string>, id: string)
    requires ws == ["the", "great", "123", "pc", "mapper"] && id == "the-great-123-pc-mapper"
    ensures Join(DropStage(ws), "-") == id
  {
    assert DropStage(ws) == ws;
    JoinFive(ws[0], ws[1], ws[2], ws[3], ws[4], "-");
    assert ws == [ws[0], ws[1], ws[2], ws[3], ws[4]];
  }

  lemma JoinFive(a: string, b: string, c: string, d: string, e: string, sep: string)
    ensures Join([a, b, c, d, e], sep) == a + sep + (b + sep + (c + sep + (d + sep + e)))
  {
    assert [d, e][1..] == [e];
    assert Join([d, e], sep) == d + sep + e;
    assert [c, d, e][1..] == [d, e];
    assert Join([c, d, e], sep) == c + sep + (d + sep + e);
    assert [b, c, d, e][1..] == [c, d, e];
    assert Join([b, c, d, e], sep) == b + sep + (c + sep + (d + sep + e));
    assert [a, b, c, d, e][1..] == [b, c, d, e];
  }

  lemma DigitsMid(mid: seq<string>)
    requires mid == ["1", "2", "3"]
    ensures forall i :: 0 <= i < |mid| ==> IsToken(mid[i]) && OfKind(mid[i], true)
    ensures Concat(mid) == "123"
  {
    assert IsToken(mid[0]) && IsToken(mid[1]) && IsToken(mid[2]);
    assert OfKind(mid[0], true) && OfKind(mid[1], true) && OfKind(mid[2], true);
    ConcatCons("3", []);
    ConcatCons("2", ["3"]);
    ConcatCons("1", ["2", "3"]);
    assert "2" + "3" == "23";
    assert "1" + "23" == "123";
  }

  /** `TheGreat_123_PCMapper`, `TheGreat123_PCMapper` and
      `TheGreat123PCMapper` all suggest `the-great-123-pc-mapper`. */
  lemma SuggestDigits(name: string, id: string)
    requires name == "TheGreat_123_PCMapper" || name == "TheGreat123_PCMapper" || name == "TheGreat123PCMapper"
    requires id == "the-great-123-pc-mapper"
    ensures SuggestStageId(name) == Ok(id)
  {
    var gap1, gap2 := DigitsSpelling(name);
    DigitsTokens(name, gap1, gap2);
    DigitsId(name, id);
  }

  /** The three spellings differ only in the underscores around `123`. */
  lemma DigitsSpelling(name: string) returns (gap1: string, gap2: string)
    requires name == "TheGreat_123_PCMapper" || name == "TheGreat123_PCMapper" || name == "TheGreat123PCMapper"
    ensures forall i :: 0 <= i < |gap1| ==> gap1[i] == '_'
    ensures forall i :: 0 <= i < |gap2| ==> gap2[i] == '_'
    ensures name == "TheGreat" + (gap1 + ("123" + (gap2 + "PCMapper")))
    ensures ValidClassName(name)
  {
    if name == "TheGreat_123_PCMapper" {
      gap1, gap2 := "_", "_";
    } else if name == "TheGreat123_PCMapper" {
      gap1, gap2 := "", "_";
    } else {
      gap1, gap2 := "", "";
    }
  }

  lemma DigitsTokens(name: string, gap1: string, gap2: string)
    requires forall i :: 0 <= i < |gap1| ==> gap1[i] == '_'
    requires forall i :: 0 <= i < |gap2| ==> gap2[i] == '_'
    requires name == "TheGreat" + (gap1 + ("123" + (gap2 + "PCMapper")))
    ensures Tokens(name) == ["The", "Great", "1", "2", "3", "P", "C", "Mapper"]
  {
    var head, mid, tail := ["The", "Great"], ["1", "2", "3"], ["P", "C", "Mapper"];
    TheGreatHead(head);
    DigitsMid(mid);
    PCMapperTail(tail);
    var rest := "123" + (gap2 + "PCMapper");
    OptionalGap(mid, gap2, "PCMapper");
    assert Tokens(rest) == mid + tail;
    OptionalGap(head, gap1, rest);
    DigitsCat(head, mid, tail);
  }

  lemma DigitsCat(head: seq<string>, mid: seq<string>, tail: seq<string>)
    requires head == ["The", "Great"] && mid == ["1", "2", "3"] && tail == ["P", "C", "Mapper"]
    ensures head + (mid + tail) == ["The", "Great", "1", "2", "3", "P", "C", "Mapper"]
  {
  }

  /** Tokens, then possibly some underscores, then text that starts a token. */
  lemma OptionalGap(head: seq<string>, gap: string, rest: string)
    requires forall i :: 0 <= i < |head| ==> IsToken(head[i])
    requires forall i :: 0 <= i < |gap| ==> gap[i] == '_'
    requires |rest| > 0 && Opens(rest[0])
    ensures Tokens(Concat(head) + (gap + rest)) == head + Tokens(rest)
  {
    if |gap| > 0 {
      TokensGap(head, gap, rest);
    } else {
      assert gap + rest == rest;
      TokensAppend(head, rest);
    }
  }

  // ---------------------------------------------------------------------
  // A trailing Stage
  // ---------------------------------------------------------------------

  /** `TheGreatMapperStage` suggests `the-great-mapper`: the last word
      `stage` goes. */
  lemma SuggestMapperStage(name: string, id: string)
    requires name == "TheGreatMapperStage" && id == "the-great-mapper"
    ensures SuggestStageId(name) == Ok(id)
  {
    var ts := ["The", "Great", "Mapper", "Stage"];
    var ws := ["the", "great", "mapper", "stage"];
    MapperStageTokens(name, ts);
    MapperStageGroups(ts);
    MapperStageWords(ts, ws);
    Suggests(name, ts, ts, ws);
    MapperStageJoin(ws, id);
  }

  lemma MapperStageTokens(name: string, ts: seq<string>)
    requires name == "TheGreatMapperStage" && ts == ["The", "Great", "Mapper", "Stage"]
    ensures Tokens(name) == ts && ValidClassName(name)
  {
    assert IsToken(ts[0]) && IsToken(ts[1]) && IsToken(ts[2]) && IsToken(ts[3]);
    TokensOfConcat(ts);
    MapperStageSpelling(name, ts);
  }

  lemma MapperStageSpelling(name: string, ts: seq<string>)
    requires name == "TheGreatMapperStage" && ts == ["The", "Great", "Mapper", "Stage"]
    ensures Concat(ts) == name && ValidClassName(name)
  {
    ConcatCons("Stage", []);
    ConcatCons("Mapper", ["Stage"]);
    ConcatCons("Great", ["Mapper", "Stage"]);
    ConcatCons("The", ["Great", "Mapper", "Stage"]);
    assert "Mapper" + "Stage" == "MapperStage";
    assert "Great" + "MapperStage" == "GreatMapperStage";
    assert "The" + "GreatMapperStage" == name;
  }

  lemma MapperStageGroups(ts: seq<string>)
    requires ts == ["The", "Great", "Mapper", "Stage"]
    ensures Group(ts) == ts
  {
    assert Group(["Stage"]) == ["Stage"];
    GroupLong("Mapper", ["Stage"]);
    GroupLong("Great", ts[2..]);
    GroupLong("The", ts[1..]);
  }

  lemma MapperStageWords(gs: seq<string>, ws: seq<string>)
    requires gs == ["The", "Great", "Mapper", "Stage"] && ws == ["the", "great", "mapper", "stage"]
    ensures |ws| == |gs| && forall i :: 0 <= i < |gs| ==> '_' !in gs[i] && ws[i] == Lowered(gs[i])
  {
    assert Lowered(gs[0]) == ws[0];
    assert Lowered(gs[1]) == ws[1];
    assert Lowered(gs[2]) == ws[2];
    assert Lowered(gs[3]) == ws[3];
  }

  lemma MapperStageJoin(ws: seq<string>, id: string)
    requires ws == ["the", "great", "mapper", "stage"] && id == "the-great-mapper"
    ensures Join(DropStage(ws), "-") == id
  {
    var d := DropStage(ws);
    assert d == ["the", "great", "mapper"];
    var d1 := d[1..];
    assert Join(d1, "-") == d[1] + "-" + d[2];
    assert Join(d, "-") == d[0] + "-" + Join(d1, "-");
  }

  /** `Stage` suggests `stage`: a lone `stage` word stays. */
  lemma SuggestStage(name: string, id: string)
    requires name == "Stage" && id == "stage"
    ensures SuggestStageId(name) == Ok(id)
  {
    assert IsToken(name);
    TokensOfConcat([name]);
    assert Concat([name]) == name;
    assert Group([name]) == [name];
    assert Lowered(name) == id;
    Suggests(name, [name], [name], [id]);
  }

  /** A name starting in lower case loses that part, since only capitals
      and digits open tokens: `stage1_abc_cls` suggests just `1`. (The
      repository's test at tests/test_stage.py:28 expects `stage-1-abc-cls`;
      the code does not produce it.) */
  lemma SuggestLowerStart(name: string, id: string)
    requires name == "stage1_abc_cls" && id == "1"
    ensures SuggestStageId(name) == Ok(id)
  {
    LowerStartTokens(name);
    assert Group([id]) == [id];
    assert Lowered(id) == id;
    Suggests(name, [id], [id], [id]);
  }

  lemma LowerStartTokens(name: string)
    requires name == "stage1_abc_cls"
    ensures Tokens(name) == ["1"] && ValidClassName(name)
  {
    var lead, rest := "stage", "_abc_cls";
    LowerStartSpelling(name, lead, rest);
    TokensSkip(lead, "1" + rest);
    assert IsToken("1") && Concat(["1"]) == "1";
    TokensAppend(["1"], rest);
    TokensSkip(rest, "");
    assert rest + "" == rest;
  }

  lemma LowerStartSpelling(name: string, lead: string, rest: string)
    requires name == "stage1_abc_cls" && lead == "stage" && rest == "_abc_cls"
    ensures name == lead + ("1" + rest) && ValidClassName(name)
    ensures forall i :: 0 <= i < |lead| ==> !Opens(lead[i])
    ensures forall i :: 0 <= i < |rest| ==> !Opens(rest[i])
    ensures !Continues(rest[0])
  {
  }

  /** The names the tests reject: empty, `_`, a leading underscore or digit,
      a space or a hyphen. */
  lemma RejectedNames(name: string)
    requires name in ["", "_", "_1", "TheGreat PCMapper", "TheGreat-PCMapper", "1TheGreatPCMapper"]
    ensures SuggestStageId(name) == Err(AssertionError)
  {
    if name == "TheGreat PCMapper" || name == "TheGreat-PCMapper" {
      RejectedSeparator(name);
    } else {
      RejectedStart(name);
    }
  }

  lemma RejectedSeparator(name: string)
    requires name == "TheGreat PCMapper" || name == "TheGreat-PCMapper"
    ensures !ValidClassName(name)
  {
    assert !IsWordChar(name[8]);
    assert name[|name| - 1] != '\n';
  }

  lemma RejectedStart(name: string)
    requires name in ["", "_", "_1", "1TheGreatPCMapper"]
    ensures !ValidClassName(name)
  {
  }
}

=== FILE: status.dfy ===
/** Status reporting (repype/status.py): nested status objects, each of which
    writes its list of updates as a JSON file into the directory of the
    topmost one. All status objects live in one `Log`, indexed by the order
    in which they were created; the index stands in for the random uuid that
    names a status file. The files themselves are a map from status index to
    the list that was last written. */
module Statuses {
  import opened Base
  import opened Values
  import opened Paths

  // ---------------------------------------------------------------------
  // Status objects
  // ---------------------------------------------------------------------

  /** One `Status`: its parent or the directory it writes to, its permanent
      updates, and the child that holds its intermediate update, if any. */
  datatype Status = Status(parent: Option<nat>, path: Option<Path>, data: seq<Value>, inter: Option<nat>)

  /** Every status object by creation index, and the status files written
      so far. */
  datatype Log = Log(statuses: seq<Status>, files: map<nat, seq<Value>>)

  /** A parent is created before its children, a status without a parent
      has a directory, and an intermediate child is created after the
      status that holds it. */
  predicate Sound(ss: seq<Status>, i: nat)
    requires i < |ss|
  {
    (ss[i].parent.Some? ==> ss[i].parent.value < i)
    && (ss[i].parent.None? ==> ss[i].path.Some?)
    && (ss[i].inter.Some? ==> i < ss[i].inter.value < |ss|)
  }

  predicate Linked(ss: seq<Status>) {
    forall i :: 0 <= i < |ss| ==> Sound(ss, i)
  }

  /** `Status(parent, path)`: exactly one of the two must be given. */
  function Create(log: Log, parent: Option<nat>, path: Option<Path>): (r: Result<(Log, nat)>)
    requires Linked(log.statuses)
    requires parent.Some? ==> parent.value < |log.statuses|
    ensures r.Err? <==> parent.None? == path.None?
    ensures r.Err? ==> r.exc == AssertionError
    ensures r.Ok? ==> Linked(r.value.0.statuses) && r.value.1 == |log.statuses| && r.value.0.files == log.files
    ensures r.Ok? ==> r.value.0.statuses == log.statuses + [Status(parent, path, [], None)]
  {
    if parent.None? == path.None? then Err(AssertionError)
    else
      var ss := log.statuses + [Status(parent, path, [], None)];
      assert Linked(ss) by {
        forall i | 0 <= i < |ss|
          ensures Sound(ss, i)
        {
          if i < |log.statuses| {
            assert Sound(log.statuses, i);
          }
        }
      }
      Ok((Log(ss, log.files), |log.statuses|))
  }

  /** `a` is `id` itself or one of its ancestors. */
  predicate Above(ss: seq<Status>, a: nat, id: nat)
    requires Linked(ss) && id < |ss|
    decreases id
  {
    a == id
    || (ss[id].parent.Some? && (assert Sound(ss, id); Above(ss, a, ss[id].parent.value)))
  }

  /** `root`: the topmost ancestor, which always has a directory. */
  function Root(ss: seq<Status>, id: nat): (r: nat)
    requires Linked(ss) && id < |ss|
    ensures r <= id && ss[r].parent.None? && ss[r].path.Some?
    ensures Above(ss, r, id)
    decreases id
  {
    assert Sound(ss, id);
    match ss[id].parent
    case None => id
    case Some(p) => Root(ss, p)
  }

  /** The only parentless status above `id` is its root. */
  lemma {:induction false} RootIsTopmost(ss: seq<Status>, a: nat, id: nat)
    requires Linked(ss) && id < |ss|
    requires Above(ss, a, id) && a < |ss| && ss[a].parent.None?
    ensures a == Root(ss, id)
    decreases id
  {
    assert Sound(ss, id);
    if a != id {
      RootIsTopmost(ss, a, ss[id].parent.value);
    }
  }

  /** Ancestors share their root. */
  lemma {:induction false} AboveSameRoot(ss: seq<Status>, a: nat, id: nat)
    requires Linked(ss) && id < |ss| && Above(ss, a, id)
    ensures a <= id && Root(ss, a) == Root(ss, id)
    decreases id
  {
    assert Sound(ss, id);
    if a != id {
      AboveSameRoot(ss, a, ss[id].parent.value);
    }
  }

  /** The name of a status file, `<id>.json`. */
  function FileName(id: nat): string {
    NatToString(id) + ".json"
  }

  /** `filepath`: the file in the root's directory named after the status. */
  function FilePath(ss: seq<Status>, id: nat): Path
    requires Linked(ss) && id < |ss|
  {
    JoinPath(ss[Root(ss, id)].path.value, Path(false, [FileName(id)]))
  }

  /** The directory a path lies in. */
  function Dir(p: Path): Path {
    Path(p.absolute, if |p.parts| == 0 then [] else p.parts[..|p.parts| - 1])
  }

  /** Every status file of a tree lies in the root's directory, and no two
      status objects of the tree share a file. */
  lemma FilesTogether(ss: seq<Status>, a: nat, id: nat)
    requires Linked(ss) && a < |ss| && id < |ss| && Above(ss, a, id)
    ensures Dir(FilePath(ss, id)) == Dir(FilePath(ss, a)) == ss[Root(ss, id)].path.value
    ensures a != id ==> FilePath(ss, a) != FilePath(ss, id)
  {
    AboveSameRoot(ss, a, id);
    var dir := ss[Root(ss, id)].path.value;
    assert FilePath(ss, id).parts == dir.parts + [FileName(id)];
    assert FilePath(ss, a).parts == dir.parts + [FileName(a)];
    assert FileName(a) == FilePath(ss, a).parts[|dir.parts|];
    assert FileName(id) == FilePath(ss, id).parts[|dir.parts|];
    if FileName(a) == FileName(id) {
      FileNameInjective(a, id);
    }
  }

  lemma FileNameInjective(a: nat, b: nat)
    requires FileName(a) == FileName(b)
    ensures a == b
  {
    var x, y := NatToString(a), NatToString(b);
    assert |x| == |y|;
    assert x == FileName(a)[..|x|];
    assert y == FileName(b)[..|y|];
    NatToStringValue(a);
    NatToStringValue(b);
  }

  // ---------------------------------------------------------------------
  // Rendering and writing
  // ---------------------------------------------------------------------

  /** The entry that points a status file at a child's file. */
  function ExpandLink(ss: seq<Status>, c: nat): Value
    requires Linked(ss) && c < |ss|
  {
    VMap([("expand", VStr(PathString(FilePath(ss, c))))])
  }

  /** The entry that points a status file at its intermediate child. */
  function IntermediateLink(ss: seq<Status>, c: nat): Value
    requires Linked(ss) && c < |ss|
  {
    VMap([("expand", VStr(PathString(FilePath(ss, c)))), ("content_type", VStr("intermediate"))])
  }

  /** The list `update` writes: the permanent entries followed by at most one
      link, to the intermediate child. */
  function Rendered(ss: seq<Status>, id: nat): (r: seq<Value>)
    requires Linked(ss) && id < |ss|
    ensures |r| == |ss[id].data| + (if ss[id].inter.Some? then 1 else 0)
    ensures r[..|ss[id].data|] == ss[id].data
    ensures ss[id].inter.Some? ==> ss[id].inter.value < |ss| && r[|ss[id].data|] == IntermediateLink(ss, ss[id].inter.value)
  {
    assert Sound(ss, id);
    match ss[id].inter
    case None => ss[id].data
    case Some(c) => ss[id].data + [IntermediateLink(ss, c)]
  }

  /** `update`: rewrite the status file. */
  function Flush(log: Log, id: nat): (r: Log)
    requires Linked(log.statuses) && id < |log.statuses|
  {
    log.(files := log.files[id := Rendered(log.statuses, id)])
  }

  /** Every status file holds what its status renders to, and a status with
      an intermediate child has written its file. */
  predicate Synced(log: Log)
    requires Linked(log.statuses)
  {
    (forall j :: j in log.files ==> j < |log.statuses| && log.files[j] == Rendered(log.statuses, j))
    && (forall i :: 0 <= i < |log.statuses| && log.statuses[i].inter.Some? ==> i in log.files)
  }

  /** `b` has all the status objects of `a`, with the same parents and
      directories. */
  predicate Grows(a: seq<Status>, b: seq<Status>) {
    |a| <= |b|
    && forall i :: 0 <= i < |a| ==> b[i].parent == a[i].parent && b[i].path == a[i].path
  }

  lemma {:induction false} RootGrows(a: seq<Status>, b: seq<Status>, id: nat)
    requires Linked(a) && Linked(b) && Grows(a, b) && id < |a|
    ensures Root(a, id) == Root(b, id)
    ensures FilePath(a, id) == FilePath(b, id)
    decreases id
  {
    assert Sound(a, id);
    if a[id].parent.Some? {
      RootGrows(a, b, a[id].parent.value);
    }
  }

  lemma RenderedGrows(a: seq<Status>, b: seq<Status>, j: nat)
    requires Linked(a) && Linked(b) && Grows(a, b) && j < |a|
    requires b[j] == a[j]
    ensures Rendered(a, j) == Rendered(b, j)
  {
    assert Sound(a, j);
    if a[j].inter.Some? {
      RootGrows(a, b, a[j].inter.value);
    }
  }

  /** Files written for `a` are still in sync for `b` when their statuses
      are the same. */
  lemma SyncedGrows(a: Log, b: Log, changed: set<nat>)
    requires Linked(a.statuses) && Linked(b.statuses) && Grows(a.statuses, b.statuses) && Synced(a)
    requires forall j :: j in b.files && j !in changed ==> j in a.files && b.files[j] == a.files[j]
    requires forall j :: j in a.files ==> j in b.files
    requires forall j :: 0 <= j < |a.statuses| && j !in changed ==> b.statuses[j] == a.statuses[j]
    requires forall j :: |a.statuses| <= j < |b.statuses| && j !in changed ==> b.statuses[j].inter.None?
    requires forall j :: j in changed ==> j in b.files && j < |b.statuses| && b.files[j] == Rendered(b.statuses, j)
    ensures Synced(b)
  {
    forall j | j in b.files && j !in changed
      ensures j < |b.statuses| && b.files[j] == Rendered(b.statuses, j)
    {
      RenderedGrows(a.statuses, b.statuses, j);
    }
  }

  /** Status `id` replaced by one with the same parent and directory, and an
      intermediate child created after it. */
  function Put(ss: seq<Status>, id: nat, s: Status): (r: seq<Status>)
    requires Linked(ss) && id < |ss|
    requires s.parent == ss[id].parent && s.path == ss[id].path
    requires s.inter.Some? ==> id < s.inter.value < |ss|
    ensures Linked(r) && Grows(ss, r) && r == ss[id := s]
  {
    var r := ss[id := s];
    assert Linked(r) by {
      forall i | 0 <= i < |r|
        ensures Sound(r, i)
      {
        assert Sound(ss, i);
      }
    }
    r
  }

  /** `write`: append a permanent entry and drop the intermediate one. */
  function Write(log: Log, id: nat, v: Value): (r: Log)
    requires Linked(log.statuses) && id < |log.statuses|
    ensures Linked(r.statuses) && Grows(log.statuses, r.statuses) && |r.statuses| == |log.statuses|
    ensures r.statuses[id].data == log.statuses[id].data + [v]
    ensures r.statuses[id].inter.None?
    ensures id in r.files && r.files[id] == r.statuses[id].data
    ensures forall j :: 0 <= j < |log.statuses| && j != id ==> r.statuses[j] == log.statuses[j]
    ensures forall j :: j in log.files && j != id ==> j in r.files && r.files[j] == log.files[j]
    ensures Synced(log) ==> Synced(r)
  {
    var s := log.statuses[id];
    var ss := Put(log.statuses, id, s.(data := s.data + [v], inter := None));
    var r := Flush(Log(ss, log.files), id);
    if Synced(log) then
      SyncedGrows(log, r, {id}); r
    else r
  }

  /** The intermediate child of `id`: the existing one, or a new one linked
      to `id`. The status files are not touched. */
  function Attach(log: Log, id: nat): (r: (Log, nat))
    requires Linked(log.statuses) && id < |log.statuses|
    ensures var (after, c) := r;
      && Linked(after.statuses) && Grows(log.statuses, after.statuses) && after.files == log.files
      && id < c < |after.statuses|
      && after.statuses[id] == log.statuses[id].(inter := Some(c))
      && (log.statuses[id].inter.Some? ==> c == log.statuses[id].inter.value && |after.statuses| == |log.statuses|)
      && (log.statuses[id].inter.None? ==> c == |log.statuses| && after.statuses == log.statuses[id := after.statuses[id]] + [Status(Some(id), None, [], None)])
  {
    var s := log.statuses[id];
    assert Sound(log.statuses, id);
    if s.inter.Some? then (log, s.inter.value)
    else
      var made := Create(log, Some(id), None);
      var (l1, c) := made.value;
      (Log(Put(l1.statuses, id, s.(inter := Some(c))), l1.files), c)
  }

  /** Child `c` cleared, then given the one entry `v`: `data.clear()` followed
      by `write`. */
  function Fill(log: Log, c: nat, v: Value): (r: Log)
    requires Linked(log.statuses) && c < |log.statuses|
    ensures Linked(r.statuses) && Grows(log.statuses, r.statuses) && |r.statuses| == |log.statuses|
    ensures r.statuses[c] == log.statuses[c].(data := [v], inter := None)
    ensures c in r.files && r.files[c] == [v]
    ensures forall j :: 0 <= j < |log.statuses| && j != c ==> r.statuses[j] == log.statuses[j]
    ensures forall j :: j in log.files && j != c ==> j in r.files && r.files[j] == log.files[j]
    ensures r.files.Keys == log.files.Keys + {c}
  {
    assert Sound(log.statuses, c);
    var cleared := Put(log.statuses, c, log.statuses[c].(data := []));
    Write(Log(cleared, log.files), c, v)
  }

  /** `intermediate(None)`: drop the link to the intermediate child. */
  function Clear(log: Log, id: nat): (r: Log)
    requires Linked(log.statuses) && id < |log.statuses|
    ensures Linked(r.statuses) && Grows(log.statuses, r.statuses) && |r.statuses| == |log.statuses|
    ensures r.statuses[id] == log.statuses[id].(inter := None)
    ensures id in r.files && r.files[id] == r.statuses[id].data
    ensures Synced(log) ==> Synced(r)
  {
    var s := log.statuses[id];
    var r := Flush(Log(Put(log.statuses, id, s.(inter := None)), log.files), id);
    if Synced(log) then
      SyncedGrows(log, r, {id}); r
    else r
  }

  /** `intermediate(v)` when there is an intermediate child already: the
      child is rewritten, the status file is left alone. */
  function Refill(log: Log, id: nat, v: Value): (r: Log)
    requires Linked(log.statuses) && id < |log.statuses| && log.statuses[id].inter.Some?
    ensures Linked(r.statuses) && Grows(log.statuses, r.statuses) && |r.statuses| == |log.statuses|
    ensures r.statuses[id] == log.statuses[id]
    ensures var c := r.statuses[id].inter.value;
      && c in r.files && r.files[c] == [v]
      && (Synced(log) ==> Synced(r))
  {
    assert Sound(log.statuses, id);
    var c := log.statuses[id].inter.value;
    var r := Fill(log, c, v);
    if Synced(log) then
      assert Rendered(r.statuses, c) == [v];
      SyncedGrows(log, r, {c}); r
    else r
  }

  /** `intermediate(v)` when there is no intermediate child yet: a new child
      holding `[v]` is created, then linked in the status file. */
  function Spawn(log: Log, id: nat, v: Value): (r: Log)
    requires Linked(log.statuses) && id < |log.statuses| && log.statuses[id].inter.None?
    ensures Linked(r.statuses) && Grows(log.statuses, r.statuses) && |r.statuses| == |log.statuses| + 1
    ensures r.statuses[id] == log.statuses[id].(inter := Some(|log.statuses|))
    ensures r.statuses[|log.statuses|].parent == Some(id)
    ensures |log.statuses| in r.files && r.files[|log.statuses|] == [v]
    ensures Synced(log) ==> Synced(r)
  {
    var (l1, c) := Attach(log, id);
    var l2 := Fill(l1, c, v);
    var r := Flush(l2, id);
    if Synced(log) then
      assert Rendered(r.statuses, c) == [v];
      SyncedGrows(log, r, {id, c}); r
    else r
  }

  /** `intermediate(v)`: the intermediate child, created and linked if there
      is none yet, holds exactly `[v]`. */
  function Replace(log: Log, id: nat, v: Value): (r: Log)
    requires Linked(log.statuses) && id < |log.statuses|
    ensures Linked(r.statuses) && Grows(log.statuses, r.statuses)
    ensures r.statuses[id].data == log.statuses[id].data
    ensures r.statuses[id].inter.Some? && id < r.statuses[id].inter.value < |r.statuses|
    ensures var c := r.statuses[id].inter.value;
      && c in r.files && r.files[c] == [v]
      && (Synced(log) ==> Synced(r))
  {
    assert Sound(log.statuses, id);
    if log.statuses[id].inter.Some? then Refill(log, id, v) else Spawn(log, id, v)
  }

  /** `intermediate(status)`: with an update, the intermediate child holds
      exactly that update and the status file ends in one link to it; with
      `None`, the link is dropped. The permanent entries never change. */
  function Intermediate(log: Log, id: nat, status: Option<Value>): (r: Log)
    requires Linked(log.statuses) && id < |log.statuses|
    ensures Linked(r.statuses) && Grows(log.statuses, r.statuses)
    ensures r.statuses[id].data == log.statuses[id].data
    ensures status.None? ==> r.statuses[id].inter.None? && id in r.files && r.files[id] == r.statuses[id].data
    ensures status.Some? ==> r.statuses[id].inter.Some? && r.statuses[id].inter.value < |r.statuses|
    ensures status.Some? ==> var c := r.statuses[id].inter.value;
      && c in r.files && r.files[c] == [status.value]
      && (Synced(log) ==> id in r.files && r.files[id] == r.statuses[id].data + [IntermediateLink(r.statuses, c)])
    ensures Synced(log) ==> Synced(r)
  {
    match status
    case None => Clear(log, id)
    case Some(v) => Replace(log, id, v)
  }

  /** `derive`: drop the intermediate entry, create an empty child and append
      a link to it. */
  function Derive(log: Log, id: nat): (r: (Log, nat))
    requires Linked(log.statuses) && id < |log.statuses|
    ensures Linked(r.0.statuses) && Grows(log.statuses, r.0.statuses)
    ensures r.1 == |log.statuses| && |r.0.statuses| == r.1 + 1
    ensures r.0.statuses[r.1] == Status(Some(id), None, [], None)
    ensures r.0.statuses[id].data == log.statuses[id].data + [ExpandLink(r.0.statuses, r.1)]
    ensures r.0.statuses[id].inter.None?
    ensures r.1 in r.0.files && r.0.files[r.1] == []
    ensures id in r.0.files && r.0.files[id] == r.0.statuses[id].data
    ensures Synced(log) ==> Synced(r.0)
  {
    var l1 := Intermediate(log, id, None);
    var made := Create(l1, Some(id), None);
    var (l2, c) := made.value;
    var s := l2.statuses[id];
    var l3 := Log(Put(l2.statuses, id, s.(data := s.data + [ExpandLink(l2.statuses, c)])), l2.files);
    var l4 := Flush(l3, c);
    var l5 := Flush(l4, id);
    RootGrows(l2.statuses, l5.statuses, c);
    if Synced(log) then
      DeriveSynced(log, id, l1, l2, l3, l4, l5); (l5, c)
    else (l5, c)
  }

  /** The steps of `derive` keep the files in step with the statuses: the
      two files it writes are those of the two statuses it changes. */
  lemma DeriveSynced(log: Log, id: nat, l1: Log, l2: Log, l3: Log, l4: Log, l5: Log)
    requires Linked(log.statuses) && id < |log.statuses| && Synced(log)
    requires l1 == Intermediate(log, id, None)
    requires Create(l1, Some(id), None).Ok? && l2 == Create(l1, Some(id), None).value.0
    requires var s := l2.statuses[id];
      l3 == Log(Put(l2.statuses, id, s.(data := s.data + [ExpandLink(l2.statuses, |log.statuses|)])), l2.files)
    requires l4 == Flush(l3, |log.statuses|) && l5 == Flush(l4, id)
    ensures Linked(l5.statuses) && Synced(l5)
  {
    SyncedGrows(l1, l5, {id, |log.statuses|});
  }

  // ---------------------------------------------------------------------
  // Progress
  // ---------------------------------------------------------------------

  /** The intermediate entry of one progress step. The `progress` fraction
      `step / max_steps` is a float and is not part of the entry here. */
  function ProgressEntry(step: nat, maxSteps: int, details: Value): Value {
    VMap([("info", VStr("progress")), ("details", details), ("step", VInt(step)), ("max_steps", VInt(maxSteps))])
  }

  function Max(a: int, b: int): int {
    if a < b then b else a
  }

  function Min(a: nat, b: nat): nat {
    if a < b then a else b
  }

  /** Steps `step` to `n - 1` of the progress loop: each checks the bound and
      publishes its entry. Gives the log, the step the loop stopped at, and
      whether the bound check failed there. */
  function ProgressSteps(log: Log, id: nat, step: nat, n: nat, maxSteps: int, details: Value): (r: (Log, nat, bool))
    requires Linked(log.statuses) && id < |log.statuses| && step <= n
    ensures Linked(r.0.statuses) && Grows(log.statuses, r.0.statuses)
    ensures r.0.statuses[id].data == log.statuses[id].data
    ensures r.2 <==> Max(step, maxSteps) < n
    ensures r.1 == (if r.2 then Max(step, maxSteps) else n)
    ensures Synced(log) ==> Synced(r.0)
    decreases n - step
  {
    if step == n then (log, n, false)
    else if step >= maxSteps then (log, step, true)
    else
      var next := Intermediate(log, id, Some(ProgressEntry(step, maxSteps, details)));
      ProgressSteps(next, id, step + 1, n, maxSteps, details)
  }

  /** The bound the progress loop checks: `iterations`, or the number of
      items. */
  function MaxSteps(items: seq<Value>, iterations: Option<int>): int {
    if iterations.Some? then iterations.value else |items|
  }

  /** `progress(iterable, iterations, details)` driven by a consumer that
      asks the generator for an item `wanted` times and then stops, by
      breaking or because the items run out. A generator asked for nothing
      never starts its body: nothing is published and nothing is cleared.
      Otherwise gives the log after the generator has finished, the items
      the consumer received, and the error the generator raised, if any:
      the check `step < max_steps` fails at step `max(0, max_steps)` if the
      consumer gets that far. */
  function Progress(log: Log, id: nat, items: seq<Value>, iterations: Option<int>, details: Value, wanted: nat)
    : (r: (Log, seq<Value>, Option<Exc>))
    requires Linked(log.statuses) && id < |log.statuses|
    ensures Linked(r.0.statuses) && Grows(log.statuses, r.0.statuses)
    ensures r.1 <= items[..Min(wanted, |items|)]
    ensures r.2.Some? <==> Max(0, MaxSteps(items, iterations)) < Min(wanted, |items|)
    ensures r.2.Some? ==> r.2.value == AssertionError && |r.1| == Max(0, MaxSteps(items, iterations))
    ensures r.2.None? ==> r.1 == items[..Min(wanted, |items|)]
    ensures r.0.statuses[id].data == log.statuses[id].data
    ensures wanted == 0 ==> r == (log, [], None)
    ensures wanted > 0 ==> r.0.statuses[id].inter.None?
    ensures wanted > 0 ==> id in r.0.files && r.0.files[id] == r.0.statuses[id].data
    ensures Synced(log) ==> Synced(r.0)
  {
    if wanted == 0 then (log, [], None)
    else
      var n := Min(wanted, |items|);
      var (l, k, failed) := ProgressSteps(log, id, 0, n, MaxSteps(items, iterations), details);
      (Intermediate(l, id, None), items[..k], if failed then Some(AssertionError) else None)
  }

  // ---------------------------------------------------------------------
  // Shortcuts that accept a missing status
  // ---------------------------------------------------------------------

  /** The entry the module-level `update` hands on: the keyword fields as a
      dict if there are any, else the plain text. */
  function Payload(plainText: Option<Value>, kwargs: Entries): Option<Value> {
    if |kwargs| > 0 then Some(VMap(kwargs)) else plainText
  }

  /** The module-level `update(status, plain_text, intermediate, **kwargs)`. */
  function Update(log: Log, status: Option<nat>, plainText: Option<Value>, intermediate: bool, kwargs: Entries)
    : (r: Result<Log>)
    requires Linked(log.statuses) && (status.Some? ==> status.value < |log.statuses|)
    ensures plainText.Some? && |kwargs| > 0 ==> r == Err(AssertionError)
    ensures status.None? && (plainText.None? || |kwargs| == 0) ==> r == Ok(log)
    ensures status.Some? && !intermediate ==> (r.Ok? <==> (plainText.Some? != (|kwargs| > 0)))
    ensures status.Some? && intermediate ==> (r.Ok? <==> (plainText.None? || |kwargs| == 0))
    ensures r.Err? ==> r.exc == AssertionError
    ensures r.Ok? ==> Linked(r.value.statuses) && Grows(log.statuses, r.value.statuses)
    ensures r.Ok? && status.Some? && !intermediate ==>
      var id := status.value;
      r.value.statuses[id].data == log.statuses[id].data + [Payload(plainText, kwargs).value]
      && r.value.statuses[id].inter.None?
    ensures r.Ok? && status.Some? && intermediate ==>
      var id := status.value;
      r.value.statuses[id].data == log.statuses[id].data
      && (Payload(plainText, kwargs).None? <==> r.value.statuses[id].inter.None?)
    ensures r.Ok? && status.Some? && intermediate && Payload(plainText, kwargs).Some? ==>
      var c := r.value.statuses[status.value].inter.value;
      c < |r.value.statuses| && c in r.value.files && r.value.files[c] == [Payload(plainText, kwargs).value]
  {
    var _ :- Check(plainText.None? || |kwargs| == 0);
    match status
    case None => Ok(log)
    case Some(id) =>
      if intermediate then
        Ok(Intermediate(log, id, Payload(plainText, kwargs)))
      else
        var _ :- Check(plainText.Some? || |kwargs| > 0);
        Ok(Write(log, id, Payload(plainText, kwargs).value))
  }

  /** The module-level `derive(status)`: no child for a missing status. */
  function DeriveFrom(log: Log, status: Option<nat>): (r: (Log, Option<nat>))
    requires Linked(log.statuses) && (status.Some? ==> status.value < |log.statuses|)
    ensures status.None? ==> r == (log, None)
    ensures status.Some? ==> r.1 == Some(|log.statuses|) && |r.0.statuses| == |log.statuses| + 1
    ensures status.Some? ==> r.0.statuses[|log.statuses|].parent == status
  {
    match status
    case None => (log, None)
    case Some(id) => var (after, c) := Derive(log, id); (after, Some(c))
  }

  /** The module-level `progress(status, ...)`: a missing status hands the
      items through untouched, with no bound check. */
  function ProgressFrom(log: Log, status: Option<nat>, items: seq<Value>, iterations: Option<int>, details: Value, wanted: nat)
    : (r: (Log, seq<Value>, Option<Exc>))
    requires Linked(log.statuses) && (status.Some? ==> status.value < |log.statuses|)
    ensures status.None? ==> r == (log, items[..Min(wanted, |items|)], None)
    ensures status.Some? ==> r.1 <= items[..Min(wanted, |items|)] && Grows(log.statuses, r.0.statuses)
    ensures status.Some? ==>
      (r.2.Some? <==> Max(0, MaxSteps(items, iterations)) < Min(wanted, |items|))
      && (r.2.Some? ==> r.2 == Some(AssertionError) && |r.1| == Max(0, MaxSteps(items, iterations)))
      && (r.2.None? ==> r.1 == items[..Min(wanted, |items|)])
    ensures status.Some? ==> r.0.statuses[status.value].data == log.statuses[status.value].data
    ensures status.Some? && wanted == 0 ==> r == (log, [], None)
    ensures status.Some? && wanted > 0 ==> r.0.statuses[status.value].inter.None?
  {
    match status
    case None => (log, items[..Min(wanted, |items|)], None)
    case Some(id) => Progress(log, id, items, iterations, details, wanted)
  }

  // ---------------------------------------------------------------------
  // Consequences
  // ---------------------------------------------------------------------

  /** Publishing an intermediate update and then clearing it leaves the
      status and its file as they were. */
  lemma IntermediateThenClear(log: Log, id: nat, v: Value)
    requires Linked(log.statuses) && Synced(log) && id < |log.statuses|
    requires log.statuses[id].inter.None? && id in log.files
    ensures var after := Intermediate(Intermediate(log, id, Some(v)), id, None);
      after.statuses[id] == log.statuses[id] && after.files[id] == log.files[id]
  {
    var l1 := Intermediate(log, id, Some(v));
    var l2 := Intermediate(l1, id, None);
    assert l2.statuses[id].parent == log.statuses[id].parent;
    assert l2.statuses[id].path == log.statuses[id].path;
  }

  /** A permanent update replaces the intermediate one: the file holds the
      permanent entries only. */
  lemma WriteAfterIntermediate(log: Log, id: nat, v: Value, w: Value)
    requires Linked(log.statuses) && id < |log.statuses|
    ensures var after := Write(Intermediate(log, id, Some(v)), id, w);
      after.files[id] == log.statuses[id].data + [w]
  {
  }

  /** Two keyword updates of a new top-level status write two dicts, in
      order. */
  lemma TwoUpdates(dir: Path, first: Entries, second: Entries)
    requires |first| > 0 && |second| > 0
    ensures var made := Create(Log([], map[]), None, Some(dir));
      made.Ok?
      && var (log, id) := made.value;
      var one := Update(log, Some(id), None, false, first);
      one.Ok?
      && var two := Update(one.value, Some(id), None, false, second);
      two.Ok? && two.value.files[id] == [VMap(first), VMap(second)]
  {
    var made := Create(Log([], map[]), None, Some(dir));
    var (log, id) := made.value;
    assert log.statuses[id].data == [];
  }

  /** More items than `iterations` allows: the loop fails at that step, and
      the status file is left without an intermediate link. */
  lemma ProgressOverrun(log: Log, id: nat, a: Value, b: Value, c: Value, details: Value)
    requires Linked(log.statuses) && id < |log.statuses|
    ensures var (after, got, err) := Progress(log, id, [a, b, c], Some(2), details, 3);
      err == Some(AssertionError) && got == [a, b]
      && after.files[id] == log.statuses[id].data
  {
  }
}

=== FILE: task.dfy ===
/** Tasks of a batch (`repype/task.py`): the task tree with its inherited
    specification and hyperparameters, the completion digest written when a
    task finishes, and the searches that decide whether a task must run and
    from which earlier result it can pick up.

    The files a task writes (`data.dill.gz`, `.task.json`, `.sha.json`) are
    one explicit `Disk` value mapping a task directory to its completion. The
    SHA-1 digests of stages and task specifications are functions passed in. */
module Tasks {
  import opened Base
  import opened Values
  import opened Paths
  import opened InputLists
  import Config
  import opened Stages
  import Pipelines

  // ---------------------------------------------------------------------
  // The task tree
  // ---------------------------------------------------------------------

  /** A task: its directory, its own specification, and its parent. */
  datatype Task = Task(path: Path, spec: Entries, parent: Option<Task>)

  /** The value a key takes along the chain from the task upwards: the
      nearest specification that sets it wins. */
  function Inherited(t: Task, k: string): Option<Value>
    decreases t
  {
    if HasKey(t.spec, k) then Lookup(t.spec, k)
    else if t.parent.Some? then Inherited(t.parent.value, k)
    else None
  }

  /** Every specification on the chain is a proper dict. */
  predicate ChainUnique(t: Task)
    decreases t
  {
    Unique(t.spec) && (t.parent.Some? ==> ChainUnique(t.parent.value))
  }

  /** `task.full_spec`: the parent's full specification overridden, key by
      key, by the task's own. */
  function FullSpec(t: Task): (r: Entries)
    ensures ChainUnique(t) ==> Unique(r)
    ensures ChainUnique(t) ==> forall k :: Lookup(r, k) == Inherited(t, k)
    decreases t
  {
    match t.parent
    case None => t.spec
    case Some(p) => Union(FullSpec(p), t.spec)
  }

  /** `task.parents`: the ancestors, nearest first. */
  function Parents(t: Task): (r: seq<Task>)
    ensures |r| == 0 <==> t.parent.None?
    ensures |r| > 0 ==> r[0] == t.parent.value && r[|r| - 1].parent.None?
    ensures forall i :: 0 <= i < |r| - 1 ==> r[i].parent == Some(r[i + 1])
    decreases t
  {
    match t.parent
    case None => []
    case Some(p) => [p] + Parents(p)
  }

  /** `task.root`. */
  function Root(t: Task): (r: Task)
    ensures r.parent.None?
    decreases t
  {
    match t.parent
    case None => t
    case Some(p) => Root(p)
  }

  /** The root is the last ancestor, and the task itself when it has none. */
  lemma {:induction false} RootIsLastParent(t: Task)
    ensures Root(t) == if |Parents(t)| == 0 then t else Parents(t)[|Parents(t)| - 1]
    decreases t
  {
    if t.parent.Some? {
      RootIsLastParent(t.parent.value);
    }
  }

  /** Every ancestor belongs to the same tree. */
  lemma {:induction false} ParentsShareRoot(t: Task, i: nat)
    requires i < |Parents(t)|
    ensures Root(Parents(t)[i]) == Root(t)
    decreases t
  {
    if i > 0 {
      ParentsShareRoot(t.parent.value, i - 1);
    }
  }

  /** `task.full_spec.get(key)`, with a default for absence. */
  function Setting(t: Task, k: string, default: Value): Value {
    match Lookup(FullSpec(t), k)
    case Some(v) => v
    case None => default
  }

  /** `task.runnable`. */
  predicate Runnable(t: Task) {
    Truthy(Setting(t, "runnable", VNone))
  }

  /** `task.inputs`. */
  function Inputs(t: Task): Result<seq<Input>> {
    DecodeInputs(Setting(t, "inputs", VList([])))
  }

  /** The inputs as a set, as `frozenset(task.inputs)`. */
  function InputSet(xs: seq<Input>): set<Input> {
    set x | x in xs
  }

  // ---------------------------------------------------------------------
  // Placeholders and hyperparameters
  // ---------------------------------------------------------------------

  /** `task.resolve_path(path)`, up to `expanduser` and the resolution of
      `..` and symbolic links: `{DIRNAME}` becomes the name of the task
      directory and then `{ROOTDIR}` the root task's directory; a relative
      result is taken relative to the task directory. */
  function ResolvePath(t: Task, path: Option<string>): (r: Option<Path>)
    ensures r.None? <==> path.None?
    ensures path.Some? && !Contains(path.value, "{DIRNAME}") && !Contains(path.value, "{ROOTDIR}") ==>
      r == Some(JoinPath(t.path, ParsePath(path.value)))
    ensures r.Some? && !r.value.absolute ==> !t.path.absolute
  {
    match path
    case None => None
    case Some(s) =>
      var named := ReplaceAll(s, "{DIRNAME}", Name(t.path));
      var rooted := ReplaceAll(named, "{ROOTDIR}", PathString(Root(t).path));
      Some(JoinPath(t.path, ParsePath(rooted)))
  }

  /** `{ROOTDIR}/name` names `name` inside the root task's directory,
      whichever task of the tree resolves it. */
  lemma RootDirPlaceholder(t: Task, name: string)
    requires Root(t).path.absolute && NormalPath(Root(t).path) && |Root(t).path.parts| > 0
    requires Component(name) && !Contains(name, "{DIRNAME}") && !Contains(name, "{ROOTDIR}")
    ensures ResolvePath(t, Some("{ROOTDIR}/" + name)) == Some(Path(true, Root(t).path.parts + [name]))
  {
    var tail := "/" + name;
    assert "{ROOTDIR}/" + name == "{ROOTDIR}" + tail;
    MissAfterPlain("/", name, "{ROOTDIR}");
    MissAfterPlain("/", name, "{DIRNAME}");
    MissAfter("{ROOTDIR}", tail, "{DIRNAME}");
    var rootText := PathString(Root(t).path);
    ReplaceHead("{ROOTDIR}", tail, rootText);
    var p := Path(true, Root(t).path.parts + [name]);
    Pipelines.JoinSnoc(Root(t).path.parts, name, "/");
    assert PathString(p) == rootText + tail;
    ParsePathString(p);
  }

  /** `{DIRNAME}` followed by a suffix names a file inside the task directory
      called after that directory. */
  lemma DirnamePlaceholder(t: Task, ext: string)
    requires Component(Name(t.path) + ext)
    requires !Contains(ext, "{DIRNAME}") && !Contains(Name(t.path) + ext, "{ROOTDIR}")
    ensures ResolvePath(t, Some("{DIRNAME}" + ext)) == Some(Path(t.path.absolute, t.path.parts + [Name(t.path) + ext]))
  {
    var named := Name(t.path) + ext;
    ReplaceHead("{DIRNAME}", ext, Name(t.path));
    assert Split(named, '/') == [named];
  }

  /** `str(value)` for the values a specification holds. */
  function StrOf(v: Value): string {
    if v.VStr? then v.s else Repr(v)
  }

  /** `Config(value)`: None is a blank store, a dict is wrapped. */
  function ConfigOf(v: Value): (r: Result<Entries>)
    ensures v.VNone? ==> r == Ok([])
    ensures v.VMap? ==> r == Ok(v.entries)
    ensures !v.VNone? && !v.VMap? ==> r == Err(ValueError)
  {
    match v
    case VNone => Ok([])
    case VMap(e) => Ok(e)
    case _ => Err(ValueError)
  }

  /** The task's own `config` section, as the copy `create_config` starts from. */
  function OwnConfig(t: Task): (r: Result<Entries>)
    ensures r.Err? ==> r.exc == ValueError
  {
    var own :- ConfigOf(match Lookup(t.spec, "config") case Some(v) => v case None => VMap([]));
    Ok(Config.Copy(own))
  }

  /** The `base_config_path` file named by the task's own specification, when
      it names one; `files` holds the parsed YAML documents by path. */
  function BaseFile(t: Task): Option<Path> {
    match Lookup(t.spec, "base_config_path")
    case Some(v) => if Truthy(v) then ResolvePath(t, Some(StrOf(v))) else None
    case None => None
  }

  /** The task's own layer: its `config` section, merged into the base
      configuration file when there is one. */
  function OwnLayer(t: Task, files: map<Path, Value>): (r: Result<Entries>)
    ensures r.Err? ==> r.exc in {ValueError, FileNotFoundError, AttributeError}
    ensures BaseFile(t).None? ==> r == OwnConfig(t)
    ensures BaseFile(t).Some? && BaseFile(t).value !in files && OwnConfig(t).Ok? ==> r == Err(FileNotFoundError)
  {
    var config :- OwnConfig(t);
    match BaseFile(t)
    case None => Ok(config)
    case Some(path) =>
      if path !in files then Err(FileNotFoundError)
      else
        var base :- ConfigOf(files[path]);
        Config.Merge(base, config)
  }

  /** `task.create_config()`: the parent's hyperparameters, merged with the
      base configuration file, merged with the task's own `config` section. */
  function CreateConfig(t: Task, files: map<Path, Value>): (r: Result<Entries>)
    ensures r.Err? ==> r.exc in {ValueError, FileNotFoundError, AttributeError}
    ensures OwnLayer(t, files).Err? ==> r == OwnLayer(t, files)
    ensures t.parent.None? ==> r == OwnLayer(t, files)
    decreases t
  {
    var layer :- OwnLayer(t, files);
    match t.parent
    case None => Ok(layer)
    case Some(p) =>
      var inherited :- CreateConfig(p, files);
      Config.Merge(inherited, layer)
  }

  /** A well-formed store whose top-level keys hold no `/`. */
  predicate PlainStore(e: Entries) {
    WellFormed(VMap(e)) && Config.SlashFree(e)
  }

  /** Without a base file, the task's own section wins over the parent's
      hyperparameters key by key: its plain values replace, its dicts merge
      one level down, and keys it lacks keep the parent's value. */
  lemma OwnOverParent(t: Task, files: map<Path, Value>, k: string)
    requires t.parent.Some? && BaseFile(t).None?
    requires Lookup(t.spec, "config").Some? && Lookup(t.spec, "config").value.VMap?
    requires PlainStore(Lookup(t.spec, "config").value.entries)
    requires CreateConfig(t, files).Ok?
    ensures var own := Lookup(t.spec, "config").value.entries;
      var up := CreateConfig(t.parent.value, files).value;
      var r := CreateConfig(t, files).value;
      (!HasKey(own, k) ==> Lookup(r, k) == Lookup(up, k)) &&
      (HasKey(own, k) && !Lookup(own, k).value.VMap? ==> Lookup(r, k) == Lookup(own, k)) &&
      (HasKey(own, k) && Lookup(own, k).value.VMap? ==>
        Config.Merge(Config.Sub(up, k), Lookup(own, k).value.entries).Ok? &&
        Lookup(r, k) == Some(VMap(Config.Merge(Config.Sub(up, k), Lookup(own, k).value.entries).value)))
  {
    var own := Lookup(t.spec, "config").value.entries;
    assert OwnLayer(t, files) == Ok(own);
    Config.MergeLookup(CreateConfig(t.parent.value, files).value, own, k);
  }

  /** For a task without parent, the task's own section wins over the base
      configuration file in the same way. */
  lemma OwnOverBase(t: Task, files: map<Path, Value>, k: string)
    requires t.parent.None? && BaseFile(t).Some? && BaseFile(t).value in files
    requires files[BaseFile(t).value].VMap?
    requires Lookup(t.spec, "config").Some? && Lookup(t.spec, "config").value.VMap?
    requires PlainStore(Lookup(t.spec, "config").value.entries)
    requires CreateConfig(t, files).Ok?
    ensures var own := Lookup(t.spec, "config").value.entries;
      var base := files[BaseFile(t).value].entries;
      var r := CreateConfig(t, files).value;
      (!HasKey(own, k) ==> Lookup(r, k) == Lookup(base, k)) &&
      (HasKey(own, k) && !Lookup(own, k).value.VMap? ==> Lookup(r, k) == Lookup(own, k)) &&
      (HasKey(own, k) && Lookup(own, k).value.VMap? ==>
        Config.Merge(Config.Sub(base, k), Lookup(own, k).value.entries).Ok? &&
        Lookup(r, k) == Some(VMap(Config.Merge(Config.Sub(base, k), Lookup(own, k).value.entries).value)))
  {
    var own := Lookup(t.spec, "config").value.entries;
    assert OwnConfig(t) == Ok(own);
    Config.MergeLookup(files[BaseFile(t).value].entries, own, k);
  }

  // ---------------------------------------------------------------------
  // Marginal fields
  // ---------------------------------------------------------------------

  /** `x in container` for a stage id: list membership, a substring of a
      str, a key of a dict; other values support no `in`. */
  function In(x: string, container: Value): (r: Result<bool>)
    ensures r.Err? <==> !(container.VList? || container.VStr? || container.VMap?)
    ensures r.Err? ==> r.exc == TypeError
  {
    match container
    case VList(xs) => Ok(VStr(x) in xs)
    case VStr(s) => Ok(Contains(s, x))
    case VMap(e) => Ok(HasKey(e, x))
    case _ => Err(TypeError)
  }

  /** `task.marginal_stages`. */
  function MarginalStages(t: Task): Value {
    Setting(t, "marginal_stages", VList([]))
  }

  /** `task.get_marginal_fields(pipeline)`: the outputs of the stages listed
      as marginal. The membership test runs once per stage, so only a
      non-empty pipeline exposes an unsearchable setting. */
  function MarginalFields(t: Task, p: seq<Stage>): (r: Result<set<string>>)
    ensures r.Err? <==> |p| > 0 && In("", MarginalStages(t)).Err?
    ensures r.Err? ==> r.exc == TypeError
    ensures r.Ok? ==> forall f :: f in r.value <==>
      exists i :: 0 <= i < |p| && f in p[i].outputs && In(p[i].id, MarginalStages(t)) == Ok(true)
  {
    if |p| == 0 then Ok({})
    else
      var init := p[..|p| - 1];
      var last := p[|p| - 1];
      assert forall i :: 0 <= i < |init| ==> init[i] == p[i];
      var fields :- MarginalFields(t, init);
      var marginal :- In(last.id, MarginalStages(t));
      Ok(if marginal then fields + last.outputs else fields)
  }

  /** `{field: chunk[field] for field in chunk if field not in marginal}`. */
  function Without(chunk: Data, marginal: set<string>): (r: Data)
    ensures r.Keys == chunk.Keys - marginal
    ensures forall f :: f in r ==> r[f] == chunk[f]
  {
    map f | f in chunk && f !in marginal :: chunk[f]
  }

  /** `task.strip_marginals(pipeline, chunk)`. */
  function StripMarginals(t: Task, p: seq<Stage>, chunk: Data): (r: Result<Data>)
    ensures r.Err? <==> MarginalFields(t, p).Err?
    ensures r.Ok? ==> r.value.Keys == chunk.Keys - MarginalFields(t, p).value
    ensures r.Ok? ==> forall f :: f in r.value ==> r.value[f] == chunk[f]
  {
    var marginal :- MarginalFields(t, p);
    Ok(Without(chunk, marginal))
  }

  // ---------------------------------------------------------------------
  // The completion digest
  // ---------------------------------------------------------------------

  /** What a completed task leaves behind: the stage hashes and the task
      hash (`.sha.json`), the hyperparameters used (the `config` entry of
      `.task.json`), and the task data object (`data.dill.gz`). */
  datatype Digest = Digest(stages: map<string, string>, task: string, config: Entries)

  /** The task data object: pipeline data per input. */
  type MultiData = map<Input, Data>

  datatype Completion = Completion(digest: Digest, data: MultiData)

  /** The task directories that hold a completion. */
  type Disk = map<Path, Completion>

  /** `task.get_full_spec_with_config(config)`. */
  function SpecWithConfig(t: Task, cfg: Entries): (r: Entries)
    ensures Lookup(r, "config") == Some(VMap(cfg))
    ensures forall k :: k != "config" ==> Lookup(r, k) == Lookup(FullSpec(t), k)
  {
    Union(FullSpec(t), [("config", VMap(cfg))])
  }

  /** `{stage.id: stage.sha for stage in pipeline.stages}`: the later stage
      wins on a repeated id. */
  function StageShas(p: seq<Stage>, sha: Stage -> string): (r: map<string, string>)
    ensures r.Keys == set i | 0 <= i < |p| :: p[i].id
    ensures Pipelines.Distinct(Pipelines.Ids(p)) ==> forall i :: 0 <= i < |p| ==> r[p[i].id] == sha(p[i])
  {
    if |p| == 0 then map[]
    else
      var init := p[..|p| - 1];
      assert forall i :: 0 <= i < |init| ==> init[i] == p[i];
      assert Pipelines.Distinct(Pipelines.Ids(p)) ==> Pipelines.Distinct(Pipelines.Ids(init)) by {
        assert forall i :: 0 <= i < |init| ==> Pipelines.Ids(init)[i] == Pipelines.Ids(p)[i];
      }
      StageShas(init, sha)[p[|p| - 1].id := sha(p[|p| - 1])]
  }

  /** `frozenset(data.keys()) == frozenset(task.inputs)`, with the errors of
      decoding the inputs. */
  function InputsMatch(t: Task, keys: set<Input>): (r: Result<bool>)
    ensures r.Ok? <==> Inputs(t).Ok?
    ensures r.Ok? ==> (r.value <==> keys == InputSet(Inputs(t).value))
  {
    var inputs :- Inputs(t);
    Ok(keys == InputSet(inputs))
  }

  /** Every pipeline data object of the task data object, stripped. */
  function StripAll(t: Task, p: seq<Stage>, data: MultiData): (r: Result<MultiData>)
    ensures r.Err? <==> |data| > 0 && MarginalFields(t, p).Err?
    ensures r.Ok? ==> r.value.Keys == data.Keys
    ensures r.Ok? ==> forall i :: i in data ==> StripMarginals(t, p, data[i]) == Ok(r.value[i])
  {
    if |data| == 0 then Ok(map[])
    else
      var marginal :- MarginalFields(t, p);
      Ok(map i | i in data :: Without(data[i], marginal))
  }

  /** The completion `store` writes once its checks pass. */
  function Completed(t: Task, p: seq<Stage>, data: MultiData, cfg: Entries,
                     stageSha: Stage -> string, specSha: Entries -> string): (r: Result<Completion>)
    ensures r.Err? <==> |data| > 0 && MarginalFields(t, p).Err?
    ensures r.Ok? ==> r.value.data == StripAll(t, p, data).value
    ensures r.Ok? ==> r.value.digest.stages == StageShas(p, stageSha)
    ensures r.Ok? ==> r.value.digest.task == specSha(SpecWithConfig(t, cfg))
    ensures r.Ok? && WellFormed(VMap(cfg)) ==> r.value.digest.config == cfg
  {
    var stripped :- StripAll(t, p, data);
    Ok(Completion(Digest(StageShas(p, stageSha), specSha(SpecWithConfig(t, cfg)), Config.Copy(cfg)), stripped))
  }

  /** The two assertions `store` opens with: the task is runnable, and the
      data cover exactly its inputs. */
  function StoreCheck(t: Task, keys: set<Input>): (r: Result<()>)
    ensures !Runnable(t) ==> r == Err(AssertionError)
    ensures Runnable(t) && Inputs(t).Err? ==> r == Err(Inputs(t).exc)
    ensures Inputs(t).Ok? && keys != InputSet(Inputs(t).value) ==> r == Err(AssertionError)
    ensures r.Ok? <==> Runnable(t) && Inputs(t).Ok? && keys == InputSet(Inputs(t).value)
  {
    var _ :- Check(Runnable(t));
    var matches :- InputsMatch(t, keys);
    Check(matches)
  }

  /** `task.store(pipeline, data, config)`: the assertions pass, the marginal
      fields are stripped and the digest of this completion written. */
  function Store(t: Task, p: seq<Stage>, data: MultiData, cfg: Entries, disk: Disk,
                 stageSha: Stage -> string, specSha: Entries -> string): (r: Result<Disk>)
    ensures StoreCheck(t, data.Keys).Err? ==> r == Err(StoreCheck(t, data.Keys).exc)
    ensures r.Ok? ==> StoreCheck(t, data.Keys).Ok? && Completed(t, p, data, cfg, stageSha, specSha).Ok?
    ensures r.Ok? ==> t.path in r.value && r.value[t.path] == Completed(t, p, data, cfg, stageSha, specSha).value
  {
    var _ :- StoreCheck(t, data.Keys);
    var c :- Completed(t, p, data, cfg, stageSha, specSha);
    Ok(disk[t.path := c])
  }

  /** Storing touches no other task directory. */
  lemma StoreLeavesOthers(t: Task, p: seq<Stage>, data: MultiData, cfg: Entries, disk: Disk,
                          stageSha: Stage -> string, specSha: Entries -> string, q: Path)
    requires Store(t, p, data, cfg, disk, stageSha, specSha).Ok? && q != t.path
    ensures var after := Store(t, p, data, cfg, disk, stageSha, specSha).value;
      (q in after <==> q in disk) && (q in disk ==> after[q] == disk[q])
  {
  }

  /** `task.load(pipeline)`: the stored task data object, checked against
      the inputs and, given a pipeline, against its persistent non-marginal
      fields. */
  function Load(t: Task, p: Option<seq<Stage>>, disk: Disk): (r: Result<MultiData>)
    ensures !Runnable(t) || t.path !in disk ==> r == Err(AssertionError)
    ensures r.Ok? ==> t.path in disk && r.value == disk[t.path].data
    ensures r.Ok? ==> Inputs(t).Ok? && r.value.Keys == InputSet(Inputs(t).value)
    ensures r.Ok? && p.Some? ==> MarginalFields(t, p.value).Ok?
    ensures r.Ok? && p.Some? ==> forall i :: i in r.value ==>
      r.value[i].Keys == Pipelines.PersistentFields(p.value) - MarginalFields(t, p.value).value
  {
    var _ :- Check(Runnable(t));
    var _ :- Check(t.path in disk);
    var data := disk[t.path].data;
    var matches :- InputsMatch(t, data.Keys);
    var _ :- Check(matches);
    match p
    case None => Ok(data)
    case Some(stages) =>
      var marginal :- MarginalFields(t, stages);
      var required := Pipelines.PersistentFields(stages) - marginal;
      var _ :- Check(forall i :: i in data ==> data[i].Keys == required);
      Ok(data)
  }

  /** Loading right after storing gives back the stripped data. */
  lemma StoreThenLoad(t: Task, p: seq<Stage>, data: MultiData, cfg: Entries, disk: Disk,
                      stageSha: Stage -> string, specSha: Entries -> string)
    requires Store(t, p, data, cfg, disk, stageSha, specSha).Ok?
    ensures var after := Store(t, p, data, cfg, disk, stageSha, specSha).value;
      Load(t, None, after) == StripAll(t, p, data)
  {
  }

  /** When every pipeline data object holds exactly the pipeline's persistent
      fields, the stored data also passes the check against the pipeline. */
  lemma StoreThenLoadChecked(t: Task, p: seq<Stage>, data: MultiData, cfg: Entries, disk: Disk,
                             stageSha: Stage -> string, specSha: Entries -> string)
    requires Store(t, p, data, cfg, disk, stageSha, specSha).Ok?
    requires MarginalFields(t, p).Ok?
    requires forall i :: i in data ==> data[i].Keys == Pipelines.PersistentFields(p)
    ensures var after := Store(t, p, data, cfg, disk, stageSha, specSha).value;
      Load(t, Some(p), after) == StripAll(t, p, data)
  {
    var after := Store(t, p, data, cfg, disk, stageSha, specSha).value;
    var stripped := StripAll(t, p, data).value;
    var required := Pipelines.PersistentFields(p) - MarginalFields(t, p).value;
    assert after[t.path].data == stripped;
    forall i | i in stripped ensures stripped[i].Keys == required {
      assert StripMarginals(t, p, data[i]) == Ok(stripped[i]);
    }
  }

  // ---------------------------------------------------------------------
  // is_pending
  // ---------------------------------------------------------------------

  /** The stage has a recorded hash, and it is the stage's current one. */
  predicate Unchanged(d: Digest, s: Stage, stageSha: Stage -> string) {
    s.id in d.stages && d.stages[s.id] == stageSha(s)
  }

  /** Stage `i` is the first whose recorded hash is not the current one, and
      every earlier stage has a recorded hash. */
  predicate Changed(d: Digest, p: seq<Stage>, i: nat, stageSha: Stage -> string)
    requires i < |p|
  {
    p[i].id in d.stages && d.stages[p[i].id] != stageSha(p[i]) &&
    forall j :: 0 <= j < i ==> Unchanged(d, p[j], stageSha)
  }

  /** The scan of `is_pending` over the stages: true at the first changed
      hash, KeyError at the first stage without a recorded hash. */
  function StagesChanged(p: seq<Stage>, d: Digest, stageSha: Stage -> string): (r: Result<bool>)
    ensures r == Ok(false) <==> forall i :: 0 <= i < |p| ==> Unchanged(d, p[i], stageSha)
    ensures r == Ok(true) <==> exists i :: 0 <= i < |p| && Changed(d, p, i, stageSha)
    ensures r.Err? ==> r.exc == KeyError
  {
    if |p| == 0 then Ok(false)
    else if p[0].id !in d.stages then Err(KeyError)
    else if d.stages[p[0].id] != stageSha(p[0]) then
      assert Changed(d, p, 0, stageSha);
      Ok(true)
    else
      var rest := StagesChanged(p[1..], d, stageSha);
      assert forall i :: 0 < i < |p| ==> p[i] == p[1..][i - 1];
      if rest == Ok(true) then
        var i :| 0 <= i < |p[1..]| && Changed(d, p[1..], i, stageSha);
        assert Changed(d, p, i + 1, stageSha);
        rest
      else
        assert forall i :: 0 < i < |p| && Changed(d, p, i, stageSha) ==> Changed(d, p[1..], i - 1, stageSha);
        rest
  }

  /** `task.is_pending(pipeline, config)`. */
  function IsPending(t: Task, p: seq<Stage>, cfg: Entries, disk: Disk,
                     stageSha: Stage -> string, specSha: Entries -> string): (r: Result<bool>)
    ensures !Runnable(t) ==> r == Ok(false)
    ensures Runnable(t) && t.path !in disk ==> r == Ok(true)
    ensures r.Err? ==> r.exc == KeyError
    ensures Runnable(t) && t.path in disk ==>
      (r == Ok(false) <==> (forall i :: 0 <= i < |p| ==> Unchanged(disk[t.path].digest, p[i], stageSha)) &&
                           disk[t.path].digest.task == specSha(SpecWithConfig(t, cfg)))
  {
    if !Runnable(t) then Ok(false)
    else if t.path !in disk then Ok(true)
    else
      var d := disk[t.path].digest;
      var changed :- StagesChanged(p, d, stageSha);
      if changed then Ok(true) else Ok(d.task != specSha(SpecWithConfig(t, cfg)))
  }

  /** Once stored, a task is no longer pending for the same pipeline and
      hyperparameters. */
  lemma StoreNotPending(t: Task, p: seq<Stage>, data: MultiData, cfg: Entries, disk: Disk,
                        stageSha: Stage -> string, specSha: Entries -> string)
    requires Pipelines.Distinct(Pipelines.Ids(p))
    requires Store(t, p, data, cfg, disk, stageSha, specSha).Ok?
    ensures var after := Store(t, p, data, cfg, disk, stageSha, specSha).value;
      IsPending(t, p, cfg, after, stageSha, specSha) == Ok(false)
  {
    var after := Store(t, p, data, cfg, disk, stageSha, specSha).value;
    var d := after[t.path].digest;
    assert d.stages == StageShas(p, stageSha);
    forall i | 0 <= i < |p| ensures Unchanged(d, p[i], stageSha) {
      assert p[i].id in d.stages.Keys;
    }
  }

  // ---------------------------------------------------------------------
  // find_first_diverging_stage
  // ---------------------------------------------------------------------

  /** How the hyperparameters recorded in `.task.json` meet the current ones.
      The code reads them through `frozendict.deepfreeze`, which turns every
      list into a tuple (`Frozen`); the comparison evidently intended is the
      one of the stored JSON values (`Plain`). */
  datatype Recall = Frozen | Plain

  /** `deepfreeze(a) == b` for a JSON value `a`: Python `==`, except that a
      frozen list is a tuple, and no tuple equals a list. */
  predicate FrozenEq(a: Value, b: Value)
    decreases a
  {
    if NumberOf(a).Some? || NumberOf(b).Some? then NumberOf(a) == NumberOf(b)
    else match a
      case VNone => b.VNone?
      case VStr(s) => b.VStr? && b.s == s
      case VMap(e) =>
        b.VMap? && |e| == |b.entries| &&
        (forall j :: 0 <= j < |b.entries| ==> HasKey(e, b.entries[j].0)) &&
        forall i :: 0 <= i < |e| ==>
          HasKey(b.entries, e[i].0) && FrozenEq(e[i].1, Lookup(b.entries, e[i].0).value)
      case _ => false
  }

  predicate Same(recall: Recall, stored: Value, current: Value) {
    match recall
    case Frozen => FrozenEq(stored, current)
    case Plain => PyEq(stored, current)
  }

  /** `digest['config'].get(id, {})`: a plain dict lookup. */
  function StoredSection(d: Digest, id: string): Value {
    match Lookup(d.config, id)
    case Some(v) => v
    case None => VMap([])
  }

  /** The scan of `find_first_diverging_stage` over a completed task: the
      first stage that is new, has another hash, or whose hyperparameters
      differ from the recorded ones. Reading the current ones with
      `config.get(id, {})` stores `{}` under an absent id, so the store is
      threaded through; a non-dict section has no `.entries`. */
  function Diverging(recall: Recall, d: Digest, p: seq<Stage>, cfg: Entries, stageSha: Stage -> string)
    : (r: Result<(Entries, Option<nat>)>)
    ensures r.Err? ==> r.exc == AttributeError
    ensures r.Ok? && r.value.1.Some? ==> r.value.1.value < |p|
    ensures r.Ok? && r.value.1.Some? ==> forall j :: 0 <= j < r.value.1.value ==> Unchanged(d, p[j], stageSha)
    ensures r.Ok? && r.value.1.None? ==> forall j :: 0 <= j < |p| ==> Unchanged(d, p[j], stageSha)
    decreases |p|
  {
    if |p| == 0 then Ok((cfg, None))
    else if !Unchanged(d, p[0], stageSha) then Ok((cfg, Some(0)))
    else
      var (cfg1, current) :- Config.Get(cfg, p[0].id, VMap([]));
      if !current.VMap? then Err(AttributeError)
      else if !Same(recall, StoredSection(d, p[0].id), current) then Ok((cfg1, Some(0)))
      else
        var (cfg2, i) :- Diverging(recall, d, p[1..], cfg1, stageSha);
        assert forall j :: 0 < j < |p| ==> p[j] == p[1..][j - 1];
        Ok((cfg2, Shift(i)))
  }

  /** A position in the tail, as a position in the whole sequence. */
  function Shift(i: Option<nat>): (r: Option<nat>)
    ensures r.Some? <==> i.Some?
    ensures r.Some? ==> r.value == i.value + 1
  {
    if i.Some? then Some(i.value + 1) else None
  }

  /** `task.find_first_diverging_stage(pipeline, config)`, with the stage
      given by its position: without a completion the first stage. */
  function FirstDiverging(recall: Recall, t: Task, p: seq<Stage>, cfg: Entries, disk: Disk, stageSha: Stage -> string)
    : (r: Result<(Entries, Option<nat>)>)
    ensures t.path !in disk ==> r == if |p| == 0 then Err(IndexError) else Ok((cfg, Some(0)))
    ensures r.Err? ==> r.exc == IndexError || r.exc == AttributeError
    ensures r.Ok? && r.value.1.Some? ==> r.value.1.value < |p|
    ensures t.path in disk && r.Ok? && r.value.1.Some? ==>
      forall j :: 0 <= j < r.value.1.value ==> Unchanged(disk[t.path].digest, p[j], stageSha)
    ensures t.path in disk && r.Ok? && r.value.1.None? ==>
      forall j :: 0 <= j < |p| ==> Unchanged(disk[t.path].digest, p[j], stageSha)
  {
    if t.path !in disk then
      if |p| == 0 then Err(IndexError) else Ok((cfg, Some(0)))
    else Diverging(recall, disk[t.path].digest, p, cfg, stageSha)
  }

  /** `config.get(key, default)` on a key without `/`: the stored value, or
      the default, which is then stored. */
  lemma GetPlain(c: Entries, k: string, default: Value)
    requires '/' !in k
    ensures Config.Get(c, k, default) ==
      Ok(if HasKey(c, k) then (c, Lookup(c, k).value) else (Put(c, k, default), default))
  {
    PlainKey(k);
  }

  /** The current hyperparameters of a stage as the comparison sees them. */
  function CurrentSection(cfg: Entries, id: string): Value {
    match Lookup(cfg, id)
    case Some(v) => v
    case None => VMap([])
  }

  /** Every stage id is a plain key whose section, when present, is a dict. */
  predicate Sections(cfg: Entries, p: seq<Stage>) {
    forall j :: 0 <= j < |p| ==> '/' !in p[j].id && CurrentSection(cfg, p[j].id).VMap?
  }

  /** A stage diverges from the completion: it is new, its hash changed, or
      its recorded hyperparameters are not equal to its current ones. */
  predicate Diverges(recall: Recall, d: Digest, cfg: Entries, s: Stage, stageSha: Stage -> string) {
    !Unchanged(d, s, stageSha) || !Same(recall, StoredSection(d, s.id), CurrentSection(cfg, s.id))
  }

  /** The store after `config.get(id, {})` on a plain key. */
  function Touch(cfg: Entries, id: string): (r: Entries)
    ensures forall x :: CurrentSection(r, x) == CurrentSection(cfg, x)
  {
    if HasKey(cfg, id) then cfg else Put(cfg, id, VMap([]))
  }

  /** One step of the scan past a stage whose hash is unchanged. */
  lemma DivergingStep(recall: Recall, d: Digest, p: seq<Stage>, cfg: Entries, stageSha: Stage -> string)
    requires |p| > 0 && Unchanged(d, p[0], stageSha)
    requires '/' !in p[0].id && CurrentSection(cfg, p[0].id).VMap?
    ensures !Same(recall, StoredSection(d, p[0].id), CurrentSection(cfg, p[0].id)) ==>
      Diverging(recall, d, p, cfg, stageSha) == Ok((Touch(cfg, p[0].id), Some(0)))
    ensures Same(recall, StoredSection(d, p[0].id), CurrentSection(cfg, p[0].id)) ==>
      var rest := Diverging(recall, d, p[1..], Touch(cfg, p[0].id), stageSha);
      (Diverging(recall, d, p, cfg, stageSha).Ok? <==> rest.Ok?) &&
      (rest.Ok? ==> Diverging(recall, d, p, cfg, stageSha).value.1 == Shift(rest.value.1))
  {
    GetPlain(cfg, p[0].id, VMap([]));
  }

  /** `r` names the first stage of `p` that diverges, or None when none does. */
  predicate IsFirst(recall: Recall, d: Digest, cfg: Entries, p: seq<Stage>, stageSha: Stage -> string, r: Option<nat>) {
    (r.None? <==> forall j :: 0 <= j < |p| ==> !Diverges(recall, d, cfg, p[j], stageSha)) &&
    (r.Some? ==> r.value < |p| && Diverges(recall, d, cfg, p[r.value], stageSha)) &&
    (r.Some? ==> forall j :: 0 <= j < r.value ==> !Diverges(recall, d, cfg, p[j], stageSha))
  }

  /** Past a first stage that does not diverge, the first diverging stage of
      the tail is the first of the whole. */
  lemma IsFirstShift(recall: Recall, d: Digest, cfg: Entries, cfg1: Entries, p: seq<Stage>, stageSha: Stage -> string, r: Option<nat>)
    requires |p| > 0 && !Diverges(recall, d, cfg, p[0], stageSha)
    requires forall x :: CurrentSection(cfg1, x) == CurrentSection(cfg, x)
    requires IsFirst(recall, d, cfg1, p[1..], stageSha, r)
    ensures IsFirst(recall, d, cfg, p, stageSha, Shift(r))
  {
    assert forall j :: 0 < j < |p| ==> p[j] == p[1..][j - 1];
    assert forall j :: 0 < j < |p| ==>
      (Diverges(recall, d, cfg1, p[1..][j - 1], stageSha) <==> Diverges(recall, d, cfg, p[j], stageSha));
  }

  /** Over plain stage ids with dict sections, the scan finds exactly the
      first diverging stage, judged on the store as it was passed in. */
  lemma {:induction false} DivergingIsFirst(recall: Recall, d: Digest, p: seq<Stage>, cfg: Entries, stageSha: Stage -> string)
    requires Sections(cfg, p)
    ensures Diverging(recall, d, p, cfg, stageSha).Ok?
    ensures IsFirst(recall, d, cfg, p, stageSha, Diverging(recall, d, p, cfg, stageSha).value.1)
    decreases |p|
  {
    if |p| > 0 && Unchanged(d, p[0], stageSha) {
      var id := p[0].id;
      DivergingStep(recall, d, p, cfg, stageSha);
      if Same(recall, StoredSection(d, id), CurrentSection(cfg, id)) {
        var cfg1 := Touch(cfg, id);
        assert Sections(cfg1, p[1..]) by {
          assert forall j :: 0 < j < |p| ==> p[j] == p[1..][j - 1];
        }
        DivergingIsFirst(recall, d, p[1..], cfg1, stageSha);
        IsFirstShift(recall, d, cfg, cfg1, p, stageSha, Diverging(recall, d, p[1..], cfg1, stageSha).value.1);
      }
    }
  }

  /** A value found in a well-formed dict is well-formed. */
  lemma LookupWellFormed(e: Entries, k: string)
    requires WellFormed(VMap(e)) && HasKey(e, k)
    ensures WellFormed(Lookup(e, k).value)
  {
  }

  /** A digest recording exactly this pipeline and these hyperparameters
      leaves no stage diverging under the intended comparison. */
  lemma RecordedNothingDiverges(d: Digest, p: seq<Stage>, cfg: Entries, stageSha: Stage -> string)
    requires d.stages == StageShas(p, stageSha) && d.config == cfg
    requires Pipelines.Distinct(Pipelines.Ids(p))
    requires WellFormed(VMap(cfg))
    ensures forall j :: 0 <= j < |p| ==> !Diverges(Plain, d, cfg, p[j], stageSha)
  {
    forall j | 0 <= j < |p| ensures !Diverges(Plain, d, cfg, p[j], stageSha) {
      StageRecorded(d, p, cfg, stageSha, j);
    }
  }

  lemma StageRecorded(d: Digest, p: seq<Stage>, cfg: Entries, stageSha: Stage -> string, j: nat)
    requires d.stages == StageShas(p, stageSha) && d.config == cfg
    requires Pipelines.Distinct(Pipelines.Ids(p))
    requires WellFormed(VMap(cfg)) && j < |p|
    ensures !Diverges(Plain, d, cfg, p[j], stageSha)
  {
    assert p[j].id in d.stages.Keys;
    assert Unchanged(d, p[j], stageSha);
    SectionEqual(cfg, p[j].id);
    assert StoredSection(d, p[j].id) == CurrentSection(cfg, p[j].id);
  }

  /** A section of a well-formed store equals itself. */
  lemma SectionEqual(cfg: Entries, id: string)
    requires WellFormed(VMap(cfg))
    ensures PyEq(CurrentSection(cfg, id), CurrentSection(cfg, id))
  {
    if HasKey(cfg, id) {
      LookupWellFormed(cfg, id);
    }
    PyEqRefl(CurrentSection(cfg, id));
  }

  /** Right after storing, under the intended comparison, no stage of the
      same pipeline diverges for the same hyperparameters. */
  lemma StoreThenNothingDiverges(t: Task, p: seq<Stage>, data: MultiData, cfg: Entries, disk: Disk,
                                 stageSha: Stage -> string, specSha: Entries -> string)
    requires Store(t, p, data, cfg, disk, stageSha, specSha).Ok?
    requires Pipelines.Distinct(Pipelines.Ids(p))
    requires WellFormed(VMap(cfg)) && Sections(cfg, p)
    ensures var after := Store(t, p, data, cfg, disk, stageSha, specSha).value;
      FirstDiverging(Plain, t, p, cfg, after, stageSha).Ok? &&
      FirstDiverging(Plain, t, p, cfg, after, stageSha).value.1 == None
  {
    var after := Store(t, p, data, cfg, disk, stageSha, specSha).value;
    var d := after[t.path].digest;
    RecordedNothingDiverges(d, p, cfg, stageSha);
    DivergingIsFirst(Plain, d, p, cfg, stageSha);
  }

  /** A dict holding a list is never equal to its own frozen copy. */
  lemma FrozenListUnequal(k: string, xs: seq<Value>)
    ensures !FrozenEq(VMap([(k, VList(xs))]), VMap([(k, VList(xs))]))
  {
    var e := [(k, VList(xs))];
    assert Lookup(e, k) == Some(VList(xs));
    assert !FrozenEq(VList(xs), VList(xs));
  }

  /** Right after storing a one-stage pipeline whose section holds a list,
      the code as written reports that stage as diverging, while the
      intended comparison finds nothing to recompute. */
  lemma FrozenListDiverges(t: Task, s: Stage, data: MultiData, cfg: Entries, disk: Disk,
                           stageSha: Stage -> string, specSha: Entries -> string, k: string, xs: seq<Value>)
    requires '/' !in s.id && WellFormed(VList(xs))
    requires cfg == [(s.id, VMap([(k, VList(xs))]))]
    requires Store(t, [s], data, cfg, disk, stageSha, specSha).Ok?
    ensures var after := Store(t, [s], data, cfg, disk, stageSha, specSha).value;
      FirstDiverging(Frozen, t, [s], cfg, after, stageSha) == Ok((cfg, Some(0)))
    ensures var after := Store(t, [s], data, cfg, disk, stageSha, specSha).value;
      FirstDiverging(Plain, t, [s], cfg, after, stageSha) == Ok((cfg, None))
  {
    var after := Store(t, [s], data, cfg, disk, stageSha, specSha).value;
    var section := VMap([(k, VList(xs))]);
    assert WellFormed(VMap(cfg)) by {
      assert WellFormed(section);
    }
    var d := after[t.path].digest;
    assert d.config == cfg && d.stages == StageShas([s], stageSha);
    FrozenListDigest(d, s, cfg, stageSha, k, xs);
  }

  lemma FrozenListDigest(d: Digest, s: Stage, cfg: Entries, stageSha: Stage -> string, k: string, xs: seq<Value>)
    requires '/' !in s.id && WellFormed(VList(xs))
    requires cfg == [(s.id, VMap([(k, VList(xs))]))]
    requires d.config == cfg && d.stages == StageShas([s], stageSha)
    ensures Diverging(Frozen, d, [s], cfg, stageSha) == Ok((cfg, Some(0)))
    ensures Diverging(Plain, d, [s], cfg, stageSha) == Ok((cfg, None))
  {
    var section := VMap([(k, VList(xs))]);
    assert Unchanged(d, s, stageSha);
    assert Lookup(cfg, s.id) == Some(section);
    assert Touch(cfg, s.id) == cfg;
    FrozenListUnequal(k, xs);
    DivergingStep(Frozen, d, [s], cfg, stageSha);
    PyEqRefl(section);
    DivergingStep(Plain, d, [s], cfg, stageSha);
    assert [s][1..] == [];
  }

  // ---------------------------------------------------------------------
  // find_pickup_task
  // ---------------------------------------------------------------------

  /** Where `run` picks up: a completed task and the stage to continue from
      (None when nothing is left to compute). */
  datatype Pickup = Pickup(task: Option<Task>, stage: Option<nat>)

  /** The candidates, ancestors nearest first and then the task itself. */
  function Candidates(t: Task): (r: seq<Task>)
    ensures |r| == |Parents(t)| + 1 && r[|r| - 1] == t
  {
    Parents(t) + [t]
  }

  /** The first diverging stage of every candidate, in order; each search
      reads the hyperparameters as the previous one left them. */
  function Firsts(recall: Recall, cands: seq<Task>, p: seq<Stage>, cfg: Entries, disk: Disk, stageSha: Stage -> string)
    : (r: Result<(Entries, seq<Option<nat>>)>)
    ensures r.Ok? ==> |r.value.1| == |cands|
    ensures r.Ok? ==> forall j :: 0 <= j < |cands| && r.value.1[j].Some? ==> r.value.1[j].value < |p|
    ensures r.Err? ==> r.exc == IndexError || r.exc == AttributeError
    decreases |cands|
  {
    if |cands| == 0 then Ok((cfg, []))
    else
      var (cfg1, first) :- FirstDiverging(recall, cands[0], p, cfg, disk, stageSha);
      var (cfg2, rest) :- Firsts(recall, cands[1..], p, cfg1, disk, stageSha);
      Ok((cfg2, [first] + rest))
  }

  /** The position of the first candidate with nothing diverging. */
  function FirstDone(fs: seq<Option<nat>>): (r: Option<nat>)
    ensures r.Some? ==> r.value < |fs| && fs[r.value].None? && forall j :: 0 <= j < r.value ==> fs[j].Some?
    ensures r.None? ==> forall j :: 0 <= j < |fs| ==> fs[j].Some?
  {
    if |fs| == 0 then None
    else if fs[0].None? then Some(0)
    else match FirstDone(fs[1..])
      case None => None
      case Some(j) => Some(j + 1)
  }

  /** `pipeline.find(stage.id)` for the stage at position `i`. */
  function Rank(p: seq<Stage>, i: nat): (r: nat)
    requires i < |p|
    ensures r <= i
    ensures Pipelines.Distinct(Pipelines.Ids(p)) ==> r == i
  {
    Pipelines.Find(p, p[i].id).value
  }

  /** Every candidate diverges somewhere in the pipeline. */
  predicate AllDiverge(fs: seq<Option<nat>>, p: seq<Stage>) {
    forall j :: 0 <= j < |fs| ==> fs[j].Some? && fs[j].value < |p|
  }

  /** The ranks of the candidates' diverging stages. */
  function Ranks(fs: seq<Option<nat>>, p: seq<Stage>): (r: seq<nat>)
    requires AllDiverge(fs, p)
    ensures |r| == |fs| && forall j :: 0 <= j < |fs| ==> r[j] == Rank(p, fs[j].value)
  {
    seq(|fs|, j requires 0 <= j < |fs| => Rank(p, fs[j].value))
  }

  /** Position `r` holds the greatest key, and no earlier position does. */
  predicate FirstMax(ks: seq<nat>, r: nat) {
    r < |ks| && (forall j :: 0 <= j < |ks| ==> ks[j] <= ks[r]) && (forall j :: 0 <= j < r ==> ks[j] < ks[r])
  }

  /** `max(range(len(ks)), key=ks.__getitem__)`: Python's `max` keeps the
      first of equal maxima. */
  function ArgMax(ks: seq<nat>): (r: nat)
    requires |ks| > 0
    ensures FirstMax(ks, r)
  {
    if |ks| == 1 then 0
    else
      var j := ArgMax(ks[..|ks| - 1]);
      assert forall i :: 0 <= i < |ks| - 1 ==> ks[..|ks| - 1][i] == ks[i];
      if ks[|ks| - 1] > ks[j] then |ks| - 1 else j
  }

  /** `task.find_pickup_task(pipeline, config)`. */
  function FindPickup(recall: Recall, t: Task, p: seq<Stage>, cfg: Entries, disk: Disk, stageSha: Stage -> string)
    : (r: Result<(Entries, Pickup)>)
    ensures var f := Firsts(recall, Candidates(t), p, cfg, disk, stageSha);
      f.Err? ==> r == Err(f.exc)
    ensures var f := Firsts(recall, Candidates(t), p, cfg, disk, stageSha);
      r.Ok? ==> f.Ok? && r.value.0 == f.value.0
    ensures var f := Firsts(recall, Candidates(t), p, cfg, disk, stageSha);
      r.Ok? && r.value.1.stage.None? ==>
        FirstDone(f.value.1).Some? && r.value.1.task == Some(Candidates(t)[FirstDone(f.value.1).value])
    ensures var f := Firsts(recall, Candidates(t), p, cfg, disk, stageSha);
      r.Ok? && r.value.1.stage.Some? ==> AllDiverge(f.value.1, p)
    ensures var f := Firsts(recall, Candidates(t), p, cfg, disk, stageSha);
      r.Ok? && r.value.1.stage.Some? ==>
        exists j: nat :: FirstMax(Ranks(f.value.1, p), j) && f.value.1[j] == r.value.1.stage &&
          r.value.1.task == (if f.value.1[j].value == 0 then None else Some(Candidates(t)[j]))
  {
    var cands := Candidates(t);
    var (cfg1, fs) :- Firsts(recall, cands, p, cfg, disk, stageSha);
    match FirstDone(fs)
    case Some(j) => Ok((cfg1, Pickup(Some(cands[j]), None)))
    case None =>
      var j := ArgMax(Ranks(fs, p));
      var i := fs[j].value;
      Ok((cfg1, Pickup(if i == 0 then None else Some(cands[j]), Some(i))))
  }

  /** Every candidate diverges, at stage `i` or earlier. */
  predicate AtMost(fs: seq<Option<nat>>, i: nat) {
    forall j :: 0 <= j < |fs| ==> fs[j].Some? && fs[j].value <= i
  }

  /** With distinct stage ids the rank is the position, so the pickup
      continues from the latest first diverging stage of all candidates. */
  lemma PickupIsLatest(recall: Recall, t: Task, p: seq<Stage>, cfg: Entries, disk: Disk, stageSha: Stage -> string)
    requires Pipelines.Distinct(Pipelines.Ids(p))
    requires FindPickup(recall, t, p, cfg, disk, stageSha).Ok?
    requires FindPickup(recall, t, p, cfg, disk, stageSha).value.1.stage.Some?
    ensures AtMost(Firsts(recall, Candidates(t), p, cfg, disk, stageSha).value.1,
                   FindPickup(recall, t, p, cfg, disk, stageSha).value.1.stage.value)
  {
    var r := FindPickup(recall, t, p, cfg, disk, stageSha);
    var f := Firsts(recall, Candidates(t), p, cfg, disk, stageSha);
    var fs := f.value.1;
    assert AllDiverge(fs, p);
    var ks := Ranks(fs, p);
    var j: nat :| FirstMax(ks, j) && fs[j] == r.value.1.stage;
    forall k | 0 <= k < |fs|
      ensures fs[k].Some? && fs[k].value <= r.value.1.stage.value
    {
      assert ks[k] == fs[k].value && ks[j] == fs[j].value;
    }
  }

  /** `n` searches that each stopped at the first stage. */
  function AtStart(n: nat): (r: seq<Option<nat>>)
    ensures |r| == n && forall j :: 0 <= j < n ==> r[j] == Some(0)
  {
    if n == 0 then [] else [Some(0)] + AtStart(n - 1)
  }

  /** No candidate has completed: every search yields the first stage and
      leaves the store alone. */
  lemma {:induction false} FirstsFresh(recall: Recall, cands: seq<Task>, p: seq<Stage>, cfg: Entries, disk: Disk, stageSha: Stage -> string)
    requires |p| > 0
    requires forall j :: 0 <= j < |cands| ==> cands[j].path !in disk
    ensures Firsts(recall, cands, p, cfg, disk, stageSha) == Ok((cfg, AtStart(|cands|)))
    decreases |cands|
  {
    if |cands| > 0 {
      assert cands[0].path !in disk;
      assert FirstDiverging(recall, cands[0], p, cfg, disk, stageSha) == Ok((cfg, Some(0)));
      assert forall j :: 0 <= j < |cands[1..]| ==> cands[1..][j].path !in disk by {
        forall j | 0 <= j < |cands[1..]| ensures cands[1..][j].path !in disk {
          assert cands[1..][j] == cands[j + 1];
        }
      }
      FirstsFresh(recall, cands[1..], p, cfg, disk, stageSha);
    }
  }

  /** In a tree where no candidate has completed, the task runs from
      scratch: nothing to pick up, starting at the first stage. */
  lemma FreshStartsOver(recall: Recall, t: Task, p: seq<Stage>, cfg: Entries, disk: Disk, stageSha: Stage -> string)
    requires |p| > 0
    requires forall j :: 0 <= j < |Candidates(t)| ==> Candidates(t)[j].path !in disk
    ensures FindPickup(recall, t, p, cfg, disk, stageSha) == Ok((cfg, Pickup(None, Some(0))))
  {
    var cands := Candidates(t);
    FirstsFresh(recall, cands, p, cfg, disk, stageSha);
    var fs := AtStart(|cands|);
    assert fs[0] == Some(0);
    assert FirstDone(fs).None?;
    var ks := Ranks(fs, p);
    var j := ArgMax(ks);
    assert fs[j] == Some(0);
  }
}

=== FILE: task_examples.dfy ===
/** The input specifications exercised by `tests/test_task.py`, worked out
    on the model of `decode_inputs`. */
module TaskExamples {
  import opened Base
  import opened InputLists
  import opened Values

  /** An accepted string whose inputs are exactly those of `want`, in
      increasing order, decodes to `want`. */
  lemma Decodes(s: string, ts: seq<string>, want: seq<int>)
    requires InputTokens(s) == ts
    requires forall i :: 0 <= i < |ts| ==> Accepted(ts[i])
    requires Increasing(want)
    requires forall n :: n in want <==> exists i :: 0 <= i < |ts| && Denotes(ts[i], n)
    ensures DecodeString(s) == Ok(want)
  {
    IncreasingUnique(DecodeString(s).value, want);
  }

  /** A string holding one accepted token decodes to that token's inputs. */
  lemma DecodesOne(s: string, t: string, want: seq<int>)
    requires InputTokens(s) == [t] && Accepted(t)
    requires Increasing(want)
    requires forall n :: n in want <==> Denotes(t, n)
    ensures DecodeString(s) == Ok(want)
  {
    forall n ensures n in want <==> exists i :: 0 <= i < |[t]| && Denotes([t][i], n) {
      if n in want {
        assert Denotes([t][0], n);
      }
    }
    Decodes(s, [t], want);
  }

  /** A run of digits is a number token standing for its value alone. */
  lemma NumberToken(a: string)
    requires IsDigits(a)
    ensures Body(a) == a && IsNumber(a) && Accepted(a)
    ensures forall n :: Denotes(a, n) <==> n == DigitsValue(a)
  {
    assert a[|a| - 1] != '\n' by { assert IsDigit(a[|a| - 1]); }
    assert '-' !in a;
    assert Split(a, '-') == [a];
  }

  /** Two runs of digits joined by a dash form a range token. */
  lemma RangeToken(a: string, b: string)
    requires IsDigits(a) && IsDigits(b)
    ensures Body(a + "-" + b) == a + "-" + b
    ensures Bounds(a + "-" + b) == Some((DigitsValue(a), DigitsValue(b)))
    ensures !IsNumber(a + "-" + b)
    ensures forall n :: Denotes(a + "-" + b, n) <==> DigitsValue(a) <= n <= DigitsValue(b)
  {
    var t := a + "-" + b;
    assert t[|t| - 1] == b[|b| - 1] && IsDigit(b[|b| - 1]);
    assert !IsDigit(t[|a|]);
    assert '-' !in a;
    assert '-' !in b;
    SplitPrefix(a, b, '-');
    assert a + ['-'] + b == t;
  }

  /** `decode_inputs('')` is the empty list. */
  lemma DecodeEmpty()
    ensures DecodeString("") == Ok([])
  {
    assert InputTokens("") == [""] by { SplitEmptyComma(); }
    assert forall n :: !Denotes("", n) by { SplitEmpty(); }
    Decodes("", [""], []);
  }

  lemma SplitEmptyComma()
    ensures Split("", ',') == [""]
  {
  }

  /** Text without spaces is left alone by the space removal. */
  lemma {:induction false} NoSpacesKeeps(s: string)
    requires ' ' !in s
    ensures NoSpaces(s) == s
  {
    if |s| > 0 {
      NoSpacesKeeps(s[1..]);
      assert s == [s[0]] + s[1..];
    }
  }

  /** Text without commas or spaces is one token. */
  lemma SingleToken(s: string)
    requires ',' !in s && ' ' !in s
    ensures InputTokens(s) == [s]
  {
    NoSpacesKeeps(s);
  }

  /** Removing spaces distributes over concatenation. */
  lemma {:induction false} NoSpacesConcat(a: string, b: string)
    ensures NoSpaces(a + b) == NoSpaces(a) + NoSpaces(b)
  {
    if |a| > 0 {
      NoSpacesConcat(a[1..], b);
      assert (a + b)[0] == a[0] && (a + b)[1..] == a[1..] + b;
      var h := if a[0] == ' ' then "" else [a[0]];
      assert NoSpaces(a + b) == h + (NoSpaces(a[1..]) + NoSpaces(b));
      assert NoSpaces(a) == h + NoSpaces(a[1..]);
    } else {
      assert a + b == b;
    }
  }

  /** Spaces around the dash of a range are dropped. */
  lemma SpacedToken(a: string, b: string)
    requires IsDigits(a) && IsDigits(b)
    ensures InputTokens(a + " - " + b) == [a + "-" + b]
  {
    DigitsFree(a);
    DigitsFree(b);
    NoSpacesConcat(a + " - ", b);
    NoSpacesConcat(a, " - ");
    assert NoSpaces(" - ") == "-";
    NoSpacesKeeps(a);
    NoSpacesKeeps(b);
    assert NoSpaces(a + " - " + b) == a + "-" + b;
    SingleToken(a + "-" + b);
  }

  /** A single number decodes to itself. */
  lemma DecodeNumber(s: string, a: string)
    requires IsDigits(a) && InputTokens(s) == [a]
    ensures DecodeString(s) == Ok([DigitsValue(a)])
  {
    NumberToken(a);
    DecodesOne(s, a, [DigitsValue(a)]);
  }

  /** An increasing range decodes to every number from its start to its end. */
  lemma DecodeRange(s: string, a: string, b: string)
    requires IsDigits(a) && IsDigits(b) && DigitsValue(a) < DigitsValue(b)
    requires InputTokens(s) == [a + "-" + b]
    ensures DecodeString(s) == Ok(Range(DigitsValue(a), DigitsValue(b)))
  {
    RangeToken(a, b);
    RangeIncreasing(DigitsValue(a), DigitsValue(b));
    DecodesOne(s, a + "-" + b, Range(DigitsValue(a), DigitsValue(b)));
  }

  lemma {:induction false} RangeIncreasing(a: int, b: int)
    requires a <= b
    ensures Increasing(Range(a, b))
    decreases b - a
  {
    if a < b {
      RangeIncreasing(a + 1, b);
      var r := Range(a + 1, b);
      assert Range(a, b) == [a] + r;
      forall i | 0 <= i < |r|
        ensures a < r[i]
      {
        assert r[i] in r;
      }
    }
  }

  /** `decode_inputs('1')` is `[1]`. */
  lemma DecodeSingle()
    ensures DecodeString("1") == Ok([1])
  {
    SingleToken("1");
    DecodeNumber("1", "1");
  }

  /** `decode_inputs('1-2')` is `[1, 2]`. */
  lemma DecodePair()
    ensures DecodeString("1-2") == Ok([1, 2])
  {
    assert DigitsValue("1") == 1 && DigitsValue("2") == 2;
    assert "1" + "-" + "2" == "1-2";
    SingleToken("1-2");
    DecodeRange("1-2", "1", "2");
    assert Range(1, 2) == [1, 2];
  }

  lemma DecodeSpaced(a: string, b: string)
    requires IsDigits(a) && IsDigits(b) && DigitsValue(a) < DigitsValue(b)
    ensures DecodeString(a + " - " + b) == Ok(Range(DigitsValue(a), DigitsValue(b)))
  {
    SpacedToken(a, b);
    DecodeRange(a + " - " + b, a, b);
  }

  /** `decode_inputs('1 - 3')` is `[1, 2, 3]`: spaces do not matter. */
  lemma DecodeSpacedRange()
    ensures DecodeString("1 - 3") == Ok([1, 2, 3])
  {
    assert DigitsValue("1") == 1 && DigitsValue("3") == 3;
    DecodeSpaced("1", "3");
    assert "1" + " - " + "3" == "1 - 3";
    assert Range(2, 3) == [2, 3];
    assert Range(1, 3) == [1, 2, 3];
  }

  /** A single token the parser does not accept raises ValueError. */
  lemma Rejects(s: string)
    requires ',' !in s && ' ' !in s
    requires s != "" && !Accepted(s)
    ensures DecodeString(s) == Err(ValueError)
  {
    SingleToken(s);
  }

  /** A range with a missing bound is no token: `'1-'`, `'-1'` and `'-'`
      raise ValueError. */
  lemma DecodeNoUpper()
    ensures DecodeString("1-") == Err(ValueError)
  {
    assert Split("", '-') == [""];
    SplitPrefix("1", "", '-');
    assert "1" + "-" + "" == "1-";
    assert !IsDigits("1-");
    Rejects("1-");
  }

  lemma DecodeNoLower()
    ensures DecodeString("-1") == Err(ValueError)
  {
    assert Split("1", '-') == ["1"];
    SplitPrefix("", "1", '-');
    assert "" + "-" + "1" == "-1";
    assert !IsDigits("-1");
    Rejects("-1");
  }

  lemma DecodeDash()
    ensures DecodeString("-") == Err(ValueError)
  {
    assert Split("", '-') == [""];
    SplitPrefix("", "", '-');
    assert "" + "-" + "" == "-";
    assert !IsDigits("-");
    Rejects("-");
  }

  /** A range must increase: `'3-1'` and `'1-1'` raise ValueError. */
  lemma DecodeEmptyRanges()
    ensures DecodeString("3-1") == Err(ValueError)
    ensures DecodeString("1-1") == Err(ValueError)
  {
    assert DigitsValue("1") == 1 && DigitsValue("3") == 3;
    RangeToken("3", "1");
    assert "3" + "-" + "1" == "3-1";
    Rejects("3-1");
    RangeToken("1", "1");
    assert "1" + "-" + "1" == "1-1";
    Rejects("1-1");
  }

  /** Digits hold none of the characters the parser splits on. */
  lemma DigitsFree(a: string)
    requires IsDigits(a)
    ensures ' ' !in a && ',' !in a && '-' !in a
  {
  }

  lemma JoinTwo(x: string, y: string, sep: string)
    ensures Join([x, y], sep) == x + sep + y
  {
    assert [x, y][1..] == [y];
  }

  lemma JoinThree(x: string, y: string, z: string, sep: string)
    ensures Join([x, y, z], sep) == x + sep + y + sep + z
  {
    assert [x, y, z][1..] == [y, z];
    JoinTwo(y, z, sep);
  }

  /** A number, a range and a number, separated by commas. */
  lemma ThreeTokens(a: string, b: string, c: string, d: string)
    requires IsDigits(a) && IsDigits(b) && IsDigits(c) && IsDigits(d)
    ensures InputTokens(a + "," + b + "-" + c + "," + d) == [a, b + "-" + c, d]
  {
    DigitsFree(a);
    DigitsFree(b);
    DigitsFree(c);
    DigitsFree(d);
    var ts := [a, b + "-" + c, d];
    var s := a + "," + b + "-" + c + "," + d;
    JoinThree(a, b + "-" + c, d, [',']);
    assert a + "," + (b + "-" + c) + "," + d == s;
    SplitJoin(ts, ',');
    NoSpacesKeeps(s);
  }

  /** A number, then after a comma and a space a range. */
  lemma TwoTokens(a: string, b: string, c: string)
    requires IsDigits(a) && IsDigits(b) && IsDigits(c)
    ensures InputTokens(a + ", " + b + "-" + c) == [a, b + "-" + c]
  {
    DigitsFree(a);
    DigitsFree(b);
    DigitsFree(c);
    var m := b + "-" + c;
    ConcatAssoc3(a + ", ", b, "-", c);
    CommaSpaceTokens(a, m);
  }

  /** Two space- and comma-free pieces around `", "` are two tokens. */
  lemma CommaSpaceTokens(a: string, m: string)
    requires ' ' !in a && ',' !in a && ' ' !in m && ',' !in m
    ensures InputTokens(a + ", " + m) == [a, m]
  {
    ConcatAssoc(a, ", ", m);
    NoSpacesConcat(a, ", " + m);
    NoSpacesConcat(", ", m);
    assert NoSpaces(", ") == ",";
    NoSpacesKeeps(a);
    NoSpacesKeeps(m);
    assert NoSpaces(a + ", " + m) == a + ("," + m);
    ConcatAssoc(a, ",", m);
    JoinTwo(a, m, [',']);
    SplitJoin([a, m], ',');
  }

  /** `decode_inputs('1,2-3,4')` is `[1, 2, 3, 4]`. */
  lemma DecodeMixed()
    ensures DecodeString("1,2-3,4") == Ok([1, 2, 3, 4])
  {
    assert DigitsValue("1") == 1 && DigitsValue("2") == 2 && DigitsValue("3") == 3 && DigitsValue("4") == 4;
    ThreeTokens("1", "2", "3", "4");
    assert "1" + "," + "2" + "-" + "3" + "," + "4" == "1,2-3,4";
    DecodeThree("1,2-3,4", "1", "2", "3", "4");
  }

  lemma ThreeDenote(ts: seq<string>, n: int)
    requires |ts| == 3
    requires forall m :: Denotes(ts[0], m) <==> m == 1
    requires forall m :: Denotes(ts[1], m) <==> 2 <= m <= 3
    requires forall m :: Denotes(ts[2], m) <==> m == 4
    ensures n in [1, 2, 3, 4] <==> exists i :: 0 <= i < |ts| && Denotes(ts[i], n)
  {
    if n == 1 {
      assert Denotes(ts[0], n);
    } else if 2 <= n <= 3 {
      assert Denotes(ts[1], n);
    } else if n == 4 {
      assert Denotes(ts[2], n);
    }
  }

  lemma DecodeThree(s: string, a: string, b: string, c: string, d: string)
    requires IsDigits(a) && IsDigits(b) && IsDigits(c) && IsDigits(d)
    requires DigitsValue(a) == 1 && DigitsValue(b) == 2 && DigitsValue(c) == 3 && DigitsValue(d) == 4
    requires InputTokens(s) == [a, b + "-" + c, d]
    ensures DecodeString(s) == Ok([1, 2, 3, 4])
  {
    var ts := [a, b + "-" + c, d];
    NumberToken(a);
    NumberToken(d);
    RangeToken(b, c);
    assert Accepted(ts[0]) && Accepted(ts[1]) && Accepted(ts[2]);
    forall n ensures n in [1, 2, 3, 4] <==> exists i :: 0 <= i < |ts| && Denotes(ts[i], n) {
      ThreeDenote(ts, n);
    }
    Decodes(s, ts, [1, 2, 3, 4]);
  }

  /** `decode_inputs('1, 2-3')` is `[1, 2, 3]`. */
  lemma DecodeMixedSpaced()
    ensures DecodeString("1, 2-3") == Ok([1, 2, 3])
  {
    assert DigitsValue("1") == 1 && DigitsValue("2") == 2 && DigitsValue("3") == 3;
    TwoTokens("1", "2", "3");
    assert "1" + ", " + "2" + "-" + "3" == "1, 2-3";
    DecodeTwo("1, 2-3", "1", "2", "3");
  }

  lemma DecodeTwo(s: string, a: string, b: string, c: string)
    requires IsDigits(a) && IsDigits(b) && IsDigits(c)
    requires DigitsValue(a) == 1 && DigitsValue(b) == 2 && DigitsValue(c) == 3
    requires InputTokens(s) == [a, b + "-" + c]
    ensures DecodeString(s) == Ok([1, 2, 3])
  {
    var ts := [a, b + "-" + c];
    NumberToken(a);
    RangeToken(b, c);
    assert Accepted(ts[0]) && Accepted(ts[1]);
    forall n ensures n in [1, 2, 3] <==> exists i :: 0 <= i < |ts| && Denotes(ts[i], n) {
      if n == 1 {
        assert Denotes(ts[0], n);
      } else if 2 <= n <= 3 {
        assert Denotes(ts[1], n);
      } else {
        assert !Denotes(ts[0], n) && !Denotes(ts[1], n);
      }
    }
    Decodes(s, ts, [1, 2, 3]);
  }

  /** A list of texts is sorted by code point and loses its repetitions. */
  lemma TextInputs()
    ensures DecodeInputs(VList([VStr("b"), VStr("a"), VStr("b")])) == Ok([StrIn("a"), StrIn("b")])
  {
    var items := [VStr("b"), VStr("a"), VStr("b")];
    assert LexLess("a", "b");
    forall x ensures x in [StrIn("a"), StrIn("b")] <==> AsValue(x) in items {
      if AsValue(x) in items {
        var i :| 0 <= i < |items| && items[i] == AsValue(x);
      }
    }
    DecodeListUnique(items, [StrIn("a"), StrIn("b")]);
  }

  /** An int cannot be sorted against a str. */
  lemma MixedInputs()
    ensures DecodeInputs(VList([VInt(1), VStr("a")])) == Err(TypeError)
  {
    assert !OneKind([VInt(1), VStr("a")]) by {
      assert !([VInt(1), VStr("a")][1].VInt?) && !([VInt(1), VStr("a")][0].VStr?);
    }
  }
}

=== FILE: values.dfy ===
/** The values held by hyperparameter stores, task specifications, pipeline
    data and status files: the JSON-like subset of Python objects (None, bool,
    int, str, list, dict). A dict is an association list that keeps Python's
    insertion order. */
module Values {
  import opened Base

  datatype Value =
    | VNone
    | VBool(b: bool)
    | VInt(i: int)
    | VStr(s: string)
    | VList(items: seq<Value>)
    | VMap(entries: Entries)

  type Entries = seq<(string, Value)>

  // ---------------------------------------------------------------------
  // Dicts as insertion-ordered association lists
  // ---------------------------------------------------------------------

  function KeysOf(e: Entries): (ks: seq<string>)
    ensures |ks| == |e|
    ensures forall i :: 0 <= i < |e| ==> ks[i] == e[i].0
  {
    if |e| == 0 then [] else [e[0].0] + KeysOf(e[1..])
  }

  /** Every key occurs once, as in a Python dict. */
  predicate Unique(e: Entries) {
    forall i, j :: 0 <= i < j < |e| ==> e[i].0 != e[j].0
  }

  /** Every dict nested anywhere in `v` has unique keys. */
  predicate WellFormed(v: Value)
    decreases v
  {
    match v
    case VList(xs) => forall i :: 0 <= i < |xs| ==> WellFormed(xs[i])
    case VMap(e) => Unique(e) && forall i :: 0 <= i < |e| ==> WellFormed(e[i].1)
    case _ => true
  }

  /** Position of the first entry with key `k`. */
  function IndexOf(e: Entries, k: string): (r: Option<nat>)
    ensures r.Some? ==> r.value < |e| && e[r.value].0 == k
    ensures r.Some? ==> forall j :: 0 <= j < r.value ==> e[j].0 != k
    ensures r.None? ==> forall j :: 0 <= j < |e| ==> e[j].0 != k
  {
    if |e| == 0 then None
    else if e[0].0 == k then Some(0)
    else match IndexOf(e[1..], k)
      case None => None
      case Some(i) => Some(i + 1)
  }

  /** Two lists with the same keys position by position agree on `IndexOf`. */
  lemma IndexOfSameKeys(a: Entries, b: Entries, k: string)
    requires |a| == |b|
    requires forall i :: 0 <= i < |a| ==> a[i].0 == b[i].0
    ensures IndexOf(a, k) == IndexOf(b, k)
  {
    if |a| > 0 {
      IndexOfSameKeys(a[1..], b[1..], k);
    }
  }

  /** Appending an entry leaves earlier positions alone. */
  lemma IndexOfAppend(e: Entries, kv: (string, Value), k: string)
    ensures IndexOf(e + [kv], k) ==
      (if IndexOf(e, k).Some? then IndexOf(e, k) else if kv.0 == k then Some(|e|) else None)
  {
    if |e| > 0 {
      assert (e + [kv])[1..] == e[1..] + [kv];
      IndexOfAppend(e[1..], kv, k);
    }
  }

  predicate HasKey(e: Entries, k: string) {
    IndexOf(e, k).Some?
  }

  /** `d.get(k)`, with absence as `None`. */
  function Lookup(e: Entries, k: string): (r: Option<Value>)
    ensures r.Some? <==> HasKey(e, k)
    ensures r.Some? ==> exists i :: 0 <= i < |e| && e[i] == (k, r.value)
  {
    match IndexOf(e, k)
    case None => None
    case Some(i) => Some(e[i].1)
  }

  /** `d[k] = v`: an existing key keeps its position, a new key is appended. */
  function Put(e: Entries, k: string, v: Value): (r: Entries)
    ensures Lookup(r, k) == Some(v)
    ensures forall k' :: k' != k ==> Lookup(r, k') == Lookup(e, k')
    ensures HasKey(e, k) ==> KeysOf(r) == KeysOf(e)
    ensures !HasKey(e, k) ==> KeysOf(r) == KeysOf(e) + [k]
    ensures Unique(e) ==> Unique(r)
  {
    match IndexOf(e, k)
    case Some(i) =>
      var r := e[i := (k, v)];
      forall k': string ensures IndexOf(r, k') == IndexOf(e, k') {
        IndexOfSameKeys(r, e, k');
      }
      assert KeysOf(r) == KeysOf(e);
      r
    case None =>
      var r := e + [(k, v)];
      forall k' ensures IndexOf(r, k') == if k' == k then Some(|e|) else IndexOf(e, k') {
        IndexOfAppend(e, (k, v), k');
      }
      assert KeysOf(r) == KeysOf(e) + [k];
      r
  }

  /** Storing the value a key already holds changes nothing. */
  lemma PutSame(e: Entries, k: string, v: Value)
    requires Lookup(e, k) == Some(v)
    ensures Put(e, k, v) == e
  {
    var i := IndexOf(e, k).value;
    assert e[i := (k, v)] == e;
  }

  /** `d.pop(k)` on a present key: removes its entry and keeps the order of the rest. */
  function Remove(e: Entries, k: string): (r: Entries)
    ensures !HasKey(e, k) ==> r == e
    ensures HasKey(e, k) ==> |r| == |e| - 1
    ensures Unique(e) ==> Unique(r) && !HasKey(r, k)
    ensures Unique(e) ==> forall k' :: k' != k ==> Lookup(r, k') == Lookup(e, k')
  {
    match IndexOf(e, k)
    case None => e
    case Some(i) =>
      var r := e[..i] + e[i + 1..];
      RemoveAtFacts(e, i, k);
      r
  }

  /** Under unique keys, the entry at position `j` is the one `Lookup` finds. */
  lemma LookupAt(e: Entries, j: nat)
    requires Unique(e) && j < |e|
    ensures Lookup(e, e[j].0) == Some(e[j].1)
  {
    assert IndexOf(e, e[j].0).Some?;
  }

  lemma RemoveAtFacts(e: Entries, i: nat, k: string)
    requires IndexOf(e, k) == Some(i)
    ensures Unique(e) ==> Unique(e[..i] + e[i + 1..]) && !HasKey(e[..i] + e[i + 1..], k)
    ensures Unique(e) ==> forall k' :: k' != k ==> Lookup(e[..i] + e[i + 1..], k') == Lookup(e, k')
  {
    var r := e[..i] + e[i + 1..];
    assert forall j :: 0 <= j < |r| ==> r[j] == (if j < i then e[j] else e[j + 1]);
    if Unique(e) {
      assert forall j :: 0 <= j < |r| ==> r[j].0 != k;
      forall k' | k' != k ensures Lookup(r, k') == Lookup(e, k') {
        if HasKey(e, k') {
          var j := IndexOf(e, k').value;
          var j' := if j < i then j else j - 1;
          assert r[j'] == e[j];
          LookupAt(r, j');
        } else {
          assert forall j :: 0 <= j < |r| ==> r[j].0 != k';
        }
      }
    }
  }

  /** `a | b`: the keys of `a` in their order, then the new keys of `b`;
      values from `b` win. */
  function Union(a: Entries, b: Entries): (r: Entries)
    ensures forall k :: HasKey(b, k) ==> Lookup(r, k) == Lookup(b, k) || !Unique(b)
    ensures forall k :: !HasKey(b, k) ==> Lookup(r, k) == Lookup(a, k)
    ensures Unique(a) ==> Unique(r)
    decreases |b|
  {
    if |b| == 0 then a
    else
      var r := Union(Put(a, b[0].0, b[0].1), b[1..]);
      assert Unique(b) ==> Unique(b[1..]);
      r
  }

  // ---------------------------------------------------------------------
  // Python semantics of values
  // ---------------------------------------------------------------------

  /** `bool(v)`. */
  predicate Truthy(v: Value) {
    match v
    case VNone => false
    case VBool(b) => b
    case VInt(i) => i != 0
    case VStr(s) => |s| > 0
    case VList(xs) => |xs| > 0
    case VMap(e) => |e| > 0
  }

  /** Numeric reading of a bool or int (Python's bool is an int subclass). */
  function NumberOf(v: Value): Option<int> {
    match v
    case VBool(b) => Some(if b then 1 else 0)
    case VInt(i) => Some(i)
    case _ => None
  }

  /** Python `==` on values: numbers compare numerically (`True == 1`),
      lists element-wise, dicts by content regardless of insertion order. */
  predicate PyEq(a: Value, b: Value)
    decreases a
  {
    if NumberOf(a).Some? || NumberOf(b).Some? then NumberOf(a) == NumberOf(b)
    else match a
      case VNone => b.VNone?
      case VStr(s) => b.VStr? && b.s == s
      case VList(xs) =>
        b.VList? && |xs| == |b.items| &&
        forall i :: 0 <= i < |xs| ==> PyEq(xs[i], b.items[i])
      case VMap(e) =>
        b.VMap? && |e| == |b.entries| &&
        (forall j :: 0 <= j < |b.entries| ==> HasKey(e, b.entries[j].0)) &&
        forall i :: 0 <= i < |e| ==>
          HasKey(b.entries, e[i].0) && PyEq(e[i].1, Lookup(b.entries, e[i].0).value)
      case _ => false
  }

  /** Identical values are Python-equal. */
  lemma {:induction false} PyEqRefl(v: Value)
    requires WellFormed(v)
    ensures PyEq(v, v)
    decreases v
  {
    match v
    case VList(xs) =>
      forall i | 0 <= i < |xs| ensures PyEq(xs[i], xs[i]) { PyEqRefl(xs[i]); }
    case VMap(e) =>
      forall i | 0 <= i < |e| ensures HasKey(e, e[i].0) && PyEq(e[i].1, Lookup(e, e[i].0).value) {
        var j := IndexOf(e, e[i].0).value;
        assert j == i;
        PyEqRefl(e[i].1);
      }
    case _ =>
  }

  // ---------------------------------------------------------------------
  // repr()
  // ---------------------------------------------------------------------

  /** Lower-case hexadecimal digit. */
  function HexDigit(d: nat): char
    requires d < 16
  {
    (if d < 10 then '0' as int + d else 'a' as int + d - 10) as char
  }

  /** The characters up to U+00FF that `str.isprintable` rejects: the C0
      and C1 controls, DEL, the no-break space and the soft hyphen. */
  predicate Latin1Unprintable(c: char) {
    c < ' ' || 0x7f <= c as int <= 0xa0 || c as int == 0xad
  }

  /** One character of a str literal as `repr` writes it, given the quote in
      use: the quote and the backslash are escaped, tab, newline and carriage
      return get their short escapes, and the other unprintable characters
      up to U+00FF are written `\xhh`. */
  function ReprChar(c: char, quote: char): (r: string)
    ensures r == [c] <==> c != quote && c != '\\' && !Latin1Unprintable(c)
    ensures |r| > 1 ==> r[0] == '\\'
    ensures c as int <= 0xff && !Latin1Unprintable(quote) ==> forall k :: 0 <= k < |r| ==> !Latin1Unprintable(r[k])
  {
    if c == quote || c == '\\' then ['\\', c]
    else if c == '\t' then "\\t"
    else if c == '\n' then "\\n"
    else if c == '\r' then "\\r"
    else if Latin1Unprintable(c) then
      var n := c as int;
      ['\\', 'x', HexDigit(n / 16), HexDigit(n % 16)]
    else [c]
  }

  /** The body of a str literal: text with nothing to escape is kept as it
      is, and Latin-1 text comes out printable. */
  function ReprChars(s: string, quote: char): (r: string)
    ensures (forall k :: 0 <= k < |s| ==> s[k] != quote && s[k] != '\\' && !Latin1Unprintable(s[k])) ==> r == s
    ensures (forall k :: 0 <= k < |s| ==> s[k] as int <= 0xff) && !Latin1Unprintable(quote) ==>
              forall k :: 0 <= k < |r| ==> !Latin1Unprintable(r[k])
  {
    if |s| == 0 then "" else ReprChar(s[0], quote) + ReprChars(s[1..], quote)
  }

  /** `repr(s)` for a str: single quotes unless the text holds a single quote
      and no double quote. */
  function ReprStr(s: string): string {
    var quote := if '\'' in s && '"' !in s then '"' else '\'';
    [quote] + ReprChars(s, quote) + [quote]
  }

  /** `repr(v)`. */
  function Repr(v: Value): string
    decreases v
  {
    match v
    case VNone => "None"
    case VBool(b) => if b then "True" else "False"
    case VInt(i) => IntToString(i)
    case VStr(s) => ReprStr(s)
    case VList(xs) => "[" + ReprItems(xs) + "]"
    case VMap(e) => "{" + ReprEntries(e) + "}"
  }

  function ReprItems(xs: seq<Value>): string
    decreases xs
  {
    if |xs| == 0 then ""
    else if |xs| == 1 then Repr(xs[0])
    else Repr(xs[0]) + ", " + ReprItems(xs[1..])
  }

  function ReprEntries(e: Entries): string
    decreases e
  {
    if |e| == 0 then ""
    else if |e| == 1 then ReprPair(e[0])
    else ReprPair(e[0]) + ", " + ReprEntries(e[1..])
  }

  function ReprPair(kv: (string, Value)): string
    decreases kv
  {
    ReprStr(kv.0) + ": " + Repr(kv.1)
  }
}
